=== FILE: README.md ===
# NauseaDungeon gameplay core in Dafny

This project models the sequential bookkeeping of the `NauseaDungeon` Unreal
Engine game module, and proves properties of the model. The module is a
tower-defence dungeon game: an overlord places traps on a grid, and waves of
characters spawn and attack it. The model leaves the engine aside. Actors,
components and classes become numeric ids. A stale `TWeakObjectPtr` becomes
`None`. Floats become `real`. Unsigned and 32-bit counters wrap explicitly.
Engine queries, Blueprint hooks, curves, timers and random streams become
parameters of the functions that need them.

Each Dafny module follows one source file or one closely related group:

| module | file | models |
|---|---|---|
| `Common` | `common.dfy` | integer widths and wrap-around, `INDEX_NONE`, `FMath` helpers, `TArray::Remove`/`AddUnique`, `Option` |
| `Stats` | `stat_struct.dfy` | `FStatStruct` clamping and scaling, `FPartStatStruct` predicates |
| `StatusComponent` | `status_component.dfy` | action blocks, healing, the bone-to-part map, damage multipliers, armour, status-effect dedup |
| `DamageLog` | `damage_log.dfy` | `FDamageLogStack`, damage-log event merging and expiry, `FHitEvent` ids |
| `StatusEffect`, `Shield` | `status_effect.dfy`, `shield.dfy` | stat modifiers, effect power, stacks, deactivation; shield absorption |
| `Handles`, `AbilityTypes` | `handles.dfy`, `ability_types.dfy` | handle generators, charges, target data, the target-data cache diff, instance initialisation |
| `AbilityComponent` | `ability_component.dfy` | ability lookup, request validation, perform, actions, interrupts, target cleanup, the index map rebuild |
| `Teams`, `DamageType`, `LocalMessage`, `GameState` | `teams.dfy`, `damage_type.dfy`, `local_message.dfy`, `game_state.dfy` | team attitude, application results, descriptor bits, chat filtering, friendly-fire scaling, player counts |
| `PlacementGrid`, `PlacementSearch` | `placement_grid.dfy`, `placement_search.dfy` | coordinates with the `MAX_int32` sentinel, the ragged grid, placement validity, bias order, the adjustment search |
| `TrapCoins`, `Trap` | `trap_coins.dfy`, `trap.dfy` | the coin ledger, trap placement checks, occupancy marking and revocation |
| `WaveSpawning`, `WaveSetup`, `DungeonGameState` | `wave_spawning.dfy`, `wave_setup.dfy`, `dungeon_game_state.dfy` | spawn entries and groups, wave modifiers and configuration, wave start and end, game health and wave counters |
| `SpawnSystem`, `SpawnVolume` | `spawn_system.dfy`, `spawn_volume.dfy` | the spawn request queue; spawn-location cooldowns and layout sizing |
| `PromptTypes`, `PromptStack` | `prompt_types.dfy`, `prompt_stack.dfy` | prompt handles and ordering; the prompt stack |
| `PlayerStatistics`, `PlayerData` | `player_statistics.dfy`, `player_data.dfy` | statistics maps and merges; the save-request state machine and the stat cache |
| `ReplicatedObject`, `CoreSingleton` | `replicated_object.dfy`, `core_singleton.dfy` | the replicated-subobject list; the singleton tag registry and tick list |
| `EnemySelection`, `Aggro` | `enemy_selection.dfy` | enemy-selection locks; the aggro threat table |
| `ActionBrainData` | `action_brain_data.dfy` | AI data-object selection modes and EQS run modes |
| `Voice` | `voice.dfy` | voice priorities, request gating, sound containers |
| `Interactable` | `interactable.dfy` | interaction checks, pending lists, the replication diff |

Where the source has a defect, the model keeps the code as written in an
`…AsWritten` member, next to a lemma that exhibits the defect on a concrete
input. The corrected definition sits beside it, with the intended property
proved. "## Findings" lists these defects.

Where the source calls a defective member, the callers listed below have
an as-written twin as well, so these call paths are modelled as written:

- `PlayerData.ComponentRequestSave`, `PlayerData.UpdatePlayerExperience`
  and `PlayerData.ClientUpdatePlayerData` use `RequestSaveAsWritten`, as
  the source does. The corrected `RequestSave` is used only by the
  corrected save machine (`Run`, `AtMostOneSaveInFlight`).
- `Voice.PerformVoiceCommandAsWritten` uses the as-written check.
  `Voice.PerformVoiceCommand` is its corrected twin.
- `ActionBrainData.EqsActorsAsWritten` and
  `ActionBrainData.EqsLocationsAsWritten` use the as-written run-mode trim.
  `EqsActors` and `EqsLocations` are their corrected twins.
- `SpawnSystem.CancelRequestsForObjectAsWritten` forwards to the
  as-written cancel. `CancelRequestsForObject` is its corrected twin.
- `WaveSpawning.StopAndCleanUpAsWritten` is a wave configuration's
  clean-up with its `StopSpawning` call: it cancels through
  `CancelRequestsForObjectAsWritten`, so the configuration's requests stay
  queued while its request counter is reset. `StopAndCleanUp` is its
  corrected twin. `WaveSpawning.CleanUp` and `InitializeForWave` model
  only the configuration's own fields (see "## Left out").
- `WaveSetup.GetWaveConfigurationAsWritten` fails exactly where a
  modifier's interval test divides by zero. Everywhere else it returns the
  corrected `GetWaveConfiguration`. Wave set-up (`InitializeWaveSetup`,
  `ConfigurationsPresent`) builds on the corrected list.
- `AbilityComponent.PerformAbility` uses the as-written mutable lookup.
  `InterruptAbilityAsWritten`, `ShouldIgnoreDataAsWritten`,
  `UpdateActorAggroAsWritten`, `PerformNextSpawnAsWritten`,
  `OnRepPendingAsWritten`, `SetWaveTotalSpawnCountAsWritten`,
  `IsFinalWaveAsWritten` and `ElementValueAsDeclared` have no modelled
  callers, and neither do their corrected twins.

## Model

| member | source | states |
|---|---|---|
| Stats.MakeStat | Source/NauseaDungeon/Public/Gameplay/StatusComponent.h:37-38 | The two-argument constructor records only the defaults; the live value and maximum keep their initial 0 and 100 |
| Stats.MakeStatFromMax | Source/NauseaDungeon/Public/Gameplay/StatusComponent.h:40-41 | The one-argument constructor is the two-argument one with the maximum as both defaults |
| Stats.SetValue | Source/NauseaDungeon/Public/Gameplay/StatusComponent.h:64 | The stored value is the request clamped to [0, max]: kept when in range, 0 below, the maximum above; nothing else changes |
| Stats.AddValue | Source/NauseaDungeon/Public/Gameplay/StatusComponent.h:47 | Adding goes through the clamp, so the stat stays in range and an in-range sum is stored exactly |
| Stats.SubtractValue | Source/NauseaDungeon/Public/Gameplay/StatusComponent.h:49 | Subtracting goes through the clamp; a result below zero stops at zero |
| Stats.SetMaxValue | Source/NauseaDungeon/Public/Gameplay/StatusComponent.h:67 | The new maximum is stored and the value re-clamped: kept if it fits, cut to the new maximum otherwise |
| Stats.Initialize | Source/NauseaDungeon/Public/Gameplay/StatusComponent.h:58 | The maximum becomes the default maximum; a negative default value starts the stat full, an in-range default is used as is |
| Stats.Scale | Source/NauseaDungeon/Public/Gameplay/StatusComponent.h:53-55 | Multiplication scales value and maximum by the same factor and leaves the defaults alone |
| Stats.PercentValue | Source/NauseaDungeon/Public/Gameplay/StatusComponent.h:62 | The percentage times the maximum gives back the value, and lies in [0, 1] for an in-range stat |
| Stats.SetValueIdempotent | Source/NauseaDungeon/Public/Gameplay/StatusComponent.h:64 | Setting a stat to the value it already holds after a set changes nothing |
| Stats.AddSubtractPreserveRange | Source/NauseaDungeon/Public/Gameplay/StatusComponent.h:47-49 | Any sequence of add and subtract keeps a stat with a non-negative maximum in range |
| Stats.ScalePreservesPercent | Source/NauseaDungeon/Public/Gameplay/StatusComponent.h:53-62 | Scaling by a nonzero factor leaves the percentage unchanged |
| Stats.IdenticalIsEquivalence | Source/NauseaDungeon/Public/Gameplay/StatusComponent.h:51 | Identity compares value and maximum only, and is reflexive, symmetric and transitive |
| Stats.PartDestroyedIffZero | Source/NauseaDungeon/Public/Gameplay/StatusComponent.h:112-114 | A part with no positive maximum is never destroyed; a damageable part is destroyed exactly when its value reaches zero |
| Stats.DeadAfterSetValue | Source/NauseaDungeon/Public/Gameplay/StatusComponent.h:329 | After setting health, the owner is dead exactly when the requested value was not positive |
| StatusComponent.NextFreeId | Source/NauseaDungeon/Private/Gameplay/StatusComponent.cpp:338-341 | The issued id lies above the counter, is neither INDEX_NONE nor in use, and every earlier candidate of the search (counter+1, counter+3, ...) was INDEX_NONE or in use |
| StatusComponent.UpdateActionBlock | Source/NauseaDungeon/Private/Gameplay/StatusComponent.cpp:366-376 | The blocking flag ends up true exactly when some block is held, and the change is reported exactly when the flag flips |
| StatusComponent.RequestActionBlock | Source/NauseaDungeon/Private/Gameplay/StatusComponent.cpp:336-356 | A request issues a fresh id that was not held before, drops the caller's previous id, keeps every other holder, and leaves the component blocking |
| StatusComponent.RevokeActionBlock | Source/NauseaDungeon/Private/Gameplay/StatusComponent.cpp:358-364 | Revoking removes exactly that id, hands INDEX_NONE back to the caller and keeps the flag consistent with the set |
| StatusComponent.RequestThenRevoke | Source/NauseaDungeon/Private/Gameplay/StatusComponent.cpp:336-364 | Revoking the id just issued restores the set of holders, minus the caller's previous id |
| StatusComponent.SuccessiveRequestsDistinct | Source/NauseaDungeon/Private/Gameplay/StatusComponent.cpp:336-356 | Two requests in a row get distinct, increasing ids |
| StatusComponent.SetHealth | Source/NauseaDungeon/Private/Gameplay/StatusComponent.cpp:396-407 | Setting health stores the input clamped to [0, max] and leaves the maximum alone |
| StatusComponent.HealDamage | Source/NauseaDungeon/Private/Gameplay/StatusComponent.cpp:238-248 | A dead component is not healed and reports 0; a living one takes the clamped sum and reports the full requested amount |
| StatusComponent.HealNeverHurts | Source/NauseaDungeon/Private/Gameplay/StatusComponent.cpp:238-248 | Healing a living, in-range health by a non-negative amount never lowers it and never kills it |
| StatusComponent.AddAll | Source/NauseaDungeon/Private/Gameplay/StatusComponent.cpp:1105-1110 | After adding every bone of a part, each bone maps to that part's index and every other key keeps its value |
| StatusComponent.BuildBoneMap | Source/NauseaDungeon/Private/Gameplay/StatusComponent.cpp:1102-1115 | Walking parts from last to first, every bone or part name maps to the lowest index of a part listing it, and only listed names are keys |
| StatusComponent.PartIndexForBone | Source/NauseaDungeon/Private/Gameplay/StatusComponent.cpp:307-315 | NAME_None and unmapped bones give INDEX_NONE; any other bone gives its mapped part index |
| StatusComponent.BoneLookupFindsFirstPart | Source/NauseaDungeon/Private/Gameplay/StatusComponent.cpp:307-315 | Looking up a bone in the built map finds the first part that lists it, and INDEX_NONE exactly when none does |
| StatusComponent.HitAndElementMultiplier | Source/NauseaDungeon/Private/Gameplay/StatusComponent.cpp:467-501 | Without a core damage type the multiplier is 1; otherwise it is the product of the configured hit-type factors times the elemental ones |
| StatusComponent.ProductOfAbsentIsOne | Source/NauseaDungeon/Private/Gameplay/StatusComponent.cpp:476-486 | Descriptors without a configured factor contribute nothing to the product |
| StatusComponent.ProductOfEmptyMapIsOne | Source/NauseaDungeon/Private/Gameplay/StatusComponent.cpp:476-477 | With no factors configured the product is 1, whatever the descriptors |
| StatusComponent.ProductOfResistances | Source/NauseaDungeon/Private/Gameplay/StatusComponent.cpp:476-498 | When every configured factor is a resistance in [0, 1], the product is in [0, 1] too |
| StatusComponent.HandleArmourDamage | Source/NauseaDungeon/Private/Gameplay/StatusComponent.cpp:729-747 | Armour takes effect only when both armour and damage are positive; the remaining damage is never negative, armour stays in range, and ignoring armour leaves the damage whole |
| StatusComponent.FindLive | Source/NauseaDungeon/Private/Gameplay/StatusComponent.cpp:845-861 | The search returns the first live effect of the class, and nothing exactly when no live effect of that class is listed |
| StatusComponent.AddStatusEffect | Source/NauseaDungeon/Private/Gameplay/StatusComponent.cpp:829-880 | Off authority or without a class nothing changes; an existing live effect of the class is returned (refreshed when allowed) and never duplicated; otherwise a new effect is added only when the class allows activation |
| StatusComponent.AddStatusEffectKeepsOnePerClass | Source/NauseaDungeon/Private/Gameplay/StatusComponent.cpp:845-879 | Adding a status effect never leaves two live effects of one class |
| StatusComponent.OnStatusEffectRemoved | Source/NauseaDungeon/Private/Gameplay/StatusComponent.cpp:389-394 | Removal drops the effect and every null entry and keeps every other effect |
| DamageLog.MakeEvent | Source/NauseaDungeon/Public/Gameplay/StatusType.h:104-114 | A new log event carries its time and initial damage, no modifiers, no death mark, and damage dealt still unset (-1) |
| DamageLog.FinalizeDamageLog | Source/NauseaDungeon/Public/Gameplay/StatusType.h:119 | Finalising records the damage dealt and changes nothing else |
| DamageLog.CombineWithEvent | Source/NauseaDungeon/Public/Gameplay/StatusType.h:121-125 | A merged event keeps the later of the two time stamps and the summed damage dealt; every other field is the receiver's |
| DamageLog.CombineAssociative | Source/NauseaDungeon/Public/Gameplay/StatusType.h:121-125 | Merging three events gives the same entry whichever pair is merged first |
| DamageLog.ExpiryOfCombined | Source/NauseaDungeon/Public/Gameplay/StatusType.h:131 | A merged event has expired exactly when both parts have, and an expired event stays expired as time goes on |
| DamageLog.Push | Source/NauseaDungeon/Public/Gameplay/StatusType.h:169 | Pushing appends the entry on top of an unchanged stack and returns it as the new top |
| DamageLog.Pop | Source/NauseaDungeon/Public/Gameplay/StatusType.h:172 | Popping a non-empty stack returns its top and the stack below it |
| DamageLog.PopAfterPush | Source/NauseaDungeon/Public/Gameplay/StatusType.h:169-172 | The damage log is last in, first out: pop undoes push |
| DamageLog.PopTwiceAfterPushTwice | Source/NauseaDungeon/Public/Gameplay/StatusType.h:169-172 | Two pushes are popped in reverse order, leaving the original stack |
| DamageLog.PushEntryModifier | Source/NauseaDungeon/Public/Gameplay/StatusType.h:170 | An empty stack refuses the modifier; otherwise it is appended to the top entry only and every other entry is unchanged |
| DamageLog.MarkDeathEvent | Source/NauseaDungeon/Public/Gameplay/StatusType.h:171 | An empty stack refuses; otherwise only the top entry is marked as the death event |
| DamageLog.NextHitEventId | Source/NauseaDungeon/Public/Gameplay/StatusType.h:207-212 | Each hit event takes the next value of the 64-bit counter as its id, wrapping to 0 after the maximum |
| DamageLog.HitEventIds | Source/NauseaDungeon/Public/Gameplay/StatusType.h:207-212 | Hit events built one after another (without wrapping) get consecutive, strictly increasing ids |
| StatusEffect.GetStatModifier | Source/NauseaDungeon/Private/Gameplay/StatusEffect/StatusEffectBase.cpp:268-276 | A stat without an entry reads as the neutral 1; otherwise the stored factor |
| StatusEffect.SetStatModifier | Source/NauseaDungeon/Private/Gameplay/StatusEffect/StatusEffectBase.cpp:239-266 | Without an owner nothing changes; setting an existing entry to 1 removes it, any other setting stores the value; other stats are untouched |
| StatusEffect.SetThenGetStatModifier | Source/NauseaDungeon/Private/Gameplay/StatusEffect/StatusEffectBase.cpp:239-276 | Reading a stat after setting it gives the value set, and other stats read as before |
| StatusEffect.ClearStatModifiers | Source/NauseaDungeon/Private/Gameplay/StatusEffect/StatusEffectBase.cpp:278-288 | After clearing, the map is empty and every stat reads as 1 |
| StatusEffect.RefreshRule | Source/NauseaDungeon/Private/Gameplay/StatusEffect/StatusEffectBase.cpp:630-656 | A cumulative effect always refreshes; an instant one refreshes exactly when it could activate, which needs the power requirement to be met |
| StatusEffect.AddEffectPower | Source/NauseaDungeon/Private/Gameplay/StatusEffect/StatusEffectBase.cpp:658-727 | An instant effect keeps the larger of its power and the new capped power; a cumulative one adds, capped at the maximum; nothing but the power changes |
| StatusEffect.AddEffectPowerFacts | Source/NauseaDungeon/Private/Gameplay/StatusEffect/StatusEffectBase.cpp:658-727 | Adding the same power twice to an instant effect is the same as adding it once; cumulative power never falls when adding non-negative power |
| StatusEffect.GetPowerPercent | Source/NauseaDungeon/Private/Gameplay/StatusEffect/StatusEffectBase.cpp:780-783 | The power percentage is in [0, 1]: 0 at or below the requirement, 1 at or above the maximum, linear between |
| StatusEffect.TickDecay | Source/NauseaDungeon/Private/Gameplay/StatusEffect/StatusEffectBase.cpp:745-771 | While the decay delay runs, the power holds; otherwise it decays by rate times time and never below zero |
| StatusEffect.OnDeactivated | Source/NauseaDungeon/Private/Gameplay/StatusEffect/StatusEffectBase.cpp:166-193 | An uninitialised or already dying effect is left alone; otherwise it broadcasts its end, clears modifiers, drops its owner and is marked dying |
| StatusEffect.OnDeactivatedIdempotent | Source/NauseaDungeon/Private/Gameplay/StatusEffect/StatusEffectBase.cpp:166-193 | Deactivating twice is deactivating once, so the end is broadcast at most once |
| StatusEffect.InitializeStack | Source/NauseaDungeon/Private/Gameplay/StatusEffect/StatusEffectBase.cpp:891-911 | A stack effect initialises once; a positive power gives one stack per started unit of power, counted modulo 256 because the count is a uint8 (so exactly the started units up to a power of 255); any other power one stack |
| StatusEffect.OnStackExpired | Source/NauseaDungeon/Private/Gameplay/StatusEffect/StatusEffectBase.cpp:1025-1041 | Each expiry removes one stack, an empty count wrapping to 255; the effect stays active exactly while stacks remain |
| StatusEffect.StackSurvivesCount | Source/NauseaDungeon/Private/Gameplay/StatusEffect/StatusEffectBase.cpp:1025-1041 | An effect of n stacks (1 to 255) is still active after k expiries exactly when k < n, with n - k stacks left |
| StatusEffect.StackLifetime | Source/NauseaDungeon/Private/Gameplay/StatusEffect/StatusEffectBase.cpp:898-901 | A fresh effect of positive power lasts between 1 and 256 expiries, and exactly its started units of power up to a power of 255 |
| StatusEffect.StackLifetimeExact | Source/NauseaDungeon/Private/Gameplay/StatusEffect/StatusEffectBase.cpp:1025-1041 | A freshly initialised effect of positive power is still active after k expiries exactly when k is below its lifetime, including the wrapped count of zero that lasts 256 |
| StatusEffect.StackCountWrapsAt256 | Source/NauseaDungeon/Public/Gameplay/StatusEffect/StatusEffectBase.h:468-469 | A power of 300 starts 44 stacks and a power of 256 none, lasting 44 and 256 expiries |
| Shield.OnActivated | Source/NauseaDungeon/Private/Gameplay/StatusEffect/StatusEffectShield.cpp:16-23 | Activation refills the pool to the shield amount and sets the power to full |
| Shield.ProcessDamage | Source/NauseaDungeon/Private/Gameplay/StatusEffect/StatusEffectShield.cpp:30-61 | Without a component or positive damage nothing happens; otherwise the shield absorbs at most what is left, the pool drops by the whole hit, the rest passes through, and a drained shield ends |
| Shield.ShieldExpiresWhenDrained | Source/NauseaDungeon/Private/Gameplay/StatusEffect/StatusEffectShield.cpp:30-61 | A hit ends the shield exactly when it is at least what is left in the pool |
| Shield.TwoHitsAbsorbUpToCapacity | Source/NauseaDungeon/Private/Gameplay/StatusEffect/StatusEffectShield.cpp:30-61 | Two hits on a fresh shield that survives the first absorb the smaller of their total and the capacity |
| Handles.GenerateHandle | Source/NauseaDungeon/Public/Gameplay/Ability/AbilityTypes.h:95-103 | A generated handle is a valid 64-bit value: one step round the cycle of valid values, and 0 for the very first |
| Handles.Cycle | Source/NauseaDungeon/Public/Gameplay/Ability/AbilityTypes.h:97-100 | Counter steps stay in the range of valid handles |
| Handles.GenerateHandles | Source/NauseaDungeon/Public/Gameplay/Ability/AbilityTypes.h:95-103 | The i-th of n successive handles is i + 1 steps round the cycle from the starting counter, and every one is valid |
| Handles.HandlesDistinct | Source/NauseaDungeon/Public/Gameplay/Ability/AbilityTypes.h:95-103 | Successive handles never repeat before the counter has gone round every valid value, and the first ever handle is 0 |
| AbilityTypes.IncrementChargeCount | Source/NauseaDungeon/Public/Gameplay/Ability/AbilityTypes.h:31 | Recharging adds one charge and returns the new count; nothing else changes |
| AbilityTypes.ConsumeCharge | Source/NauseaDungeon/Public/Gameplay/Ability/AbilityTypes.h:33-47 | Consuming succeeds exactly when a charge is available; unlimited and empty counts are left alone, any other count drops by one |
| AbilityTypes.ConsumeThenIncrement | Source/NauseaDungeon/Public/Gameplay/Ability/AbilityTypes.h:31-47 | Consuming a charge and then recharging restores a limited, charged ability |
| AbilityTypes.ChargesLastExactly | Source/NauseaDungeon/Public/Gameplay/Ability/AbilityTypes.h:29-47 | A limited ability with n charges can be used exactly n times, and its count never goes below zero |
| AbilityTypes.SameDataIgnoresTimer | Source/NauseaDungeon/Public/Gameplay/Ability/AbilityTypes.h:54-57 | Equality of ability data compares class, count and recharge time, ignores the timer handle, and is an equivalence |
| AbilityTypes.MakeAbilityData | Source/NauseaDungeon/Private/Gameplay/Ability/AbilityTypes.cpp:13-36 | A missing class or class default object gives the invalid data; otherwise a positive initial count is kept and any other count is unlimited (-1) |
| AbilityTypes.MarkStale | Source/NauseaDungeon/Public/Gameplay/Ability/AbilityTypes.h:184 | Marking a target stale sets the flag, reports true, and changes nothing else |
| AbilityTypes.MarkStaleSticky | Source/NauseaDungeon/Public/Gameplay/Ability/AbilityTypes.h:184 | Staleness is sticky: marking again changes nothing |
| AbilityTypes.GenerateTargetActorData | Source/NauseaDungeon/Private/Gameplay/Ability/AbilityTypes.cpp:43-66 | A null actor gives the default target and uses no handle; an actor gets a fresh handle, type Actor for the identity transform and ActorRelativeTransform otherwise |
| AbilityTypes.GenerateTargetLocationData | Source/NauseaDungeon/Private/Gameplay/Ability/AbilityTypes.cpp:68-77 | A location target always gets a fresh handle, type Transform, and no actor |
| AbilityTypes.GenerateTargetMovingLocationData | Source/NauseaDungeon/Private/Gameplay/Ability/AbilityTypes.cpp:79-86 | A moving location target is a location target retyped as MovingTransform with its destination and move time |
| AbilityTypes.KeyByHandle | Source/NauseaDungeon/Private/Gameplay/Ability/AbilityTypes.cpp:145-150 | The new cache has exactly the handles of the list, each mapping to an entry carrying that handle |
| AbilityTypes.KeyByHandleKeepsLast | Source/NauseaDungeon/Private/Gameplay/Ability/AbilityTypes.cpp:148-150 | Each handle of the new cache maps to the last listed entry carrying it |
| AbilityTypes.UpdateTargetDataCache | Source/NauseaDungeon/Private/Gameplay/Ability/AbilityTypes.cpp:143-180 | With an empty cache every listed target is reported added; otherwise the added targets are the listed ones not cached and the removed ones the cached ones no longer listed; the cache becomes the list by handle |
| AbilityTypes.CacheUpdateAccountsForEveryHandle | Source/NauseaDungeon/Private/Gameplay/Ability/AbilityTypes.cpp:143-180 | Against a non-empty cache, the new handles are the old ones minus the removed plus the added |
| AbilityTypes.MarkStartupComplete | Source/NauseaDungeon/Public/Gameplay/Ability/AbilityTypes.h:341 | Startup completion is set and nothing else changes |
| AbilityTypes.GenerateInstanceData | Source/NauseaDungeon/Private/Gameplay/Ability/AbilityTypes.cpp:187-199 | A new instance carries the class, the targets and a fresh valid handle, with no times set, and hands the handle back only when asked |
| AbilityTypes.SuccessiveInstancesDiffer | Source/NauseaDungeon/Private/Gameplay/Ability/AbilityTypes.cpp:187-199 | Two instances generated one after another get different handles |
| AbilityTypes.InitializeAbilityInstance | Source/NauseaDungeon/Private/Gameplay/Ability/AbilityTypes.cpp:201-230 | Without context, class or class default object it fails and changes nothing; otherwise a positive cast opens the startup window at the server time and a positive duration sets the activation window |
| AbilityTypes.ActivationFollowsCast | Source/NauseaDungeon/Private/Gameplay/Ability/AbilityTypes.cpp:201-230 | With both a cast and a duration, activation starts when the cast ends and lasts the ability's duration |
| AbilityComponent.ScanForClass | Source/NauseaDungeon/Private/Gameplay/AbilityComponent.cpp:694-701 | The scan returns the first entry at or after the start with the class, and nothing exactly when no entry in range has it |
| AbilityComponent.FindData | Source/NauseaDungeon/Private/Gameplay/AbilityComponent.cpp:683-704 | The const lookup returns an entry of the requested class, and the invalid data exactly when no entry has that class |
| AbilityComponent.FindDataUnique | Source/NauseaDungeon/Private/Gameplay/AbilityComponent.cpp:683-704 | With unique classes the lookup finds the one entry of the class, whatever the cached index says |
| AbilityComponent.FindDataMut | Source/NauseaDungeon/Private/Gameplay/AbilityComponent.cpp:659-681 | The non-const lookup keeps a correct cached index, otherwise scans as far as the class list reaches and writes a hit back to the cache; a miss leaves the cache alone |
| AbilityComponent.LookupsAgree | Source/NauseaDungeon/Private/Gameplay/AbilityComponent.cpp:659-704 | With unique classes and a class list as long as the data list, both lookups find the same entry |
| AbilityComponent.FindDataMutMissesLateEntry | Source/NauseaDungeon/Private/Gameplay/AbilityComponent.cpp:670-677 | With a data list longer than the class list, a cache miss hides the later entries from the non-const lookup |
| AbilityComponent.CanPerformAbility | Source/NauseaDungeon/Private/Gameplay/AbilityComponent.cpp:169-189 | Blocked actions are reported first, then an unknown class, then an empty charge count; success exactly when none of these applies |
| AbilityComponent.CanPerformInstance | Source/NauseaDungeon/Private/Gameplay/AbilityComponent.cpp:191-199 | An invalid instance is refused before anything else; a valid one is judged by its class |
| AbilityComponent.PerformAbility | Source/NauseaDungeon/Private/Gameplay/AbilityComponent.cpp:201-223 | A refused request changes nothing; an accepted one consumes a charge of its class, appends the initialised instance, and leaves every other class's data alone |
| AbilityComponent.PerformAbilityConsumesOneCharge | Source/NauseaDungeon/Private/Gameplay/AbilityComponent.cpp:201-223 | With unique classes, a successful request uses exactly one charge of its own ability (none when unlimited) and no other entry changes |
| AbilityComponent.RegisterAbilityAction | Source/NauseaDungeon/Private/Gameplay/AbilityComponent.cpp:237-243 | A registered action is appended to the list and to its handle's entry (created if needed), other handles are untouched, and ticking turns on |
| AbilityComponent.OnAbilityActionCleanup | Source/NauseaDungeon/Private/Gameplay/AbilityComponent.cpp:245-259 | Cleanup removes the action from the list and from its handle's entry, drops the entry once empty, and ticks exactly while actions remain |
| AbilityComponent.RegisterThenCleanup | Source/NauseaDungeon/Private/Gameplay/AbilityComponent.cpp:237-259 | Registering a new action and cleaning it up restores the list and the per-handle map |
| AbilityComponent.KeepStarted | Source/NauseaDungeon/Private/Gameplay/AbilityComponent.cpp:350-371 | The surviving instances are a subsequence no longer than the list |
| AbilityComponent.KeepStartedMembers | Source/NauseaDungeon/Private/Gameplay/AbilityComponent.cpp:350-371 | The surviving instances are exactly those whose startup has completed |
| AbilityComponent.InterruptAbilityComponent | Source/NauseaDungeon/Private/Gameplay/AbilityComponent.cpp:350-371 | Interrupting the component removes exactly the instances still starting up, reports each removed handle, and keeps the started ones in order |
| AbilityComponent.KeepStartedStep | Source/NauseaDungeon/Private/Gameplay/AbilityComponent.cpp:355-369 | The backward removal loop keeps an instance exactly when its startup has completed |
| AbilityComponent.LastStop | Source/NauseaDungeon/Private/Gameplay/AbilityComponent.cpp:375-385 | The backward scan stops at the last instance meeting its condition, and finds none exactly when no instance does |
| AbilityComponent.RemoveAt | Source/NauseaDungeon/Private/Gameplay/AbilityComponent.cpp:386 | Removing at an index shifts the later entries down by one and keeps the earlier ones |
| AbilityComponent.InterruptAbilityAsWritten | Source/NauseaDungeon/Private/Gameplay/AbilityComponent.cpp:373-390 | As written the scan removes the last instance that is not the started one with the handle, whichever handle it carries |
| AbilityComponent.InterruptAbilityRemovesWrongInstance | Source/NauseaDungeon/Private/Gameplay/AbilityComponent.cpp:377 | With two unstarted instances, interrupting handle 1 as written removes the instance with handle 2 |
| AbilityComponent.InterruptAbility | Source/NauseaDungeon/Private/Gameplay/AbilityComponent.cpp:373-390 | The corrected interrupt removes the last unstarted instance with the handle, reports whether one existed, and keeps every other instance |
| AbilityComponent.InterruptAbilityClearsHandle | Source/NauseaDungeon/Private/Gameplay/AbilityComponent.cpp:373-390 | With unique handles, no unstarted instance with the handle survives the corrected interrupt |
| AbilityComponent.IsHandleValid | Source/NauseaDungeon/Private/Gameplay/AbilityComponent.cpp:402-413 | A handle is valid exactly when some instance carries it |
| AbilityComponent.TargetStartupTime | Source/NauseaDungeon/Private/Gameplay/AbilityComponent.cpp:1408-1417 | A target's own startup window wins; an unset one falls back to the instance's |
| AbilityComponent.TargetActivationTime | Source/NauseaDungeon/Private/Gameplay/AbilityComponent.cpp:1419-1428 | A target's own activation window wins; an unset one falls back to the instance's |
| AbilityComponent.ResolvedTimeUnsetIffBoth | Source/NauseaDungeon/Private/Gameplay/AbilityComponent.cpp:1408-1428 | A resolved time is unset only when both the target and the instance leave it unset |
| AbilityComponent.ScanTargets | Source/NauseaDungeon/Private/Gameplay/AbilityComponent.cpp:1032-1045 | Every target with the handle is marked stale and nothing else about the targets changes; the scan gets through exactly when every other target was already stale |
| AbilityComponent.OnTargetDataDestructionReady | Source/NauseaDungeon/Private/Gameplay/AbilityComponent.cpp:1012-1059 | Without an instance of the handle nothing happens; otherwise the last such instance is removed when all its other targets were stale, and kept with its scanned targets otherwise |
| AbilityComponent.IndexMapOf | Source/NauseaDungeon/Private/Gameplay/AbilityComponent.cpp:545-552 | The rebuilt index map covers exactly the listed classes, each at the last position holding it |
| AbilityComponent.OnRepAbilityDataList | Source/NauseaDungeon/Private/Gameplay/AbilityComponent.cpp:541-584 | Exactly the classes new to the list are reported added, exactly the classes whose data differ are reported changed (with new and old data), and exactly the previous entries whose class is gone are reported removed; the new class-to-data map becomes the previous one |
| AbilityComponent.RebuiltIndexMapIsPositions | Source/NauseaDungeon/Private/Gameplay/AbilityComponent.cpp:545-552 | With unique classes every class maps to its own position, so later lookups take the cached path |
| AbilityComponent.OnRepIdempotent | Source/NauseaDungeon/Private/Gameplay/AbilityComponent.cpp:541-584 | Replaying an unchanged list reports nothing added, changed or removed |
| Teams.Solver | Source/NauseaDungeon/Private/Player/PlayerOwnershipInterfaceTypes.cpp:15-18 | The solver never answers neutral, and answers friendly exactly when both ids are equal and not "no team" |
| Teams.SolverSymmetric | Source/NauseaDungeon/Private/Player/PlayerOwnershipInterfaceTypes.cpp:15-18 | The attitude is symmetric; "no team" is hostile to every id, itself included, and every real team is friendly to itself |
| Teams.TeamByte | Source/NauseaDungeon/Public/Player/PlayerOwnershipInterfaceTypes.h:13-23 | Every team's value fits in a byte, and only NoTeam has the engine's "no team" value 255 |
| Teams.GenericTeamIdOf | Source/NauseaDungeon/Private/Player/PlayerOwnershipInterfaceTypes.cpp:27-50 | Each team maps to the id carrying its own byte, NoTeam to the engine's "no team" |
| Teams.TeamOfGenericTeamId | Source/NauseaDungeon/Private/Player/PlayerOwnershipInterfaceTypes.cpp:52-55 | Reading an id back gives the team with that byte, and nothing exactly when no team has it |
| Teams.TeamIdRoundTrip | Source/NauseaDungeon/Private/Player/PlayerOwnershipInterfaceTypes.cpp:27-55 | Team to id and back is the identity, and distinct teams have distinct ids |
| Teams.TeamAttitudes | Source/NauseaDungeon/Private/Player/PlayerOwnershipInterfaceTypes.cpp:15-55 | Two teams are friendly exactly when they are the same named team |
| DamageType.ApplicationResultOf | Source/NauseaDungeon/Private/Gameplay/CoreDamageType.cpp:83-103 | All applies fully; EnemyOnly and Enemy apply fully exactly to non-friends, AllyOnly exactly to friends; the rest is no application, or friendly fire under Enemy |
| DamageType.FriendlyFireOnlyUnderEnemy | Source/NauseaDungeon/Private/Gameplay/CoreDamageType.cpp:83-125 | Friendly fire arises exactly under Enemy logic between friends; a hostile target is hit fully under every logic but AllyOnly |
| DamageType.DamageApplicationResult | Source/NauseaDungeon/Private/Gameplay/CoreDamageType.cpp:83-103 | Damage application follows the shared table with the type's damage logic |
| DamageType.StatusApplicationResult | Source/NauseaDungeon/Private/Gameplay/CoreDamageType.cpp:105-125 | Status application follows the shared table with the type's status logic |
| DamageType.BitsBelowSpec | Source/NauseaDungeon/Private/Gameplay/CoreDamageType.cpp:13-46 | The descriptor list holds exactly the values of the mask's set bits, each once, ascending, and below the bit limit |
| DamageType.DoubleBit | Source/NauseaDungeon/Private/Gameplay/CoreDamageType.cpp:13-46 | The uint8 loop bit doubles up to 128 and then wraps to 0, which ends the loop |
| DamageType.DescriptorLists | Source/NauseaDungeon/Private/Gameplay/CoreDamageType.cpp:13-81 | One pass lists exactly the set hit bits and exactly the set elemental bits |
| DamageType.GetDescriptorLists | Source/NauseaDungeon/Private/Gameplay/CoreDamageType.cpp:13-81 | Once built the cached lists are returned unchanged; the first call appends both decompositions and marks the cache built |
| DamageType.FireIsElectricAsDeclared | Source/NauseaDungeon/Public/Gameplay/StatusType.h:33-42 | As declared, a fire-only mask and an electric-only mask give the same list, and bit 0 lists a value that names no element |
| DamageType.ElementOfValue | Source/NauseaDungeon/Public/Gameplay/StatusType.h:33-42 | A listed value names an element only when that element has that value |
| DamageType.ElementRoundTrip | Source/NauseaDungeon/Public/Gameplay/StatusType.h:33-42 | With one distinct bit per element, a single-element mask lists that element's value, and the value names the element back |
| DamageType.HitReactionStrength | Source/NauseaDungeon/Private/Gameplay/CoreDamageType.cpp:127-135 | Without a curve the strength is invalid; otherwise a byte at most Heavy for non-negative curve values, Heavy from Heavy up, and the floor of the value below that |
| LocalMessage.FilterFor | Source/NauseaDungeon/Private/Player/CoreLocalMessage.cpp:26-41 | Say and TeamSay use their configured filters; any other message uses Everyone |
| LocalMessage.ShouldIgnoreDataAsWritten | Source/NauseaDungeon/Private/Player/CoreLocalMessage.cpp:26-56 | As written no receiver is ever ignored, whatever the filter: the solver never answers neutral and no filter ranks above Everyone |
| LocalMessage.TeamSayReachesEnemiesAsWritten | Source/NauseaDungeon/Private/Player/CoreLocalMessage.cpp:51-52 | As written, team chat from team 0 is shown to a receiver on team 1 under the default filters |
| LocalMessage.ShouldIgnoreData | Source/NauseaDungeon/Private/Player/CoreLocalMessage.cpp:26-56 | The corrected check ignores a receiver exactly when the message's filter does not admit the attitude between sender and receiver |
| LocalMessage.DefaultFiltersIntended | Source/NauseaDungeon/Private/Player/CoreLocalMessage.cpp:26-56 | With the default filters, Say and other messages reach everyone and TeamSay reaches exactly the sender's own team |
| GameState.ResolvedInstigator | Source/NauseaDungeon/Private/System/CoreGameState.cpp:201-219 | The modifier credits the causer's player state, else its pawn, else the event instigator's player state |
| GameState.ApplyFriendlyFireDamageMultiplier | Source/NauseaDungeon/Private/System/CoreGameState.cpp:173-224 | World damage and non-core types pass unchanged; friendly fire is scaled, non-applying damage zeroed, full damage kept, and a modifier is recorded exactly when the scale is not 1 and the target has a status component |
| GameState.ApplyFriendlyFireEffectPowerMultiplier | Source/NauseaDungeon/Private/System/CoreGameState.cpp:226-246 | Effect power is gated the same way by the status logic, and no modifier is recorded |
| GameState.HandleDamageApplied | Source/NauseaDungeon/Private/System/CoreGameState.cpp:112-120 | Without a damaged actor and a causer nothing is adjusted; otherwise the friendly-fire multiplier applies |
| GameState.HandleStatusApplied | Source/NauseaDungeon/Private/System/CoreGameState.cpp:122-130 | The same guard for effect power |
| GameState.DefaultFriendlyFire | Source/NauseaDungeon/Public/System/CoreGameState.h:116-120 | With the default multipliers hostile targets take full damage, friendly ones a hundredth with a modifier, and friendly status effects no power |
| GameState.FriendlyFireNeverIncreases | Source/NauseaDungeon/Private/System/CoreGameState.cpp:173-196 | For multipliers in [0, 1], damage scaling never increases a non-negative amount and never makes it negative |
| GameState.FriendlyFireNeverIncreasesPower | Source/NauseaDungeon/Private/System/CoreGameState.cpp:226-246 | For multipliers in [0, 1], effect-power scaling never increases a non-negative power and never makes it negative |
| GameState.AliveCount | Source/NauseaDungeon/Private/System/CoreGameState.cpp:154-171 | The living count never exceeds the players and is zero exactly when nobody is alive |
| GameState.GetNumberOfAlivePlayers | Source/NauseaDungeon/Private/System/CoreGameState.cpp:154-171 | The counting loop returns the number of living core players |
| GameState.AreThereAnyAlivePlayers | Source/NauseaDungeon/Private/System/CoreGameState.cpp:132-147 | The scan answers true exactly when some player is a living core player |
| GameState.AliveCountAgrees | Source/NauseaDungeon/Private/System/CoreGameState.cpp:132-171 | Someone is alive exactly when the living count is positive, and it never exceeds the player count |
| PlacementGrid.Add | Source/NauseaDungeon/Public/Overlord/PlacementTypes.h:63-68 | An invalid left operand gives the right one, an invalid right one gives the left; valid operands add componentwise |
| PlacementGrid.Sub | Source/NauseaDungeon/Public/Overlord/PlacementTypes.h:74-79 | The same sentinel rule, with componentwise difference |
| PlacementGrid.AddAssign | Source/NauseaDungeon/Public/Overlord/PlacementTypes.h:93-99 | In-place addition leaves the left operand alone when either side is invalid |
| PlacementGrid.SubAssign | Source/NauseaDungeon/Public/Overlord/PlacementTypes.h:100-106 | In-place subtraction leaves the left operand alone when either side is invalid |
| PlacementGrid.AddSubRoundTrip | Source/NauseaDungeon/Public/Overlord/PlacementTypes.h:63-106 | The invalid value is a left identity and, for valid operands, a right identity; addition commutes on valid operands; subtracting undoes adding whenever the sum is valid |
| PlacementGrid.Clamp | Source/NauseaDungeon/Public/Overlord/PlacementTypes.h:136-146 | Clamping succeeds exactly on valid coordinates and raises each component to at least zero; a refused value is untouched |
| PlacementGrid.ClampIdempotent | Source/NauseaDungeon/Public/Overlord/PlacementTypes.h:136-146 | Clamped coordinates stay valid, clamping twice equals clamping once, and non-negative coordinates are left alone |
| PlacementGrid.RowGet | Source/NauseaDungeon/Public/Overlord/PlacementTypes.h:233-236 | A row yields the point at an index inside it and the invalid point anywhere else |
| PlacementGrid.RowSetOccupant | Source/NauseaDungeon/Public/Overlord/PlacementTypes.h:253-267 | Setting an occupant succeeds exactly inside the row, changes only that point's occupant, and never resizes |
| PlacementGrid.Pad | Source/NauseaDungeon/Public/Overlord/PlacementTypes.h:276-279 | Growing a row keeps its points and fills the new places with default points |
| PlacementGrid.RowSet | Source/NauseaDungeon/Public/Overlord/PlacementTypes.h:269-283 | Storing a point refuses a negative index; otherwise the row grows to reach the index, the point is stored there and every other index reads as before |
| PlacementGrid.Get | Source/NauseaDungeon/Public/Overlord/PlacementTypes.h:345-349 | A contained coordinate yields its valid stored point; a row outside the list yields the invalid point |
| PlacementGrid.MaxRowLength | Source/NauseaDungeon/Public/Overlord/PlacementTypes.h:330-337 | The widest row's length: no row is longer and some row has it, or 0 for no rows |
| PlacementGrid.SizeX | Source/NauseaDungeon/Public/Overlord/PlacementTypes.h:323-338 | A positive cached width wins; otherwise the widest row's length |
| PlacementGrid.GridSet | Source/NauseaDungeon/Public/Overlord/PlacementTypes.h:368-376 | A negative row is refused unchanged; otherwise the row list grows to reach it, success needs a non-negative column, the point is stored and every other row is untouched |
| PlacementGrid.GridSetOccupant | Source/NauseaDungeon/Public/Overlord/PlacementTypes.h:383-391 | Setting an occupant succeeds exactly on an existing point, changes only that point's occupant and never resizes |
| PlacementGrid.SetOccupantKeepsPoints | Source/NauseaDungeon/Public/Overlord/PlacementTypes.h:383-391 | Setting an occupant changes neither which coordinates are contained nor any point's handle |
| PlacementGrid.ClearOccupantByHandle | Source/NauseaDungeon/Public/Overlord/PlacementTypes.h:393-408 | An invalid or unmapped handle, or one mapped to a missing row, is refused; otherwise the mapped point's occupant is cleared |
| PlacementGrid.RecalculateHandleMap | Source/NauseaDungeon/Private/Overlord/PlacementTypes.cpp:726-749 | The rows are kept and the cached width becomes the larger of the old width and the widest row |
| PlacementGrid.AddRowHandlesSound | Source/NauseaDungeon/Private/Overlord/PlacementTypes.cpp:736-746 | Walking a row adds every valid point's handle, mapped to a point that holds it, and keeps earlier keys |
| PlacementGrid.AddGridHandlesSound | Source/NauseaDungeon/Private/Overlord/PlacementTypes.cpp:734-747 | Walking the rows adds every valid point's handle, mapped to a point that holds it, and keeps earlier keys |
| PlacementGrid.HandleMapExact | Source/NauseaDungeon/Private/Overlord/PlacementTypes.cpp:726-749 | The rebuilt map's keys are exactly the valid points' handles; with unique handles each maps to its own point |
| PlacementSearch.Offset | Source/NauseaDungeon/Private/Overlord/PlacementTypes.cpp:432-437 | Each direction's offset is a valid unit step along exactly one axis |
| PlacementSearch.BiasOrderFor | Source/NauseaDungeon/Private/Overlord/PlacementTypes.cpp:141-170 | The bias order is a permutation of the four directions, led by the dominant axis's side of the cursor and ending with its opposite |
| PlacementSearch.VerticalBias | Source/NauseaDungeon/Private/Overlord/PlacementTypes.cpp:177-190 | The first vertical direction in the order, Up when there is none |
| PlacementSearch.HorizontalBias | Source/NauseaDungeon/Private/Overlord/PlacementTypes.cpp:192-205 | The first horizontal direction in the order, Right when there is none |
| PlacementSearch.BiasPickersOfOrder | Source/NauseaDungeon/Private/Overlord/PlacementTypes.cpp:141-205 | Whichever axis dominates, the pickers recover the cursor's side of the cell along each axis |
| PlacementSearch.BiasPickerStep | Source/NauseaDungeon/Private/Overlord/PlacementTypes.cpp:177-205 | Each picker skips a leading direction of the other axis |
| PlacementSearch.Step | Source/NauseaDungeon/Private/Overlord/PlacementTypes.cpp:68-126 | A step moves one unit in the direction's axis |
| PlacementSearch.AdjustCoordinatesToValidPoint | Source/NauseaDungeon/Private/Overlord/PlacementTypes.cpp:68-126 | A usable point stays; otherwise the result is a neighbour tried in bias order, the first usable one when any, and success means the result is usable |
| PlacementSearch.IsValidPlacement | Source/NauseaDungeon/Private/Overlord/PlacementTypes.cpp:449-493 | A placement is valid exactly when the rectangle fits inside the grid and every point in it is usable |
| PlacementSearch.FitsWhenEmptyFitsAnyway | Source/NauseaDungeon/Private/Overlord/PlacementTypes.cpp:449-493 | A rectangle that fits on empty points also fits when occupied points are allowed |
| PlacementSearch.ScoreCell | Source/NauseaDungeon/Private/Overlord/PlacementTypes.cpp:309-405 | A usable cell only records that some point is usable; an unusable one never lowers any of the four shifts |
| PlacementSearch.ScoreRowAllUsable | Source/NauseaDungeon/Private/Overlord/PlacementTypes.cpp:314-370 | On a row of usable cells the scores stay at zero and some cell is usable |
| PlacementSearch.ScoreRowsAllUsable | Source/NauseaDungeon/Private/Overlord/PlacementTypes.cpp:309-405 | On a rectangle of usable cells every shift stays zero |
| PlacementSearch.InsertByWeight | Source/NauseaDungeon/Private/Overlord/PlacementTypes.cpp:423-429 | Insertion lengthens the order by one |
| PlacementSearch.InsertByWeightAdds | Source/NauseaDungeon/Private/Overlord/PlacementTypes.cpp:423-429 | Insertion adds exactly the given direction |
| PlacementSearch.InsertByWeightSorted | Source/NauseaDungeon/Private/Overlord/PlacementTypes.cpp:423-429 | Insertion keeps the order sorted by weight |
| PlacementSearch.SortByWeightSpec | Source/NauseaDungeon/Private/Overlord/PlacementTypes.cpp:423-429 | The sort yields each direction once, in non-decreasing weight |
| PlacementSearch.OffsetSum | Source/NauseaDungeon/Private/Overlord/PlacementTypes.cpp:439-444 | Two different unit offsets add to a valid step of at most one in each coordinate |
| PlacementSearch.OffsetFromOrder | Source/NauseaDungeon/Private/Overlord/PlacementTypes.cpp:439-446 | The offset is valid and moves at most one unit per coordinate |
| PlacementSearch.GetAdjustmentDirection | Source/NauseaDungeon/Private/Overlord/PlacementTypes.cpp:285-447 | No usable point or four equal shifts give the invalid value; otherwise a step of at most one unit towards the heaviest shift, joined by the second when they tie |
| PlacementSearch.NoAdjustmentForUsableRectangle | Source/NauseaDungeon/Private/Overlord/PlacementTypes.cpp:285-409 | A rectangle whose cells are all usable asks for no adjustment |
| PlacementSearch.MaxWeight | Source/NauseaDungeon/Private/Overlord/PlacementTypes.cpp:423-441 | The largest of the four shifts, reached by some direction |
| PlacementSearch.SortedTail | Source/NauseaDungeon/Private/Overlord/PlacementTypes.cpp:439-444 | In a sorted order the last direction is the heaviest, and how many share its weight is read from the tail |
| PlacementSearch.TiesOnlyMatterThreeWay | Source/NauseaDungeon/Private/Overlord/PlacementTypes.cpp:429-446 | The unstable sort's order among equal weights cannot change the offset unless exactly three shifts tie for largest |
| PlacementSearch.GetPlacementCoordinatesForSizeNeo | Source/NauseaDungeon/Private/Overlord/PlacementTypes.cpp:207-283 | A grid smaller than the footprint gives the invalid value; any other result is an anchor at which the footprint fits |
| TrapCoins.AddTrapCoins | Source/NauseaDungeon/Private/Player/DungeonPlayerState.cpp:25-35 | A non-positive amount changes nothing; a positive one is added with 32-bit wrap-around |
| TrapCoins.RemoveTrapCoins | Source/NauseaDungeon/Private/Player/DungeonPlayerState.cpp:37-48 | A non-positive amount changes nothing; a positive one is taken off and the purse floored at zero |
| TrapCoins.SetTrapCoins | Source/NauseaDungeon/Private/Player/DungeonPlayerState.cpp:50-55 | The stored purse is never negative and equals the amount exactly when that is non-negative |
| TrapCoins.CoinsStayNonNegative | Source/NauseaDungeon/Private/Player/DungeonPlayerState.cpp:25-55 | Withdrawals and sets never make a purse negative, nor do deposits that do not overflow |
| TrapCoins.DepositWithdrawRoundTrip | Source/NauseaDungeon/Private/Player/DungeonPlayerState.cpp:25-60 | Withdrawing a deposit restores the purse; a cost is affordable exactly when taking it off needs no clamping |
| Trap.CanPlaceTrapOnTarget | Source/NauseaDungeon/Private/Overlord/TrapBase.cpp:36-52 | Never reports a bad location; the wrong type exactly for a missing target or no shared placement flag; too few funds exactly when the instigator's purse cannot cover the cost |
| Trap.PlacementTypeMatching | Source/NauseaDungeon/Private/Overlord/TrapBase.cpp:36-52 | Traps fit exactly the surfaces they share a flag with; a flagless trap fits nothing; allowing more surfaces never rejects a target |
| Trap.SuccessIsAffordable | Source/NauseaDungeon/Private/Overlord/TrapBase.cpp:36-52 | After a successful check the cost can be paid without clamping the purse |
| Trap.ClaimCell | Source/NauseaDungeon/Private/Overlord/TrapBase.cpp:83-97 | One scan step claims the point exactly when it is contained in the grid |
| Trap.NextRow | Source/NauseaDungeon/Private/Overlord/TrapBase.cpp:83-97 | Finishing a row hands the claim over to the next row |
| Trap.ScanComplete | Source/NauseaDungeon/Private/Overlord/TrapBase.cpp:83-97 | Once every row is scanned, exactly the rectangle's valid points are claimed |
| Trap.SetOccupancy | Source/NauseaDungeon/Private/Overlord/TrapBase.cpp:54-98 | A missing target or an occupied trap changes nothing; otherwise the target is recorded and, on a valid grid, exactly the rectangle's valid points are occupied and their handles recorded |
| Trap.RecalculatedMapIsExact | Source/NauseaDungeon/Private/Overlord/PlacementTypes.cpp:726-749 | With unique handles the rebuilt map sends each handle to its own point |
| Trap.ClearOneExact | Source/NauseaDungeon/Public/Overlord/PlacementTypes.h:393-408 | With an exact map, clearing a handle empties exactly the point holding it |
| Trap.ClearHandlesExact | Source/NauseaDungeon/Private/Overlord/TrapBase.cpp:100-125 | Clearing a list of handles empties exactly the points holding them |
| Trap.RevokeOccupancy | Source/NauseaDungeon/Private/Overlord/TrapBase.cpp:100-125 | The trap always ends unoccupied; the grid is cleared of the recorded handles only when the trap had a target on a valid grid |
| Trap.RowHandlesMembers | Source/NauseaDungeon/Private/Overlord/TrapBase.cpp:83-97 | A handle is recorded for a row exactly when a valid point of the row's span holds it |
| Trap.RectHandlesMembers | Source/NauseaDungeon/Private/Overlord/TrapBase.cpp:83-97 | A handle is recorded exactly when a valid point of the rectangle holds it |
| Trap.SetThenRevokeRestores | Source/NauseaDungeon/Private/Overlord/TrapBase.cpp:54-125 | Placing a trap on free points and removing it restores the grid and leaves the trap unoccupied |
| Trap.GetCostForClass | Source/NauseaDungeon/Private/Overlord/TrapBase.cpp:176-184 | The class's cost, or INDEX_NONE without a class |
| Trap.GetRefundCostForClass | Source/NauseaDungeon/Private/Overlord/TrapBase.cpp:186-194 | The class's refund, or INDEX_NONE without a class |
| WaveSpawning.NewEntry | Source/NauseaDungeon/Public/Overlord/DungeonGameModeSettings.h:297-317 | A new entry spawns 4, is valid, and has nothing left to spawn until initialised |
| WaveSpawning.InitializeEntry | Source/NauseaDungeon/Private/Overlord/DungeonGameModeSettings.cpp:741-748 | Initialising keeps an already loaded class, loads the configured one otherwise, and refills the remaining count to the configured count |
| WaveSpawning.NextFromEntry | Source/NauseaDungeon/Private/Overlord/DungeonGameModeSettings.cpp:750-759 | An entry with spawns left gives one up and hands out its loaded class; an exhausted entry hands out null and is untouched |
| WaveSpawning.RefundToEntry | Source/NauseaDungeon/Private/Overlord/DungeonGameModeSettings.cpp:761-770 | Only an entry whose loaded class is the refunded one takes it back, adding one to its uint8 counter |
| WaveSpawning.EntryNextThenRefund | Source/NauseaDungeon/Private/Overlord/DungeonGameModeSettings.cpp:750-770 | Taking a spawn from an entry and refunding its class restores the entry |
| WaveSpawning.InitializeGroup | Source/NauseaDungeon/Private/Overlord/DungeonGameModeSettings.cpp:789-795 | Initialising a group initialises each of its entries |
| WaveSpawning.NextFromGroup | Source/NauseaDungeon/Private/Overlord/DungeonGameModeSettings.cpp:819-833 | The group keeps its shape and validity; a group with nothing left hands out null and is untouched |
| WaveSpawning.NextFromGroupPicksFirstSpawnable | Source/NauseaDungeon/Private/Overlord/DungeonGameModeSettings.cpp:819-833 | The class handed out is that of the first entry with spawns left and a loaded class, which gives up one spawn, and later entries are untouched |
| WaveSpawning.NextFromGroupNullWithoutSpawnable | Source/NauseaDungeon/Private/Overlord/DungeonGameModeSettings.cpp:819-833 | A group with no entry both loaded and with spawns left hands out null |
| WaveSpawning.NextFromGroupConsumes | Source/NauseaDungeon/Private/Overlord/DungeonGameModeSettings.cpp:819-833 | A group with spawns left always gives some up; a fully loaded one gives up exactly one and hands out a class |
| WaveSpawning.HasRemainingIffPositive | Source/NauseaDungeon/Private/Overlord/DungeonGameModeSettings.cpp:806-817 | A valid group has spawns left exactly when its remaining total is positive |
| WaveSpawning.RefundToGroup | Source/NauseaDungeon/Private/Overlord/DungeonGameModeSettings.cpp:835-846 | A refund keeps the group's shape and validity, and a refused one changes nothing |
| WaveSpawning.LoadedClasses | Source/NauseaDungeon/Private/Overlord/DungeonGameModeSettings.cpp:835-846 | The loaded classes of the group's entries, in order |
| WaveSpawning.RefundToGroupAccepts | Source/NauseaDungeon/Private/Overlord/DungeonGameModeSettings.cpp:835-846 | A refund is taken exactly when some entry has the refunded class loaded |
| WaveSpawning.NextThenRefundRestores | Source/NauseaDungeon/Private/Overlord/DungeonGameModeSettings.cpp:819-846 | In a loaded group of distinct classes, refunding the class just handed out restores the group |
| WaveSpawning.FirstSpawnableOf | Source/NauseaDungeon/Private/Overlord/DungeonGameModeSettings.cpp:819-833 | A loaded group with spawns left has a first entry to spawn from |
| WaveSpawning.NewConfig | Source/NauseaDungeon/Public/Overlord/DungeonGameModeSettings.h:218-248 | A new configuration is uninitialised, done spawning with nothing left, and not auto-starting with a time of 10 |
| WaveSpawning.CleanUp | Source/NauseaDungeon/Private/Overlord/DungeonGameModeSettings.cpp:309-321 | After clean-up the configuration is done spawning with nothing left and its request counter is zero; the wave and groups are kept |
| WaveSpawning.StopAndCleanUpAsWritten | Source/NauseaDungeon/Private/Overlord/DungeonGameModeSettings.cpp:309-321 | As the source runs clean-up through StopSpawning (cpp:467-476) and the static cancel: the request counter becomes zero, but the queue and the configuration's queued requests are left as they were, so the result of any of them (cpp:559-561) takes the counter below zero |
| WaveSpawning.StopAndCleanUp | Source/NauseaDungeon/Private/Overlord/DungeonGameModeSettings.cpp:467-476 | The corrected twin: clean-up removes exactly the configuration's queued requests and keeps every other one, so no result can arrive against the reset counter |
| WaveSpawning.InitializeForWave | Source/NauseaDungeon/Private/Overlord/DungeonGameModeSettings.cpp:284-307 | Initialising records the wave, returns the scaled total as the total, zeroes the counters, and is done exactly when the total is not positive |
| WaveSpawning.InitializeGroups | Source/NauseaDungeon/Private/Overlord/DungeonGameModeSettings.cpp:284-307 | Every group is initialised, keeping validity and loadedness |
| WaveSpawning.RecordRequest | Source/NauseaDungeon/Private/Overlord/DungeonGameModeSettings.cpp:495-557 | An accepted request lowers the remaining count by one without finishing the spawning |
| WaveSpawning.RefundFailedSpawn | Source/NauseaDungeon/Private/Overlord/DungeonGameModeSettings.cpp:592-606 | A failed class goes back to a group exactly when some group accepts it; otherwise nothing changes |
| WaveSpawning.OnSpawnRequestResult | Source/NauseaDungeon/Private/Overlord/DungeonGameModeSettings.cpp:559-578 | The request leaves flight; a spawned character counts as spawned and a failed one is refunded to the groups |
| WaveSpawning.RequestResultAccounting | Source/NauseaDungeon/Private/Overlord/DungeonGameModeSettings.cpp:495-578 | A failed request restores the remaining count; a successful one moves one spawn from remaining to spawned |
| WaveSpawning.GetNextSpawnList | Source/NauseaDungeon/Private/Overlord/DungeonGameModeSettings.cpp:608-650 | The batch never exceeds the smaller of what is left and the batch size, is empty when that is not positive, and draws that many classes when the loaded groups hold enough |
| WaveSetup.DefaultModifier | Source/NauseaDungeon/Public/Overlord/DungeonGameModeSettings.h:278-291 | A default modifier is additive and applies to every wave from 0 |
| WaveSetup.IntervalScan | Source/NauseaDungeon/Private/Overlord/DungeonGameModeSettings.cpp:695-704 | The corrected scan finds a divisor exactly when some non-zero interval divides the wave |
| WaveSetup.AppliesToWave | Source/NauseaDungeon/Private/Overlord/DungeonGameModeSettings.cpp:681-709 | Never before the starting wave; a non-empty wave list must contain the wave; a non-empty interval list needs a dividing interval |
| WaveSetup.IntervalScanAgrees | Source/NauseaDungeon/Private/Overlord/DungeonGameModeSettings.cpp:695-704 | Wherever the source's scan does not divide by zero, it agrees with the corrected one |
| WaveSetup.AppliesToWaveAgrees | Source/NauseaDungeon/Private/Overlord/DungeonGameModeSettings.cpp:681-709 | Wherever the source's check does not divide by zero, it agrees with the corrected one |
| WaveSetup.ZeroIntervalDividesByZero | Source/NauseaDungeon/Private/Overlord/DungeonGameModeSettings.cpp:695-698 | An interval of 0, or of 2^32 truncated to 0, makes the source divide by zero; the corrected check skips it |
| WaveSetup.SelectOverride | Source/NauseaDungeon/Private/Overlord/DungeonGameModeSettings.cpp:48-69 | The chosen override is absent exactly when no override applies, and otherwise is the winner under the priority rule |
| WaveSetup.ChosenOverrideUnique | Source/NauseaDungeon/Private/Overlord/DungeonGameModeSettings.cpp:48-69 | At most one override wins |
| WaveSetup.Additives | Source/NauseaDungeon/Private/Overlord/DungeonGameModeSettings.cpp:76-97 | The additive configurations are non-null and no more than the entries |
| WaveSetup.AdditivesMembership | Source/NauseaDungeon/Private/Overlord/DungeonGameModeSettings.cpp:76-97 | A configuration is added exactly when an applicable additive entry at or above the override's priority carries it |
| WaveSetup.GetWaveConfiguration | Source/NauseaDungeon/Private/Overlord/DungeonGameModeSettings.cpp:41-100 | With zero intervals skipped (the corrected `AppliesToWave`): the list starts with the winning override's configuration, or the default without one, followed by the selected additives |
| WaveSetup.ModifierDividesByZero | Source/NauseaDungeon/Private/Overlord/DungeonGameModeSettings.cpp:52 | An entry with a modifier whose as-written interval test divides by zero at this wave |
| WaveSetup.ScanDividesByZero | Source/NauseaDungeon/Private/Overlord/DungeonGameModeSettings.cpp:48-56 | The first loop tests every non-null modifier, so it reaches a division by zero exactly when some entry's modifier divides by zero |
| WaveSetup.CandidatesAgree | Source/NauseaDungeon/Private/Overlord/DungeonGameModeSettings.cpp:48-95 | Where no modifier divides by zero, the source's candidate test selects exactly the entries the corrected one does, in both loops |
| WaveSetup.GetWaveConfigurationAsWritten | Source/NauseaDungeon/Private/Overlord/DungeonGameModeSettings.cpp:41-100 | As the source runs it: it fails exactly when some modifier's interval test divides by zero; otherwise the base is the default when no entry passes the source's override test, and the configurations after it are exactly those of the entries passing the source's additive test at or above the override's priority (cpp:76-97) |
| WaveSetup.ZeroIntervalSetupFailsAsWritten | Source/NauseaDungeon/Private/Overlord/DungeonGameModeSettings.cpp:695-698 | One additive entry with a zero interval: the source's configuration lookup divides by zero, while the corrected one runs the default configuration alone |
| WaveSetup.OverrideSuppressesLowerAdditives | Source/NauseaDungeon/Private/Overlord/DungeonGameModeSettings.cpp:76-97 | Without an override every applicable additive is included; one below the override's priority is left out |
| WaveSetup.InitializeForWaveIdempotent | Source/NauseaDungeon/Private/Overlord/DungeonGameModeSettings.cpp:284-307 | Initialising twice for the same wave equals initialising once |
| WaveSetup.InitializeAll | Source/NauseaDungeon/Private/Overlord/DungeonGameModeSettings.cpp:102-119 | Each listed configuration is initialised for the wave, the others are untouched, and the total is the sum of their totals |
| WaveSetup.InitializeAllStep | Source/NauseaDungeon/Private/Overlord/DungeonGameModeSettings.cpp:108-116 | The loop keeps unlisted configurations and initialises each listed one |
| WaveSetup.InitializeWaveSetup | Source/NauseaDungeon/Private/Overlord/DungeonGameModeSettings.cpp:102-119 | The wave is recorded and the expected total is the sum over the wave's configurations; everything else is kept |
| WaveSetup.StartWave | Source/NauseaDungeon/Private/Overlord/DungeonGameModeSettings.cpp:121-141 | Only the wave that was set up can start |
| WaveSetup.InitializeThenStart | Source/NauseaDungeon/Private/Overlord/DungeonGameModeSettings.cpp:102-141 | After setting up a wave, exactly that wave can start |
| WaveSetup.OnWaveCharacterListEmpty | Source/NauseaDungeon/Private/Overlord/DungeonGameModeSettings.cpp:158-181 | The wave completes exactly when neither the default nor any modifier entry's configuration is still spawning |
| WaveSetup.EntriesDone | Source/NauseaDungeon/Private/Overlord/DungeonGameModeSettings.cpp:166-177 | The entry scan passes exactly when no entry's configuration is still spawning |
| WaveSetup.LowestAutoStart | Source/NauseaDungeon/Private/Overlord/DungeonGameModeSettings.cpp:201-226 | The lowest auto-start time among auto-starting configurations, starting from MAX_int32 |
| WaveSetup.GetWaveAutoStartTime | Source/NauseaDungeon/Private/Overlord/DungeonGameModeSettings.cpp:201-226 | INDEX_NONE exactly when no auto-starting configuration has a time below MAX_int32; otherwise the least such time |
| WaveSetup.AutoStartTimeMeansAutoStart | Source/NauseaDungeon/Private/Overlord/DungeonGameModeSettings.cpp:183-226 | A wave with an auto-start time auto-starts, and one with an auto-starting configuration below MAX_int32 has a time |
| WaveSetup.EndlessSetupEndsAsWritten | Source/NauseaDungeon/Public/Overlord/DungeonGameModeSettings.h:79 | As written, an endless setup (last wave 0) already counts wave 1 as final |
| WaveSetup.FinalWaveRespectsEndless | Source/NauseaDungeon/Public/Overlord/DungeonGameModeSettings.h:79 | The corrected test never ends an endless setup and otherwise agrees with the source |
| DungeonGameState.GetEndGameStateType | Source/NauseaDungeon/Private/Overlord/DungeonGameState.cpp:65-78 | Victory and loss are reported exactly for the matching end states |
| DungeonGameState.EndStateAgreesWithEndType | Source/NauseaDungeon/Private/Overlord/DungeonGameState.cpp:59-78 | The match has ended exactly when it has an end type |
| DungeonGameState.GetWaveSpawnProgress | Source/NauseaDungeon/Private/Overlord/DungeonGameState.cpp:100-108 | The remaining share of the wave, 1 without a positive total, and within [0, 1] for a consistent state |
| DungeonGameState.IncrementWaveNumber | Source/NauseaDungeon/Private/Overlord/DungeonGameState.cpp:110-116 | The wave rises by one, is returned and broadcast with the old value; nothing else changes |
| DungeonGameState.SetWaveRemainingSpawnCount | Source/NauseaDungeon/Private/Overlord/DungeonGameState.cpp:128-140 | The count is stored and returned; a change is broadcast with the old value and an unchanged value is not |
| DungeonGameState.TotalSpawnCountChangeLosesPrevious | Source/NauseaDungeon/Private/Overlord/DungeonGameState.cpp:118-126 | As written, changing the total from 10 to 20 broadcasts 20 as the previous total |
| DungeonGameState.SetWaveTotalSpawnCount | Source/NauseaDungeon/Private/Overlord/DungeonGameState.cpp:118-126 | Total and remaining both take the new value, and the change is broadcast with the old total |
| DungeonGameState.TotalSpawnCountVersionsAgree | Source/NauseaDungeon/Private/Overlord/DungeonGameState.cpp:118-126 | The source and the corrected setter leave the same state and return the same value; only the broadcast differs |
| DungeonGameState.NewWaveHasFullProgress | Source/NauseaDungeon/Private/Overlord/DungeonGameState.cpp:100-126 | Right after a positive total is set the whole wave is still to come |
| DungeonGameState.SetAutoStartTime | Source/NauseaDungeon/Private/Overlord/DungeonGameState.cpp:142-155 | A positive delay becomes a later server time, anything else -1; only a change is broadcast |
| DungeonGameState.SetGameHealth | Source/NauseaDungeon/Private/Overlord/DungeonGameState.cpp:157-169 | Health is stored and returned; only a change is broadcast |
| DungeonGameState.DecrementGameHealth | Source/NauseaDungeon/Private/Overlord/DungeonGameState.cpp:171-180 | A non-positive amount changes nothing; otherwise health drops by the amount, not below zero |
| DungeonGameState.DecrementsCompose | Source/NauseaDungeon/Private/Overlord/DungeonGameState.cpp:171-180 | Non-negative health stays so, and two hits cost what one hit of their sum costs |
| SpawnSystem.Broadcast | Source/NauseaDungeon/Public/System/SpawnCharacterSystem.h:47-56 | The callback runs, and is reported as run, exactly when it is bound, with the request and the character |
| SpawnSystem.AddRequest | Source/NauseaDungeon/Private/System/SpawnCharacterSystem.cpp:101-121 | A request joins the back of the queue, everything before it kept, and the call always succeeds |
| SpawnSystem.CancelAllRequests | Source/NauseaDungeon/Private/System/SpawnCharacterSystem.cpp:140-145 | Cancelling everything reports the number of queued requests and leaves the queue empty |
| SpawnSystem.OwnedCount | Source/NauseaDungeon/Public/System/SpawnCharacterSystem.h:35 | The number of requests an object owns never exceeds the queue length |
| SpawnSystem.CancelRequestForObjectAsWritten | Source/NauseaDungeon/Private/System/SpawnCharacterSystem.cpp:123-138 | As written the count of the object's requests is reported, but the queue is left unchanged |
| SpawnSystem.CancelledRequestStaysQueued | Source/NauseaDungeon/Private/System/SpawnCharacterSystem.cpp:134 | For a queue of one owned request, the source reports one cancellation and keeps the request queued; the corrected cancel empties the queue |
| SpawnSystem.CancelRequestForObject | Source/NauseaDungeon/Private/System/SpawnCharacterSystem.cpp:123-138 | The corrected cancel reports how many requests the object owned and leaves exactly the others, in order |
| SpawnSystem.WithoutOwnedSpec | Source/NauseaDungeon/Private/System/SpawnCharacterSystem.cpp:123-138 | The remaining queue holds exactly the requests the object does not own, and as many fewer as it owned |
| SpawnSystem.CancelRequestsForObject | Source/NauseaDungeon/Private/System/SpawnCharacterSystem.cpp:72-87 | The corrected twin: a null owner cancels nothing; otherwise the owner's requests are cancelled and counted |
| SpawnSystem.CancelRequestsForObjectAsWritten | Source/NauseaDungeon/Private/System/SpawnCharacterSystem.cpp:72-87 | As the source runs it: a null owner cancels nothing; otherwise the owner's requests are counted as cancelled, and the queue is left exactly as it was. |
| SpawnSystem.SkipInvalid | Source/NauseaDungeon/Private/System/SpawnCharacterSystem.cpp:159-168 | The scan stops at the first valid request, or at the end when none is valid |
| SpawnSystem.PerformNextSpawnAsWritten | Source/NauseaDungeon/Private/System/SpawnCharacterSystem.cpp:147-208 | As written an empty queue does nothing, a queue of only invalid requests dereferences null, and a bound request without a class is reported twice |
| SpawnSystem.PerformNextSpawnFaultInputs | Source/NauseaDungeon/Private/System/SpawnCharacterSystem.cpp:159-183 | A queue holding one invalid request has no valid one, and a bound request without a class counts as valid |
| SpawnSystem.PerformNextSpawn | Source/NauseaDungeon/Private/System/SpawnCharacterSystem.cpp:147-208 | The corrected step drops the leading invalid requests, serves and removes the first valid one reporting it once, shrinks any non-empty queue, and reschedules exactly while requests remain |
| SpawnSystem.FirstValidUnique | Source/NauseaDungeon/Private/System/SpawnCharacterSystem.cpp:159-168 | There is only one first valid request |
| SpawnSystem.ServedInOrder | Source/NauseaDungeon/Private/System/SpawnCharacterSystem.cpp:101-208 | A request added behind valid requests is served after them; added to an empty queue it is served first |
| SpawnVolume.MarkUseTime | Source/NauseaDungeon/Public/Spawn/SpawnVolume.h:50 | Marking a use sets only the use time |
| SpawnVolume.MarkFailureTime | Source/NauseaDungeon/Public/Spawn/SpawnVolume.h:51 | Marking a failure sets only the failure time |
| SpawnVolume.Enable | Source/NauseaDungeon/Public/Spawn/SpawnVolume.h:53 | Enabling sets only the enabled flag |
| SpawnVolume.Disable | Source/NauseaDungeon/Public/Spawn/SpawnVolume.h:54 | Disabling clears only the enabled flag |
| SpawnVolume.FreshStatusAvailable | Source/NauseaDungeon/Public/Spawn/SpawnVolume.h:47-62 | A fresh status is available from 3 - MAX_FLT on, and a disabled one never is |
| SpawnVolume.CooldownWindows | Source/NauseaDungeon/Public/Spawn/SpawnVolume.h:47-51 | A use blocks the location for exactly the next 3 s, a failure for exactly the next 1 s |
| SpawnVolume.SetNum | Source/NauseaDungeon/Private/Spawn/SpawnVolume.cpp:22-27 | Resizing keeps the statuses that fit and pads with fresh ones |
| SpawnVolume.BeginPlay | Source/NauseaDungeon/Private/Spawn/SpawnVolume.cpp:22-27 | After BeginPlay there is one status per world location |
| SpawnVolume.GetSpawnTransform | Source/NauseaDungeon/Private/Spawn/SpawnVolume.cpp:29-74 | No class or no locations fails unchanged; success picks the highest-indexed location that is available and has room, marks it used, and every higher location did not qualify |
| SpawnVolume.SpawnNeedsAndConsumesAvailability | Source/NauseaDungeon/Private/Spawn/SpawnVolume.cpp:29-89 | A successful pick means the volume had an available location, and the chosen one is cooling down afterwards |
| SpawnVolume.ShrinkToFit | Source/NauseaDungeon/Private/Spawn/SpawnVolume.cpp:138-152 | The shrink loop leaves counts within the limit when one is set, never goes below one row or column, and changes nothing when already within the limit |
| SpawnVolume.StartOffsetWidened | Source/NauseaDungeon/Private/Spawn/SpawnVolume.cpp:156-159 | The start offset is half the span widened by the spacing fraction |
| SpawnVolume.RowEnds | Source/NauseaDungeon/Private/Spawn/SpawnVolume.cpp:167 | The remaining count is divisible by the row count exactly after the last location of a row |
| SpawnVolume.GenerateLocations | Source/NauseaDungeon/Private/Spawn/SpawnVolume.cpp:161-178 | The loop lays out rows times columns locations, each at its row-major slot's offset along both axes |
| PromptTypes.NextHandle | Source/NauseaDungeon/Private/Player/PlayerPrompt/PlayerPromptTypes.cpp:10-16 | A new handle is a valid uint32, above the counter unless it wraps, and after the maximum it wraps to 1, never 0 |
| PromptTypes.HandlesCount | Source/NauseaDungeon/Private/Player/PlayerPrompt/PlayerPromptTypes.cpp:11-21 | Without a wrap, consecutive prompts get consecutive handles |
| PromptTypes.HandlesAfterReset | Source/NauseaDungeon/Private/Player/PlayerPrompt/PlayerPromptTypes.cpp:11-21 | After a reset the first n prompts get 1 to n: increasing, distinct and valid |
| PromptTypes.Priority | Source/NauseaDungeon/Private/Player/PlayerPrompt/PlayerPromptTypes.cpp:49-57 | The info class's priority, 0 without one |
| PromptTypes.DuplicateLogicOf | Source/NauseaDungeon/Private/Player/PlayerPrompt/PlayerPromptTypes.cpp:59-67 | The info class's duplicate logic, Ignore without one |
| PromptTypes.GreaterIsStrictTotal | Source/NauseaDungeon/Private/Player/PlayerPrompt/PlayerPromptTypes.cpp:39-47 | The prompt order is irreflexive, asymmetric and transitive, and orders any two prompts with different handles |
| PromptTypes.GeneratePrompt | Source/NauseaDungeon/Private/Player/PlayerPrompt/PlayerPromptTypes.cpp:25-37 | A generated prompt is valid, carries the next handle, is not displayed, and keeps the delegate exactly when it is bound |
| PromptTypes.Calls | Source/NauseaDungeon/Private/Player/PlayerPrompt/PlayerPromptTypes.cpp:69-77 | Every call goes to a bound listener with the prompt's handle and the response |
| PromptTypes.CallsReachBound | Source/NauseaDungeon/Private/Player/PlayerPrompt/PlayerPromptTypes.cpp:69-77 | Every bound listener is called |
| PromptTypes.BroadcastResponse | Source/NauseaDungeon/Private/Player/PlayerPrompt/PlayerPromptTypes.cpp:69-77 | Each bound delegate hears the response and the delegate list is emptied |
| PromptTypes.BroadcastDeliversOnce | Source/NauseaDungeon/Private/Player/PlayerPrompt/PlayerPromptTypes.cpp:69-77 | A second broadcast reaches nobody |
| PromptTypes.GeneratedPromptAnswers | Source/NauseaDungeon/Private/Player/PlayerPrompt/PlayerPromptTypes.cpp:25-77 | A prompt generated with a bound listener answers it exactly once, with its own handle |
| PromptStack.IndexOfHandle | Source/NauseaDungeon/Private/Player/PlayerPromptComponent.cpp:8-16 | The first position with the handle, or INDEX_NONE exactly when no prompt has it |
| PromptStack.GetPromptData | Source/NauseaDungeon/Private/Player/PlayerPromptComponent.cpp:73-81 | A valid handle yields its prompt from the stack, anything else the invalid prompt |
| PromptStack.Add | Source/NauseaDungeon/Private/Player/PlayerPromptComponent.cpp:18-55 | Adding under an existing handle replaces that entry, otherwise appends; the handles stay distinct |
| PromptStack.RemoveHandle | Source/NauseaDungeon/Private/Player/PlayerPromptComponent.cpp:57-71 | Removal drops exactly the prompts with the handle, and shrinks the stack exactly when one was there |
| PromptStack.RemovePreservesMap | Source/NauseaDungeon/Private/Player/PlayerPromptComponent.cpp:57-71 | Removal keeps the handles distinct |
| PromptStack.RemovePreservesValid | Source/NauseaDungeon/Private/Player/PlayerPromptComponent.cpp:57-71 | Removal keeps the stack valid |
| PromptStack.AddThenRemove | Source/NauseaDungeon/Private/Player/PlayerPromptComponent.cpp:18-71 | Adding a fresh prompt and removing it restores the stack |
| PromptStack.FirstOfClass | Source/NauseaDungeon/Private/Player/PlayerPromptComponent.cpp:25-35 | The first prompt of the info class, or INDEX_NONE exactly when there is none |
| PromptStack.PushPrompt | Source/NauseaDungeon/Private/Player/PlayerPromptComponent.cpp:18-55 | Under ReplaceWithNewer an earlier prompt of the class is removed and the new one added; under Ignore nothing changes and the invalid handle is returned; otherwise the prompt is added |
| PromptStack.PushPromptOutcome | Source/NauseaDungeon/Private/Player/PlayerPromptComponent.cpp:18-55 | The returned handle is valid exactly when the prompt went in, it is then on the stack, the stack stays valid, and a replaced prompt is gone |
| PromptStack.PopPrompt | Source/NauseaDungeon/Private/Player/PlayerPromptComponent.cpp:57-71 | Popping succeeds exactly for a valid handle and then removes that prompt; otherwise nothing changes |
| PromptStack.PushThenPop | Source/NauseaDungeon/Private/Player/PlayerPromptComponent.cpp:18-71 | Popping the handle a push returned undoes the push of a fresh prompt |
| PromptStack.MarkDisplayed | Source/NauseaDungeon/Private/Player/PlayerPromptComponent.cpp:94-105 | Marking succeeds exactly for a valid handle and then sets only that prompt's displayed flag |
| PromptStack.MarkDisplayedEffect | Source/NauseaDungeon/Private/Player/PlayerPromptComponent.cpp:88-105 | After marking the prompt reads as displayed, the stack stays valid, and marking again changes nothing |
| PromptStack.TopScanMaximal | Source/NauseaDungeon/Private/Player/PlayerPromptComponent.cpp:107-138 | The scan ends on a prompt that no prompt it saw beats |
| PromptStack.GetTopData | Source/NauseaDungeon/Private/Player/PlayerPromptComponent.cpp:107-138 | An empty stack has the invalid prompt on top |
| PromptStack.TopIsUniqueMaximum | Source/NauseaDungeon/Private/Player/PlayerPromptComponent.cpp:107-138 | On a valid non-empty stack the top is on the stack and beats every other prompt, so the map's order does not matter |
| PromptStack.TopCharacterised | Source/NauseaDungeon/Private/Player/PlayerPromptComponent.cpp:107-138 | Any prompt that beats all others is the top |
| PromptStack.BeginPlay | Source/NauseaDungeon/Private/Player/PlayerPromptComponent.cpp:151-159 | A local component resets the handle counter; others leave it |
| PromptStack.DisplayPrompt | Source/NauseaDungeon/Private/Player/PlayerPromptComponent.cpp:244-253 | A valid prompt not yet shown is marked and announced; anything else changes nothing |
| PromptStack.DisplayTopShowsTop | Source/NauseaDungeon/Private/Player/PlayerPromptComponent.cpp:244-253 | After displaying the top, the top is shown, only its flag changed, and an announcement went out exactly when it was not shown before |
| PromptStack.PushPlayerPrompt | Source/NauseaDungeon/Private/Player/PlayerPromptComponent.cpp:176-192 | A non-local component refuses with the invalid handle and keeps the counter; a local one advances the counter |
| PromptStack.DisplayTopKeepsKeys | Source/NauseaDungeon/Private/Player/PlayerPromptComponent.cpp:244-253 | Displaying the top only flips a displayed flag |
| PromptStack.PushKeepsHandlesBelow | Source/NauseaDungeon/Private/Player/PlayerPromptComponent.cpp:18-55 | Pushing a prompt the counter has reached keeps every handle within the counter |
| PromptStack.PushPlayerPromptDisplaysTop | Source/NauseaDungeon/Private/Player/PlayerPromptComponent.cpp:176-192 | While the counter is ahead of every handle, a push keeps the stack valid, non-empty, and its top displayed |
| PromptStack.PopPlayerPrompt | Source/NauseaDungeon/Private/Player/PlayerPromptComponent.cpp:194-210 | A non-local component refuses; a local pop succeeds exactly for a valid handle |
| PromptStack.PopPlayerPromptEffect | Source/NauseaDungeon/Private/Player/PlayerPromptComponent.cpp:194-210 | After a local pop the handle is gone and any new top is displayed |
| PromptStack.OnPromptResponse | Source/NauseaDungeon/Private/Player/PlayerPromptComponent.cpp:269-285 | An invalid handle changes nothing; a valid one calls the prompt's bound listeners |
| PromptStack.ResponseAnsweredOnce | Source/NauseaDungeon/Private/Player/PlayerPromptComponent.cpp:269-285 | On a local component the prompt is popped, so it answers once; on a non-local one it stays with its delegates cleared |
| PlayerStatistics.AllStatTypesComplete | Source/NauseaDungeon/Public/Player/PlayerStatistics/PlayerStatisticsTypes.h:94-100 | Every statistic type is listed |
| PlayerStatistics.Get | Source/NauseaDungeon/Public/Player/PlayerStatistics/PlayerStatisticsTypes.h:111 | The stored value, 0 for an absent key |
| PlayerStatistics.Set | Source/NauseaDungeon/Public/Player/PlayerStatistics/PlayerStatisticsTypes.h:112 | The value is stored and returned; other keys are untouched |
| PlayerStatistics.Add | Source/NauseaDungeon/Public/Player/PlayerStatistics/PlayerStatisticsTypes.h:113 | The delta is added to the stored value with uint64 wrap-around, stored and returned; other keys are untouched |
| PlayerStatistics.SetGet | Source/NauseaDungeon/Public/Player/PlayerStatistics/PlayerStatisticsTypes.h:111-112 | Reading after storing gives the stored value, and a later store wins |
| PlayerStatistics.AddExperience | Source/NauseaDungeon/Public/Player/PlayerStatistics/PlayerStatisticsTypes.h:71 | Experience grows by the delta with uint64 wrap-around, and the new value is returned |
| PlayerStatistics.SetExperience | Source/NauseaDungeon/Public/Player/PlayerStatistics/PlayerStatisticsTypes.h:72 | Experience takes and returns the value |
| PlayerStatistics.ReplaceExperienceWithLarger | Source/NauseaDungeon/Private/Player/PlayerStatistics/PlayerStatisticsTypes.cpp:15-19 | The result is the larger of the two, and the call succeeds |
| PlayerStatistics.ExperienceMergeLaws | Source/NauseaDungeon/Private/Player/PlayerStatistics/PlayerStatisticsTypes.cpp:15-19 | Merging experience is idempotent and commutative |
| PlayerStatistics.KeyList | Source/NauseaDungeon/Private/Player/PlayerStatistics/PlayerStatisticsTypes.cpp:28-39 | The key array holds each key of the map exactly once |
| PlayerStatistics.ReplaceStatisticsWithLarger | Source/NauseaDungeon/Private/Player/PlayerStatistics/PlayerStatisticsTypes.cpp:28-39 | The statistics merge always succeeds |
| PlayerStatistics.MergeKeysPointwise | Source/NauseaDungeon/Private/Player/PlayerStatistics/PlayerStatisticsTypes.cpp:30-37 | The loop sets each listed key to the larger of the two values and leaves other keys alone |
| PlayerStatistics.StatisticsMergeIsPointwiseMax | Source/NauseaDungeon/Private/Player/PlayerStatistics/PlayerStatisticsTypes.cpp:28-39 | After the merge each of the other map's keys holds the larger value, keys only this map has are untouched, and the result dominates the other map |
| PlayerStatistics.StatisticsMergeIdempotent | Source/NauseaDungeon/Private/Player/PlayerStatistics/PlayerStatisticsTypes.cpp:28-39 | Merging twice with the same map changes nothing more |
| PlayerStatistics.StatisticsMergeStaysValid | Source/NauseaDungeon/Private/Player/PlayerStatistics/PlayerStatisticsTypes.cpp:28-39 | Merged values stay uint64 |
| PlayerStatistics.SavePairs | Source/NauseaDungeon/Public/Player/PlayerStatistics/PlayerStatisticsTypes.h:28-52 | Saving writes one pair per entry, in key order |
| PlayerStatistics.AddPairsContents | Source/NauseaDungeon/Public/Player/PlayerStatistics/PlayerStatisticsTypes.h:44-50 | Loading stores each pair's value under its key and leaves unlisted keys alone |
| PlayerStatistics.SaveLoadRoundTrip | Source/NauseaDungeon/Public/Player/PlayerStatistics/PlayerStatisticsTypes.h:28-52 | Loading what was saved reproduces the map, whatever the target held before |
| PlayerStatistics.MarkStatusEffectReceived | Source/NauseaDungeon/Public/Player/PlayerStatistics/PlayerStatisticsTypes.h:162-163 | Marking a class makes it received and changes no other class |
| PlayerStatistics.MarkIdempotent | Source/NauseaDungeon/Public/Player/PlayerStatistics/PlayerStatisticsTypes.h:162-163 | Marking is idempotent and a received class is left alone |
| PlayerData.RequestSaveAsWritten | Source/NauseaDungeon/Private/Player/PlayerStatistics/PlayerExperienceSaveGame.cpp:129-145 | As written a loaded save always starts a write and the saving flag keeps its old value |
| PlayerData.RequestSave | Source/NauseaDungeon/Private/Player/PlayerStatistics/PlayerExperienceSaveGame.cpp:129-145 | The corrected request raises the saving flag; it starts a write exactly when none is in flight and parks a pending save exactly when one is |
| PlayerData.SaveCompleted | Source/NauseaDungeon/Private/Player/PlayerStatistics/PlayerExperienceSaveGame.cpp:159-167 | Completion reissues a write exactly when one is pending, otherwise clears the saving flag |
| PlayerData.OverlappingSavesAsWritten | Source/NauseaDungeon/Private/Player/PlayerStatistics/PlayerExperienceSaveGame.cpp:136-144 | As written two requests in a row on a loaded save start two overlapping writes |
| PlayerData.AtMostOneSaveInFlight | Source/NauseaDungeon/Private/Player/PlayerStatistics/PlayerExperienceSaveGame.cpp:129-167 | With the corrected flag at most one write is in flight, and the saving flag says exactly whether one is |
| PlayerData.RequestDuringSaveIsReissued | Source/NauseaDungeon/Private/Player/PlayerStatistics/PlayerExperienceSaveGame.cpp:129-167 | A request made during a write is remembered and its completion starts the next write |
| PlayerData.PushPlayerData | Source/NauseaDungeon/Private/Player/PlayerStatistics/PlayerExperienceSaveGame.cpp:169-181 | Only a save received over RPC takes the pushed data |
| PlayerData.ReceiveServerStatistics | Source/NauseaDungeon/Private/Player/PlayerStatistics/PlayerExperienceSaveGame.cpp:147-151 | The server's statistics are merged by maximum: each statistic the server sent becomes the larger of the two, every other statistic and the rest of the save are unchanged |
| PlayerData.ReceiveServerExperience | Source/NauseaDungeon/Private/Player/PlayerStatistics/PlayerExperienceSaveGame.cpp:153-157 | The server's experience is merged by maximum: at least both figures, and equal to one of them, with the rest of the save unchanged |
| PlayerData.CheckAndMarkStatusEffectReceived | Source/NauseaDungeon/Private/Player/PlayerStatistics/PlayerExperienceSaveGame.cpp:198-207 | Reports whether the class was already marked and leaves it marked; nothing else changes |
| PlayerData.CheckAndMarkTwice | Source/NauseaDungeon/Private/Player/PlayerStatistics/PlayerExperienceSaveGame.cpp:198-207 | Asked twice, the second answer is always "already received" |
| PlayerData.GetPlayerData | Source/NauseaDungeon/Private/Player/PlayerStatistics/PlayerStatisticsComponent.cpp:238-248 | Player data is hidden until the statistics are ready |
| PlayerData.GetExperience | Source/NauseaDungeon/Private/Player/PlayerStatistics/PlayerStatisticsComponent.cpp:238-248 | The visible save's experience, 0 without one |
| PlayerData.PlayerDataReady | Source/NauseaDungeon/Private/Player/PlayerStatistics/PlayerStatisticsComponent.cpp:109-124 | The data becomes ready, and an acknowledgement is sent exactly for a remote owner on the authority |
| PlayerData.ReceivePlayerData | Source/NauseaDungeon/Private/Player/PlayerStatistics/PlayerStatisticsComponent.cpp:97-107 | Once ready, incoming data is ignored; otherwise it becomes the visible data, as a save received over RPC |
| PlayerData.FirstDataWins | Source/NauseaDungeon/Private/Player/PlayerStatistics/PlayerStatisticsComponent.cpp:97-107 | Data received a second time does not replace the first |
| PlayerData.UpdatePlayerStatistic | Source/NauseaDungeon/Private/Player/PlayerStatistics/PlayerStatisticsComponent.cpp:183-195 | The delta is added to the cached value and a push is scheduled exactly when none is pending and the value passes 1 |
| PlayerData.Trunc | Source/NauseaDungeon/Private/Player/PlayerStatistics/PlayerStatisticsComponent.cpp:212 | Truncation toward zero: the integer part of the value |
| PlayerData.ToUint64 | Source/NauseaDungeon/Private/Player/PlayerStatistics/PlayerStatisticsComponent.cpp:215 | The conversion gives a uint64 and keeps values already in range |
| PlayerData.PushKeys | Source/NauseaDungeon/Private/Player/PlayerStatistics/PlayerStatisticsComponent.cpp:210-219 | The loop sends one notification per listed key |
| PlayerData.PushPlayerStatisticCache | Source/NauseaDungeon/Private/Player/PlayerStatistics/PlayerStatisticsComponent.cpp:197-222 | The pending flag is cleared; without visible data nothing else happens, otherwise one notification per cached key |
| PlayerData.PushKeysDomain | Source/NauseaDungeon/Private/Player/PlayerStatistics/PlayerStatisticsComponent.cpp:210-219 | The loop keeps the cache's keys |
| PlayerData.PushKeysOtherKeys | Source/NauseaDungeon/Private/Player/PlayerStatistics/PlayerStatisticsComponent.cpp:210-219 | A key outside the list keeps its cached and its saved value |
| PlayerData.PushKeysMovesWholePart | Source/NauseaDungeon/Private/Player/PlayerStatistics/PlayerStatisticsComponent.cpp:210-219 | A listed key keeps only the fractional part in the cache and its saved statistic gains the integer part |
| PlayerData.PushLeavesFraction | Source/NauseaDungeon/Private/Player/PlayerStatistics/PlayerStatisticsComponent.cpp:197-222 | After a push no key enters or leaves the cache and every cached value keeps only its fractional part, which lies in [0, 1) for a non-negative value |
| PlayerData.PushAddsWholePart | Source/NauseaDungeon/Private/Player/PlayerStatistics/PlayerStatisticsComponent.cpp:197-222 | After a push the saved statistic of a cached key gains the integer part of its cached value, wrapped to 64 bits |
| PlayerData.PushKeepsUncached | Source/NauseaDungeon/Private/Player/PlayerStatistics/PlayerStatisticsComponent.cpp:197-222 | After a push a statistic with no cached value keeps its saved value |
| PlayerData.ComponentRequestSave | Source/NauseaDungeon/Private/Player/PlayerStatistics/PlayerStatisticsComponent.cpp:164-181 | Without visible data the request fails; a loaded save goes through the save logic as written, which succeeds and leaves everything but the pending flag as it was (so the saving flag is never raised here either); a save received over RPC is sent back to its client |
| PlayerData.UpdatePlayerExperience | Source/NauseaDungeon/Private/Player/PlayerStatistics/PlayerStatisticsComponent.cpp:224-236 | Without visible data nothing happens; otherwise experience grows by the delta with uint64 wrap-around and the change is broadcast |
| PlayerData.ClientUpdatePlayerData | Source/NauseaDungeon/Private/Player/PlayerStatistics/PlayerStatisticsComponent.cpp:152-162 | The client merges the server's figures by maximum: each statistic the server sent becomes the larger of the client's and the server's, the others stay, and experience becomes the larger of the two; then a save is requested as written, so only the pending flag changes besides; without visible data nothing changes |
| PlayerData.ComponentCheckAndMark | Source/NauseaDungeon/Private/Player/PlayerStatistics/PlayerStatisticsComponent.cpp:250-260 | Without visible data false; otherwise the save's answer, leaving the class marked |
| PlayerData.IncrementPlayerStatistic | Source/NauseaDungeon/Private/Player/PlayerStatistics/PlayerStatisticsTypes.cpp:47-61 | The update is forwarded, and true returned, exactly for a statistics component on the authority |
| PlayerData.IncrementPlayerExperience | Source/NauseaDungeon/Private/Player/PlayerStatistics/PlayerStatisticsTypes.cpp:63-77 | The same gate for experience |
| PlayerData.HelperCheckAndMark | Source/NauseaDungeon/Private/Player/PlayerStatistics/PlayerStatisticsTypes.cpp:80-88 | False without a statistics component, otherwise the component's answer |
| ReplicatedObject.ShouldSkipReplication | Source/NauseaDungeon/Private/System/ReplicatedObjectInterface.cpp:13-29 | No flags or NoSkip never skip; SkipOwnerInitial skips exactly in the initial bunch; the non-net-owner rule skips exactly in the initial bunch of a non-owner |
| ReplicatedObject.RegisterReplicatedSubobject | Source/NauseaDungeon/Private/System/ReplicatedObjectInterface.cpp:97-116 | A null subobject fails; a listed one succeeds unchanged; an unlisted one is appended and succeeds exactly when it lives inside the owner |
| ReplicatedObject.RegisterKeepsNoDuplicates | Source/NauseaDungeon/Private/System/ReplicatedObjectInterface.cpp:97-116 | Registration never lists a subobject twice |
| ReplicatedObject.RegisterEachOutcome | Source/NauseaDungeon/Public/System/ReplicatedObjectInterface.h:42-52 | The batch loop succeeds exactly when every subobject registers, keeps the list free of duplicates, loses nothing, and lists every live subobject inside the owner |
| ReplicatedObject.RegisterSubobjectsOutcome | Source/NauseaDungeon/Public/System/ReplicatedObjectInterface.h:42-52 | A batch succeeds exactly when it is non-empty and every subobject is live and either listed or inside the owner |
| ReplicatedObject.UnregisterReplicatedSubobject | Source/NauseaDungeon/Private/System/ReplicatedObjectInterface.cpp:118-123 | Unregistering always succeeds and leaves exactly the other live subobjects |
| ReplicatedObject.UnregisterUndoesRegister | Source/NauseaDungeon/Private/System/ReplicatedObjectInterface.cpp:97-123 | Unregistering undoes the registration of a new subobject on a list without stale entries |
| ReplicatedObject.ClearReplicatedSubobjectList | Source/NauseaDungeon/Private/System/ReplicatedObjectInterface.cpp:125-129 | Clearing empties the list and succeeds |
| ReplicatedObject.ReplicateSubobjectList | Source/NauseaDungeon/Private/System/ReplicatedObjectInterface.cpp:61-95 | The walk hands the caller's flags back unchanged |
| ReplicatedObject.NothingWrittenWithoutWrites | Source/NauseaDungeon/Private/System/ReplicatedObjectInterface.cpp:61-95 | When the channel writes nothing for any object, the walk reports nothing written, through every nesting level |
| ReplicatedObject.WrittenSubobjectReported | Source/NauseaDungeon/Private/System/ReplicatedObjectInterface.cpp:68-90 | A listed live subobject that is not skipped and that the channel writes makes the walk report a write |
| ReplicatedObject.SkippedSubobjectWritesNothing | Source/NauseaDungeon/Private/System/ReplicatedObjectInterface.cpp:64-82 | In the owner's first replication a SkipOwnerInitial subobject is passed over with its whole subtree |
| CoreSingleton.Copies | Source/NauseaDungeon/Private/System/CoreSingleton.cpp:70-73 | n copies of the actor |
| CoreSingleton.RegisterActorWithTag | Source/NauseaDungeon/Private/System/CoreSingleton.cpp:61-75 | A null actor or missing singleton changes nothing |
| CoreSingleton.AddToTagsEffect | Source/NauseaDungeon/Private/System/CoreSingleton.cpp:70-73 | Registration appends the actor once per occurrence of each listed tag, creating lists as needed, and leaves other tags alone |
| CoreSingleton.AddToTagsDomain | Source/NauseaDungeon/Private/System/CoreSingleton.cpp:70-73 | The registry gains exactly the listed tags |
| CoreSingleton.AddToTagsList | Source/NauseaDungeon/Private/System/CoreSingleton.cpp:70-73 | Each tag's list gains one copy of the actor per occurrence of the tag |
| CoreSingleton.RegisterAppendsOnce | Source/NauseaDungeon/Private/System/CoreSingleton.cpp:61-75 | With distinct tags the actor is appended once to each tag and nothing else changes |
| CoreSingleton.UnregisterActorWithTag | Source/NauseaDungeon/Private/System/CoreSingleton.cpp:77-109 | A null actor or missing singleton changes nothing |
| CoreSingleton.RemoveAllIdempotent | Source/NauseaDungeon/Private/System/CoreSingleton.cpp:96 | Removing an actor twice equals removing it once |
| CoreSingleton.RemoveFromTagsEffect | Source/NauseaDungeon/Private/System/CoreSingleton.cpp:88-102 | The loop removes the actor from each listed tag present in the map, collects exactly the tags it leaves empty, and leaves other tags alone |
| CoreSingleton.UnregisterEffect | Source/NauseaDungeon/Private/System/CoreSingleton.cpp:77-109 | Unregistering removes the actor from each listed tag, drops the tags left empty, and leaves other tags as they were |
| CoreSingleton.GetActorsWithTag | Source/NauseaDungeon/Private/System/CoreSingleton.cpp:111-138 | Without a singleton the list is empty; every listed actor is valid |
| CoreSingleton.ValidActors | Source/NauseaDungeon/Private/System/CoreSingleton.cpp:127-135 | Exactly the valid actors of the list, in order |
| CoreSingleton.Collect | Source/NauseaDungeon/Private/System/CoreSingleton.cpp:117-136 | The collected actors are exactly the valid actors registered under some listed tag |
| CoreSingleton.RegisteredActorFound | Source/NauseaDungeon/Private/System/CoreSingleton.cpp:61-138 | A valid actor registered under a tag is found through it, and after unregistering it with that tag it is not |
| CoreSingleton.BindToSingletonTick | Source/NauseaDungeon/Private/System/CoreSingleton.cpp:37-51 | The callback is bound, the list gains nothing else and keeps no duplicates, and a held game instance is kept |
| CoreSingleton.UnbindFromSingletonTick | Source/NauseaDungeon/Private/System/CoreSingleton.cpp:53-59 | Exactly that callback is unbound; nothing else changes |
| CoreSingleton.BindUnbindRoundTrip | Source/NauseaDungeon/Private/System/CoreSingleton.cpp:37-59 | Binding a new callback and unbinding it restores the list; binding twice binds once |
| CoreSingleton.Tick | Source/NauseaDungeon/Private/System/CoreSingleton.cpp:14-25 | One call per bound callback, from last to first, each receiving the time scaled by the world's dilation when there is a world |
| CoreSingleton.TickRunsEachOnce | Source/NauseaDungeon/Private/System/CoreSingleton.cpp:14-25 | Every bound callback runs exactly once per tick |
| EnemySelection.LockEnemySelection | Source/NauseaDungeon/Private/AI/EnemySelectionComponent.cpp:192-201 | The requester joins the locks, and the call succeeds exactly when it did not hold one |
| EnemySelection.UnlockEnemySelection | Source/NauseaDungeon/Private/AI/EnemySelectionComponent.cpp:203-212 | The requester leaves the locks, and the call succeeds exactly when it held one |
| EnemySelection.ClearEnemySelectionLock | Source/NauseaDungeon/Private/AI/EnemySelectionComponent.cpp:214-222 | Clearing leaves the selection unlocked and changes nothing else |
| EnemySelection.LockUnlockRoundTrip | Source/NauseaDungeon/Private/AI/EnemySelectionComponent.cpp:192-222 | Locking and unlocking restores the locks; a second lock by the same requester fails; a held lock keeps the selection locked |
| EnemySelection.EnemyChanged | Source/NauseaDungeon/Private/AI/EnemySelectionComponent.cpp:157-180 | A change starts the cooldown when the component uses one, and announces old and new enemy |
| EnemySelection.ClearEnemy | Source/NauseaDungeon/Private/AI/EnemySelectionComponent.cpp:109-123 | Clearing succeeds exactly when forced or the enemy may change, then leaves no enemy and announces it; otherwise nothing changes |
| EnemySelection.SetEnemy | Source/NauseaDungeon/Private/AI/EnemySelectionComponent.cpp:78-107 | Null clears; the current enemy is kept silently; otherwise an unforced change needs a free selection and a targetable enemy; success installs the new enemy and failure changes nothing |
| EnemySelection.LockedSelectionHolds | Source/NauseaDungeon/Private/AI/EnemySelectionComponent.cpp:78-138 | While locked, no unforced request changes the enemy, and one succeeds only when it asks for the held enemy |
| EnemySelection.ForcedSetSucceeds | Source/NauseaDungeon/Private/AI/EnemySelectionComponent.cpp:78-123 | A forced request always gets its way |
| EnemySelection.CooldownBlocksSecondChange | Source/NauseaDungeon/Private/AI/EnemySelectionComponent.cpp:78-190 | A successful change starts the cooldown, so an immediate unforced change to another enemy fails |
| EnemySelection.GetAllEnemies | Source/NauseaDungeon/Private/AI/EnemySelectionComponent.cpp:224-234 | The current enemy alone, or nothing |
| EnemySelection.OnEnemyTargetableStateChanged | Source/NauseaDungeon/Private/AI/EnemySelectionComponent.cpp:236-247 | Only the current enemy becoming untargetable matters, and it is cleared by force |
| EnemySelection.OnPawnUpdated | Source/NauseaDungeon/Private/AI/EnemySelectionComponent.cpp:19-26 | Losing the pawn clears the enemy by force |
| Aggro.TickAggroEntry | Source/NauseaDungeon/Private/AI/EnemySelection/AggroEnemyComponent.cpp:16-20 | A perceived entry decays by the time step but not below 1, an unperceived one three times as fast; it expires exactly at zero or below |
| Aggro.PerceivedNeverExpires | Source/NauseaDungeon/Private/AI/EnemySelection/AggroEnemyComponent.cpp:16-20 | A perceived entry never expires |
| Aggro.TickComponent | Source/NauseaDungeon/Private/AI/EnemySelection/AggroEnemyComponent.cpp:28-72 | Entries of vanished actors and expired entries are dropped, the others keep their ticked threat, the survivors form the sorted list, and ticking stops once an enemy is set and nothing is left |
| Aggro.TickKeepsPositiveAndPerceived | Source/NauseaDungeon/Private/AI/EnemySelection/AggroEnemyComponent.cpp:28-72 | After a tick every threat is positive and every live, perceived actor survives |
| Aggro.CleanupAggroData | Source/NauseaDungeon/Private/AI/EnemySelection/AggroEnemyComponent.cpp:140-144 | Cleanup empties the threats and the sorted list |
| Aggro.UpdateActorAggroAsWritten | Source/NauseaDungeon/Private/AI/EnemySelection/AggroEnemyComponent.cpp:146-158 | As written a new actor enters with the threat and a known one has the threat subtracted; other actors are untouched |
| Aggro.UpdateActorAggro | Source/NauseaDungeon/Private/AI/EnemySelection/AggroEnemyComponent.cpp:146-158 | The corrected update adds the threat to a known actor; other actors are untouched and ticking turns on |
| Aggro.DamageLowersAggroAsWritten | Source/NauseaDungeon/Public/AI/EnemySelection/AggroEnemyComponent.h:24 | As written an actor seen once and then dealing 5 damage drops to -4 threat and is forgotten at its next unseen tick |
| Aggro.DamageRaisesAggro | Source/NauseaDungeon/Public/AI/EnemySelection/AggroEnemyComponent.h:24 | With the threat added, positive threats stay positive and damage raises an actor's threat |
| Aggro.DamageKeepsAggro | Source/NauseaDungeon/Public/AI/EnemySelection/AggroEnemyComponent.h:24 | In the same scenario the corrected update keeps the actor |
| ActionBrainData.ListOfActors | Source/NauseaDungeon/Private/AI/ActionBrainDataObject.cpp:75-89 | The base object's actor list is either empty or exactly the actors its Blueprint supplies. |
| ActionBrainData.ListOfLocations | Source/NauseaDungeon/Private/AI/ActionBrainDataObject.cpp:91-105 | The base object's location list is either empty or exactly the supplied locations. |
| ActionBrainData.SelectionModes | Source/NauseaDungeon/Private/AI/ActionBrainDataObject.cpp:75-105 | An exclusive mode offers only its own kind; a Prefer mode offers the preferred kind and falls back to the other only when the preferred list is empty; only Both offers two non-empty lists at once. |
| ActionBrainData.Pick | Source/NauseaDungeon/Private/AI/ActionBrainDataObject.cpp:25-48 | An empty list gives the fallback, a singleton its only element, a valid index its element, and any non-empty list some member of it. |
| ActionBrainData.GetActor | Source/NauseaDungeon/Private/AI/ActionBrainDataObject.cpp:25-48 | No actor is returned when the mode offers none, and any actor returned is one of the supplied actors and never comes from a LocationOnly object. |
| ActionBrainData.GetLocation | Source/NauseaDungeon/Private/AI/ActionBrainDataObject.cpp:50-73 | The invalid location is returned when the mode offers no locations; any other location is one of the supplied locations and never comes from an ActorOnly object. |
| ActionBrainData.SetReady | Source/NauseaDungeon/Private/AI/ActionBrainDataObject.cpp:205-212 | The object becomes ready, and readiness is broadcast exactly when it was not ready before. |
| ActionBrainData.SetReadyOnce | Source/NauseaDungeon/Private/AI/ActionBrainDataObject.cpp:205-212 | A second SetReady changes nothing and broadcasts nothing. |
| ActionBrainData.ProcessListAsWritten | Source/NauseaDungeon/Private/AI/ActionBrainDataObject.cpp:352-375 | As written, short lists and AllMatching pass through unchanged and SingleResult keeps the first result (the random modes are characterised by RandomRunModesAsWritten). |
| ActionBrainData.RandomRunModesAsWritten | Source/NauseaDungeon/Private/AI/ActionBrainDataObject.cpp:365-369 | As written, two results under RandomBest5Pct make the draw read past the end, and whenever the random modes succeed they return the first result rather than a random pick. |
| ActionBrainData.ProcessList | Source/NauseaDungeon/Private/AI/ActionBrainDataObject.cpp:352-375 | Short lists and AllMatching pass through; SingleResult keeps the first result; the random modes return exactly one result drawn from the best share; the result only ever holds elements of the input. |
| ActionBrainData.ProcessListAgrees | Source/NauseaDungeon/Private/AI/ActionBrainDataObject.cpp:352-375 | For SingleResult, AllMatching and lists of at most one result, the written version succeeds and agrees with the corrected one. |
| ActionBrainData.EqsActors | Source/NauseaDungeon/Private/AI/ActionBrainDataObject.cpp:377-397 | The corrected twin, on the corrected trim: without a successful query result there are no actors; a LocationOnly object offers none; otherwise the trimmed result holds only actors the query found. |
| ActionBrainData.EqsLocations | Source/NauseaDungeon/Private/AI/ActionBrainDataObject.cpp:399-419 | The corrected twin, on the corrected trim: without a successful query result there are no locations; an ActorOnly object offers none; otherwise the trimmed result holds only locations the query found. |
| ActionBrainData.EqsActorsAsWritten | Source/NauseaDungeon/Private/AI/ActionBrainDataObject.cpp:377-397 | As the source runs it, on the as-written trim: without a successful result no actors; a LocationOnly object none; otherwise the as-written trim of the query's actors, failing where that trim reads past the end (also inside a PreferLocation object's location query); any actor offered is one the query found. |
| ActionBrainData.EqsLocationsAsWritten | Source/NauseaDungeon/Private/AI/ActionBrainDataObject.cpp:399-419 | As the source runs it: without a successful result no locations; an ActorOnly object none; otherwise the as-written trim of the query's locations, with the same failure; any location offered is one the query found. |
| ActionBrainData.EqsAgreesOffRandomModes | Source/NauseaDungeon/Private/AI/ActionBrainDataObject.cpp:352-375 | Under SingleResult and AllMatching the source's queries never fail and give exactly the corrected lists. |
| ActionBrainData.EqsRandomModesAsWritten | Source/NauseaDungeon/Private/AI/ActionBrainDataObject.cpp:365-369 | Eight actors under RandomBest25Pct with roll 1: the source offers the first actor, the corrected draw the second; two actors under RandomBest5Pct make the source read past the end. |
| ActionBrainData.EqsPreference | Source/NauseaDungeon/Private/AI/ActionBrainDataObject.cpp:377-419 | Under a Prefer mode the other kind of result is offered exactly when the query found none of the preferred kind. |
| ActionBrainData.UpdateDataObject | Source/NauseaDungeon/Private/AI/ActionBrainDataObject.cpp:291-313 | Starting a new query clears readiness and the previous result and keeps both modes. |
| ActionBrainData.OnQueryComplete | Source/NauseaDungeon/Private/AI/ActionBrainDataObject.cpp:455-459 | Completion stores the query result and makes the object ready, announcing it exactly when it was not ready before. |
| ActionBrainData.QueryCycle | Source/NauseaDungeon/Private/AI/ActionBrainDataObject.cpp:291-313 | While a query is running the object offers no actors and no locations; after completion it offers the new result and announces readiness. |
| ActionBrainData.QueryCycleAsWritten | Source/NauseaDungeon/Private/AI/ActionBrainDataObject.cpp:291-313 | The same query cycle through the as-written queries: nothing while running, the as-written trim of the new result after. |
| Voice.DirectParent | Source/NauseaDungeon/Private/Character/VoiceComponent.cpp:926-928 | A tag's direct parent is the tag without its last segment; a one-segment or empty tag has the empty parent. |
| Voice.VoiceHierarchyIsFirstSegment | Source/NauseaDungeon/Private/Character/VoiceComponent.cpp:196 | The parent-hierarchy test for `Voice` holds exactly for tags whose first segment is `Voice`. |
| Voice.GetPriorityOfVoiceTag | Source/NauseaDungeon/Private/Character/VoiceComponent.cpp:926-951 | A tag gets the VoiceCommand priority exactly when its parent is a command category, and never the forced priority. |
| Voice.PriorityFollowsCategory | Source/NauseaDungeon/Private/Character/VoiceComponent.cpp:608-645 | A tag has a priority exactly when it is a voice command or a voice event; every event ranks above Invalid and strictly below a command; a tag with a priority lies under `Voice`. |
| Voice.WaveIndex | Source/NauseaDungeon/Private/Character/VoiceComponent.cpp:959-967 | For a random value in [0, 1] the drawn index is a valid index of the list; random 0 draws the first wave and random 1 the last. |
| Voice.ContainerSoundWave | Source/NauseaDungeon/Private/Character/VoiceComponent.cpp:959-967 | A container gives no wave exactly when its loaded list is empty; otherwise a wave of its list, the first for random 0 and the last for random 1. |
| Voice.EveryWaveReachable | Source/NauseaDungeon/Private/Character/VoiceComponent.cpp:959-967 | Every loaded wave of a container with several waves is drawn for some random value in [0, 1]. |
| Voice.GetSoundWave | Source/NauseaDungeon/Private/Character/VoiceComponent.cpp:822-845 | A wave is found only for a tag one of the maps lists; a tag in the command map is served from its non-null command container, otherwise from its non-null event container. |
| Voice.SoundOnlyForValidTag | Source/NauseaDungeon/Private/Character/VoiceComponent.cpp:806-845 | A sound is found only for a tag IsValidVoiceTag accepts, and a tag with a non-empty command container always yields one. |
| Voice.LoadSoundWaveContainers | Source/NauseaDungeon/Private/Character/VoiceComponent.cpp:847-879 | Loading sets the loaded flag and keeps both maps; it requests every non-null container of both maps when not yet loaded and nothing when already loaded. |
| Voice.UnloadSoundWaveContainers | Source/NauseaDungeon/Private/Character/VoiceComponent.cpp:881-913 | Unloading clears the loaded flag and keeps both maps; it releases every non-null container when loaded and nothing otherwise. |
| Voice.LoadUnloadRoundTrip | Source/NauseaDungeon/Private/Character/VoiceComponent.cpp:847-913 | A second load requests nothing; unloading after a load releases exactly the containers loaded and restores the data object; unloading unloaded data does nothing. |
| Voice.CanRequestVoiceCommandAsWritten | Source/NauseaDungeon/Private/Character/VoiceComponent.cpp:184-220 | As written, a client request for a tag under `Voice` that the voice data has a sound for is always refused as Invalid; Muted and Disabled are never answered. |
| Voice.PlayableTagRejectedAsWritten | Source/NauseaDungeon/Private/Character/VoiceComponent.cpp:202-205 | As written, a client with a sound for `Voice.Alert.Help` is refused that tag and accepted for a tag with no sound; the corrected check answers the other way round. |
| Voice.CanRequestVoiceCommand | Source/NauseaDungeon/Private/Character/VoiceComponent.cpp:184-220 | Muted and Disabled are never answered; a component on cooldown answers only Invalid or Cooldown; Ignored means a voice of strictly higher priority is playing. |
| Voice.RequestOutcome | Source/NauseaDungeon/Private/Character/VoiceComponent.cpp:184-220 | A request is Invalid exactly when there is no voice data, the tag is outside `Voice`, or a client has no sound for it; it succeeds exactly when valid, not on cooldown and not outranked by the playing voice. |
| Voice.CommandOutranksEvents | Source/NauseaDungeon/Private/Character/VoiceComponent.cpp:207-219 | A valid voice command off cooldown succeeds whenever no voice command is playing: events never block it. |
| Voice.PerformVoiceCommandAsWritten | Source/NauseaDungeon/Private/Character/VoiceComponent.cpp:222-284 | On the as-written check, as the source calls it: a client clears its voice timer before the check; a refused request changes nothing else; the authority broadcasts exactly the accepted requests; off a dedicated server an accepted tag becomes current, playing, and starts the cooldown exactly when it is a voice command. Off a dedicated server a tag the voice data has a sound for is refused as Invalid and never broadcast. |
| Voice.PerformVoiceCommand | Source/NauseaDungeon/Private/Character/VoiceComponent.cpp:222-284 | The same steps on the corrected check (see Findings): a client clears its voice timer before the check; a refused request changes nothing else; the authority broadcasts exactly the accepted requests; off a dedicated server an accepted tag becomes current, playing, and starts the cooldown exactly when it is a voice command. |
| Voice.PerformVoiceCommandOnServer | Source/NauseaDungeon/Private/Character/VoiceComponent.cpp:200-204 | On a dedicated server the as-written and corrected commands behave identically. |
| Voice.CommandStartsCooldown | Source/NauseaDungeon/Private/Character/VoiceComponent.cpp:278-281 | With the corrected check: right after a client plays a voice command, every further request is refused as Cooldown or Invalid. |
| Voice.CommandStartsCooldownAsWritten | Source/NauseaDungeon/Private/Character/VoiceComponent.cpp:278-281 | As written too: right after a client plays a voice command, every further request is refused as Cooldown or Invalid. |
| Voice.OnVoicePlaybackCompleted | Source/NauseaDungeon/Private/Character/VoiceComponent.cpp:409-412 | When playback completes the current tag is empty and nothing is playing; the cooldown and the voice data are kept. |
| Voice.NothingIgnoredAfterPlayback | Source/NauseaDungeon/Private/Character/VoiceComponent.cpp:214-217 | After playback completes no request is answered Ignored. |
| Voice.VoiceCommandMenuOptionInput | Source/NauseaDungeon/Private/Character/VoiceComponent.cpp:465-473 | An option is broadcast exactly when the menu is open, as the input index minus one (wrapping round for the smallest 32-bit value), always a 32-bit value. |
| Interactable.CanInteract | Source/NauseaDungeon/Private/Gameplay/InteractableComponent.cpp:39-53 | The answer is Success or Invalid, and Success exactly when the component is active, there is an instigator, the pending list has room, and the owner allows it. |
| Interactable.StartPendingInteraction | Source/NauseaDungeon/Private/Gameplay/InteractableComponent.cpp:88-101 | A simulated proxy changes nothing; otherwise the list and the set each hold exactly their previous live entries plus the instigator, with no stale entry left. |
| Interactable.StopPendingInteraction | Source/NauseaDungeon/Private/Gameplay/InteractableComponent.cpp:103-116 | A simulated proxy changes nothing; otherwise the list and the set each hold exactly their previous live entries other than the instigator. |
| Interactable.StartStopRoundTrip | Source/NauseaDungeon/Private/Gameplay/InteractableComponent.cpp:88-116 | On a list without repeats or stale entries, stopping a newly started instigator restores the component exactly. |
| Interactable.Interact | Source/NauseaDungeon/Private/Gameplay/InteractableComponent.cpp:55-75 | The call fails exactly when CanInteract refuses it, and then changes nothing; a held interaction answers Pending and leaves a non-proxy instigator in the list (already pending means no change); any other is performed at once and answers Success. |
| Interactable.InteractKeepsPendingBounded | Source/NauseaDungeon/Private/Gameplay/InteractableComponent.cpp:41-70 | Interact never lets the pending list grow past MaxConcurrentInteractions and never puts a repeat into it. |
| Interactable.RepeatedHeldInteractRefused | Source/NauseaDungeon/Private/Gameplay/InteractableComponent.cpp:41-70 | With room for one instigator, a second press of a held interaction by the pending instigator is refused as Invalid and changes nothing. |
| Interactable.StopInteract | Source/NauseaDungeon/Private/Gameplay/InteractableComponent.cpp:77-86 | StopInteract answers true exactly when the instigator is pending, changes nothing otherwise, and when a non-proxy instigator is stopped it leaves both the list and the set. |
| Interactable.CompletePendingInteraction | Source/NauseaDungeon/Private/Gameplay/InteractableComponent.cpp:118-129 | A null instigator changes nothing and performs nothing; otherwise the interaction is performed, the instigator leaves the list, the set is kept, and nothing new joins the list. |
| Interactable.CompleteThenInteractAgain | Source/NauseaDungeon/Private/Gameplay/InteractableComponent.cpp:55-129 | After a held interaction completes, the same instigator can start it again and is pending once more. |
| Interactable.DiffStartEffect | Source/NauseaDungeon/Private/Gameplay/InteractableComponent.cpp:148-161 | The first loop starts exactly the live instigators of the list not already in the set; the set gains exactly those live entries that are not simulated proxies; no stale entry is added. |
| Interactable.OnRepPendingAsWritten | Source/NauseaDungeon/Private/Gameplay/InteractableComponent.cpp:143-173 | As written, the diff crashes exactly when a stale weak reference is left in the set after the first loop. |
| Interactable.StopAll | Source/NauseaDungeon/Private/Gameplay/InteractableComponent.cpp:163-172 | After the second loop the set is exactly the live entries of the replicated list; the instigators started are kept; the instigators stopped are exactly the live entries asked to stop. |
| Interactable.Keep | Source/NauseaDungeon/Private/Gameplay/InteractableComponent.cpp:107-108 | The kept list holds exactly the live entries whose instigator is not removed. |
| Interactable.OnRepPending | Source/NauseaDungeon/Private/Gameplay/InteractableComponent.cpp:143-173 | After the corrected diff the set is exactly the live entries of the replicated list. |
| Interactable.OnRepDiff | Source/NauseaDungeon/Private/Gameplay/InteractableComponent.cpp:143-173 | The corrected diff starts exactly the live instigators new to the list, stops exactly those seen before that left it, and then remembers the live entries of the list. |
| Interactable.OnRepAgreesWithoutStale | Source/NauseaDungeon/Private/Gameplay/InteractableComponent.cpp:163-170 | When the set holds no stale entry, the written diff does not crash and agrees with the corrected one. |
| Interactable.Destroy | Source/NauseaDungeon/Public/Gameplay/InteractableComponent.h:100-102 | Once an instigator is destroyed, neither the weak-reference list nor the set refers to it, and an entry the set held becomes a stale reference instead of disappearing. |
| Interactable.StaleInstigatorCrashesAsWritten | Source/NauseaDungeon/Private/Gameplay/InteractableComponent.cpp:163-170 | A client whose own instigator 7 started pending, was then destroyed, and is missing from the next replicated list crashes in the written diff; the corrected diff stops nothing and forgets the stale entry. |

## Left out

- Replication and RPCs: `NetDeltaSerialize`, the `Server_*`, `Client_*` and `Multicast_*` functions, push-model dirty marking and `OnRep_*` broadcasts are engine networking. Only the pure diffs are modelled: `OnRep_AbilityDataList`, `OnRep_PendingInteractionInstigator`, and the target-data cache update.
- Timers, latent actions and asynchronous loading (`FTimerManager`, `AsyncLoadAbilityObject*`, `USoundWaveContainer::LoadSoundWaveContainer`, widget async actions): a running timer is a boolean input, and a load request is the set of container ids asked for.
- Curves, random streams and difficulty scaling (`UCurveFloat`, `FRandomStream`, wave `GetSpawnCount`/`GetTimeOffset`, coin values): these are oracle parameters or plain inputs.
- Floating point: every float is a `real`, so rounding error is not modelled. This covers lerp-based armour, power decay, the wave index in `USoundWaveContainer::GetSoundWave`, and `FMath::RoundToInt`, which is modelled as rounding half up.
- WaveSpawning.CleanUp and WaveSpawning.InitializeForWave: they model only the configuration's own fields. The `StopSpawning` call that clean-up starts with (DungeonGameModeSettings.cpp:467-476) is not part of these functions. Its clearing of timers and latent actions is not modelled at all, because the engine's timer manager is not part of this model. Its cancel of the configuration's queued requests is modelled separately, by `WaveSpawning.StopAndCleanUpAsWritten`: as written, the cancel leaves those requests queued.
- WaveSetup.GetWaveConfiguration and WaveSetup.InitializeWaveSetup: they build on the corrected `AppliesToWave`. Where the source divides by zero (an interval of 0, or one that truncates to 0), they skip the interval instead. `WaveSetup.GetWaveConfigurationAsWritten` fails on exactly those inputs and agrees with the corrected list everywhere else.
- PlayerData.ToUint64 and PlayerData.PushPlayerStatisticCache: the `uint64(TruncatedFloatValue)` cast at PlayerStatisticsComponent.cpp:215 is undefined in C++ for a negative cached value (a negative increment reaches the cache) or one of 2^64 or more. The model wraps such values modulo 2^64 by choice; no behaviour of the source is promised there.
- Engine geometry: `FTransform` conversions, the world-to-grid rounding in `GetCoordinatesFromWorldPosition` (only its bias permutation is modelled), `AddPointFromWorldPosition`, `CanMergeWith`, `Append`, `APlacementActor` grid generation, world spawn transforms and random yaw. Overlaps, line traces, navigation, perception and movement are also left out.
- Blueprint and interface hooks (`K2_*` events, `TSCRIPTINTERFACE_CALL_*`): these are boolean or value parameters, for example the interactable owner's `CanInteract` answer and `CanTargetEnemy`.
- I/O and presentation: save-slot I/O (`UGameplayStatics`), input bindings, widgets, HUD pooling, localised text, `GetInteractableInfo` text and icons, prompt widgets and `DismissPrompt`, voice playback, radio and client messages, debug strings, and `PostEditChangeProperty`.
- EQS execution: `Execute`, `AbortRequest` and `WaitForDataObject` are left out. The query result arrives as a parameter of `OnQueryComplete`.
- `TMap` and `TSet` iteration order is unspecified by the engine. Where it matters, a map is a sequence in iteration order, and a removal closes the gap instead of leaving a sparse slot. The interactable's second diff loop runs over a set and is taken in one step, because its stops commute.
- `TArray::Sort` is unstable. The placement bias sort is modelled as a stable insertion sort, and `PlacementSearch.TiesOnlyMatterThreeWay` shows that ties cannot change the outcome that is used.
- The first loop of `OnRep_PendingInteractionInstigator` iterates the replicated list while `StartPendingInteraction` appends to it. The model walks the list as it was when the loop began.
- `FindBestEnemy` and the order of the aggro heap are left out; only the aggro table, its tick and its cleanup are modelled. `GetAllEnemies` of the aggro component is left out too.
- `ReplicateSubobjectList`: the channel's per-object write and its replication map are oracles, and `HasPendingReplicatedSubobjects` is left out.
- `GEngine` and `GetSingleton` returning null are not modelled. Gameplay tags are sequences of name segments, so tag validity against the engine's tag table is not modelled either.
- PromptStack.PushPlayerPrompt: the source returns a `const FPromptHandle&` bound to the handle `PushPrompt` returned by value, a temporary that dies at the end of the statement, so every caller reads a dangling reference, which is undefined behaviour in C++. The model returns the handle's value, which is what the code evidently means.
- The `DungeonGameState.h` header is older than its implementation: it declares only the current wave number. The model follows `DungeonGameState.cpp`.
- `InitializeWaveSetup` is declared `bool` in the header but returns `int64` in the implementation. The model returns the implementation's integer.
- Thin engine wrappers are not modelled: `ActionBrainDataObject_Enemy`, `_Self` and `_Forward`, `CoreGameplayStatics`, game modes, characters and controllers.
- The voice category tag sets are constants. The data object's constructor fills them the same way on every construction.
- `GetVoiceDataObject` returning null when the class has no default object is excluded: `HasValidVoiceDataObject` is checked first.
- Build descriptors (`*.Build.cs`, `*.Target.cs`) carry no logic.
- AbilityComponent.FindDataMut: requires that the scan stays inside the data list. The source reads past the end when the editor class list is longer than the data list and the class is missing; the model states no behaviour for that read.
- Stats.PercentValue: requires a non-zero maximum. The source divides by it, and a zero maximum gives a float NaN or infinity that `real` cannot represent.
- StatusEffect.GetPowerPercent: requires a non-empty power range, for the same reason.
- Shield.ProcessDamage: requires a non-zero `ShieldAmount`, for the same reason.
- StatusEffect.OnStackExpired: requires an active effect. The expiry timer only runs while the effect is active.
- StatusComponent.AddStatusEffect: requires that the id of the effect it would create is fresh. Object creation is not modelled.
- SpawnVolume.GetSpawnTransform: requires a status entry for every location. `BeginPlay` sizes the status list to the location list.
- WaveSetup.InitializeWaveSetup: requires that every configuration the wave uses is present. A null configuration is not modelled.
- WaveSetup.GetWaveAutoStartTime and WaveSetup.LowestAutoStart: require auto-start times in `[0, MAX_int32]`: the property is an `int32` with an editor minimum of 0.
- WaveSpawning.GetNextSpawnList: requires spawn counters that fit in a byte, the width of the source's fields.
- Voice.WaveIndex, Voice.ContainerSoundWave and Voice.GetSoundWave: require a random value in `[0, 1]`, the range of the voice random stream.
- DamageLog.Pop: requires a non-empty stack. `TArray::Pop` asserts on an empty array.
- Handles.GenerateHandles and DamageLog.HitEventIds: state distinctness only for runs shorter than the counter's wrap-around.
- Overflow of `int32` products: `RowCount * ColumnCount` in the spawn volume and the placement grid's sizes are unbounded integers in the model, and so are the coordinate sums and differences of PlacementGrid.Add, PlacementGrid.Sub, PlacementGrid.AddAssign and PlacementGrid.SubAssign on `FCoordinates` (int32 fields), which wrap in the source past the int32 range.
- StatusComponent.NextFreeId, StatusComponent.RequestActionBlock and StatusComponent.SuccessiveRequestsDistinct: the `int32` `BlockingActionCounter` is an unbounded integer, so the model never reaches the wrap-around past `INT32_MAX` (signed overflow, undefined behaviour in C++); distinctness of handed-out ids is stated only for that unbounded counter.
- PlayerData.PushPlayerData and PlayerData.ReceivePlayerData: the `FPlayerSelectionStruct` argument is dropped. The source moves it into the save's `PlayerSelection` together with the experience and statistics; the model carries no selection, so that third field is not modelled.
- StatusEffect.InitializeStack: the power is a real number; a power beyond the `int32` range, where `FMath::CeilToInt`'s conversion from float is not defined, is taken as its mathematical ceiling before the uint8 wrap.

## Findings

| source | as written | input that shows it | evidently intended | confidence | as-written member | corrected member |
|---|---|---|---|---|---|---|
| Source/NauseaDungeon/Private/Gameplay/AbilityComponent.cpp:377 | `InterruptAbility` skips an instance only when it has started and has the requested handle, so it removes the last instance that is not exactly that one, whatever its handle | instances with handles 1 and 2, neither started, interrupted with handle 1: the one with handle 2 is removed | remove the last unstarted instance that has the requested handle | not executed | AbilityComponent.InterruptAbilityRemovesWrongInstance | AbilityComponent.InterruptAbility |
| Source/NauseaDungeon/Private/Gameplay/AbilityComponent.cpp:670-677 | the non-const `GetAbilityDataByClass` bounds its fallback scan by the editor class list while indexing the data list | a data list of classes 1 and 2 with a class list of length 1 and an empty cache: class 2 is not found | scan the whole data list, as the const overload does | not executed | AbilityComponent.FindDataMutMissesLateEntry | AbilityComponent.FindData |
| Source/NauseaDungeon/Private/Player/CoreLocalMessage.cpp:51-52 | a hostile receiver is ignored only when the filter ranks above `Everyone`, which no filter does | team chat with the AllyOnly team filter from team 0 reaches a receiver on team 1 | ignore a hostile receiver unless the filter admits enemies | not executed | LocalMessage.TeamSayReachesEnemiesAsWritten | LocalMessage.ShouldIgnoreData |
| Source/NauseaDungeon/Public/Gameplay/StatusType.h:37-38 | Fire and Electric are both declared as `1 << 1` | a Fire-only mask decomposes to the value 2, the same as an Electric-only mask | one bit per element | not executed | DamageType.FireIsElectricAsDeclared | DamageType.ElementRoundTrip |
| Source/NauseaDungeon/Private/Overlord/DungeonGameState.cpp:118-126 | `SetWaveTotalSpawnCount` broadcasts the new total as the previous one | a total of 10 set to 20 broadcasts a change from 20 to 20 | broadcast the old total as the previous value | not executed | DungeonGameState.TotalSpawnCountChangeLosesPrevious | DungeonGameState.SetWaveTotalSpawnCount |
| Source/NauseaDungeon/Private/System/SpawnCharacterSystem.cpp:134 | `CancelRequestForObject` calls `RemoveAt(Index, 0)`, which removes nothing, while counting the request as cancelled | a queue holding one request bound to object 1: cancelling for 1 reports one cancellation and keeps the request | remove one element at each owned index | not executed | SpawnSystem.CancelRequestForObjectAsWritten | SpawnSystem.CancelRequestForObject |
| Source/NauseaDungeon/Private/System/SpawnCharacterSystem.cpp:159-170 | after skipping invalid requests, `PerformNextSpawn` dereferences the request even when none was valid | a queue holding a single request with no class and no callback | stop when no valid request remains | not executed | SpawnSystem.PerformNextSpawnAsWritten | SpawnSystem.PerformNextSpawn |
| Source/NauseaDungeon/Private/System/SpawnCharacterSystem.cpp:172-183 | a request without a class has its callback run before the spawn attempt and again with the attempt's null result | a queue holding a single request with no class and a bound callback | run the callback once | not executed | SpawnSystem.PerformNextSpawnFaultInputs | SpawnSystem.PerformNextSpawn |
| Source/NauseaDungeon/Private/Overlord/DungeonGameModeSettings.cpp:695-698 | `AppliesToWave` takes the wave modulo each interval, including an interval that is zero or truncates to zero | an interval list of 0, or of 2^32, at wave 5 divides by zero | skip intervals that are zero | not executed | WaveSetup.ZeroIntervalDividesByZero | WaveSetup.AppliesToWave |
| Source/NauseaDungeon/Public/Overlord/DungeonGameModeSettings.h:79 | `IsFinalWave` compares against the last wave even when it is 0, which the setup documents as endless | last wave 0 at wave 1 is the final wave | an endless setup has no final wave | not executed | WaveSetup.EndlessSetupEndsAsWritten | WaveSetup.FinalWaveRespectsEndless |
| Source/NauseaDungeon/Private/Player/PlayerStatistics/PlayerExperienceSaveGame.cpp:136-144 | `RequestSave` never sets the saving flag, so a second request starts a second save while the first is in flight | two requests on a loaded save start two saves | mark the save in flight and defer a second request | not executed | PlayerData.OverlappingSavesAsWritten | PlayerData.AtMostOneSaveInFlight |
| Source/NauseaDungeon/Public/AI/EnemySelection/AggroEnemyComponent.h:24 | `AddThreat` subtracts the threat it is given | actor 7 seen with threat 1 and then damaged for 5 ends at -4, and the next tick drops it | add the threat, so damage raises aggro | not executed | Aggro.DamageLowersAggroAsWritten | Aggro.UpdateActorAggro |
| Source/NauseaDungeon/Private/AI/ActionBrainDataObject.cpp:365-369 | the random run modes keep `Min(1, n * fraction)` results, which is 0 for small lists, and then read the first element | two results under RandomBest5Pct read past the end of an empty array | keep `Max(1, …)` results and draw one at random | not executed | ActionBrainData.RandomRunModesAsWritten | ActionBrainData.ProcessList |
| Source/NauseaDungeon/Private/Character/VoiceComponent.cpp:202 | `CanRequestVoiceCommand` refuses a tag the voice data HAS a sound for, off a dedicated server | a client with a sound for `Voice.Alert.Help` is refused it, and accepted for a tag with no sound | refuse a tag the voice data has no sound for | not executed | Voice.PlayableTagRejectedAsWritten | Voice.CanRequestVoiceCommand |
| Source/NauseaDungeon/Private/Gameplay/InteractableComponent.cpp:163-170 | the second diff loop stops every entry of the previous set missing from the new list, including a stale weak reference, and stopping it dereferences null | a client's own instigator 7 starts pending, is destroyed, and the next list arrives empty | skip stale entries, as the first loop does | not executed | Interactable.StaleInstigatorCrashesAsWritten | Interactable.OnRepDiff |

=== FILE: ability_component.dfy ===
/**
 * `UAbilityComponent`: the list of ability data with its class→index cache,
 * the request check and `PerformAbility`, the live ability instances and how
 * they are interrupted and cleaned up, the per-target action lists, and the
 * rebuild of the derived maps after the data list is replicated. Whether the
 * owning status component blocks actions is an input.
 */
module AbilityComponent {
  import opened Common
  import opened Handles
  import opened AbilityTypes

  /** `EAbilityRequestResponse`. */
  datatype Response = Success | ActionBlocked | NoChargeRemaining | NotInitialized | InvalidAbilityInstance

  /** The ability class of a data entry or instance; `None` is a null class. */
  type Cls = Option<nat>

  /** The cached position of each class in the data list. */
  type IndexMap = map<Cls, int>

  predicate HasClass(list: seq<AbilityData>, cls: Cls)
  {
    exists i :: 0 <= i < |list| && list[i].abilityClass == cls
  }

  /** No class appears twice in the data list, which `InitializeAbilityClass`
   *  ensures by refusing classes already present. */
  predicate UniqueClasses(list: seq<AbilityData>)
  {
    forall i, j :: 0 <= i < j < |list| ==> list[i].abilityClass != list[j].abilityClass
  }

  /* ---------------------------------------------------------------------- */
  /* Lookup by class                                                        */
  /* ---------------------------------------------------------------------- */

  /** The first index at or after `from` whose entry has the class. */
  function ScanForClass(list: seq<AbilityData>, cls: Cls, from: nat, bound: nat): (r: Option<nat>)
    requires bound <= |list|
    ensures r.Some? ==> from <= r.value < bound && list[r.value].abilityClass == cls
    ensures r.Some? ==> forall j :: from <= j < r.value ==> list[j].abilityClass != cls
    ensures r.None? ==> forall j :: from <= j < bound ==> list[j].abilityClass != cls
    decreases bound - from
  {
    if from >= bound then None
    else if list[from].abilityClass == cls then Some(from)
    else ScanForClass(list, cls, from + 1, bound)
  }

  /** The cached index, when it is in range and still points at the class. */
  predicate FastHit(list: seq<AbilityData>, indexMap: IndexMap, cls: Cls)
  {
    cls in indexMap && 0 <= indexMap[cls] < |list| && list[indexMap[cls]].abilityClass == cls
  }

  /**
   * The const `GetAbilityDataByClass`: the cached index when it is still
   * right, else the first entry with the class; `None` stands for the static
   * invalid ability data.
   */
  function FindData(list: seq<AbilityData>, indexMap: IndexMap, cls: Cls): (r: Option<nat>)
    ensures r.Some? ==> r.value < |list| && list[r.value].abilityClass == cls
    ensures r.None? <==> !HasClass(list, cls)
  {
    if FastHit(list, indexMap, cls) then Some(indexMap[cls] as nat)
    else ScanForClass(list, cls, 0, |list|)
  }

  /** The entry found, or the static invalid ability data. */
  function DataAt(list: seq<AbilityData>, r: Option<nat>): AbilityData
    requires r.Some? ==> r.value < |list|
  {
    if r.Some? then list[r.value] else InvalidAbilityData
  }

  /** With unique classes the lookup finds the one entry of the class,
   *  whatever the cache says. */
  lemma FindDataUnique(list: seq<AbilityData>, indexMap: IndexMap, cls: Cls, i: nat)
    requires UniqueClasses(list) && i < |list| && list[i].abilityClass == cls
    ensures FindData(list, indexMap, cls) == Some(i)
  {
  }

  /**
   * The non-const `GetAbilityDataByClass`: the same cache check, but the
   * fallback scan is bounded by the length of the editor class list
   * (`classCount`) while indexing the data list, and a hit is written back
   * to the cache. The source reads past the data list when the class list is
   * longer and no entry matches; this model requires that not to happen.
   */
  function FindDataMut(list: seq<AbilityData>, classCount: nat, indexMap: IndexMap, cls: Cls): (r: (Option<nat>, IndexMap))
    requires classCount <= |list| || HasClass(list, cls)
    ensures r.0.Some? ==> r.0.value < |list| && list[r.0.value].abilityClass == cls
    ensures r.0.None? ==> forall j :: 0 <= j < Min(classCount, |list|) ==> list[j].abilityClass != cls
    ensures FastHit(list, indexMap, cls) ==> r == (Some(indexMap[cls] as nat), indexMap)
    ensures !FastHit(list, indexMap, cls) && r.0.Some? ==> r.1 == indexMap[cls := r.0.value as int]
    ensures r.0.None? ==> r.1 == indexMap
  {
    if FastHit(list, indexMap, cls) then (Some(indexMap[cls] as nat), indexMap)
    else
      var found := ScanForClass(list, cls, 0, Min(classCount, |list|));
      if found.Some? then (found, indexMap[cls := found.value as int]) else (None, indexMap)
  }

  /** When the class list is at least as long as the data list and classes
   *  are unique, both lookups find the same entry. */
  lemma LookupsAgree(list: seq<AbilityData>, classCount: nat, indexMap: IndexMap, cls: Cls)
    requires UniqueClasses(list) && |list| <= classCount
    requires classCount == |list| || HasClass(list, cls)
    ensures FindDataMut(list, classCount, indexMap, cls).0 == FindData(list, indexMap, cls)
  {
  }

  /** A data list longer than the class list hides its later entries from
   *  the non-const lookup when the cache misses. */
  lemma FindDataMutMissesLateEntry()
    ensures var list := [AbilityData(Some(1), 1, UnsetTime, 0), AbilityData(Some(2), 1, UnsetTime, 0)];
      FindData(list, map[], Some(2)) == Some(1)
      && FindDataMut(list, 1, map[], Some(2)).0.None?
  {
    var list := [AbilityData(Some(1), 1, UnsetTime, 0), AbilityData(Some(2), 1, UnsetTime, 0)];
    assert list[1].abilityClass == Some(2);
  }

  /* ---------------------------------------------------------------------- */
  /* Requests                                                               */
  /* ---------------------------------------------------------------------- */

  /**
   * `CanPerformAbility` for a class: blocked actions first, then an unknown
   * or null class, then an empty charge count; otherwise success.
   */
  function CanPerformAbility(blocked: bool, list: seq<AbilityData>, indexMap: IndexMap, cls: Cls): (r: Response)
    ensures r != InvalidAbilityInstance
    ensures r == ActionBlocked <==> blocked
    ensures r == NotInitialized <==> !blocked && (cls.None? || !HasClass(list, cls))
    ensures r == NoChargeRemaining ==> !blocked && HasClass(list, cls)
    ensures r == Success <==>
      !blocked && cls.Some? && HasClass(list, cls) && HasCharge(DataAt(list, FindData(list, indexMap, cls)))
  {
    if blocked then ActionBlocked
    else
      var entry := DataAt(list, FindData(list, indexMap, cls));
      if !IsValidData(entry) then NotInitialized
      else if !HasCharge(entry) then NoChargeRemaining
      else Success
  }

  /** The instance overload: an invalid instance is refused before anything
   *  else is checked. */
  function CanPerformInstance(blocked: bool, list: seq<AbilityData>, indexMap: IndexMap, inst: InstanceData): (r: Response)
    ensures r == InvalidAbilityInstance <==> !IsValidInstance(inst)
    ensures IsValidInstance(inst) ==> r == CanPerformAbility(blocked, list, indexMap, inst.abilityClass)
  {
    if !IsValidInstance(inst) then InvalidAbilityInstance
    else CanPerformAbility(blocked, list, indexMap, inst.abilityClass)
  }

  /** The parts of the component that performing an ability reads and writes. */
  datatype Component = Component(blocked: bool, dataList: seq<AbilityData>, classCount: nat,
                                 indexMap: IndexMap, instances: seq<InstanceData>)

  /**
   * `PerformAbility`: any refusal is returned with nothing changed.
   * Otherwise one charge is consumed from the entry the non-const lookup
   * finds, the instance is initialised (its result is not checked) and
   * appended, and the response is success.
   */
  function PerformAbility(c: Component, inst: InstanceData, hasContext: bool, cdo: Option<AbilityInfo>, t: real)
    : (r: (Component, Response))
    ensures r.1 == CanPerformInstance(c.blocked, c.dataList, c.indexMap, inst)
    ensures r.1 != Success ==> r.0 == c
    ensures r.1 == Success ==>
      && |r.0.instances| == |c.instances| + 1
      && r.0.instances[..|c.instances|] == c.instances
      && r.0.instances[|c.instances|] == InitializeAbilityInstance(inst, hasContext, cdo, t).0
      && r.0.instances[|c.instances|].handle == inst.handle
    ensures |r.0.dataList| == |c.dataList|
    ensures forall i :: 0 <= i < |c.dataList| && c.dataList[i].abilityClass != inst.abilityClass ==>
      r.0.dataList[i] == c.dataList[i]
    ensures r.0.blocked == c.blocked && r.0.classCount == c.classCount
  {
    var response := CanPerformInstance(c.blocked, c.dataList, c.indexMap, inst);
    if response != Success then (c, response)
    else
      var (found, indexMap) := FindDataMut(c.dataList, c.classCount, c.indexMap, inst.abilityClass);
      var list := if found.Some? then c.dataList[found.value := ConsumeCharge(c.dataList[found.value]).0]
                  else c.dataList;
      var initialized := InitializeAbilityInstance(inst, hasContext, cdo, t).0;
      (c.(dataList := list, indexMap := indexMap, instances := c.instances + [initialized]), Success)
  }

  /** With unique classes and a class list covering the data list, a
   *  successful request uses up exactly one charge of its own ability (none
   *  when unlimited) and no other entry changes. */
  lemma PerformAbilityConsumesOneCharge(c: Component, inst: InstanceData, hasContext: bool,
                                        cdo: Option<AbilityInfo>, t: real, i: nat)
    requires UniqueClasses(c.dataList) && |c.dataList| <= c.classCount
    requires i < |c.dataList| && c.dataList[i].abilityClass == inst.abilityClass
    requires PerformAbility(c, inst, hasContext, cdo, t).1 == Success
    ensures var after := PerformAbility(c, inst, hasContext, cdo, t).0.dataList;
      after == c.dataList[i := ConsumeCharge(c.dataList[i]).0]
      && (c.dataList[i].chargeCount == IndexNone ==> after[i] == c.dataList[i])
      && (c.dataList[i].chargeCount != IndexNone ==> after[i].chargeCount == c.dataList[i].chargeCount - 1)
  {
    FindDataUnique(c.dataList, c.indexMap, inst.abilityClass, i);
    LookupsAgree(c.dataList, c.classCount, c.indexMap, inst.abilityClass);
  }

  /* ---------------------------------------------------------------------- */
  /* Action lists                                                           */
  /* ---------------------------------------------------------------------- */

  /** `AbilityActionList`, `AbilityActionMap` (target handle → actions) and
   *  whether the component ticks. */
  datatype Actions = Actions(list: seq<nat>, byHandle: map<int, seq<nat>>, tickEnabled: bool)

  /** No handle is mapped to an empty action list. */
  predicate NoEmptyEntries(a: Actions)
  {
    forall h :: h in a.byHandle ==> |a.byHandle[h]| > 0
  }

  /** `RegisterAbilityAction`: appends the action to the list and to its
   *  handle's entry (creating it) and turns ticking on. */
  function RegisterAbilityAction(a: Actions, h: int, action: nat): (r: Actions)
    ensures r.list == a.list + [action]
    ensures h in r.byHandle && r.byHandle[h] == (if h in a.byHandle then a.byHandle[h] else []) + [action]
    ensures forall k :: k != h ==> (k in r.byHandle <==> k in a.byHandle) && (k in a.byHandle ==> r.byHandle[k] == a.byHandle[k])
    ensures r.tickEnabled
    ensures NoEmptyEntries(a) ==> NoEmptyEntries(r)
  {
    var entry := if h in a.byHandle then a.byHandle[h] else [];
    Actions(a.list + [action], a.byHandle[h := entry + [action]], true)
  }

  /**
   * `OnAbilityActionCleanup`: removes the action from the list and from its
   * handle's entry, deletes the entry once empty, and ticks exactly while
   * actions remain.
   */
  function OnAbilityActionCleanup(a: Actions, h: int, action: nat): (r: Actions)
    ensures r.list == RemoveAll(a.list, action) && action !in r.list
    ensures h in r.byHandle ==> h in a.byHandle && r.byHandle[h] == RemoveAll(a.byHandle[h], action)
    ensures h in a.byHandle && |RemoveAll(a.byHandle[h], action)| == 0 ==> h !in r.byHandle
    ensures forall k :: k != h ==> (k in r.byHandle <==> k in a.byHandle) && (k in a.byHandle ==> r.byHandle[k] == a.byHandle[k])
    ensures r.tickEnabled <==> |r.list| != 0
    ensures NoEmptyEntries(a) ==> NoEmptyEntries(r)
  {
    var list := RemoveAll(a.list, action);
    var byHandle :=
      if h in a.byHandle then
        var entry := RemoveAll(a.byHandle[h], action);
        if |entry| == 0 then a.byHandle - {h} else a.byHandle[h := entry]
      else a.byHandle;
    Actions(list, byHandle, |list| != 0)
  }

  /** Registering a new action and cleaning it up again restores the list
   *  and the map exactly; ticking then follows the list. */
  lemma RegisterThenCleanup(a: Actions, h: int, action: nat)
    requires NoEmptyEntries(a)
    requires action !in a.list
    requires h in a.byHandle ==> action !in a.byHandle[h]
    ensures var r := OnAbilityActionCleanup(RegisterAbilityAction(a, h, action), h, action);
      r.list == a.list && r.byHandle == a.byHandle && (r.tickEnabled <==> |a.list| != 0)
  {
    RemoveAllUndoesAppend(a.list, action);
    var entry := if h in a.byHandle then a.byHandle[h] else [];
    RemoveAllUndoesAppend(entry, action);
  }

  /* ---------------------------------------------------------------------- */
  /* Instances                                                              */
  /* ---------------------------------------------------------------------- */

  /** The instances whose startup has completed, in order. */
  function KeepStarted(s: seq<InstanceData>): (r: seq<InstanceData>)
    ensures |r| <= |s|
  {
    if |s| == 0 then [] else (if s[0].startupComplete then [s[0]] else []) + KeepStarted(s[1..])
  }

  /** What `KeepStarted` keeps: exactly the started instances. */
  lemma {:induction false} KeepStartedMembers(s: seq<InstanceData>)
    ensures forall x :: x in KeepStarted(s) <==> x in s && x.startupComplete
    decreases |s|
  {
    if |s| > 0 {
      KeepStartedMembers(s[1..]);
      assert forall x :: x in s <==> x == s[0] || x in s[1..];
    }
  }

  /** Some instance that has not finished its startup carries the handle. */
  predicate UnstartedHandle(s: seq<InstanceData>, h: int)
  {
    exists i :: 0 <= i < |s| && !s[i].startupComplete && s[i].handle == h
  }

  /**
   * `InterruptAbilityComponent`: walks the instances from the last to the
   * first and removes every one whose startup is not complete, reporting
   * each removed handle. Returns the remaining instances and the handles
   * interrupted, in the order they were broadcast.
   */
  method InterruptAbilityComponent(s: seq<InstanceData>) returns (kept: seq<InstanceData>, interrupted: seq<int>)
    ensures kept == KeepStarted(s)
    ensures |kept| + |interrupted| == |s|
    ensures forall h :: h in interrupted ==> UnstartedHandle(s, h)
  {
    kept := s;
    interrupted := [];
    var index := |s|;
    while index > 0
      invariant 0 <= index <= |s|
      invariant kept == s[..index] + KeepStarted(s[index..])
      invariant |kept| + |interrupted| == |s|
      invariant forall h :: h in interrupted ==> UnstartedHandle(s, h)
    {
      index := index - 1;
      ghost var rest := KeepStarted(s[index + 1..]);
      KeepStartedStep(s, index);
      assert kept == s[..index] + [s[index]] + rest by {
        assert s[..index + 1] == s[..index] + [s[index]];
      }
      if !s[index].startupComplete {
        assert UnstartedHandle(s, s[index].handle);
        interrupted := interrupted + [s[index].handle];
        assert kept[..index] == s[..index];
        assert kept[index + 1..] == rest;
        kept := kept[..index] + kept[index + 1..];
      }
    }
    assert s[..0] + s[0..] == s;
  }

  /** One step of `KeepStarted` from position `i`. */
  lemma KeepStartedStep(s: seq<InstanceData>, i: nat)
    requires i < |s|
    ensures KeepStarted(s[i..]) == (if s[i].startupComplete then [s[i]] else []) + KeepStarted(s[i + 1..])
  {
    assert s[i..][1..] == s[i + 1..];
  }

  /** The last index below `n` holding an instance the scan of
   *  `InterruptAbility` stops at. */
  function LastStop(s: seq<InstanceData>, n: nat, stop: InstanceData -> bool): (r: Option<nat>)
    requires n <= |s|
    ensures r.Some? ==> r.value < n && stop(s[r.value])
    ensures r.Some? ==> forall j :: r.value < j < n ==> !stop(s[j])
    ensures r.None? ==> forall j :: 0 <= j < n ==> !stop(s[j])
    decreases n
  {
    if n == 0 then None
    else if stop(s[n - 1]) then Some(n - 1)
    else LastStop(s, n - 1, stop)
  }

  /** Removes the element at `i`. */
  function RemoveAt<T>(s: seq<T>, i: nat): (r: seq<T>)
    requires i < |s|
    ensures |r| == |s| - 1
    ensures forall j :: 0 <= j < i ==> r[j] == s[j]
    ensures forall j :: i <= j < |r| ==> r[j] == s[j + 1]
  {
    s[..i] + s[i + 1..]
  }

  /**
   * `InterruptAbility` as written: the scan skips an instance only when it
   * has started AND has the requested handle, so it removes the last
   * instance that is not exactly that started instance, whichever handle it
   * has.
   */
  function InterruptAbilityAsWritten(s: seq<InstanceData>, h: int): (r: (seq<InstanceData>, bool))
    ensures r.1 <==> exists i :: 0 <= i < |s| && !(s[i].startupComplete && s[i].handle == h)
    ensures !r.1 ==> r.0 == s
    ensures r.1 ==> |r.0| == |s| - 1
  {
    var found := LastStop(s, |s|, (x: InstanceData) => !(x.startupComplete && x.handle == h));
    if found.Some? then (RemoveAt(s, found.value), true) else (s, false)
  }

  /** Interrupting handle 1 among two unstarted instances removes the one
   *  with handle 2 and leaves the requested instance running. */
  lemma InterruptAbilityRemovesWrongInstance()
    ensures var a := InstanceData(1, Some(7), UnsetTime, UnsetTime, [], false);
      var b := InstanceData(2, Some(7), UnsetTime, UnsetTime, [], false);
      InterruptAbilityAsWritten([a, b], 1) == ([a], true)
  {
    var a := InstanceData(1, Some(7), UnsetTime, UnsetTime, [], false);
    var b := InstanceData(2, Some(7), UnsetTime, UnsetTime, [], false);
    assert RemoveAt([a, b], 1) == [a];
  }

  /**
   * `InterruptAbility` as evidently intended: skip instances that have
   * started or carry another handle, so the last unstarted instance with
   * the requested handle is removed, and nothing else.
   */
  function InterruptAbility(s: seq<InstanceData>, h: int): (r: (seq<InstanceData>, bool))
    ensures r.1 <==> exists i :: 0 <= i < |s| && !s[i].startupComplete && s[i].handle == h
    ensures !r.1 ==> r.0 == s
    ensures r.1 ==> exists i :: 0 <= i < |s| && !s[i].startupComplete && s[i].handle == h && r.0 == RemoveAt(s, i)
    ensures forall x :: x in s && (x.startupComplete || x.handle != h) ==> x in r.0
  {
    var found := LastStop(s, |s|, (x: InstanceData) => !x.startupComplete && x.handle == h);
    if found.Some? then
      var r := RemoveAt(s, found.value);
      assert forall j :: 0 <= j < |s| && j != found.value ==> s[j] in r by {
        forall j | 0 <= j < |s| && j != found.value ensures s[j] in r {
          if j < found.value { assert r[j] == s[j]; } else { assert r[j - 1] == s[j]; }
        }
      }
      (r, true)
    else (s, false)
  }

  /** With handles unique among the instances, the intended interrupt leaves
   *  no unstarted instance with the handle behind. */
  lemma InterruptAbilityClearsHandle(s: seq<InstanceData>, h: int)
    requires forall i, j :: 0 <= i < j < |s| ==> s[i].handle != s[j].handle
    ensures forall x :: x in InterruptAbility(s, h).0 ==> x.startupComplete || x.handle != h
  {
    var r := InterruptAbility(s, h);
    if r.1 {
      var i :| 0 <= i < |s| && !s[i].startupComplete && s[i].handle == h && r.0 == RemoveAt(s, i);
      forall x | x in r.0 ensures x.startupComplete || x.handle != h {
        var k :| 0 <= k < |r.0| && r.0[k] == x;
        if k < i { assert x == s[k]; } else { assert x == s[k + 1]; }
      }
    }
  }

  /** `IsHandleValid`: some instance has the handle. */
  method IsHandleValid(s: seq<InstanceData>, h: int) returns (valid: bool)
    ensures valid <==> exists i :: 0 <= i < |s| && s[i].handle == h
  {
    var i := 0;
    while i < |s|
      invariant 0 <= i <= |s|
      invariant forall j :: 0 <= j < i ==> s[j].handle != h
    {
      if s[i].handle == h {
        return true;
      }
      i := i + 1;
    }
    return false;
  }

  /** `GetAbilityTargetDataStartupTime`: the target's own window unless it
   *  is unset, else the instance's. */
  function TargetStartupTime(inst: InstanceData, t: TargetData): (r: Vec2)
    ensures t.startupTime != UnsetTime ==> r == t.startupTime
    ensures t.startupTime == UnsetTime ==> r == inst.startupTime
  {
    if t.startupTime != UnsetTime then t.startupTime else inst.startupTime
  }

  /** `GetAbilityTargetDataActivationTime`, with the same fallback. */
  function TargetActivationTime(inst: InstanceData, t: TargetData): (r: Vec2)
    ensures t.activationTime != UnsetTime ==> r == t.activationTime
    ensures t.activationTime == UnsetTime ==> r == inst.activationTime
  {
    if t.activationTime != UnsetTime then t.activationTime else inst.activationTime
  }

  /** A resolved time is unset only when both the target and the instance
   *  leave it unset; a set instance time fills any unset target time. */
  lemma ResolvedTimeUnsetIffBoth(inst: InstanceData, t: TargetData)
    ensures TargetStartupTime(inst, t) == UnsetTime <==> t.startupTime == UnsetTime && inst.startupTime == UnsetTime
    ensures TargetActivationTime(inst, t) == UnsetTime <==> t.activationTime == UnsetTime && inst.activationTime == UnsetTime
  {
  }

  /* ---------------------------------------------------------------------- */
  /* Stale target cleanup                                                   */
  /* ---------------------------------------------------------------------- */

  /**
   * The target scan of `OnTargetDataDestructionReady`: every target with the
   * handle is marked stale; the scan stops at the first other target that is
   * not stale, and reports whether it got through (all other targets stale).
   */
  function ScanTargets(ts: seq<TargetData>, th: int): (r: (seq<TargetData>, bool))
    ensures |r.0| == |ts|
    ensures r.1 <==> forall i :: 0 <= i < |ts| ==> ts[i].handle == th || ts[i].stale
    ensures forall i :: 0 <= i < |ts| ==> r.0[i].(stale := ts[i].stale) == ts[i]
    ensures forall i :: 0 <= i < |ts| && ts[i].stale ==> r.0[i].stale
    ensures r.1 ==> forall i :: 0 <= i < |ts| ==> r.0[i].stale
    decreases |ts|
  {
    if |ts| == 0 then ([], true)
    else if ts[0].handle == th then
      var rest := ScanTargets(ts[1..], th);
      ([MarkStale(ts[0]).0] + rest.0, rest.1)
    else if !ts[0].stale then (ts, false)
    else
      var rest := ScanTargets(ts[1..], th);
      ([ts[0]] + rest.0, rest.1)
  }

  /**
   * `OnTargetDataDestructionReady`: finds the last instance with the
   * handle (nothing happens without one), scans its targets, and removes the
   * instance when all its other targets were already stale; otherwise the
   * instance stays with its scanned targets.
   */
  function OnTargetDataDestructionReady(s: seq<InstanceData>, ih: int, th: int): (r: seq<InstanceData>)
    ensures (forall i :: 0 <= i < |s| ==> s[i].handle != ih) ==> r == s
    ensures forall i :: 0 <= i < |s| && s[i].handle == ih && (forall j :: i < j < |s| ==> s[j].handle != ih) ==>
      (ScanTargets(s[i].targets, th).1 ==> r == RemoveAt(s, i))
      && (!ScanTargets(s[i].targets, th).1 ==> r == s[i := s[i].(targets := ScanTargets(s[i].targets, th).0)])
  {
    var found := LastStop(s, |s|, (x: InstanceData) => x.handle == ih);
    if found.None? then s
    else
      var i := found.value;
      var (scanned, allStale) := ScanTargets(s[i].targets, th);
      if allStale then RemoveAt(s, i) else s[i := s[i].(targets := scanned)]
  }

  /* ---------------------------------------------------------------------- */
  /* Rebuild after replication                                              */
  /* ---------------------------------------------------------------------- */

  /** The set of classes in the data list. */
  function ClassesOf(list: seq<AbilityData>): set<Cls>
  {
    set i | 0 <= i < |list| :: list[i].abilityClass
  }

  /** `list[i]` is the last entry of the class. */
  predicate IsLastOfClass(list: seq<AbilityData>, i: int, cls: Cls)
  {
    0 <= i < |list| && list[i].abilityClass == cls && forall j :: i < j < |list| ==> list[j].abilityClass != cls
  }

  /** The rebuilt `AbilityDataIndexMap`: each class to its position, built
   *  front to back so a repeated class ends at its last position. */
  function IndexMapOf(list: seq<AbilityData>): (m: IndexMap)
    ensures m.Keys == ClassesOf(list)
    ensures forall c :: c in m ==> IsLastOfClass(list, m[c], c)
    decreases |list|
  {
    if |list| == 0 then map[]
    else
      var init := list[..|list| - 1];
      var last := list[|list| - 1];
      var m0 := IndexMapOf(init);
      assert ClassesOf(list) == ClassesOf(init) + {last.abilityClass} by {
        assert forall i :: 0 <= i < |init| ==> init[i] == list[i];
      }
      m0[last.abilityClass := |list| - 1]
  }

  /** The outcome of `OnRep_AbilityDataList`: the rebuilt index map, the new
   *  previous-data map and the entries reported added, changed (new and old
   *  data) and removed. */
  datatype Rebuild = Rebuild(indexMap: IndexMap, dataMap: map<Cls, AbilityData>,
                             added: set<AbilityData>, changed: set<(AbilityData, AbilityData)>,
                             removed: set<AbilityData>)

  /**
   * `OnRep_AbilityDataList`: the class→data map of the new list is compared
   * with the previous one; classes only in the new map are added, classes in
   * both whose data differ (by `operator==`) changed, and classes only in the
   * previous map removed. The new map becomes the previous one.
   */
  function OnRepAbilityDataList(list: seq<AbilityData>, previous: map<Cls, AbilityData>): (r: Rebuild)
    ensures r.indexMap == IndexMapOf(list)
    ensures r.dataMap.Keys == ClassesOf(list)
    ensures forall c :: c in r.dataMap ==> r.dataMap[c] == list[r.indexMap[c]] && r.dataMap[c].abilityClass == c
    ensures forall d :: d in r.added ==> d.abilityClass in r.dataMap && r.dataMap[d.abilityClass] == d && d.abilityClass !in previous
    ensures forall c :: c in r.dataMap && c !in previous ==> r.dataMap[c] in r.added
    ensures forall d :: d in r.removed ==> d in previous.Values && d.abilityClass !in r.dataMap
    ensures forall p :: p in r.changed ==>
      && p.0.abilityClass in previous && p.0.abilityClass in r.dataMap && p.0 == r.dataMap[p.0.abilityClass]
      && p.1 == previous[p.0.abilityClass] && !SameData(p.0, p.1)
    ensures forall c :: c in r.dataMap && c in previous && !SameData(r.dataMap[c], previous[c]) ==>
      (r.dataMap[c], previous[c]) in r.changed
    ensures forall c :: c in previous && previous[c].abilityClass !in r.dataMap ==> previous[c] in r.removed
  {
    var indexMap := IndexMapOf(list);
    var dataMap := map c | c in indexMap :: list[indexMap[c]];
    Rebuild(indexMap, dataMap,
            set c | c in dataMap && c !in previous :: dataMap[c],
            set c | c in dataMap && c in previous && !SameData(dataMap[c], previous[c]) :: (dataMap[c], previous[c]),
            set c | c in previous && previous[c].abilityClass !in dataMap :: previous[c])
  }

  /** With unique classes the rebuilt index map sends every class to its own
   *  list position, so every later lookup takes the cached path. */
  lemma RebuiltIndexMapIsPositions(list: seq<AbilityData>, previous: map<Cls, AbilityData>, i: nat)
    requires UniqueClasses(list) && i < |list|
    ensures var m := OnRepAbilityDataList(list, previous).indexMap;
      list[i].abilityClass in m && m[list[i].abilityClass] == i && FastHit(list, m, list[i].abilityClass)
  {
    var m := OnRepAbilityDataList(list, previous).indexMap;
    assert list[i].abilityClass in ClassesOf(list);
  }

  /** Replaying an unchanged list reports nothing. */
  lemma OnRepIdempotent(list: seq<AbilityData>, previous: map<Cls, AbilityData>)
    ensures var r1 := OnRepAbilityDataList(list, previous);
      var r2 := OnRepAbilityDataList(list, r1.dataMap);
      r2.added == {} && r2.changed == {} && r2.removed == {} && r2.dataMap == r1.dataMap
  {
    var r1 := OnRepAbilityDataList(list, previous);
    var r2 := OnRepAbilityDataList(list, r1.dataMap);
    assert forall d :: d !in r2.added;
  }
}

=== FILE: ability_types.dfy ===
/**
 * Ability bookkeeping records: `FAbilityData` (one ability class known to a
 * component and its charges), `FAbilityTargetData` (what an ability instance
 * aims at) and `FAbilityInstanceData` (one cast of an ability). Engine
 * objects are ids, transforms are opaque ids compared exactly, times are
 * `real` pairs, and the static handle counters are passed in and returned.
 */
module AbilityTypes {
  import opened Common
  import opened Handles

  /** `FVector2D`; `(-1, -1)` is the "not set" value of every time pair. */
  datatype Vec2 = Vec2(x: real, y: real)

  const UnsetTime: Vec2 := Vec2(-1.0, -1.0)

  /* ---------------------------------------------------------------------- */
  /* Ability data and charges                                               */
  /* ---------------------------------------------------------------------- */

  /** The class default object of a `UAbilityInfo`: the values the ability
   *  data is built from. */
  datatype AbilityInfo = AbilityInfo(initialChargeCount: int, castDuration: real, abilityDuration: real)

  /** `GetMaxChargeCount` returns the initial charge count. */
  function MaxChargeCount(info: AbilityInfo): int { info.initialChargeCount }

  /** `GetRechargeDuration` also returns the initial charge count. */
  function RechargeDuration(info: AbilityInfo): real { info.initialChargeCount as real }

  /** `FAbilityData`. `rechargeTimer` stands for the timer handle, which
   *  equality ignores. A charge count of -1 means unlimited charges. */
  datatype AbilityData = AbilityData(abilityClass: Option<nat>, chargeCount: int,
                                     rechargeTime: Vec2, rechargeTimer: nat)

  /** The default-constructed (and static invalid) ability data. */
  const InvalidAbilityData: AbilityData := AbilityData(None, IndexNone, UnsetTime, 0)

  predicate IsValidData(d: AbilityData) { d.abilityClass.Some? }

  /** `HasCharge`: anything but zero, so unlimited (-1) counts as charged. */
  predicate HasCharge(d: AbilityData)
  {
    d.chargeCount == IndexNone || d.chargeCount != 0
  }

  /** `IncrementChargeCount`: returns the data and the new count. */
  function IncrementChargeCount(d: AbilityData): (r: (AbilityData, int))
    ensures r.1 == d.chargeCount + 1 && r.0.chargeCount == r.1
    ensures r.0.(chargeCount := d.chargeCount) == d
  {
    var c := d.chargeCount + 1;
    (d.(chargeCount := c), c)
  }

  /** `ConsumeCharge`: unlimited charges are never used up; zero charges
   *  cannot be consumed; otherwise one charge is used. */
  function ConsumeCharge(d: AbilityData): (r: (AbilityData, bool))
    ensures r.1 <==> HasCharge(d)
    ensures d.chargeCount == IndexNone || d.chargeCount == 0 ==> r.0 == d
    ensures d.chargeCount != IndexNone && d.chargeCount != 0 ==> r.0.chargeCount == d.chargeCount - 1
    ensures r.0.(chargeCount := d.chargeCount) == d
  {
    if d.chargeCount == IndexNone then (d, true)
    else if d.chargeCount != 0 then (d.(chargeCount := d.chargeCount - 1), true)
    else (d, false)
  }

  /** Consuming then recharging restores a limited, charged ability. */
  lemma ConsumeThenIncrement(d: AbilityData)
    requires d.chargeCount > 0
    ensures IncrementChargeCount(ConsumeCharge(d).0).0 == d
  {
  }

  /** A positive count can be consumed exactly that many times. */
  lemma {:induction false} ChargesLastExactly(d: AbilityData, k: nat)
    requires d.chargeCount >= 0
    ensures ConsumeTimes(d, k).chargeCount == Max(d.chargeCount - k, 0)
    ensures HasCharge(ConsumeTimes(d, k)) <==> k < d.chargeCount
    decreases k
  {
    if k > 0 {
      ChargesLastExactly(ConsumeCharge(d).0, k - 1);
    }
  }

  /** `k` consumptions in a row. */
  function ConsumeTimes(d: AbilityData, k: nat): AbilityData
    decreases k
  {
    if k == 0 then d else ConsumeTimes(ConsumeCharge(d).0, k - 1)
  }

  /** `operator==`: class, charge count and recharge time; not the timer. */
  predicate SameData(a: AbilityData, b: AbilityData)
  {
    a.abilityClass == b.abilityClass && a.chargeCount == b.chargeCount && a.rechargeTime == b.rechargeTime
  }

  /** Equality of ability data is an equivalence that ignores the timer. */
  lemma SameDataIgnoresTimer(a: AbilityData, b: AbilityData, c: AbilityData, timer: nat)
    ensures SameData(a, a.(rechargeTimer := timer))
    ensures SameData(a, b) ==> SameData(b, a)
    ensures SameData(a, b) && SameData(b, c) ==> SameData(a, c)
    ensures SameData(a, b) <==> a.(rechargeTimer := 0) == b.(rechargeTimer := 0)
  {
  }

  /**
   * The value constructor: a missing class or class default object gives the
   * invalid data. Otherwise the count is the initial count when positive and
   * unlimited (-1) otherwise. A recharge time is only set when the count is
   * limited and below the maximum, which never happens because the maximum
   * is the initial count itself.
   */
  function MakeAbilityData(cls: Option<nat>, cdo: Option<AbilityInfo>, worldTime: real): (d: AbilityData)
    ensures IsValidData(d) <==> cls.Some? && cdo.Some?
    ensures !IsValidData(d) ==> d == InvalidAbilityData
    ensures IsValidData(d) ==> d.abilityClass == cls
    ensures IsValidData(d) && cdo.value.initialChargeCount > 0 ==> d.chargeCount == cdo.value.initialChargeCount
    ensures IsValidData(d) && cdo.value.initialChargeCount <= 0 ==> d.chargeCount == IndexNone
    ensures d.rechargeTime == UnsetTime
    ensures HasCharge(d)
  {
    if cls.None? || cdo.None? then InvalidAbilityData
    else
      var info := cdo.value;
      var count := if info.initialChargeCount > 0 then info.initialChargeCount else IndexNone;
      var recharge := if count != IndexNone && MaxChargeCount(info) > count
                      then Vec2(worldTime, worldTime + RechargeDuration(info))
                      else UnsetTime;
      AbilityData(cls, count, recharge, 0)
  }

  /* ---------------------------------------------------------------------- */
  /* Target data                                                            */
  /* ---------------------------------------------------------------------- */

  /** `ETargetDataType`. */
  datatype TargetType = Actor | ActorRelativeTransform | Transform | MovingTransform | Invalid

  /** An `FTransform`, compared exactly; 0 is the identity. */
  type Xform = nat

  const Identity: Xform := 0

  /** `FAbilityTargetData`. */
  datatype TargetData = TargetData(handle: int, targetType: TargetType,
                                   startupTime: Vec2, activationTime: Vec2, targetSize: Vec2,
                                   targetActor: Option<nat>, transform: Xform,
                                   destination: Xform, moveTime: Vec2, stale: bool)

  /** The default-constructed target data: invalid handle and type. */
  const DefaultTargetData: TargetData :=
    TargetData(InvalidHandle, Invalid, UnsetTime, UnsetTime, UnsetTime, None, Identity, Identity, UnsetTime, false)

  /** `IsValid`: a valid handle and a real type. */
  predicate IsValidTarget(t: TargetData)
  {
    IsValidHandle(t.handle) && t.targetType != Invalid
  }

  /** `MarkStale`: sets the flag and returns true. */
  function MarkStale(t: TargetData): (r: (TargetData, bool))
    ensures r.0.stale && r.1
    ensures r.0.(stale := t.stale) == t
  {
    (t.(stale := true), true)
  }

  /** Staleness is sticky: marking again changes nothing. */
  lemma MarkStaleSticky(t: TargetData)
    ensures MarkStale(MarkStale(t).0).0 == MarkStale(t).0
    ensures t.stale ==> MarkStale(t).0 == t
  {
  }

  /**
   * `GenerateTargetActorData`: a null actor gives the default target data
   * and generates no handle. Otherwise a fresh handle is generated and the
   * type is `Actor` for the identity transform, `ActorRelativeTransform`
   * for any other. Returns the data and the new counter.
   */
  function GenerateTargetActorData(actor: Option<nat>, relative: Xform, counter: int): (r: (TargetData, int))
    requires IsUint64(counter)
    ensures actor.None? ==> r == (DefaultTargetData, counter) && !IsValidTarget(r.0)
    ensures actor.Some? ==> IsValidTarget(r.0) && r.0.handle == r.1 == GenerateHandle(counter)
    ensures actor.Some? ==> (r.0.targetType == Actor <==> relative == Identity)
    ensures actor.Some? ==> r.0.targetType in {Actor, ActorRelativeTransform}
    ensures actor.Some? ==> r.0.targetActor == actor && r.0.transform == relative && !r.0.stale
  {
    if actor.None? then (DefaultTargetData, counter)
    else
      var h := GenerateHandle(counter);
      var kind := if relative == Identity then Actor else ActorRelativeTransform;
      (DefaultTargetData.(handle := h, targetType := kind, targetActor := actor, transform := relative), h)
  }

  /** `GenerateTargetLocationData`: always a fresh handle and type `Transform`. */
  function GenerateTargetLocationData(transform: Xform, counter: int): (r: (TargetData, int))
    requires IsUint64(counter)
    ensures IsValidTarget(r.0) && r.0.targetType == Transform
    ensures r.0.handle == r.1 == GenerateHandle(counter)
    ensures r.0.transform == transform && r.0.targetActor.None?
  {
    var h := GenerateHandle(counter);
    (DefaultTargetData.(handle := h, targetType := Transform, transform := transform), h)
  }

  /** `GenerateTargetMovingLocationData`: a location target retyped as
   *  `MovingTransform` with a destination and a move time. */
  function GenerateTargetMovingLocationData(transform: Xform, destination: Xform, moveTime: Vec2, counter: int): (r: (TargetData, int))
    requires IsUint64(counter)
    ensures IsValidTarget(r.0) && r.0.targetType == MovingTransform
    ensures r.0.handle == r.1 == GenerateHandle(counter)
    ensures r.0.destination == destination && r.0.moveTime == moveTime
    ensures r.0.(targetType := Transform, destination := Identity, moveTime := UnsetTime)
            == GenerateTargetLocationData(transform, counter).0
  {
    var (t, c) := GenerateTargetLocationData(transform, counter);
    (t.(targetType := MovingTransform, destination := destination, moveTime := moveTime), c)
  }

  /* ---------------------------------------------------------------------- */
  /* Target data cache                                                      */
  /* ---------------------------------------------------------------------- */

  /** The handles that occur in a target list. */
  function HandlesOf(list: seq<TargetData>): set<int>
  {
    set i | 0 <= i < |list| :: list[i].handle
  }

  /** A cache is keyed by each entry's own handle. */
  predicate KeyedByHandle(cache: map<int, TargetData>)
  {
    forall k :: k in cache ==> cache[k].handle == k
  }

  /** `list[i]` is the last entry of the list with handle `k`. */
  predicate IsLastFor(list: seq<TargetData>, i: int, k: int)
  {
    0 <= i < |list| && list[i].handle == k && forall j :: i < j < |list| ==> list[j].handle != k
  }

  /**
   * The list as a map from handle to entry, built front to back with each
   * `Add` overwriting, so the last entry with a handle wins.
   */
  function KeyByHandle(list: seq<TargetData>): (m: map<int, TargetData>)
    ensures m.Keys == HandlesOf(list)
    ensures KeyedByHandle(m)
    decreases |list|
  {
    if |list| == 0 then map[]
    else
      var init := list[..|list| - 1];
      var last := list[|list| - 1];
      assert HandlesOf(list) == HandlesOf(init) + {last.handle} by {
        assert forall i :: 0 <= i < |init| ==> init[i] == list[i];
      }
      KeyByHandle(init)[last.handle := last]
  }

  /** Each handle of the keyed list maps to the last entry carrying it. */
  lemma {:induction false} KeyByHandleKeepsLast(list: seq<TargetData>, k: int)
    requires k in KeyByHandle(list)
    ensures exists i :: IsLastFor(list, i, k) && list[i] == KeyByHandle(list)[k]
    decreases |list|
  {
    var init := list[..|list| - 1];
    var last := list[|list| - 1];
    if k == last.handle {
      assert IsLastFor(list, |list| - 1, k);
    } else {
      assert k in KeyByHandle(init);
      KeyByHandleKeepsLast(init, k);
      var i :| IsLastFor(init, i, k) && init[i] == KeyByHandle(init)[k];
      assert IsLastFor(list, i, k);
    }
  }

  /** The outcome of `UpdateTargetDataCache`. */
  datatype CacheUpdate = CacheUpdate(added: set<TargetData>, removed: set<TargetData>, cache: map<int, TargetData>)

  /**
   * `UpdateTargetDataCache`: with an empty cache every listed entry is
   * reported added and nothing removed; otherwise the added entries are the
   * listed ones whose handle was not cached and the removed ones the cached
   * entries whose handle is no longer listed. The cache becomes the list
   * keyed by handle.
   */
  function UpdateTargetDataCache(list: seq<TargetData>, cache: map<int, TargetData>): (u: CacheUpdate)
    requires KeyedByHandle(cache)
    ensures u.cache == KeyByHandle(list) && KeyedByHandle(u.cache)
    ensures u.cache.Keys == HandlesOf(list)
    ensures |cache| == 0 ==> u.removed == {} && (forall t :: t in u.added <==> t in list)
    ensures |cache| > 0 ==> forall t :: t in u.added <==>
      t.handle in u.cache && u.cache[t.handle] == t && t.handle !in cache
    ensures |cache| > 0 ==> forall t :: t in u.removed <==>
      t.handle in cache && cache[t.handle] == t && t.handle !in HandlesOf(list)
  {
    var next := KeyByHandle(list);
    if |cache| == 0 then CacheUpdate(set t | t in list, {}, next)
    else
      CacheUpdate(set k | k in next && k !in cache :: next[k],
                  set k | k in cache && k !in next :: cache[k],
                  next)
  }

  /** After an update against a nonempty cache the handles of the new cache
   *  are the old ones, minus the removed, plus the added. */
  lemma CacheUpdateAccountsForEveryHandle(list: seq<TargetData>, cache: map<int, TargetData>)
    requires KeyedByHandle(cache) && |cache| > 0
    ensures var u := UpdateTargetDataCache(list, cache);
      u.cache.Keys == (cache.Keys - (set t | t in u.removed :: t.handle)) + (set t | t in u.added :: t.handle)
  {
    var u := UpdateTargetDataCache(list, cache);
    var removedH := set t | t in u.removed :: t.handle;
    var addedH := set t | t in u.added :: t.handle;
    forall k | k in u.cache.Keys
      ensures k in (cache.Keys - removedH) + addedH
    {
      if k !in cache {
        assert u.cache[k] in u.added;
      }
    }
    forall k | k in (cache.Keys - removedH) + addedH
      ensures k in u.cache.Keys
    {
    }
  }

  /* ---------------------------------------------------------------------- */
  /* Instance data                                                          */
  /* ---------------------------------------------------------------------- */

  /** `FAbilityInstanceData`: a handle, the ability class, the cast and
   *  activation windows, the target list and the startup-complete flag. */
  datatype InstanceData = InstanceData(handle: int, abilityClass: Option<nat>,
                                       startupTime: Vec2, activationTime: Vec2,
                                       targets: seq<TargetData>, startupComplete: bool)

  /** `IsValid`: a valid handle and a class. */
  predicate IsValidInstance(i: InstanceData)
  {
    IsValidHandle(i.handle) && i.abilityClass.Some?
  }

  /** `MarkStartupComplete`; there is no way back. */
  function MarkStartupComplete(i: InstanceData): (r: InstanceData)
    ensures r.startupComplete
    ensures r.(startupComplete := i.startupComplete) == i
  {
    i.(startupComplete := true)
  }

  /**
   * `GenerateInstanceData`: an instance of the class with the targets and a
   * freshly generated handle, which is also handed back through the optional
   * out-parameter. Returns the instance, the new counter and the out value.
   */
  function GenerateInstanceData(cls: Option<nat>, targets: seq<TargetData>, counter: int, wantsHandle: bool)
    : (r: (InstanceData, int, Option<int>))
    requires IsUint64(counter)
    ensures r.0.handle == r.1 == GenerateHandle(counter) && IsValidHandle(r.0.handle)
    ensures r.0.abilityClass == cls && r.0.targets == targets
    ensures r.0.startupTime == UnsetTime && r.0.activationTime == UnsetTime && !r.0.startupComplete
    ensures IsValidInstance(r.0) <==> cls.Some?
    ensures wantsHandle ==> r.2 == Some(r.0.handle)
    ensures !wantsHandle ==> r.2.None?
  {
    var h := GenerateHandle(counter);
    var inst := InstanceData(h, cls, UnsetTime, UnsetTime, targets, false);
    (inst, h, if wantsHandle then Some(h) else None)
  }

  /** Two instances generated one after another from the same counter have
   *  different handles. */
  lemma SuccessiveInstancesDiffer(c1: Option<nat>, c2: Option<nat>, t1: seq<TargetData>, t2: seq<TargetData>, counter: int)
    requires IsUint64(counter)
    ensures var (a, next, _) := GenerateInstanceData(c1, t1, counter, false);
      GenerateInstanceData(c2, t2, next, false).0.handle != a.handle
  {
    var (a, next, _) := GenerateInstanceData(c1, t1, counter, false);
    HandlesDistinct(counter, 2);
    assert GenerateHandles(counter, 2) == [a.handle, GenerateHandle(next)];
  }

  /**
   * `InitializeAbilityInstance`: fails and changes nothing when the owning
   * component, its world or game state (`hasContext`), the instance's class
   * or the class default object is missing. Otherwise, at server time `t`, a
   * positive cast duration sets the startup window `(t, t + cast)`, and a
   * positive ability duration sets the activation window to start when the
   * cast ends (or at `t` without a cast) and last that long.
   */
  function InitializeAbilityInstance(i: InstanceData, hasContext: bool, cdo: Option<AbilityInfo>, t: real)
    : (r: (InstanceData, bool))
    ensures r.1 <==> hasContext && i.abilityClass.Some? && cdo.Some?
    ensures !r.1 ==> r.0 == i
    ensures r.0.(startupTime := i.startupTime, activationTime := i.activationTime) == i
    ensures r.1 && cdo.value.castDuration > 0.0 ==> r.0.startupTime == Vec2(t, t + cdo.value.castDuration)
    ensures r.1 && cdo.value.castDuration <= 0.0 ==> r.0.startupTime == i.startupTime
    ensures r.1 && cdo.value.abilityDuration <= 0.0 ==> r.0.activationTime == i.activationTime
    ensures r.1 && cdo.value.abilityDuration > 0.0 ==>
      r.0.activationTime.y - r.0.activationTime.x == cdo.value.abilityDuration
      && r.0.activationTime.x == (if cdo.value.castDuration > 0.0 then r.0.startupTime.y else t)
  {
    if !hasContext || i.abilityClass.None? || cdo.None? then (i, false)
    else
      var info := cdo.value;
      var withStartup := if info.castDuration > 0.0
                         then i.(startupTime := Vec2(t, t + info.castDuration)) else i;
      var withActivation :=
        if info.abilityDuration > 0.0 then
          var start := if info.castDuration > 0.0 then withStartup.startupTime.y else t;
          withStartup.(activationTime := Vec2(start, start + info.abilityDuration))
        else withStartup;
      (withActivation, true)
  }

  /** With both a cast and a duration, activation follows the cast without a
   *  gap and ends `cast + duration` after the request. */
  lemma ActivationFollowsCast(i: InstanceData, info: AbilityInfo, t: real)
    requires i.abilityClass.Some? && info.castDuration > 0.0 && info.abilityDuration > 0.0
    ensures var r := InitializeAbilityInstance(i, true, Some(info), t).0;
      r.activationTime.x == r.startupTime.y
      && r.activationTime.y == t + info.castDuration + info.abilityDuration
  {
  }
}

=== FILE: action_brain_data.dfy ===
/**
 * `UActionBrainDataObject` and its environment-query variant: a data object
 * the AI brain reads actors and locations from, under a selection mode
 * that decides which of the two lists is offered, a readiness flag, and
 * the trimming of query results by the query's run mode. The lists a
 * Blueprint or a finished query supplies are inputs, and so is the random
 * roll (`FMath::RandHelper`).
 */
module ActionBrainData {
  import opened Common

  /** `EDataSelectionMode`. */
  datatype SelectionMode = ActorOnly | LocationOnly | PreferActor | PreferLocation | Both

  /** `EEnvQueryRunMode`. */
  datatype RunMode = SingleResult | RandomBest5Pct | RandomBest25Pct | AllMatching

  datatype Vector = Vector(x: real, y: real, z: real)

  /** `FAISystem::InvalidLocation`. */
  const InvalidLocation: Vector := Vector(MaxFlt, MaxFlt, MaxFlt)

  /** The random pick `RandHelper(n)` stands for: a roll reduced into
   *  `[0, n)`. */
  function RandHelper(roll: nat, n: nat): (r: nat)
    requires n > 0
    ensures r < n
  {
    roll % n
  }

  // ---------------------------------------------------------------------
  // Selection modes

  /** `GetListOfActors` for the base object: nothing in LocationOnly mode;
   *  in PreferLocation mode, nothing when there are locations; otherwise
   *  the supplied actors. */
  function ListOfActors<A, L>(mode: SelectionMode, actors: seq<A>, locations: seq<L>): (r: seq<A>)
    ensures r == [] || r == actors
    decreases if mode == PreferLocation then 1 else 0
  {
    match mode
    case LocationOnly => []
    case PreferLocation => if |ListOfLocations(mode, actors, locations)| > 0 then [] else actors
    case _ => actors
  }

  /** `GetListOfLocations`, the mirror image. */
  function ListOfLocations<A, L>(mode: SelectionMode, actors: seq<A>, locations: seq<L>): (r: seq<L>)
    ensures r == [] || r == locations
    decreases if mode == PreferActor then 1 else 0
  {
    match mode
    case ActorOnly => []
    case PreferActor => if |ListOfActors(mode, actors, locations)| > 0 then [] else locations
    case _ => locations
  }

  /** What each mode offers: one list only, the preferred list with the
   *  other as a fallback, or both. */
  lemma SelectionModes<A, L>(mode: SelectionMode, actors: seq<A>, locations: seq<L>)
    ensures mode == LocationOnly ==> ListOfActors(mode, actors, locations) == [] && ListOfLocations(mode, actors, locations) == locations
    ensures mode == ActorOnly ==> ListOfLocations(mode, actors, locations) == [] && ListOfActors(mode, actors, locations) == actors
    ensures mode == PreferLocation ==> ListOfLocations(mode, actors, locations) == locations
    ensures mode == PreferLocation ==> ListOfActors(mode, actors, locations) == (if |locations| > 0 then [] else actors)
    ensures mode == PreferActor ==> ListOfActors(mode, actors, locations) == actors
    ensures mode == PreferActor ==> ListOfLocations(mode, actors, locations) == (if |actors| > 0 then [] else locations)
    ensures mode == Both ==> ListOfActors(mode, actors, locations) == actors && ListOfLocations(mode, actors, locations) == locations
    ensures mode != Both ==> |ListOfActors(mode, actors, locations)| == 0 || |ListOfLocations(mode, actors, locations)| == 0
  {
  }

  /** `GetActor` / `GetLocation`: the fallback for an empty list, the only
   *  element of a singleton, the indexed element for a valid index, and a
   *  random element otherwise. */
  function Pick<T>(list: seq<T>, index: int, roll: nat, empty: T): (r: T)
    ensures |list| == 0 ==> r == empty
    ensures |list| == 1 ==> r == list[0]
    ensures |list| > 1 && 0 <= index < |list| ==> r == list[index]
    ensures |list| > 0 ==> r in list
  {
    if |list| == 0 then empty
    else if |list| == 1 then list[0]
    else if 0 <= index < |list| then list[index]
    else list[RandHelper(roll, |list|)]
  }

  /** The base object: its mode, readiness, and the lists its Blueprint
   *  supplies. An actor may be null. */
  datatype DataObject = DataObject(mode: SelectionMode, ready: bool, actors: seq<Option<nat>>, locations: seq<Vector>)

  function GetActor(d: DataObject, index: int, roll: nat): (r: Option<nat>)
    ensures |ListOfActors(d.mode, d.actors, d.locations)| == 0 ==> r.None?
    ensures r.Some? ==> r in d.actors && (d.mode != LocationOnly)
  {
    Pick(ListOfActors(d.mode, d.actors, d.locations), index, roll, None)
  }

  function GetLocation(d: DataObject, index: int, roll: nat): (r: Vector)
    ensures |ListOfLocations(d.mode, d.actors, d.locations)| == 0 ==> r == InvalidLocation
    ensures r != InvalidLocation ==> r in d.locations && d.mode != ActorOnly
  {
    Pick(ListOfLocations(d.mode, d.actors, d.locations), index, roll, InvalidLocation)
  }

  /** `SetReady`: returns the object and whether `OnActionBrainDataReady`
   *  was broadcast. */
  function SetReady(d: DataObject): (r: (DataObject, bool))
    ensures r.0 == d.(ready := true)
    ensures r.1 <==> !d.ready
  {
    if !d.ready then (d.(ready := true), true) else (d, false)
  }

  /** Readiness is announced once: a second `SetReady` is silent and
   *  changes nothing. */
  lemma SetReadyOnce(d: DataObject)
    ensures SetReady(SetReady(d).0) == (SetReady(d).0, false)
  {
  }

  // ---------------------------------------------------------------------
  // Environment-query results

  /** The fraction of the best results a random run mode draws from. */
  function Fraction(m: RunMode): real
  {
    match m
    case RandomBest5Pct => 0.05
    case RandomBest25Pct => 0.25
    case _ => 1.0
  }

  /** How many of `n` results the random run modes keep before drawing. */
  function BestCount(m: RunMode, n: nat): (r: int)
    ensures r >= 0
  {
    RoundToInt(n as real * Fraction(m))
  }

  /** `ProcessListForRunMode` as written: the random modes keep
   *  `Min(1, …)` results and then draw from them. When that count is 0 the
   *  draw reads the first element of an empty array: `None` marks that. */
  function ProcessListAsWritten<T>(m: RunMode, list: seq<T>, roll: nat): (r: Option<seq<T>>)
    ensures |list| <= 1 || m == AllMatching ==> r == Some(list)
    ensures m == SingleResult && |list| > 1 ==> r == Some(list[..1])
  {
    if |list| <= 1 then Some(list)
    else
      match m
      case SingleResult => Some(list[..1])
      case AllMatching => Some(list)
      case _ =>
        var keep := Min(1, BestCount(m, |list|));
        if keep == 0 then None
        else Some(list[..1])
  }

  /** As written, two results under RandomBest5Pct keep none and the draw
   *  reads past the end; and whenever the random modes do not fail they
   *  always return the first result, never a random one. */
  lemma RandomRunModesAsWritten<T>(list: seq<T>, m: RunMode, roll: nat)
    requires |list| > 1 && (m == RandomBest5Pct || m == RandomBest25Pct)
    ensures |list| == 2 ==> ProcessListAsWritten(RandomBest5Pct, list, roll).None?
    ensures ProcessListAsWritten(m, list, roll).Some? ==> ProcessListAsWritten(m, list, roll) == Some([list[0]])
  {
    assert list[..1] == [list[0]];
    if |list| == 2 {
      assert BestCount(RandomBest5Pct, 2) == 0;
    }
  }

  /** `ProcessListForRunMode` with `Max(1, …)`: the random modes draw one
   *  result from the best share, which is never empty. */
  function ProcessList<T>(m: RunMode, list: seq<T>, roll: nat): (r: seq<T>)
    ensures |list| <= 1 || m == AllMatching ==> r == list
    ensures m == SingleResult && |list| > 1 ==> r == list[..1]
    ensures (m == RandomBest5Pct || m == RandomBest25Pct) && |list| > 1 ==>
      |r| == 1 && exists i :: 0 <= i < Max(1, BestCount(m, |list|)) && i < |list| && r[0] == list[i]
    ensures |r| <= |list| && forall x :: x in r ==> x in list
  {
    if |list| <= 1 then list
    else
      match m
      case SingleResult => list[..1]
      case AllMatching => list
      case _ =>
        var keep := Max(1, BestCount(m, |list|));
        var best := list[..if keep < |list| then keep else |list|];
        var i := RandHelper(roll, |best|);
        assert best[i] == list[i];
        [best[i]]
  }

  /** The two agree wherever the written version does not fail and keeps
   *  a single result in any case. */
  lemma ProcessListAgrees<T>(m: RunMode, list: seq<T>, roll: nat)
    requires m == SingleResult || m == AllMatching || |list| <= 1
    ensures ProcessListAsWritten(m, list, roll) == Some(ProcessList(m, list, roll))
  {
  }

  /** A finished query: whether it succeeded, and its items as actors and
   *  as locations. */
  datatype QueryResult = QueryResult(success: bool, actors: seq<Option<nat>>, locations: seq<Vector>)

  /** `UActionBrainDataObject_EQS`: mode, run mode, readiness and the
   *  current result, if any. */
  datatype EqsObject = EqsObject(mode: SelectionMode, runMode: RunMode, ready: bool, result: Option<QueryResult>)

  /** Whether the object holds a successful result. */
  predicate HasResult(e: EqsObject)
  {
    e.result.Some? && e.result.value.success
  }

  /** `GetListOfActors` for a query: nothing without a successful result,
   *  else the selection rule applied to the result, trimmed by run mode. */
  function EqsActors(e: EqsObject, roll: nat): (r: seq<Option<nat>>)
    decreases if e.mode == PreferLocation then 1 else 0
    ensures !HasResult(e) ==> r == []
    ensures HasResult(e) && e.mode == LocationOnly ==> r == []
    ensures HasResult(e) && (e.mode == ActorOnly || e.mode == Both || e.mode == PreferActor) ==>
      r == ProcessList(e.runMode, e.result.value.actors, roll)
    ensures forall x :: x in r ==> HasResult(e) && x in e.result.value.actors
  {
    if !HasResult(e) then []
    else
      match e.mode
      case LocationOnly => []
      case PreferLocation =>
        if |EqsLocations(e, roll)| > 0 then [] else ProcessList(e.runMode, e.result.value.actors, roll)
      case _ => ProcessList(e.runMode, e.result.value.actors, roll)
  }

  /** `GetListOfLocations` for a query. */
  function EqsLocations(e: EqsObject, roll: nat): (r: seq<Vector>)
    decreases if e.mode == PreferActor then 1 else 0
    ensures !HasResult(e) ==> r == []
    ensures HasResult(e) && e.mode == ActorOnly ==> r == []
    ensures HasResult(e) && (e.mode == LocationOnly || e.mode == Both || e.mode == PreferLocation) ==>
      r == ProcessList(e.runMode, e.result.value.locations, roll)
    ensures forall x :: x in r ==> HasResult(e) && x in e.result.value.locations
  {
    if !HasResult(e) then []
    else
      match e.mode
      case ActorOnly => []
      case PreferActor =>
        if |EqsActors(e, roll)| > 0 then [] else ProcessList(e.runMode, e.result.value.locations, roll)
      case _ => ProcessList(e.runMode, e.result.value.locations, roll)
  }

  /** `GetListOfActors` as written: the same selection, trimmed by the
   *  as-written run mode. `None` marks the read past the end of an empty
   *  array, also when it happens in the preferred list's query. */
  function EqsActorsAsWritten(e: EqsObject, roll: nat): (r: Option<seq<Option<nat>>>)
    decreases if e.mode == PreferLocation then 1 else 0
    ensures !HasResult(e) ==> r == Some([])
    ensures HasResult(e) && e.mode == LocationOnly ==> r == Some([])
    ensures HasResult(e) && (e.mode == ActorOnly || e.mode == Both || e.mode == PreferActor) ==>
      r == ProcessListAsWritten(e.runMode, e.result.value.actors, roll)
    ensures r.Some? ==> forall x :: x in r.value ==> HasResult(e) && x in e.result.value.actors
  {
    if !HasResult(e) then Some([])
    else
      match e.mode
      case LocationOnly => Some([])
      case PreferLocation =>
        var locations := EqsLocationsAsWritten(e, roll);
        if locations.None? then None
        else if |locations.value| > 0 then Some([])
        else ProcessListAsWritten(e.runMode, e.result.value.actors, roll)
      case _ => ProcessListAsWritten(e.runMode, e.result.value.actors, roll)
  }

  /** `GetListOfLocations` as written. */
  function EqsLocationsAsWritten(e: EqsObject, roll: nat): (r: Option<seq<Vector>>)
    decreases if e.mode == PreferActor then 1 else 0
    ensures !HasResult(e) ==> r == Some([])
    ensures HasResult(e) && e.mode == ActorOnly ==> r == Some([])
    ensures HasResult(e) && (e.mode == LocationOnly || e.mode == Both || e.mode == PreferLocation) ==>
      r == ProcessListAsWritten(e.runMode, e.result.value.locations, roll)
    ensures r.Some? ==> forall x :: x in r.value ==> HasResult(e) && x in e.result.value.locations
  {
    if !HasResult(e) then Some([])
    else
      match e.mode
      case ActorOnly => Some([])
      case PreferActor =>
        var actors := EqsActorsAsWritten(e, roll);
        if actors.None? then None
        else if |actors.value| > 0 then Some([])
        else ProcessListAsWritten(e.runMode, e.result.value.locations, roll)
      case _ => ProcessListAsWritten(e.runMode, e.result.value.locations, roll)
  }

  /** Off the random run modes the as-written queries never fail and give
   *  exactly the corrected lists. */
  lemma EqsAgreesOffRandomModes(e: EqsObject, roll: nat)
    requires e.runMode == SingleResult || e.runMode == AllMatching
    ensures EqsActorsAsWritten(e, roll) == Some(EqsActors(e, roll))
    ensures EqsLocationsAsWritten(e, roll) == Some(EqsLocations(e, roll))
  {
    if HasResult(e) {
      ProcessListAgrees(e.runMode, e.result.value.actors, roll);
      ProcessListAgrees(e.runMode, e.result.value.locations, roll);
    }
  }

  /** Eight actors under RandomBest25Pct with roll 1: as written the first
   *  actor comes back, the corrected draw gives the second; two actors
   *  under RandomBest5Pct make the written query read past the end. */
  lemma EqsRandomModesAsWritten()
    ensures var eight := [Some(0), Some(1), Some(2), Some(3), Some(4), Some(5), Some(6), Some(7)];
      var e := EqsObject(ActorOnly, RandomBest25Pct, true, Some(QueryResult(true, eight, [])));
      EqsActorsAsWritten(e, 1) == Some([Some(0)]) && EqsActors(e, 1) == [Some(1)]
    ensures var e := EqsObject(ActorOnly, RandomBest5Pct, true, Some(QueryResult(true, [Some(0), Some(1)], [])));
      EqsActorsAsWritten(e, 0).None? && EqsActors(e, 0) == [Some(0)]
  {
    var eight := [Some(0), Some(1), Some(2), Some(3), Some(4), Some(5), Some(6), Some(7)];
    assert BestCount(RandomBest25Pct, 8) == 2;
    assert eight[..1] == [Some(0)];
    assert eight[..2] == [Some(0), Some(1)];
    assert BestCount(RandomBest5Pct, 2) == 0;
    assert [Some(0), Some(1)][..1] == [Some(0)];
  }

  /** Trimming never empties a list, so a preferred kind of result shadows
   *  the other exactly when the query found any. */
  lemma EqsPreference(e: EqsObject, roll: nat)
    requires HasResult(e)
    ensures e.mode == PreferLocation ==>
      (|EqsActors(e, roll)| > 0 <==> |e.result.value.locations| == 0 && |e.result.value.actors| > 0)
    ensures e.mode == PreferActor ==>
      (|EqsLocations(e, roll)| > 0 <==> |e.result.value.actors| == 0 && |e.result.value.locations| > 0)
  {
  }

  /** `UpdateDataObject`: a new query starts; the object is not ready and
   *  the old result is dropped. */
  function UpdateDataObject(e: EqsObject): (r: EqsObject)
    ensures !r.ready && r.result.None? && r.mode == e.mode && r.runMode == e.runMode
  {
    e.(ready := false, result := None)
  }

  /** `OnQueryComplete`: stores the result and becomes ready, announcing it
   *  if it was not ready before. */
  function OnQueryComplete(e: EqsObject, result: QueryResult): (r: (EqsObject, bool))
    ensures r.0.ready && r.0.result == Some(result)
    ensures r.1 <==> !e.ready
  {
    (e.(result := Some(result), ready := true), !e.ready)
  }

  /** Between a new query and its completion the object offers nothing;
   *  after completion it offers the new result and announces readiness. */
  lemma QueryCycle(e: EqsObject, result: QueryResult, roll: nat)
    ensures EqsActors(UpdateDataObject(e), roll) == [] && EqsLocations(UpdateDataObject(e), roll) == []
    ensures var (done, announced) := OnQueryComplete(UpdateDataObject(e), result);
      announced && done.ready &&
      (result.success && e.mode == ActorOnly ==> EqsActors(done, roll) == ProcessList(e.runMode, result.actors, roll))
  {
  }

  /** The same cycle through the as-written queries. */
  lemma QueryCycleAsWritten(e: EqsObject, result: QueryResult, roll: nat)
    ensures EqsActorsAsWritten(UpdateDataObject(e), roll) == Some([])
    ensures EqsLocationsAsWritten(UpdateDataObject(e), roll) == Some([])
    ensures var (done, announced) := OnQueryComplete(UpdateDataObject(e), result);
      announced && done.ready &&
      (result.success && e.mode == ActorOnly ==>
        EqsActorsAsWritten(done, roll) == ProcessListAsWritten(e.runMode, result.actors, roll))
  {
  }
}

=== FILE: common.dfy ===
/**
 * Shared vocabulary of the NauseaDungeon model: the engine's sentinel
 * constants, fixed-width integer wrap-around, and an optional value for the
 * engine's null references and missing map entries.
 */
module Common {

  /** The engine's `INDEX_NONE`, used as "no index" and "no id". */
  const IndexNone: int := -1

  const MaxInt32: int := 0x7FFF_FFFF
  const MinInt32: int := -0x8000_0000
  const MaxUint8: int := 0xFF
  const MaxUint32: int := 0xFFFF_FFFF
  const MaxUint64: int := 0xFFFF_FFFF_FFFF_FFFF

  /** `MAX_FLT`, the largest finite single-precision float. */
  const MaxFlt: real := 340282346638528859811704183484516925440.0

  const Pow8: int := 0x100
  const Pow32: int := 0x1_0000_0000
  const Pow64: int := 0x1_0000_0000_0000_0000

  /** An unsigned 8-, 32- or 64-bit value is one in range. */
  predicate IsUint8(x: int) { 0 <= x <= MaxUint8 }
  predicate IsUint32(x: int) { 0 <= x <= MaxUint32 }
  predicate IsUint64(x: int) { 0 <= x <= MaxUint64 }
  predicate IsInt32(x: int) { MinInt32 <= x <= MaxInt32 }

  /** Unsigned arithmetic: the mathematical result reduced modulo 2^n. */
  function WrapU8(x: int): (r: int)
    ensures IsUint8(r)
    ensures IsUint8(x) ==> r == x
  {
    x % Pow8
  }

  function WrapU32(x: int): (r: int)
    ensures IsUint32(r)
    ensures IsUint32(x) ==> r == x
  {
    x % Pow32
  }

  function WrapU64(x: int): (r: int)
    ensures IsUint64(r)
    ensures IsUint64(x) ==> r == x
  {
    x % Pow64
  }

  /** Two's-complement 32-bit wrap-around, as the compiled game performs it. */
  function WrapI32(x: int): (r: int)
    ensures IsInt32(r)
    ensures IsInt32(x) ==> r == x
  {
    (x - MinInt32) % Pow32 + MinInt32
  }

  /** `FGenericTeamId::NoTeam`: the team byte of actors without a team. */
  const NoTeamId: int := 255

  /** An engine `FName`; the string "None" is the engine's `NAME_None`. */
  type Name = string

  const NameNone: Name := "None"

  /** A nullable reference, a missing map entry or an absent name. */
  datatype Option<T> = None | Some(value: T)
  {
    predicate IsSome() { Some? }
  }

  function Min(a: int, b: int): int { if a < b then a else b }
  function Max(a: int, b: int): int { if a < b then b else a }
  function MinR(a: real, b: real): real { if a < b then a else b }
  function MaxR(a: real, b: real): real { if a < b then b else a }

  /** `FMath::RoundToInt`: rounds half up. */
  function RoundToInt(x: real): (r: int)
    ensures r as real <= x + 0.5 < r as real + 1.0
  {
    (x + 0.5).Floor
  }

  /** The engine's `FMath::Clamp`: below `lo` gives `lo`, else at most `hi`. */
  function ClampR(v: real, lo: real, hi: real): real
  {
    if v < lo then lo else if v < hi then v else hi
  }

  /** Sequence helpers shared by the list-based bookkeeping. */

  /** `TArray::Remove`: drops every element equal to `x`, keeping order. */
  function RemoveAll<T(==,!new)>(s: seq<T>, x: T): (r: seq<T>)
    ensures x !in r
    ensures forall y :: y in r <==> y in s && y != x
    ensures |r| <= |s|
  {
    if |s| == 0 then []
    else if s[0] == x then RemoveAll(s[1..], x)
    else [s[0]] + RemoveAll(s[1..], x)
  }

  /** `TArray::AddUnique`: appends `x` only when it is not yet present. */
  function AddUnique<T(==,!new)>(s: seq<T>, x: T): (r: seq<T>)
    ensures x in r
    ensures forall y :: y in r <==> y in s || y == x
    ensures x in s ==> r == s
  {
    if x in s then s else s + [x]
  }

  /** A sequence without repeated elements. */
  predicate NoDuplicates<T(==)>(s: seq<T>)
  {
    forall i, j :: 0 <= i < j < |s| ==> s[i] != s[j]
  }

  lemma {:induction false} RemoveAllKeepsNoDuplicates<T(!new)>(s: seq<T>, x: T)
    requires NoDuplicates(s)
    ensures NoDuplicates(RemoveAll(s, x))
  {
    if |s| == 0 {
    } else {
      assert NoDuplicates(s[1..]);
      RemoveAllKeepsNoDuplicates(s[1..], x);
      if s[0] != x {
        var t := RemoveAll(s[1..], x);
        assert s[0] !in t;
        var r := [s[0]] + t;
        forall i, j | 0 <= i < j < |r| ensures r[i] != r[j] {
          if i == 0 {
            assert r[j] == t[j - 1];
          } else {
            assert r[i] == t[i - 1] && r[j] == t[j - 1];
          }
        }
      }
    }
  }

  lemma AddUniqueKeepsNoDuplicates<T(!new)>(s: seq<T>, x: T)
    requires NoDuplicates(s)
    ensures NoDuplicates(AddUnique(s, x))
  {
  }

  /** Removing an element that was only appended once undoes the append. */
  lemma {:induction false} RemoveAllUndoesAppend<T(!new)>(s: seq<T>, x: T)
    requires x !in s
    ensures RemoveAll(s + [x], x) == s
    decreases |s|
  {
    if |s| == 0 {
      assert [x][1..] == [];
    } else {
      assert (s + [x])[1..] == s[1..] + [x];
      RemoveAllUndoesAppend(s[1..], x);
    }
  }

  /** Removing an absent element changes nothing. */
  lemma {:induction false} RemoveAllAbsent<T(!new)>(s: seq<T>, x: T)
    requires x !in s
    ensures RemoveAll(s, x) == s
    decreases |s|
  {
    if |s| > 0 {
      RemoveAllAbsent(s[1..], x);
    }
  }
}

=== FILE: core_singleton.dfy ===
/**
 * `UCoreSingleton`: the engine-wide singleton that keeps a registry of
 * actors by gameplay tag and a list of callbacks ticked every frame. The
 * singleton may be missing (no engine, or a game singleton of another
 * class); every operation is then a no-op. Actors are ids, and whether a
 * weak actor reference is still valid is an oracle.
 */
module CoreSingleton {
  import opened Common

  /** A gameplay tag, by name. */
  type Tag = string

  /** `ActorGameplayTagMap`: each tag's list of registered actors. */
  type Registry = map<Tag, seq<nat>>

  /** The singleton's state: the tick callbacks (delegate ids), the game
   *  instance it has picked up, and the registry. */
  datatype Singleton = Singleton(ticks: seq<nat>, gameInstance: Option<nat>, registry: Registry)

  /** The list a tag holds, empty for an absent tag. */
  function ListOf(reg: Registry, t: Tag): seq<nat>
  {
    if t in reg then reg[t] else []
  }

  /** `n` copies of an actor. */
  function Copies(a: nat, n: nat): (r: seq<nat>)
    ensures |r| == n && forall i :: 0 <= i < n ==> r[i] == a
  {
    if n == 0 then [] else [a] + Copies(a, n - 1)
  }

  // ---------------------------------------------------------------------
  // Tag registry

  /** The registration loop: `FindOrAdd(tag).Add(actor)` for each tag. */
  function AddToTags(reg: Registry, a: nat, tags: seq<Tag>): Registry
    decreases |tags|
  {
    if |tags| == 0 then reg
    else AddToTags(reg[tags[0] := ListOf(reg, tags[0]) + [a]], a, tags[1..])
  }

  /** `RegisterActorWithTag`. */
  function RegisterActorWithTag(s: Option<Singleton>, actor: Option<nat>, tags: seq<Tag>): (r: Option<Singleton>)
    ensures actor.None? || s.None? ==> r == s
  {
    if actor.None? || s.None? then s
    else Some(s.value.(registry := AddToTags(s.value.registry, actor.value, tags)))
  }

  /** Registration appends the actor to every listed tag's list once per
   *  occurrence of the tag, creating lists as needed, and leaves every
   *  other tag alone. */
  lemma {:induction false} AddToTagsEffect(reg: Registry, a: nat, tags: seq<Tag>, t: Tag)
    ensures t in AddToTags(reg, a, tags) <==> t in reg || t in tags
    ensures ListOf(AddToTags(reg, a, tags), t) == ListOf(reg, t) + Copies(a, multiset(tags)[t])
  {
    AddToTagsDomain(reg, a, tags, t);
    AddToTagsList(reg, a, tags, t);
  }

  /** The registry gains exactly the listed tags. */
  lemma {:induction false} AddToTagsDomain(reg: Registry, a: nat, tags: seq<Tag>, t: Tag)
    ensures t in AddToTags(reg, a, tags) <==> t in reg || t in tags
    decreases |tags|
  {
    if |tags| > 0 {
      AddToTagsDomain(reg[tags[0] := ListOf(reg, tags[0]) + [a]], a, tags[1..], t);
      assert t in tags <==> t == tags[0] || t in tags[1..];
    }
  }

  /** Each tag's list gains one copy of the actor per occurrence of the
   *  tag. */
  lemma {:induction false} AddToTagsList(reg: Registry, a: nat, tags: seq<Tag>, t: Tag)
    ensures ListOf(AddToTags(reg, a, tags), t) == ListOf(reg, t) + Copies(a, multiset(tags)[t])
    decreases |tags|
  {
    if |tags| > 0 {
      var reg1 := reg[tags[0] := ListOf(reg, tags[0]) + [a]];
      var n1 := multiset(tags[1..])[t];
      AddToTagsList(reg1, a, tags[1..], t);
      MultisetHead(tags, t);
      if t == tags[0] {
        HeadStep(reg, a, t, n1);
      } else {
        assert ListOf(reg1, t) == ListOf(reg, t);
      }
    }
  }

  lemma HeadStep(reg: Registry, a: nat, t: Tag, n: nat)
    ensures ListOf(reg[t := ListOf(reg, t) + [a]], t) + Copies(a, n) == ListOf(reg, t) + Copies(a, n + 1)
  {
    CopiesShift(a, n);
    assert ListOf(reg, t) + [a] + Copies(a, n) == ListOf(reg, t) + ([a] + Copies(a, n));
  }

  /** The count of an element splits at the head of a sequence. */
  lemma MultisetHead<T>(s: seq<T>, x: T)
    requires |s| > 0
    ensures multiset(s)[x] == multiset(s[1..])[x] + (if x == s[0] then 1 else 0)
  {
    assert s == [s[0]] + s[1..];
    assert multiset(s) == multiset{s[0]} + multiset(s[1..]);
  }

  lemma CopiesShift(a: nat, n: nat)
    ensures [a] + Copies(a, n) == Copies(a, n + 1)
  {
  }

  /** Registering with a container (whose tags are distinct) appends the
   *  actor once to each of its tags, and touches nothing else. */
  lemma RegisterAppendsOnce(s: Singleton, a: nat, tags: seq<Tag>, t: Tag)
    requires NoDuplicates(tags)
    ensures var r := RegisterActorWithTag(Some(s), Some(a), tags).value.registry;
      (t in tags ==> t in r && r[t] == ListOf(s.registry, t) + [a]) &&
      (t !in tags ==> (t in r <==> t in s.registry) && ListOf(r, t) == ListOf(s.registry, t))
  {
    AddToTagsEffect(s.registry, a, tags, t);
    if t in tags {
      var i :| 0 <= i < |tags| && tags[i] == t;
      MultisetCountOne(tags, i);
    } else {
      assert multiset(tags)[t] == 0;
    }
  }

  /** An element of a sequence without repeats occurs once. */
  lemma {:induction false} MultisetCountOne<T>(s: seq<T>, i: nat)
    requires NoDuplicates(s) && i < |s|
    ensures multiset(s)[s[i]] == 1
    decreases |s|
  {
    assert s == [s[0]] + s[1..];
    assert multiset(s) == multiset{s[0]} + multiset(s[1..]);
    assert NoDuplicates(s[1..]);
    if i == 0 {
      assert s[0] !in s[1..];
      assert multiset(s[1..])[s[0]] == 0;
    } else {
      MultisetCountOne(s[1..], i - 1);
    }
  }

  /** The first loop of `UnregisterActorWithTag`: removes the actor from
   *  each listed tag present in the map and collects the tags whose list
   *  became empty. */
  function RemoveFromTags(reg: Registry, a: nat, tags: seq<Tag>): (r: (Registry, seq<Tag>))
    decreases |tags|
  {
    if |tags| == 0 then (reg, [])
    else if tags[0] !in reg then RemoveFromTags(reg, a, tags[1..])
    else
      var list := RemoveAll(reg[tags[0]], a);
      var (reg', empty) := RemoveFromTags(reg[tags[0] := list], a, tags[1..]);
      (reg', (if |list| == 0 then [tags[0]] else []) + empty)
  }

  /** `UnregisterActorWithTag`: the removal loop, then the emptied tags
   *  are dropped from the map. */
  function UnregisterActorWithTag(s: Option<Singleton>, actor: Option<nat>, tags: seq<Tag>): (r: Option<Singleton>)
    ensures actor.None? || s.None? ==> r == s
  {
    if actor.None? || s.None? then s
    else
      var (reg, empty) := RemoveFromTags(s.value.registry, actor.value, tags);
      Some(s.value.(registry := reg - set t | t in empty))
  }

  /** Removing the actor twice is the same as removing it once. */
  lemma {:induction false} RemoveAllIdempotent(s: seq<nat>, a: nat)
    ensures RemoveAll(RemoveAll(s, a), a) == RemoveAll(s, a)
    decreases |s|
  {
    if |s| > 0 {
      RemoveAllIdempotent(s[1..], a);
    }
  }

  /** The removal loop: a listed tag present in the map loses the actor and
   *  is collected exactly when that leaves it empty; other tags and their
   *  lists are untouched. */
  lemma {:induction false} RemoveFromTagsEffect(reg: Registry, a: nat, tags: seq<Tag>, t: Tag)
    ensures var (reg', empty) := RemoveFromTags(reg, a, tags);
      (t in reg' <==> t in reg) &&
      (t in reg && t in tags ==> reg'[t] == RemoveAll(reg[t], a)) &&
      (t in reg && t !in tags ==> reg'[t] == reg[t]) &&
      (t in empty <==> t in reg && t in tags && |RemoveAll(reg[t], a)| == 0)
    decreases |tags|
  {
    if |tags| > 0 {
      if tags[0] !in reg {
        RemoveFromTagsEffect(reg, a, tags[1..], t);
      } else {
        var list := RemoveAll(reg[tags[0]], a);
        RemoveFromTagsEffect(reg[tags[0] := list], a, tags[1..], t);
        if t == tags[0] {
          RemoveAllIdempotent(reg[t], a);
        }
      }
    }
  }

  /** Unregistering removes the actor from each listed tag, deletes the
   *  tags it leaves empty, and leaves tags outside the container as they
   *  were. */
  lemma UnregisterEffect(s: Singleton, a: nat, tags: seq<Tag>, t: Tag)
    ensures var r := UnregisterActorWithTag(Some(s), Some(a), tags).value.registry;
      (t !in tags ==> (t in r <==> t in s.registry) && (t in r ==> r[t] == s.registry[t])) &&
      (t in tags && t in s.registry ==>
        (t in r <==> |RemoveAll(s.registry[t], a)| > 0) && (t in r ==> r[t] == RemoveAll(s.registry[t], a))) &&
      (t in tags && t !in s.registry ==> t !in r) &&
      (t in tags ==> a !in ListOf(r, t))
  {
    RemoveFromTagsEffect(s.registry, a, tags, t);
  }

  /** `GetActorsWithTag`: the output is reset, then the still-valid actors
   *  of each listed tag are appended, tag by tag in container order. */
  function GetActorsWithTag(s: Option<Singleton>, tags: seq<Tag>, valid: nat -> bool): (r: seq<nat>)
    ensures s.None? ==> r == []
    ensures forall x :: x in r ==> valid(x)
  {
    if s.None? then [] else Collect(s.value.registry, tags, valid)
  }

  /** The valid actors of one list, in order. */
  function ValidActors(list: seq<nat>, valid: nat -> bool): (r: seq<nat>)
    ensures forall x :: x in r <==> x in list && valid(x)
    ensures |r| <= |list|
  {
    if |list| == 0 then []
    else (if valid(list[0]) then [list[0]] else []) + ValidActors(list[1..], valid)
  }

  function Collect(reg: Registry, tags: seq<Tag>, valid: nat -> bool): (r: seq<nat>)
    ensures forall x :: x in r <==> valid(x) && exists t :: t in tags && t in reg && x in reg[t]
    decreases |tags|
  {
    if |tags| == 0 then []
    else
      var rest := Collect(reg, tags[1..], valid);
      assert forall t :: t in tags <==> t == tags[0] || t in tags[1..];
      (if tags[0] in reg then ValidActors(reg[tags[0]], valid) else []) + rest
  }

  /** A valid actor registered under a tag is found through that tag, and
   *  after unregistering it with the same tag it is not. */
  lemma RegisteredActorFound(s: Singleton, a: nat, tags: seq<Tag>, t: Tag, valid: nat -> bool)
    requires NoDuplicates(tags) && t in tags && valid(a)
    ensures a in GetActorsWithTag(RegisterActorWithTag(Some(s), Some(a), tags), [t], valid)
    ensures a !in GetActorsWithTag(UnregisterActorWithTag(Some(s), Some(a), [t]), [t], valid)
  {
    RegisterAppendsOnce(s, a, tags, t);
    UnregisterEffect(s, a, [t], t);
  }

  // ---------------------------------------------------------------------
  // Tick callbacks

  /** `BindToSingletonTick`: picks up the world's game instance if none is
   *  held yet, and adds the callback unless it is already bound. */
  function BindToSingletonTick(s: Option<Singleton>, worldGameInstance: Option<nat>, callback: nat): (r: Option<Singleton>)
    ensures s.None? ==> r.None?
    ensures s.Some? ==> r.Some? && r.value.registry == s.value.registry
    ensures s.Some? ==> callback in r.value.ticks && (forall c :: c in r.value.ticks <==> c in s.value.ticks || c == callback)
    ensures s.Some? && NoDuplicates(s.value.ticks) ==> NoDuplicates(r.value.ticks)
    ensures s.Some? && s.value.gameInstance.Some? ==> r.value.gameInstance == s.value.gameInstance
  {
    if s.None? then s
    else
      var gi := if s.value.gameInstance.Some? then s.value.gameInstance else worldGameInstance;
      Some(s.value.(gameInstance := gi, ticks := AddUnique(s.value.ticks, callback)))
  }

  /** `UnbindFromSingletonTick`. */
  function UnbindFromSingletonTick(s: Option<Singleton>, callback: nat): (r: Option<Singleton>)
    ensures s.None? ==> r.None?
    ensures s.Some? ==> r.Some? && r.value.registry == s.value.registry && r.value.gameInstance == s.value.gameInstance
    ensures s.Some? ==> forall c :: c in r.value.ticks <==> c in s.value.ticks && c != callback
  {
    if s.None? then s else Some(s.value.(ticks := RemoveAll(s.value.ticks, callback)))
  }

  /** Binding a new callback and unbinding it restores the list; binding
   *  one twice binds it once. */
  lemma BindUnbindRoundTrip(s: Singleton, worldGameInstance: Option<nat>, callback: nat)
    requires callback !in s.ticks
    ensures UnbindFromSingletonTick(BindToSingletonTick(Some(s), worldGameInstance, callback), callback).value.ticks == s.ticks
    ensures var once := BindToSingletonTick(Some(s), worldGameInstance, callback);
      BindToSingletonTick(once, worldGameInstance, callback) == once
  {
    RemoveAllUndoesAppend(s.ticks, callback);
  }

  /** `Tick`: the time is scaled by the world's dilation when there is a
   *  world to ask, and the callbacks run from last to first. Returns the
   *  calls made, each a callback with the time it received. */
  function Tick(s: Singleton, deltaTime: real, dilation: Option<real>): (r: seq<(nat, real)>)
    ensures |r| == |s.ticks|
    ensures forall i :: 0 <= i < |r| ==>
      r[i].0 == s.ticks[|s.ticks| - 1 - i] &&
      r[i].1 == (if s.gameInstance.Some? && dilation.Some? then deltaTime * dilation.value else deltaTime)
  {
    var dt := if s.gameInstance.Some? && dilation.Some? then deltaTime * dilation.value else deltaTime;
    seq(|s.ticks|, i requires 0 <= i < |s.ticks| => (s.ticks[|s.ticks| - 1 - i], dt))
  }

  /** Every bound callback runs exactly once per tick. */
  lemma TickRunsEachOnce(s: Singleton, deltaTime: real, dilation: Option<real>, c: nat)
    requires NoDuplicates(s.ticks) && c in s.ticks
    ensures exists i :: 0 <= i < |s.ticks| && Tick(s, deltaTime, dilation)[i].0 == c
    ensures forall i, j :: 0 <= i < j < |s.ticks| ==> Tick(s, deltaTime, dilation)[i].0 != Tick(s, deltaTime, dilation)[j].0
  {
    var k :| 0 <= k < |s.ticks| && s.ticks[k] == c;
    assert Tick(s, deltaTime, dilation)[|s.ticks| - 1 - k].0 == c;
  }
}

=== FILE: damage_log.dfy ===
/**
 * The damage log of a status component (`FDamageLogStack` of
 * `FDamageLogEvent`s, each carrying a list of `FDamageLogEventModifier`s) and
 * the global id counter of `FHitEvent`.
 */
module DamageLog {
  import opened Common

  /** `FDamageLogEvent::MaxMergeDeltaTime`. */
  const MaxMergeDeltaTime: real := 1.0

  /** A modifier applied to a logged hit, such as the armour absorption. */
  datatype Modifier = Modifier(dataObject: Option<nat>, instigatorObject: Option<nat>, modifier: real)

  /** A logged hit. */
  datatype Event = Event(damageInitial: real, damageDealt: real, timeStamp: real,
                         instigator: Option<nat>, damageType: Option<nat>, instigatorTeam: int,
                         modifierList: seq<Modifier>, deathEvent: bool)

  /** The default-constructed event. */
  const DefaultEvent: Event := Event(-1.0, -1.0, -1.0, None, None, NoTeamId, [], false)

  /** The value constructor: damage dealt is left unset (-1) until finalised. */
  function MakeEvent(timeStamp: real, damageInitial: real, instigator: Option<nat>,
                     team: int, damageType: Option<nat>): (e: Event)
    ensures e.timeStamp == timeStamp && e.damageInitial == damageInitial
    ensures e.damageDealt == DefaultEvent.damageDealt
    ensures e.modifierList == [] && !e.deathEvent
  {
    DefaultEvent.(timeStamp := timeStamp, damageInitial := damageInitial, instigator := instigator,
                  instigatorTeam := team, damageType := damageType)
  }

  /** `FinalizeDamageLog`: records the damage dealt. */
  function FinalizeDamageLog(e: Event, dealt: real): (r: Event)
    ensures r.damageDealt == dealt
    ensures r.(damageDealt := e.damageDealt) == e
  {
    e.(damageDealt := dealt)
  }

  /** `CombineWithEvent`: the later timestamp and the summed damage; every
   *  other field is this event's. */
  function CombineWithEvent(e: Event, other: Event): (r: Event)
    ensures r.timeStamp >= e.timeStamp && r.timeStamp >= other.timeStamp
    ensures r.timeStamp == e.timeStamp || r.timeStamp == other.timeStamp
    ensures r.damageDealt == e.damageDealt + other.damageDealt
    ensures r.(timeStamp := e.timeStamp, damageDealt := e.damageDealt) == e
  {
    e.(timeStamp := MaxR(e.timeStamp, other.timeStamp), damageDealt := e.damageDealt + other.damageDealt)
  }

  /** `IsExpired`: more than `MaxMergeDeltaTime` has passed since the event. */
  predicate IsExpired(e: Event, time: real)
  {
    time - e.timeStamp > MaxMergeDeltaTime
  }

  /** Merging events in either grouping gives the same log entry. */
  lemma CombineAssociative(a: Event, b: Event, c: Event)
    ensures CombineWithEvent(CombineWithEvent(a, b), c) == CombineWithEvent(a, CombineWithEvent(b, c))
  {
  }

  /** A combined entry has expired exactly when both parts have, and expiry
   *  is permanent as time goes on. */
  lemma ExpiryOfCombined(a: Event, b: Event, t: real, later: real)
    requires t <= later
    ensures IsExpired(CombineWithEvent(a, b), t) <==> IsExpired(a, t) && IsExpired(b, t)
    ensures IsExpired(a, t) ==> IsExpired(a, later)
  {
  }

  /** `FDamageLogStack`: the most recent entry is last. */
  type Stack = seq<Event>

  /** `Push`: appends and returns the new top, which is the pushed entry. */
  function Push(s: Stack, e: Event): (r: (Stack, Event))
    ensures |r.0| == |s| + 1 && r.0[..|s|] == s
    ensures r.1 == e && r.0[|s|] == e
  {
    var pushed := s + [e];
    (pushed, pushed[|pushed| - 1])
  }

  /** `Pop`: removes and returns the last entry. `TArray::Pop` requires a
   *  nonempty array. */
  function Pop(s: Stack): (r: (Stack, Event))
    requires |s| > 0
    ensures r.0 + [r.1] == s
  {
    (s[..|s| - 1], s[|s| - 1])
  }

  /** The stack is last in, first out. */
  lemma PopAfterPush(s: Stack, e: Event)
    ensures Pop(Push(s, e).0) == (s, e)
  {
  }

  /** Pushing then popping several entries returns them in reverse order. */
  lemma PopTwiceAfterPushTwice(s: Stack, a: Event, b: Event)
    ensures var p := Pop(Push(Push(s, a).0, b).0);
      p.1 == b && Pop(p.0) == (s, a)
  {
  }

  /** `PushEntryModifier`: fails on an empty stack; otherwise appends the
   *  modifier to the top entry only. */
  function PushEntryModifier(s: Stack, m: Modifier): (r: (Stack, bool))
    ensures |s| == 0 ==> r == (s, false)
    ensures |s| > 0 ==> r.1 && |r.0| == |s| && r.0[..|s| - 1] == s[..|s| - 1]
    ensures |s| > 0 ==> r.0[|s| - 1].modifierList == s[|s| - 1].modifierList + [m]
    ensures |s| > 0 ==> r.0[|s| - 1].(modifierList := s[|s| - 1].modifierList) == s[|s| - 1]
  {
    if |s| == 0 then (s, false)
    else
      var top := s[|s| - 1];
      (s[..|s| - 1] + [top.(modifierList := top.modifierList + [m])], true)
  }

  /** `MarkDeathEvent`: fails on an empty stack; otherwise flags the top
   *  entry only. */
  function MarkDeathEvent(s: Stack): (r: (Stack, bool))
    ensures |s| == 0 ==> r == (s, false)
    ensures |s| > 0 ==> r.1 && |r.0| == |s| && r.0[..|s| - 1] == s[..|s| - 1]
    ensures |s| > 0 ==> r.0[|s| - 1] == s[|s| - 1].(deathEvent := true)
  {
    if |s| == 0 then (s, false)
    else (s[..|s| - 1] + [s[|s| - 1].(deathEvent := true)], true)
  }

  /* ---------------------------------------------------------------------- */
  /* Hit event ids                                                          */
  /* ---------------------------------------------------------------------- */

  /** The value constructor of `FHitEvent`: increments the static `uint64`
   *  counter and takes the new value as its id. Returns (counter', id). */
  function NextHitEventId(counter: int): (r: (int, int))
    requires IsUint64(counter)
    ensures r.0 == r.1 && IsUint64(r.1)
    ensures counter < MaxUint64 ==> r.1 == counter + 1
    ensures counter == MaxUint64 ==> r.1 == 0
  {
    var next := WrapU64(counter + 1);
    (next, next)
  }

  /** The ids of `n` hit events built one after another. */
  function HitEventIds(counter: int, n: nat): (ids: seq<int>)
    requires IsUint64(counter)
    requires counter + n <= MaxUint64
    ensures |ids| == n
    ensures forall i :: 0 <= i < n ==> ids[i] == counter + 1 + i
    ensures forall i, j :: 0 <= i < j < n ==> counter < ids[i] < ids[j]
    decreases n
  {
    if n == 0 then []
    else
      var (next, id) := NextHitEventId(counter);
      [id] + HitEventIds(next, n - 1)
  }
}

=== FILE: damage_type.dfy ===
/**
 * `UCoreDamageType`: who a damage type applies to (an application logic
 * read against the team attitude), the decomposition of its descriptor
 * bitmasks into lists, and the hit reaction strength.
 */
module DamageType {
  import opened Common
  import opened Teams

  /** `EApplicationLogic`. */
  datatype ApplicationLogic = Enemy | EnemyOnly | AllyOnly | All

  /** `EApplicationResult`. */
  datatype ApplicationResult = Full | FriendlyFire | NoApplication

  /**
   * The table shared by `GetDamageApplicationResult` and
   * `GetStatusApplicationResult`: `All` always applies fully; otherwise
   * the attitude of instigator to target decides.
   */
  function ApplicationResultOf(logic: ApplicationLogic, attitude: Attitude): (r: ApplicationResult)
    ensures logic == All ==> r == Full
    ensures logic == EnemyOnly ==> (r == Full <==> attitude != Friendly) && (r != Full ==> r == NoApplication)
    ensures logic == AllyOnly ==> (r == Full <==> attitude == Friendly) && (r != Full ==> r == NoApplication)
    ensures logic == Enemy ==> (r == Full <==> attitude != Friendly) && (r != Full ==> r == FriendlyFire)
  {
    if logic == All then Full
    else
      match logic
      case EnemyOnly => if attitude != Friendly then Full else NoApplication
      case AllyOnly => if attitude == Friendly then Full else NoApplication
      case Enemy => if attitude != Friendly then Full else FriendlyFire
  }

  /** Friendly fire arises only under `Enemy` logic between friends, and
   *  hostile targets are hit fully by every logic except `AllyOnly`. */
  lemma FriendlyFireOnlyUnderEnemy(logic: ApplicationLogic, attitude: Attitude)
    ensures ApplicationResultOf(logic, attitude) == FriendlyFire <==> logic == Enemy && attitude == Friendly
    ensures attitude == Hostile ==> (ApplicationResultOf(logic, attitude) == Full <==> logic != AllyOnly)
  {
  }

  /** The parts of a core damage type the model reads. The defaults are
   *  `Enemy` for damage and `EnemyOnly` for status effects. */
  datatype CoreDamageType = CoreDamageType(damageLogic: ApplicationLogic, statusLogic: ApplicationLogic,
                                           hitDescriptors: int, elementalDescriptors: int,
                                           causedByWorld: bool)

  function DamageApplicationResult(d: CoreDamageType, attitude: Attitude): (r: ApplicationResult)
    ensures r == ApplicationResultOf(d.damageLogic, attitude)
  {
    ApplicationResultOf(d.damageLogic, attitude)
  }

  function StatusApplicationResult(d: CoreDamageType, attitude: Attitude): (r: ApplicationResult)
    ensures r == ApplicationResultOf(d.statusLogic, attitude)
  {
    ApplicationResultOf(d.statusLogic, attitude)
  }

  /* ---------------------------------------------------------------------- */
  /* Descriptor lists                                                       */
  /* ---------------------------------------------------------------------- */

  /** `2^j`. */
  function Pow2(j: nat): (p: int)
    ensures p >= 1
  {
    if j == 0 then 1 else 2 * Pow2(j - 1)
  }

  /** Bit `j` of the mask. */
  predicate Bit(mask: int, j: nat)
    decreases j
  {
    if j == 0 then mask % 2 == 1 else Bit(mask / 2, j - 1)
  }

  /** The reference decomposition: one entry `2^j` per set bit `j < n`,
   *  lowest bit first. */
  function BitsBelow(mask: int, n: nat): seq<int>
  {
    if n == 0 then []
    else BitsBelow(mask, n - 1) + (if Bit(mask, n - 1) then [Pow2(n - 1)] else [])
  }

  lemma {:induction false} Pow2Increases(i: nat, j: nat)
    requires i < j
    ensures Pow2(i) < Pow2(j)
    decreases j
  {
    if i < j - 1 {
      Pow2Increases(i, j - 1);
    }
  }

  /** `x` is `2^j` for a set bit `j` below `n`. */
  predicate ListedBit(mask: int, n: nat, x: int)
  {
    exists j: nat :: j < n && Bit(mask, j) && x == Pow2(j)
  }

  /** The decomposition lists exactly the values of the set bits, each
   *  once, in ascending order. */
  lemma {:induction false} BitsBelowSpec(mask: int, n: nat)
    ensures forall x :: x in BitsBelow(mask, n) <==> ListedBit(mask, n, x)
    ensures forall i, k :: 0 <= i < k < |BitsBelow(mask, n)| ==> BitsBelow(mask, n)[i] < BitsBelow(mask, n)[k]
    ensures forall i :: 0 <= i < |BitsBelow(mask, n)| ==> BitsBelow(mask, n)[i] < Pow2(n)
  {
    if n > 0 {
      var m := n - 1;
      var prefix := BitsBelow(mask, m);
      var step := if Bit(mask, m) then [Pow2(m)] else [];
      BitsBelowSpec(mask, m);
      assert BitsBelow(mask, n) == prefix + step;
      assert Pow2(n) == 2 * Pow2(m);
      forall x | x in BitsBelow(mask, n)
        ensures ListedBit(mask, n, x)
      {
        if x in prefix {
          var j: nat :| j < m && Bit(mask, j) && x == Pow2(j);
          assert j < n;
        } else {
          assert x in step;
          assert Bit(mask, m) && x == Pow2(m);
        }
      }
      forall x | ListedBit(mask, n, x)
        ensures x in BitsBelow(mask, n)
      {
        var j: nat :| j < n && Bit(mask, j) && x == Pow2(j);
        if j < m {
          assert ListedBit(mask, m, x);
        } else {
          assert x in step;
        }
      }
    }
  }

  /** The loop's bit: `2^j` while below 256, and `uint8` doubling of 128
   *  wraps to 0. */
  lemma DoubleBit(j: nat)
    requires j < 8
    ensures Pow2(j) <= 128
    ensures WrapU8(2 * Pow2(j)) == if j == 7 then 0 else Pow2(j + 1)
  {
    if j < 7 {
      Pow2Increases(j, 7);
    }
    assert Pow2(7) == 128;
  }

  /**
   * The list building of `GetDamageHitDescriptorList` and
   * `GetDamageElementalDescriptorList`: a `uint8` bit walks from 1 upwards,
   * doubling (and wrapping to 0 after 128, which ends the loop), and each
   * mask contributes the bit when it is set. Both lists are filled in the
   * same pass.
   */
  method DescriptorLists(hitMask: int, elementalMask: int) returns (hits: seq<int>, elements: seq<int>)
    requires IsUint8(hitMask) && IsUint8(elementalMask)
    ensures hits == BitsBelow(hitMask, 8) && elements == BitsBelow(elementalMask, 8)
  {
    hits, elements := [], [];
    var bit := 1;
    var j: nat := 0;
    while bit != 0
      invariant j <= 8
      invariant bit == (if j == 8 then 0 else Pow2(j))
      invariant hits == BitsBelow(hitMask, j)
      invariant elements == BitsBelow(elementalMask, j)
      decreases 8 - j
    {
      if Bit(hitMask, j) {
        hits := hits + [bit];
      }
      if Bit(elementalMask, j) {
        elements := elements + [bit];
      }
      DoubleBit(j);
      bit := WrapU8(bit * 2);
      j := j + 1;
    }
  }

  /** The two cached lists and the flag saying they have been built. */
  datatype DescriptorCache = DescriptorCache(initialized: bool, hits: seq<int>, elements: seq<int>)

  /**
   * Either list getter: once the flag is set the cached lists are returned
   * as they are; otherwise one pass appends both decompositions to the
   * cached lists and sets the flag.
   */
  method GetDescriptorLists(cache: DescriptorCache, hitMask: int, elementalMask: int) returns (r: DescriptorCache)
    requires IsUint8(hitMask) && IsUint8(elementalMask)
    ensures r.initialized
    ensures cache.initialized ==> r == cache
    ensures !cache.initialized ==>
      r.hits == cache.hits + BitsBelow(hitMask, 8) && r.elements == cache.elements + BitsBelow(elementalMask, 8)
  {
    if cache.initialized {
      return cache;
    }
    var hits, elements := DescriptorLists(hitMask, elementalMask);
    r := DescriptorCache(true, cache.hits + hits, cache.elements + elements);
  }

  /** `EDamageElementalDescriptor` as declared: `Fire` is given `1 << 1`,
   *  the same value as `Electric`. */
  datatype Element = Fire | Electric | Water | Ice | Explosive

  function ElementValueAsDeclared(e: Element): int
  {
    match e
    case Fire => 2
    case Electric => 2
    case Water => 4
    case Ice => 8
    case Explosive => 16
  }

  /** As declared, the list built for a fire-only mask is the list built
   *  for an electric-only mask, and bit 0 lists a value no element has. */
  lemma FireIsElectricAsDeclared()
    ensures BitsBelow(ElementValueAsDeclared(Fire), 8) == BitsBelow(ElementValueAsDeclared(Electric), 8) == [2]
    ensures BitsBelow(1, 8) == [1] && forall e :: ElementValueAsDeclared(e) != 1
  {
  }

  /** The evident intent: one bit per element, counting from bit 0 as the
   *  hit descriptors do. */
  function ElementValue(e: Element): int
  {
    match e
    case Fire => 1
    case Electric => 2
    case Water => 4
    case Ice => 8
    case Explosive => 16
  }

  /** The element a listed descriptor value names, if any. */
  function ElementOfValue(v: int): (e: Option<Element>)
    ensures e.Some? ==> ElementValue(e.value) == v
  {
    if v == 1 then Some(Fire)
    else if v == 2 then Some(Electric)
    else if v == 4 then Some(Water)
    else if v == 8 then Some(Ice)
    else if v == 16 then Some(Explosive)
    else None
  }

  /** With one bit each, a single-element mask lists exactly that element's
   *  value, and the value names the element back. */
  lemma ElementRoundTrip(e: Element)
    ensures BitsBelow(ElementValue(e), 8) == [ElementValue(e)]
    ensures ElementOfValue(ElementValue(e)) == Some(e)
  {
    match e
    case Fire => assert BitsBelow(1, 8) == [1];
    case Electric => assert BitsBelow(2, 8) == [2];
    case Water => assert BitsBelow(4, 8) == [4];
    case Ice => assert BitsBelow(8, 8) == [8];
    case Explosive => assert BitsBelow(16, 8) == [16];
  }

  /* ---------------------------------------------------------------------- */
  /* Hit reaction                                                           */
  /* ---------------------------------------------------------------------- */

  /** `EHitReactionStrength`: Invalid = 0, Light, Medium, Heavy, MAX = 4. */
  const HitReactionInvalid: int := 0
  const HitReactionHeavy: int := 3
  const HitReactionMax: int := 4

  /**
   * `GetHitReactionStrength`: Invalid without a curve; otherwise the floor
   * of the curve's value at the damage amount, capped at `MAX - 1`, cast to
   * the `uint8` enum. `curveValue` is that value.
   */
  function HitReactionStrength(curveValue: Option<real>): (r: int)
    ensures IsUint8(r)
    ensures curveValue.None? ==> r == HitReactionInvalid
    ensures curveValue.Some? && curveValue.value >= 0.0 ==> r <= HitReactionHeavy
    ensures curveValue.Some? && curveValue.value >= HitReactionHeavy as real ==> r == HitReactionHeavy
    ensures curveValue.Some? && 0.0 <= curveValue.value < HitReactionHeavy as real ==>
      r as real <= curveValue.value < r as real + 1.0
  {
    if curveValue.None? then HitReactionInvalid
    else WrapU8(Min(curveValue.value.Floor, HitReactionMax - 1))
  }
}

=== FILE: dungeon_game_state.dfy ===
/**
 * `ADungeonGameState`: the replicated wave number, wave spawn counts,
 * auto-start time and remaining game health, the end-of-match
 * classification, and the change notifications its setters broadcast. A
 * setter's notification is returned as an optional `(new, previous)` pair;
 * `None` means nothing was broadcast.
 */
module DungeonGameState {
  import opened Common

  /** The engine's match states, with the dungeon's two end states. */
  datatype MatchState = EnteringMap | WaitingToStart | InProgress | WaitingPostMatch | LeavingMap | Aborted | EndVictory | EndLoss

  /** `EMatchEndType`. */
  datatype MatchEndType = NoEnd | Victory | Loss

  datatype Change<T> = Change(newValue: T, previousValue: T)

  datatype DungeonState = DungeonState(
    matchState: MatchState,
    currentWave: int,
    autoStartTime: real,
    waveTotalSpawnCount: int,
    waveRemainingSpawnCount: int,
    remainingGameHealth: int)

  /** `IsInEndGameState`: victory or loss. */
  predicate IsInEndGameState(s: DungeonState)
  {
    s.matchState == EndVictory || s.matchState == EndLoss
  }

  /** `GetEndGameStateType`: the kind of ending the match state records. */
  function GetEndGameStateType(s: DungeonState): (r: MatchEndType)
    ensures r == Victory <==> s.matchState == EndVictory
    ensures r == Loss <==> s.matchState == EndLoss
  {
    if s.matchState == EndVictory then Victory
    else if s.matchState == EndLoss then Loss
    else NoEnd
  }

  /** The match has ended exactly when it has an end type. */
  lemma EndStateAgreesWithEndType(s: DungeonState)
    ensures IsInEndGameState(s) <==> GetEndGameStateType(s) != NoEnd
  {
  }

  /** `GetWaveSpawnProgress`: the fraction of the wave still to spawn, 1
   *  when there is no positive total. */
  function GetWaveSpawnProgress(s: DungeonState): (r: real)
    ensures s.waveTotalSpawnCount <= 0 ==> r == 1.0
    ensures s.waveTotalSpawnCount > 0 ==> r * s.waveTotalSpawnCount as real == s.waveRemainingSpawnCount as real
    ensures 0 <= s.waveRemainingSpawnCount <= s.waveTotalSpawnCount ==> 0.0 <= r <= 1.0
  {
    if s.waveTotalSpawnCount <= 0 then 1.0
    else s.waveRemainingSpawnCount as real / s.waveTotalSpawnCount as real
  }

  /** `IncrementWaveNumber`: the wave goes up by one, is returned, and the
   *  change is broadcast. */
  function IncrementWaveNumber(s: DungeonState): (r: (DungeonState, int, Change<int>))
    ensures r.1 == r.0.currentWave == s.currentWave + 1
    ensures r.2 == Change(r.0.currentWave, s.currentWave)
    ensures r.0.(currentWave := s.currentWave) == s
  {
    var w := s.currentWave + 1;
    (s.(currentWave := w), w, Change(w, w - 1))
  }

  /** `SetWaveRemainingSpawnCount`: an unchanged value broadcasts nothing. */
  function SetWaveRemainingSpawnCount(s: DungeonState, n: int): (r: (DungeonState, int, Option<Change<int>>))
    ensures r.1 == r.0.waveRemainingSpawnCount == n
    ensures r.2.None? <==> n == s.waveRemainingSpawnCount
    ensures r.2.Some? ==> r.2.value == Change(n, s.waveRemainingSpawnCount)
    ensures r.0.(waveRemainingSpawnCount := s.waveRemainingSpawnCount) == s
  {
    if n == s.waveRemainingSpawnCount then (s, n, None)
    else (s.(waveRemainingSpawnCount := n), n, Some(Change(n, s.waveRemainingSpawnCount)))
  }

  /** `SetWaveTotalSpawnCount` as written: the value it broadcasts as the
   *  previous total is the new total, so listeners never see the old one. */
  function SetWaveTotalSpawnCountAsWritten(s: DungeonState, n: int): (r: (DungeonState, int, Change<int>))
  {
    var previous := n;
    var s1 := s.(waveTotalSpawnCount := n);
    var (s2, _, _) := SetWaveRemainingSpawnCount(s1, n);
    (s2, s2.waveTotalSpawnCount, Change(n, previous))
  }

  /** Raising a total of 10 to 20 broadcasts the change as from 20 to 20. */
  lemma TotalSpawnCountChangeLosesPrevious()
    ensures var s := DungeonState(InProgress, 1, -1.0, 10, 10, 5);
      SetWaveTotalSpawnCountAsWritten(s, 20).2 == Change(20, 20)
  {
  }

  /** `SetWaveTotalSpawnCount`: both the total and the remaining count take
   *  the new value; the change of total (from the old total) is always
   *  broadcast. */
  function SetWaveTotalSpawnCount(s: DungeonState, n: int): (r: (DungeonState, int, Change<int>))
    ensures r.1 == r.0.waveTotalSpawnCount == n
    ensures r.0.waveRemainingSpawnCount == n
    ensures r.2 == Change(n, s.waveTotalSpawnCount)
    ensures r.0.(waveTotalSpawnCount := s.waveTotalSpawnCount, waveRemainingSpawnCount := s.waveRemainingSpawnCount) == s
  {
    var previous := s.waveTotalSpawnCount;
    var s1 := s.(waveTotalSpawnCount := n);
    var (s2, _, _) := SetWaveRemainingSpawnCount(s1, n);
    (s2, s2.waveTotalSpawnCount, Change(n, previous))
  }

  /** The two versions differ only in the reported previous total. */
  lemma TotalSpawnCountVersionsAgree(s: DungeonState, n: int)
    ensures SetWaveTotalSpawnCountAsWritten(s, n).0 == SetWaveTotalSpawnCount(s, n).0
    ensures SetWaveTotalSpawnCountAsWritten(s, n).1 == SetWaveTotalSpawnCount(s, n).1
  {
  }

  /** A freshly set positive total means the whole wave is still to come. */
  lemma NewWaveHasFullProgress(s: DungeonState, n: int)
    requires n > 0
    ensures GetWaveSpawnProgress(SetWaveTotalSpawnCount(s, n).0) == 1.0
  {
  }

  /** `SetAutoStartTime`: a positive delay becomes an absolute server time,
   *  anything else -1; an unchanged value broadcasts nothing. */
  function SetAutoStartTime(s: DungeonState, delay: real, serverTime: real): (r: (DungeonState, Option<Change<real>>))
    ensures delay <= 0.0 ==> r.0.autoStartTime == -1.0
    ensures delay > 0.0 ==> r.0.autoStartTime == serverTime + delay && r.0.autoStartTime > serverTime
    ensures r.1.None? <==> r.0.autoStartTime == s.autoStartTime
    ensures r.1.Some? ==> r.1.value == Change(r.0.autoStartTime, s.autoStartTime)
    ensures r.0.(autoStartTime := s.autoStartTime) == s
  {
    var t := if delay > 0.0 then serverTime + delay else -1.0;
    if s.autoStartTime == t then (s, None)
    else (s.(autoStartTime := t), Some(Change(t, s.autoStartTime)))
  }

  /** `SetGameHealth`: stores and returns the amount; an unchanged value
   *  broadcasts nothing. */
  function SetGameHealth(s: DungeonState, amount: int): (r: (DungeonState, int, Option<Change<int>>))
    ensures r.1 == r.0.remainingGameHealth == amount
    ensures r.2.None? <==> amount == s.remainingGameHealth
    ensures r.2.Some? ==> r.2.value == Change(amount, s.remainingGameHealth)
    ensures r.0.(remainingGameHealth := s.remainingGameHealth) == s
  {
    if amount == s.remainingGameHealth then (s, amount, None)
    else (s.(remainingGameHealth := amount), amount, Some(Change(amount, s.remainingGameHealth)))
  }

  /** `DecrementGameHealth`: a non-positive amount changes nothing;
   *  otherwise health drops by the amount but not below zero. */
  function DecrementGameHealth(s: DungeonState, amount: int): (r: (DungeonState, int))
    ensures r.1 == r.0.remainingGameHealth
    ensures amount <= 0 ==> r.0 == s
    ensures amount > 0 ==> r.1 == Max(0, s.remainingGameHealth - amount)
    ensures r.1 >= 0 || r.1 == s.remainingGameHealth
    ensures r.1 <= s.remainingGameHealth || r.1 == 0
    ensures r.0.(remainingGameHealth := s.remainingGameHealth) == s
  {
    if amount <= 0 then (s, s.remainingGameHealth)
    else
      var (s1, h, _) := SetGameHealth(s, Max(0, s.remainingGameHealth - amount));
      (s1, h)
  }

  /** Health that starts non-negative stays so, and two hits cost what one
   *  hit of their sum costs. */
  lemma DecrementsCompose(s: DungeonState, a: int, b: int)
    requires s.remainingGameHealth >= 0 && a > 0 && b > 0
    ensures DecrementGameHealth(s, a).1 >= 0
    ensures DecrementGameHealth(DecrementGameHealth(s, a).0, b) == DecrementGameHealth(s, a + b)
  {
  }
}

=== FILE: enemy_selection.dfy ===
/**
 * `UEnemySelectionComponent`: the AI's current enemy, the set of requesters
 * holding a lock on the selection, and the change cooldown. Actors and
 * requesters are ids; a null requester is `None`. Whether the cooldown
 * timer is running, and whether an actor can be targeted, are inputs.
 */
module EnemySelection {
  import opened Common

  /** The component's state. `useCooldown` is `bEnemyChangeCooldown`;
   *  `cooldownActive` says whether the change-cooldown timer is running. */
  datatype Selection = Selection(
    enemy: Option<nat>,
    character: Option<nat>,
    locks: set<Option<nat>>,
    useCooldown: bool,
    cooldownActive: bool)

  /** The `OnEnemyChanged` broadcast: the new and the previous enemy. */
  datatype EnemyChange = EnemyChange(current: Option<nat>, previous: Option<nat>)

  // ---------------------------------------------------------------------
  // Locks

  /** `LockEnemySelection`: false if the requester already holds a lock. */
  function LockEnemySelection(c: Selection, requester: Option<nat>): (r: (Selection, bool))
    ensures r.1 <==> requester !in c.locks
    ensures r.0 == c.(locks := c.locks + {requester})
  {
    if requester in c.locks then (c, false) else (c.(locks := c.locks + {requester}), true)
  }

  /** `UnlockEnemySelection`: false if the requester holds no lock. */
  function UnlockEnemySelection(c: Selection, requester: Option<nat>): (r: (Selection, bool))
    ensures r.1 <==> requester in c.locks
    ensures r.0 == c.(locks := c.locks - {requester})
  {
    if requester !in c.locks then (c, false) else (c.(locks := c.locks - {requester}), true)
  }

  /** `ClearEnemySelectionLock`. */
  function ClearEnemySelectionLock(c: Selection): (r: Selection)
    ensures !IsEnemySelectionLocked(r) && r.(locks := c.locks) == c
  {
    c.(locks := {})
  }

  /** `IsEnemySelectionLocked`: some requester holds a lock. */
  predicate IsEnemySelectionLocked(c: Selection)
  {
    |c.locks| > 0
  }

  /** A lock taken and released restores the lock set; taking the same
   *  lock twice fails the second time, and a held lock keeps the
   *  selection locked. */
  lemma LockUnlockRoundTrip(c: Selection, requester: Option<nat>)
    requires requester !in c.locks
    ensures var (l, _) := LockEnemySelection(c, requester);
      IsEnemySelectionLocked(l) && !LockEnemySelection(l, requester).1 &&
      UnlockEnemySelection(l, requester) == (c, true)
  {
    var (l, _) := LockEnemySelection(c, requester);
    assert requester in l.locks;
    assert l.locks - {requester} == c.locks;
  }

  // ---------------------------------------------------------------------
  // Changing the enemy

  /** `CanChangeEnemy`: not while locked, nor while an enemy is set and the
   *  cooldown runs. */
  predicate CanChangeEnemy(c: Selection)
  {
    !IsEnemySelectionLocked(c) && !(c.enemy.Some? && c.cooldownActive)
  }

  /** `EnemyChanged`: restarts the cooldown when the component uses one,
   *  and announces the change. */
  function EnemyChanged(c: Selection, previous: Option<nat>): (r: (Selection, EnemyChange))
    ensures r.0 == c.(cooldownActive := c.cooldownActive || c.useCooldown)
    ensures r.1 == EnemyChange(c.enemy, previous)
  {
    (c.(cooldownActive := c.cooldownActive || c.useCooldown), EnemyChange(c.enemy, previous))
  }

  /** `ClearEnemy`: unless forced, only when the enemy may change. The
   *  change is announced even if there was no enemy. Returns the state,
   *  the result, and the announcement if one was made. */
  function ClearEnemy(c: Selection, force: bool): (r: (Selection, bool, Option<EnemyChange>))
    ensures r.1 <==> force || CanChangeEnemy(c)
    ensures !r.1 ==> r == (c, false, None)
    ensures r.1 ==> r.0.enemy.None? && r.2 == Some(EnemyChange(None, c.enemy))
    ensures r.0.locks == c.locks
  {
    if !force && !CanChangeEnemy(c) then (c, false, None)
    else
      var (c1, change) := EnemyChanged(c.(enemy := None), c.enemy);
      (c1, true, Some(change))
  }

  /** `SetEnemy`: a null enemy clears; the current enemy is kept without
   *  any announcement; otherwise, unless forced, the enemy must be free to
   *  change and the new one targetable. */
  function SetEnemy(c: Selection, newEnemy: Option<nat>, force: bool, targetable: nat -> bool): (r: (Selection, bool, Option<EnemyChange>))
    ensures newEnemy.None? ==> r == ClearEnemy(c, force)
    ensures newEnemy.Some? && newEnemy == c.enemy ==> r == (c, true, None)
    ensures newEnemy.Some? && newEnemy != c.enemy ==>
      (r.1 <==> force || (CanChangeEnemy(c) && targetable(newEnemy.value)))
    ensures r.1 ==> r.0.enemy == newEnemy
    ensures !r.1 ==> r.0 == c
    ensures r.0.locks == c.locks
  {
    if newEnemy.None? then ClearEnemy(c, force)
    else if c.enemy == newEnemy then (c, true, None)
    else if !force && (!CanChangeEnemy(c) || !targetable(newEnemy.value)) then (c, false, None)
    else
      var (c1, change) := EnemyChanged(c.(enemy := newEnemy), c.enemy);
      (c1, true, Some(change))
  }

  /** While the selection is locked, no unforced request changes the enemy,
   *  and one succeeds only if it asks for the enemy already held. */
  lemma LockedSelectionHolds(c: Selection, newEnemy: Option<nat>, targetable: nat -> bool)
    requires IsEnemySelectionLocked(c)
    ensures var (r, ok, _) := SetEnemy(c, newEnemy, false, targetable);
      r.enemy == c.enemy && (ok <==> newEnemy.Some? && newEnemy == c.enemy)
    ensures ClearEnemy(c, false) == (c, false, None)
  {
  }

  /** A forced request always gets its way. */
  lemma ForcedSetSucceeds(c: Selection, newEnemy: Option<nat>, targetable: nat -> bool)
    ensures SetEnemy(c, newEnemy, true, targetable).1 && SetEnemy(c, newEnemy, true, targetable).0.enemy == newEnemy
    ensures ClearEnemy(c, true).1 && ClearEnemy(c, true).0.enemy.None?
  {
  }

  /** A change that succeeds starts the cooldown, so a second unforced
   *  change to a different enemy right after it fails. */
  lemma CooldownBlocksSecondChange(c: Selection, first: nat, second: nat, targetable: nat -> bool)
    requires c.useCooldown && Some(first) != c.enemy && first != second
    ensures var (c1, ok, _) := SetEnemy(c, Some(first), false, targetable);
      ok ==> !SetEnemy(c1, Some(second), false, targetable).1
  {
  }

  /** `GetAllEnemies`: the current enemy alone, or nothing. */
  function GetAllEnemies(c: Selection): (r: seq<nat>)
    ensures c.enemy.None? <==> |r| == 0
    ensures c.enemy.Some? ==> r == [c.enemy.value]
  {
    if c.enemy.None? then [] else [c.enemy.value]
  }

  /** `OnEnemyTargetableStateChanged`: a report about another actor is
   *  ignored; the current enemy becoming untargetable is cleared by force. */
  function OnEnemyTargetableStateChanged(c: Selection, actor: Option<nat>, targetableNow: bool): (r: Selection)
    ensures actor != c.enemy || targetableNow ==> r == c
    ensures actor == c.enemy && !targetableNow ==> r.enemy.None? && r.locks == c.locks
  {
    if actor != c.enemy then c
    else if !targetableNow then ClearEnemy(c, true).0
    else c
  }

  /** `OnPawnUpdated`: losing the pawn clears the enemy by force. */
  function OnPawnUpdated(c: Selection, character: Option<nat>): (r: Selection)
    ensures character.None? ==> r.enemy.None? && r.character.None?
    ensures character.Some? ==> r == c
  {
    if character.None? then ClearEnemy(c, true).0.(character := None) else c
  }
}

/**
 * `UAggroEnemyComponent`: the threat each known actor holds, decaying every
 * tick, and the bookkeeping that drops actors whose threat runs out or
 * whose object is gone. Actors are ids; whether an actor still exists and
 * whether the AI perceives it are inputs to the tick.
 */
module Aggro {
  /** `AggroDataMap`: threat by actor. */
  type AggroMap = map<nat, real>

  /** `FAggroData::TickAggroEntry`: a perceived entry decays by the time
   *  step but never below 1; an unperceived one decays three times as fast.
   *  Returns the new threat and whether the entry has expired. */
  function TickAggroEntry(threat: real, deltaTime: real, perceived: bool): (r: (real, bool))
    ensures perceived ==> r.0 == (if threat - deltaTime > 1.0 then threat - deltaTime else 1.0)
    ensures !perceived ==> r.0 == threat - 3.0 * deltaTime
    ensures r.1 <==> r.0 <= 0.0
  {
    var t := if perceived then (if threat - deltaTime > 1.0 then threat - deltaTime else 1.0)
      else threat - deltaTime * 3.0;
    (t, t <= 0.0)
  }

  /** A perceived entry never expires. */
  lemma PerceivedNeverExpires(threat: real, deltaTime: real)
    ensures TickAggroEntry(threat, deltaTime, true).0 >= 1.0 && !TickAggroEntry(threat, deltaTime, true).1
  {
  }

  /** The aggro state: the map, the keys kept for enemy selection after the
   *  last tick, and whether the component ticks. */
  datatype AggroState = AggroState(threats: AggroMap, sortedKeys: set<nat>, tickEnabled: bool)

  /** `TickComponent`: entries whose actor is gone are dropped untouched;
   *  every other entry ticks and is dropped if it expires. The surviving
   *  keys form the selection list. `enemySet` is whether the following
   *  `SetEnemy` succeeded; with that and an empty map the tick switches
   *  itself off. */
  function TickComponent(s: AggroState, deltaTime: real, alive: nat -> bool, perceived: nat -> bool, enemySet: bool): (r: AggroState)
    ensures forall k :: k in r.threats <==>
      k in s.threats && alive(k) && !TickAggroEntry(s.threats[k], deltaTime, perceived(k)).1
    ensures forall k :: k in r.threats ==> r.threats[k] == TickAggroEntry(s.threats[k], deltaTime, perceived(k)).0
    ensures r.sortedKeys == r.threats.Keys
    ensures r.tickEnabled <==> s.tickEnabled && !(enemySet && |r.threats| == 0)
  {
    var kept := map k | k in s.threats && alive(k) && !TickAggroEntry(s.threats[k], deltaTime, perceived(k)).1
      :: TickAggroEntry(s.threats[k], deltaTime, perceived(k)).0;
    AggroState(kept, kept.Keys, s.tickEnabled && !(enemySet && |kept| == 0))
  }

  /** After a tick every surviving threat is positive, and every actor that
   *  is alive and perceived survives it. */
  lemma TickKeepsPositiveAndPerceived(s: AggroState, deltaTime: real, alive: nat -> bool, perceived: nat -> bool, enemySet: bool)
    ensures var r := TickComponent(s, deltaTime, alive, perceived, enemySet);
      (forall k :: k in r.threats ==> r.threats[k] > 0.0) &&
      (forall k :: k in s.threats && alive(k) && perceived(k) ==> k in r.threats && r.threats[k] >= 1.0)
  {
    forall k | k in s.threats && alive(k) && perceived(k)
      ensures !TickAggroEntry(s.threats[k], deltaTime, true).1
    {
      PerceivedNeverExpires(s.threats[k], deltaTime);
    }
  }

  /** `CleanupAggroData`. */
  function CleanupAggroData(s: AggroState): (r: AggroState)
    ensures |r.threats| == 0 && |r.sortedKeys| == 0 && r.tickEnabled == s.tickEnabled
  {
    s.(threats := map[], sortedKeys := {})
  }

  /** `UpdateActorAggro` as written: a new actor enters with the given
   *  threat, and a known one has it passed to `AddThreat`, which subtracts
   *  it. The tick is switched on. */
  function UpdateActorAggroAsWritten(s: AggroState, actor: nat, threat: real): (r: AggroState)
    ensures actor in r.threats && r.tickEnabled
    ensures actor !in s.threats ==> r.threats[actor] == threat
    ensures actor in s.threats ==> r.threats[actor] == s.threats[actor] - threat
    ensures forall k :: k != actor ==> (k in r.threats <==> k in s.threats) && (k in s.threats ==> r.threats[k] == s.threats[k])
  {
    var t := if actor in s.threats then s.threats[actor] - threat else threat;
    s.(threats := s.threats[actor := t], tickEnabled := true)
  }

  /** `UpdateActorAggro` with the threat added, as its name and the
   *  damage-threat callers mean. */
  function UpdateActorAggro(s: AggroState, actor: nat, threat: real): (r: AggroState)
    ensures actor in r.threats && r.tickEnabled
    ensures actor !in s.threats ==> r.threats[actor] == threat
    ensures actor in s.threats ==> r.threats[actor] == s.threats[actor] + threat
    ensures forall k :: k != actor ==> (k in r.threats <==> k in s.threats) && (k in s.threats ==> r.threats[k] == s.threats[k])
  {
    var t := if actor in s.threats then s.threats[actor] + threat else threat;
    s.(threats := s.threats[actor := t], tickEnabled := true)
  }

  /** Every threat held is positive. */
  predicate PositiveThreats(s: AggroState)
  {
    forall k :: k in s.threats ==> s.threats[k] > 0.0
  }

  /** As written, an actor seen once (threat 1) that then deals 5 damage
   *  falls to threat -4 and is forgotten at the next tick it goes unseen,
   *  however short. */
  lemma DamageLowersAggroAsWritten(alive: nat -> bool, perceived: nat -> bool)
    requires alive(7) && !perceived(7)
    ensures var s := UpdateActorAggroAsWritten(AggroState(map[], {}, false), 7, 1.0);
      var d := UpdateActorAggroAsWritten(s, 7, 5.0);
      d.threats[7] == -4.0 && 7 !in TickComponent(d, 0.0, alive, perceived, false).threats
  {
  }

  /** With the threat added, positive threats stay positive, damage raises
   *  an actor's threat, and a damaged actor outlives a short unseen tick. */
  lemma DamageRaisesAggro(s: AggroState, actor: nat, threat: real)
    requires PositiveThreats(s) && threat > 0.0
    ensures PositiveThreats(UpdateActorAggro(s, actor, threat))
    ensures actor in s.threats ==> UpdateActorAggro(s, actor, threat).threats[actor] > s.threats[actor]
  {
  }

  /** The same scenario as above keeps the actor once the threat is
   *  added. */
  lemma DamageKeepsAggro(alive: nat -> bool, perceived: nat -> bool)
    requires alive(7) && !perceived(7)
    ensures var s := UpdateActorAggro(AggroState(map[], {}, false), 7, 1.0);
      var d := UpdateActorAggro(s, 7, 5.0);
      d.threats[7] == 6.0 && 7 in TickComponent(d, 0.0, alive, perceived, false).threats
  {
  }
}

=== FILE: game_state.dfy ===
/**
 * `ACoreGameState`: the friendly-fire scaling applied to every damage and
 * status application, and the counting of living players.
 */
module GameState {
  import opened Common
  import opened Teams
  import opened DamageType
  import opened DamageLog

  /** Defaults of `FriendlyFireDamageMultiplier` and
   *  `FriendlyFireEffectPowerMultiplier`. */
  const DefaultFriendlyFireDamageMultiplier: real := 0.01
  const DefaultFriendlyFireEffectPowerMultiplier: real := 0.0

  /** What the damage causer's ownership interface reports, when it has
   *  one: its owning player state and its owning pawn. */
  datatype Ownership = Ownership(playerState: Option<nat>, pawn: Option<nat>)

  /** The object credited with a friendly-fire modifier: the causer's owning
   *  player state, else its owning pawn, else the event instigator's player
   *  state. */
  function ResolvedInstigator(causer: Option<Ownership>, instigatorPlayerState: Option<nat>): (r: Option<nat>)
    ensures causer.Some? && causer.value.playerState.Some? ==> r == causer.value.playerState
    ensures causer.Some? && causer.value.playerState.None? && causer.value.pawn.Some? ==> r == causer.value.pawn
    ensures (causer.None? || (causer.value.playerState.None? && causer.value.pawn.None?)) ==> r == instigatorPlayerState
  {
    if causer.Some? && causer.value.playerState.Some? then causer.value.playerState
    else if causer.Some? && causer.value.pawn.Some? then causer.value.pawn
    else instigatorPlayerState
  }

  /** The inputs of a friendly-fire adjustment: the event's damage type (if
   *  it is a core damage type), the causer's attitude towards the damaged
   *  actor, and what is needed to credit a damage log modifier. */
  datatype Application = Application(damageType: Option<CoreDamageType>, attitude: Attitude,
                                     hasStatusComponent: bool, causer: Option<Ownership>,
                                     instigatorPlayerState: Option<nat>)

  /**
   * `ApplyFriendlyFireDamageMultiplier`: world damage and damage without a
   * core damage type pass unchanged; otherwise friendly fire is scaled by
   * the multiplier, damage the type does not apply is zeroed, and when the
   * scale is not 1 a friendly-fire modifier (of class `modifierClass`) is
   * returned for the damaged actor's status component, if it has one.
   */
  function ApplyFriendlyFireDamageMultiplier(a: Application, amount: real, multiplier: real, modifierClass: nat): (r: (real, Option<Modifier>))
    ensures a.damageType.None? || a.damageType.value.causedByWorld ==> r == (amount, None)
    ensures a.damageType.Some? && !a.damageType.value.causedByWorld ==>
      var result := ApplicationResultOf(a.damageType.value.damageLogic, a.attitude);
      var scale := match result case Full => 1.0 case FriendlyFire => multiplier case NoApplication => 0.0;
      && (result == Full ==> r.0 == amount)
      && (result == FriendlyFire ==> r.0 == amount * multiplier)
      && (result == NoApplication ==> r.0 == 0.0)
      && (r.1.Some? <==> scale != 1.0 && a.hasStatusComponent)
      && (r.1.Some? ==> r.1.value == Modifier(Some(modifierClass), ResolvedInstigator(a.causer, a.instigatorPlayerState), scale))
  {
    if a.damageType.None? || a.damageType.value.causedByWorld then (amount, None)
    else
      var result := DamageApplicationResult(a.damageType.value, a.attitude);
      var (newAmount, scale) :=
        match result
        case Full => (amount, 1.0)
        case FriendlyFire => (amount * multiplier, multiplier)
        case NoApplication => (0.0, 0.0);
      if scale != 1.0 && a.hasStatusComponent then
        (newAmount, Some(Modifier(Some(modifierClass), ResolvedInstigator(a.causer, a.instigatorPlayerState), scale)))
      else (newAmount, None)
  }

  /** `ApplyFriendlyFireEffectPowerMultiplier`: the same gating with the
   *  status application logic; no modifier is recorded. */
  function ApplyFriendlyFireEffectPowerMultiplier(a: Application, power: real, multiplier: real): (r: real)
    ensures a.damageType.None? || a.damageType.value.causedByWorld ==> r == power
    ensures a.damageType.Some? && !a.damageType.value.causedByWorld ==>
      var result := ApplicationResultOf(a.damageType.value.statusLogic, a.attitude);
      && (result == Full ==> r == power)
      && (result == FriendlyFire ==> r == power * multiplier)
      && (result == NoApplication ==> r == 0.0)
  {
    if a.damageType.None? || a.damageType.value.causedByWorld then power
    else
      match StatusApplicationResult(a.damageType.value, a.attitude)
      case Full => power
      case FriendlyFire => power * multiplier
      case NoApplication => 0.0
  }

  /** `HandleDamageApplied`: without a damaged actor or a damage causer
   *  nothing is adjusted. */
  function HandleDamageApplied(hasActor: bool, hasCauser: bool, a: Application, amount: real,
                               multiplier: real, modifierClass: nat): (r: (real, Option<Modifier>))
    ensures !(hasActor && hasCauser) ==> r == (amount, None)
    ensures hasActor && hasCauser ==> r == ApplyFriendlyFireDamageMultiplier(a, amount, multiplier, modifierClass)
  {
    if !hasActor || !hasCauser then (amount, None)
    else ApplyFriendlyFireDamageMultiplier(a, amount, multiplier, modifierClass)
  }

  /** `HandleStatusApplied`: the same guard for effect power. */
  function HandleStatusApplied(hasActor: bool, hasCauser: bool, a: Application, power: real, multiplier: real): (r: real)
    ensures !(hasActor && hasCauser) ==> r == power
    ensures hasActor && hasCauser ==> r == ApplyFriendlyFireEffectPowerMultiplier(a, power, multiplier)
  {
    if !hasActor || !hasCauser then power
    else ApplyFriendlyFireEffectPowerMultiplier(a, power, multiplier)
  }

  /** With the default multipliers, a hostile target takes full damage and
   *  a friendly target of an `Enemy` damage type takes a hundredth of it,
   *  with a modifier recording the scale; friendly status effects have no
   *  power. Non-negative damage is never increased. */
  lemma DefaultFriendlyFire(d: CoreDamageType, amount: real, cls: nat)
    requires !d.causedByWorld && d.damageLogic == Enemy && d.statusLogic == Enemy && amount >= 0.0
    ensures ApplyFriendlyFireDamageMultiplier(Application(Some(d), Hostile, true, None, None), amount,
                                              DefaultFriendlyFireDamageMultiplier, cls) == (amount, None)
    ensures ApplyFriendlyFireDamageMultiplier(Application(Some(d), Friendly, true, None, None), amount,
                                              DefaultFriendlyFireDamageMultiplier, cls)
            == (amount / 100.0, Some(Modifier(Some(cls), None, 0.01)))
    ensures ApplyFriendlyFireEffectPowerMultiplier(Application(Some(d), Friendly, true, None, None), amount,
                                                   DefaultFriendlyFireEffectPowerMultiplier) == 0.0
  {
  }

  /** For multipliers in [0, 1], friendly-fire scaling never increases a
   *  non-negative damage amount, whatever the type and attitude. */
  lemma FriendlyFireNeverIncreases(a: Application, amount: real, multiplier: real, cls: nat)
    requires amount >= 0.0 && 0.0 <= multiplier <= 1.0
    ensures 0.0 <= ApplyFriendlyFireDamageMultiplier(a, amount, multiplier, cls).0 <= amount
  {
    ScaleWithinAmount(amount, multiplier);
  }

  /** The same bound for effect power. */
  lemma FriendlyFireNeverIncreasesPower(a: Application, power: real, multiplier: real)
    requires power >= 0.0 && 0.0 <= multiplier <= 1.0
    ensures 0.0 <= ApplyFriendlyFireEffectPowerMultiplier(a, power, multiplier) <= power
  {
    ScaleWithinAmount(power, multiplier);
  }

  /** Scaling by a factor in [0, 1] keeps a non-negative amount in [0, amount]. */
  lemma ScaleWithinAmount(amount: real, multiplier: real)
    requires amount >= 0.0 && 0.0 <= multiplier <= 1.0
    ensures 0.0 <= amount * multiplier <= amount
  {
    assert amount * multiplier <= amount * 1.0;
  }

  /* ---------------------------------------------------------------------- */
  /* Players                                                                */
  /* ---------------------------------------------------------------------- */

  /** An entry of `PlayerArray`: `None` when it is not a core player state,
   *  else whether that player is alive. */
  type PlayerEntry = Option<bool>

  predicate IsAlivePlayer(p: PlayerEntry)
  {
    p.Some? && p.value
  }

  /** The reference count of living core players. */
  function AliveCount(players: seq<PlayerEntry>): (n: nat)
    ensures n <= |players|
    ensures n == 0 <==> forall i :: 0 <= i < |players| ==> !IsAlivePlayer(players[i])
  {
    if |players| == 0 then 0
    else
      var last := players[|players| - 1];
      var rest := players[..|players| - 1];
      assert forall i :: 0 <= i < |rest| ==> rest[i] == players[i];
      AliveCount(rest) + (if IsAlivePlayer(last) then 1 else 0)
  }

  /** `GetNumberOfAlivePlayers`: one pass counting the entries that are
   *  living core player states. */
  method GetNumberOfAlivePlayers(players: seq<PlayerEntry>) returns (count: int)
    ensures count == AliveCount(players)
  {
    count := 0;
    var i := 0;
    while i < |players|
      invariant 0 <= i <= |players|
      invariant count == AliveCount(players[..i])
    {
      assert players[..i + 1][..i] == players[..i];
      if IsAlivePlayer(players[i]) {
        count := count + 1;
      }
      i := i + 1;
    }
    assert players[..|players|] == players;
  }

  /** `AreThereAnyAlivePlayers`: the first living core player ends the
   *  scan. */
  method AreThereAnyAlivePlayers(players: seq<PlayerEntry>) returns (any: bool)
    ensures any <==> exists i :: 0 <= i < |players| && IsAlivePlayer(players[i])
  {
    for i := 0 to |players|
      invariant forall k :: 0 <= k < i ==> !IsAlivePlayer(players[k])
    {
      if IsAlivePlayer(players[i]) {
        return true;
      }
    }
    return false;
  }

  /** `GetNumberOfPlayers` counts every entry, so the living never outnumber
   *  the players, and someone is alive exactly when the count is positive. */
  lemma AliveCountAgrees(players: seq<PlayerEntry>)
    ensures AliveCount(players) <= |players|
    ensures AliveCount(players) > 0 <==> exists i :: 0 <= i < |players| && IsAlivePlayer(players[i])
  {
  }
}

=== FILE: handles.dfy ===
/**
 * The 64-bit handle generators shared by ability target data, ability
 * instances and placement points. Each keeps a static `uint64` counter that
 * starts at `MAX_uint64`; generating pre-increments it and increments once
 * more when it lands on `MAX_uint64`, which is the invalid handle. The
 * counter itself is the handle returned.
 */
module Handles {
  import opened Common

  /** The default (invalid) handle value and the counters' start value. */
  const InvalidHandle: int := MaxUint64

  predicate IsValidHandle(h: int) { h != InvalidHandle }

  /** Where the counter stands in the cycle of valid handles `0 .. MAX-1`:
   *  the start value `MAX` sits just before 0. */
  function Base(counter: int): int
  {
    if counter == MaxUint64 then -1 else counter
  }

  /** One `GenerateHandle` call: the new counter value, which is also the
   *  handle returned. */
  function GenerateHandle(counter: int): (h: int)
    requires IsUint64(counter)
    ensures IsUint64(h) && IsValidHandle(h)
    ensures counter == InvalidHandle ==> h == 0
    ensures counter < MaxUint64 - 1 ==> h == counter + 1
    ensures h == (Base(counter) + 1) % MaxUint64
  {
    var next := WrapU64(counter + 1);
    if next == MaxUint64 then WrapU64(next + 1) else next
  }

  /** Reduction of a value below `2 * MAX_uint64` into the cycle of valid
   *  handles. */
  function Cycle(x: int): (r: int)
    requires 0 <= x < 2 * MaxUint64
    ensures 0 <= r < MaxUint64
    ensures r == x % MaxUint64
  {
    if x < MaxUint64 then x else x - MaxUint64
  }

  /** The handles returned by `n` successive calls starting from `counter`;
   *  the `i`-th is `i + 1` steps round the cycle from the counter. */
  function GenerateHandles(counter: int, n: nat): (hs: seq<int>)
    requires IsUint64(counter)
    requires n <= MaxUint64
    ensures |hs| == n
    ensures forall i :: 0 <= i < n ==> IsValidHandle(hs[i]) && IsUint64(hs[i])
    ensures forall i :: 0 <= i < n ==> hs[i] == Cycle(Base(counter) + 1 + i)
    decreases n
  {
    if n == 0 then []
    else
      var h := GenerateHandle(counter);
      var rest := GenerateHandles(h, n - 1);
      [h] + rest
  }

  /** Successive handles never repeat until the counter has gone once round
   *  all `MAX_uint64` valid values; the first handle ever generated is 0. */
  lemma HandlesDistinct(counter: int, n: nat)
    requires IsUint64(counter)
    requires n <= MaxUint64
    ensures var hs := GenerateHandles(counter, n);
      forall i, j :: 0 <= i < j < n ==> hs[i] != hs[j]
    ensures n > 0 && counter == InvalidHandle ==> GenerateHandles(counter, n)[0] == 0
  {
  }
}

=== FILE: interactable.dfy ===
/**
 * `UInteractableComponent`: whether a pawn's interaction component may
 * interact, instant and held interactions, the list of pending (held)
 * instigators, and the diff a client runs when that list replicates.
 * Instigators are ids; a weak reference whose object is gone is `None`, and
 * the engine's weak references compare such an entry equal to null, so
 * removing null removes it. Whether the owning actor's interface allows
 * the interaction and whether an instigator is a simulated proxy are
 * parameters.
 */
module Interactable {
  import opened Common

  /** `EInteractionResponse`, in declaration order. */
  datatype Response = Success | Pending | Failed | Invalid

  /** The enum's underlying value. */
  function Rank(r: Response): nat
  {
    match r
    case Success => 0
    case Pending => 1
    case Failed => 2
    case Invalid => 3
  }

  /** Everything from `Failed` on is a failure. */
  predicate IsFailure(r: Response)
  {
    Rank(r) >= Rank(Failed)
  }

  /** The component: whether it is active, whether interactions are held,
   *  `MaxConcurrentInteractions` (a byte), the replicated pending list and
   *  the set of instigators last seen pending. */
  datatype Component = Component(
    active: bool,
    held: bool,
    maxConcurrent: nat,
    pending: seq<Option<nat>>,
    previous: set<Option<nat>>)

  /** `CanInteract`: invalid when inactive, without an instigator, or
   *  with the pending list full; otherwise the owner decides, and an owner
   *  without the interface allows it. */
  function CanInteract(c: Component, instigator: Option<nat>, ownerAllows: bool): (r: Response)
    ensures r == Success || r == Invalid
    ensures r == Success <==> c.active && instigator.Some? && |c.pending| < c.maxConcurrent && ownerAllows
  {
    if !c.active || instigator.None? || |c.pending| >= c.maxConcurrent then Invalid
    else if !ownerAllows then Invalid
    else Success
  }

  /** `StartPendingInteraction`: unless the instigator is a simulated
   *  proxy, it is appended to the list and added to the set, and stale
   *  entries are dropped from both. */
  function StartPendingInteraction(c: Component, x: nat, proxy: bool): (r: Component)
    ensures proxy ==> r == c
    ensures !proxy ==> None !in r.pending && None !in r.previous
    ensures !proxy ==> forall y :: y in r.pending <==> (y in c.pending && y.Some?) || y == Some(x)
    ensures !proxy ==> forall y :: y in r.previous <==> (y in c.previous && y.Some?) || y == Some(x)
    ensures r.active == c.active && r.held == c.held && r.maxConcurrent == c.maxConcurrent
  {
    if proxy then c
    else c.(pending := RemoveAll(c.pending + [Some(x)], None), previous := (c.previous + {Some(x)}) - {None})
  }

  /** `StopPendingInteraction`: unless the instigator is a simulated
   *  proxy, it and every stale entry leave the list and the set. */
  function StopPendingInteraction(c: Component, x: nat, proxy: bool): (r: Component)
    ensures proxy ==> r == c
    ensures !proxy ==> forall y :: y in r.pending <==> y in c.pending && y.Some? && y != Some(x)
    ensures !proxy ==> forall y :: y in r.previous <==> y in c.previous && y.Some? && y != Some(x)
    ensures r.active == c.active && r.held == c.held && r.maxConcurrent == c.maxConcurrent
  {
    if proxy then c
    else c.(pending := RemoveAll(RemoveAll(c.pending, Some(x)), None), previous := c.previous - {Some(x), None})
  }

  /** Starting and then stopping a new instigator on a list without stale
   *  or repeated entries restores the component. */
  lemma StartStopRoundTrip(c: Component, x: nat)
    requires NoDuplicates(c.pending) && None !in c.pending && Some(x) !in c.pending
    requires None !in c.previous && Some(x) !in c.previous
    ensures StopPendingInteraction(StartPendingInteraction(c, x, false), x, false) == c
  {
    RemoveAllAbsent(c.pending + [Some(x)], None);
    RemoveAllUndoesAppend(c.pending, Some(x));
    RemoveAllAbsent(c.pending, None);
  }

  /** `Interact`: a failure is returned as it is; a held interaction
   *  starts pending (once per instigator) and answers `Pending`; any other
   *  interaction is performed at once. Returns the component, the response
   *  and whether the interaction was performed. */
  function Interact(c: Component, instigator: Option<nat>, ownerAllows: bool, proxy: bool): (r: (Component, Response, bool))
    ensures IsFailure(r.1) <==> CanInteract(c, instigator, ownerAllows) == Invalid
    ensures IsFailure(r.1) ==> r == (c, Invalid, false)
    ensures r.1 == Pending <==> !IsFailure(r.1) && c.held
    ensures r.1 == Success <==> r.2
    ensures r.1 == Success ==> r.0 == c
    ensures r.1 == Pending && instigator in c.pending ==> r.0 == c
    ensures r.1 == Pending && !proxy ==> instigator in r.0.pending
  {
    var response := CanInteract(c, instigator, ownerAllows);
    if IsFailure(response) then (c, response, false)
    else if c.held then
      if instigator !in c.pending then (StartPendingInteraction(c, instigator.value, proxy), Pending, false)
      else (c, Pending, false)
    else (c, response, true)
  }

  /** `Interact` never lets the pending list outgrow
   *  `MaxConcurrentInteractions`, and keeps it free of repeats and stale
   *  entries. */
  lemma InteractKeepsPendingBounded(c: Component, instigator: Option<nat>, ownerAllows: bool, proxy: bool)
    requires |c.pending| <= c.maxConcurrent
    requires NoDuplicates(c.pending)
    ensures var c1 := Interact(c, instigator, ownerAllows, proxy).0;
      |c1.pending| <= c1.maxConcurrent && NoDuplicates(c1.pending)
  {
    var r := Interact(c, instigator, ownerAllows, proxy);
    if r.1 == Pending && instigator !in c.pending && !proxy {
      var appended := c.pending + [instigator];
      assert NoDuplicates(appended);
      RemoveAllKeepsNoDuplicates(appended, None);
    }
  }

  /** With room for one instigator, pressing a held interaction again
   *  while it is pending is refused as invalid and changes nothing. */
  lemma RepeatedHeldInteractRefused(c: Component, x: nat, ownerAllows: bool)
    requires c.active && c.held && c.maxConcurrent == 1 && |c.pending| == 0 && ownerAllows
    ensures var (c1, r1, _) := Interact(c, Some(x), ownerAllows, false);
      r1 == Pending && c1.pending == [Some(x)] &&
      Interact(c1, Some(x), ownerAllows, false) == (c1, Invalid, false)
  {
    assert c.pending + [Some(x)] == [Some(x)];
    assert RemoveAll([Some(x)], None) == [Some(x)] by {
      RemoveAllAbsent([Some(x)], None);
    }
  }

  /** `StopInteract`: false for an instigator that is not pending,
   *  otherwise stops it. */
  function StopInteract(c: Component, x: nat, proxy: bool): (r: (Component, bool))
    ensures r.1 <==> Some(x) in c.pending
    ensures !r.1 ==> r.0 == c
    ensures r.1 && !proxy ==> Some(x) !in r.0.pending && Some(x) !in r.0.previous
  {
    if Some(x) !in c.pending then (c, false)
    else (StopPendingInteraction(c, x, proxy), true)
  }

  /** `CompletePendingInteraction`: a held interaction finishes; the
   *  instigator leaves the list (the set is left alone) and the
   *  interaction is performed. Returns whether it was performed. */
  function CompletePendingInteraction(c: Component, instigator: Option<nat>): (r: (Component, bool))
    ensures instigator.None? ==> r == (c, false)
    ensures instigator.Some? ==> r.1 && instigator !in r.0.pending && r.0.previous == c.previous
    ensures forall y :: y in r.0.pending ==> y in c.pending
  {
    if instigator.None? then (c, false)
    else (c.(pending := RemoveAll(RemoveAll(c.pending, instigator), None)), true)
  }

  /** A completed held interaction can be started again by the same
   *  instigator. */
  lemma CompleteThenInteractAgain(c: Component, x: nat, ownerAllows: bool)
    requires c.active && c.held && ownerAllows && |c.pending| <= c.maxConcurrent && Some(x) in c.pending
    ensures var c1 := CompletePendingInteraction(c, Some(x)).0;
      Interact(c1, Some(x), ownerAllows, false).1 == Pending &&
      Some(x) in Interact(c1, Some(x), ownerAllows, false).0.pending
  {
    var c1 := CompletePendingInteraction(c, Some(x)).0;
    RemoveAllShrinks(c.pending, Some(x));
  }

  /** Removing a present element shortens the sequence. */
  lemma {:induction false} RemoveAllShrinks<T(!new)>(s: seq<T>, x: T)
    requires x in s
    ensures |RemoveAll(s, x)| < |s|
    decreases |s|
  {
    if s[0] != x {
      RemoveAllShrinks(s[1..], x);
    }
  }

  // ---------------------------------------------------------------------
  // The client's replication diff

  /** The live instigators of a list. */
  function ValidEntries(list: seq<Option<nat>>): set<Option<nat>>
  {
    set e | e in list && e.Some?
  }

  /** The first loop of `OnRep_PendingInteractionInstigator` from index
   *  `i` of the replicated list: every live entry not in the set starts
   *  pending. Returns the component afterwards and the instigators started,
   *  in order. */
  function DiffStart(c: Component, list: seq<Option<nat>>, i: nat, proxy: nat -> bool): (r: (Component, seq<nat>))
    decreases |list| - i
  {
    if i >= |list| then (c, [])
    else
      match list[i]
      case None => DiffStart(c, list, i + 1, proxy)
      case Some(x) =>
        if Some(x) in c.previous then DiffStart(c, list, i + 1, proxy)
        else
          var rest := DiffStart(StartPendingInteraction(c, x, proxy(x)), list, i + 1, proxy);
          (rest.0, [x] + rest.1)
  }

  /** The first loop starts exactly the live entries that were not in the
   *  set, adds to the set only live entries of the list whose instigator
   *  is not a simulated proxy, and never adds a stale entry. */
  lemma {:induction false} DiffStartEffect(c: Component, list: seq<Option<nat>>, i: nat, proxy: nat -> bool)
    requires i <= |list|
    ensures var (c1, started) := DiffStart(c, list, i, proxy);
      (forall x :: x in started <==> Some(x) in list[i..] && Some(x) !in c.previous) &&
      (forall x :: Some(x) in c1.previous <==> Some(x) in c.previous || (Some(x) in list[i..] && !proxy(x))) &&
      (None in c1.previous ==> None in c.previous)
    decreases |list| - i
  {
    if i < |list| {
      assert list[i..] == [list[i]] + list[i + 1..];
      match list[i]
      case None =>
        DiffStartEffect(c, list, i + 1, proxy);
      case Some(x) =>
        if Some(x) in c.previous {
          DiffStartEffect(c, list, i + 1, proxy);
        } else {
          DiffStartEffect(StartPendingInteraction(c, x, proxy(x)), list, i + 1, proxy);
        }
    }
  }

  /** The replication diff as written: the second loop stops every entry
   *  of the set missing from the list without checking that its weak
   *  reference is still live, and stopping a null instigator dereferences
   *  it. `None` marks that crash; otherwise the component, the instigators
   *  started and the instigators stopped. */
  function OnRepPendingAsWritten(c: Component, proxy: nat -> bool): (r: Option<(Component, seq<nat>, set<nat>)>)
    ensures r.None? <==> None in DiffStart(c, c.pending, 0, proxy).0.previous
  {
    var (c1, started) := DiffStart(c, c.pending, 0, proxy);
    var toStop := c1.previous - ValidEntries(c.pending);
    if None in toStop then None
    else Some(StopAll(c1, c.pending, toStop, started, proxy))
  }

  /** The second loop in one step: its stops commute, so the set's
   *  iteration order does not matter. Every stopped instigator that is
   *  not a simulated proxy leaves the list, and with it the stale
   *  entries; then the set becomes the live entries of the list. */
  function StopAll(c1: Component, list: seq<Option<nat>>, toStop: set<Option<nat>>, started: seq<nat>, proxy: nat -> bool): (r: (Component, seq<nat>, set<nat>))
    ensures r.0.previous == ValidEntries(list)
    ensures r.1 == started
    ensures forall x :: x in r.2 <==> Some(x) in toStop
  {
    var stopped := set e | e in toStop && e.Some? :: e.value;
    var gone := set x | x in stopped && !proxy(x);
    var pending := if gone == {} then c1.pending else Keep(c1.pending, gone);
    (c1.(pending := pending, previous := ValidEntries(list)), started, stopped)
  }

  /** The live entries of `s` whose instigator is not in `gone`. */
  function Keep(s: seq<Option<nat>>, gone: set<nat>): (r: seq<Option<nat>>)
    ensures forall y :: y in r <==> y in s && y.Some? && y.value !in gone
  {
    if |s| == 0 then []
    else if s[0].None? || s[0].value in gone then Keep(s[1..], gone)
    else [s[0]] + Keep(s[1..], gone)
  }

  /** The replication diff as evidently intended: a stale entry of the set
   *  is skipped in the second loop just as the first loop skips stale
   *  entries of the list. */
  function OnRepPending(c: Component, proxy: nat -> bool): (r: (Component, seq<nat>, set<nat>))
    ensures r.0.previous == ValidEntries(c.pending)
  {
    var (c1, started) := DiffStart(c, c.pending, 0, proxy);
    var toStop := c1.previous - ValidEntries(c.pending) - {None};
    StopAll(c1, c.pending, toStop, started, proxy)
  }

  /** The diff starts exactly the live instigators of the list that were
   *  not seen before, stops exactly the instigators seen before that left
   *  the list, and then remembers the live instigators of the list. */
  lemma OnRepDiff(c: Component, proxy: nat -> bool)
    ensures var (c2, started, stopped) := OnRepPending(c, proxy);
      c2.previous == ValidEntries(c.pending) &&
      (forall x :: x in started <==> Some(x) in c.pending && Some(x) !in c.previous) &&
      (forall x :: x in stopped <==> Some(x) in c.previous && Some(x) !in c.pending)
  {
    DiffStartEffect(c, c.pending, 0, proxy);
    assert c.pending[0..] == c.pending;
  }

  /** Without stale entries in the set, the code as written agrees with
   *  the intended diff. */
  lemma OnRepAgreesWithoutStale(c: Component, proxy: nat -> bool)
    requires None !in c.previous
    ensures OnRepPendingAsWritten(c, proxy) == Some(OnRepPending(c, proxy))
  {
    DiffStartEffect(c, c.pending, 0, proxy);
    var (c1, _) := DiffStart(c, c.pending, 0, proxy);
    assert c1.previous - ValidEntries(c.pending) - {None} == c1.previous - ValidEntries(c.pending);
  }

  /** The instigator `x` is destroyed: its weak references go stale. */
  function Destroy(c: Component, x: nat): (r: Component)
    ensures Some(x) !in r.pending && Some(x) !in r.previous
    ensures Some(x) in c.previous ==> None in r.previous
  {
    c.(pending := seq(|c.pending|, k requires 0 <= k < |c.pending| => if c.pending[k] == Some(x) then None else c.pending[k]),
       previous := (c.previous - {Some(x)}) + (if Some(x) in c.previous then {None} else {}))
  }

  /** A client sees its own instigator 7 start a held interaction; 7 is
   *  destroyed and the server's list arrives empty. As written, the diff
   *  stops a null instigator; the intended diff stops nothing and forgets
   *  the stale entry. */
  lemma StaleInstigatorCrashesAsWritten()
    ensures var c0 := Component(true, true, 1, [Some(7)], {});
      var c1 := OnRepPending(c0, _ => false).0;
      var c2 := Destroy(c1, 7).(pending := []);
      c1.previous == {Some(7)} &&
      OnRepPendingAsWritten(c2, _ => false).None? &&
      OnRepPending(c2, _ => false).0.previous == {} &&
      OnRepPending(c2, _ => false).2 == {}
  {
    var proxy: nat -> bool := _ => false;
    var c0 := Component(true, true, 1, [Some(7)], {});
    OnRepDiff(c0, proxy);
    var c1 := OnRepPending(c0, proxy).0;
    assert Some(7) in ValidEntries(c0.pending);
    assert c1.previous == {Some(7)};
    var c2 := Destroy(c1, 7).(pending := []);
    assert c2.previous == {None};
    assert DiffStart(c2, [], 0, proxy) == (c2, []);
    OnRepDiff(c2, proxy);
  }
}

=== FILE: local_message.dfy ===
/**
 * `UCoreLocalMessage::ShouldIgnoreData`: whether a chat message is hidden
 * from a receiver, by the message type's recipient filter and the attitude
 * of the sender's team towards the receiver's.
 */
module LocalMessage {
  import opened Common
  import opened Teams

  /** `ERecipientFilter`, in declaration order. */
  datatype RecipientFilter = AllyOnly | AllyOrNeutralOnly | Everyone

  function FilterRank(f: RecipientFilter): int
  {
    match f
    case AllyOnly => 0
    case AllyOrNeutralOnly => 1
    case Everyone => 2
  }

  /** The message types the filter distinguishes. */
  datatype MessageType = Say | TeamSay | OtherMessage

  /** The message's filter: the configured one for Say (default Everyone)
   *  and TeamSay (default AllyOnly), Everyone for anything else. */
  function FilterFor(kind: MessageType, sayFilter: RecipientFilter, teamSayFilter: RecipientFilter): (f: RecipientFilter)
    ensures kind == OtherMessage ==> f == Everyone
    ensures kind == Say ==> f == sayFilter
    ensures kind == TeamSay ==> f == teamSayFilter
  {
    match kind
    case Say => sayFilter
    case TeamSay => teamSayFilter
    case OtherMessage => Everyone
  }

  /** The team of a sender or receiver without a team interface is "no
   *  team". */
  function TeamOrNone(team: Option<int>): int
  {
    if team.Some? then team.value else NoTeamId
  }

  /**
   * `ShouldIgnoreData` as written: friends are never ignored, neutrals are
   * ignored when the filter ranks above `AllyOrNeutralOnly`, and hostiles
   * when it ranks above `Everyone`, which no filter does.
   */
  function ShouldIgnoreDataAsWritten(kind: MessageType, sayFilter: RecipientFilter, teamSayFilter: RecipientFilter,
                                     sender: Option<int>, receiver: Option<int>): (ignore: bool)
    ensures !ignore
  {
    var filter := FilterFor(kind, sayFilter, teamSayFilter);
    match Solver(TeamOrNone(sender), TeamOrNone(receiver))
    case Friendly => false
    case Neutral => FilterRank(filter) > FilterRank(AllyOrNeutralOnly)
    case Hostile => FilterRank(filter) > FilterRank(Everyone)
  }

  /** As written, team chat between different teams is shown to the enemy
   *  team, although the TeamSay filter defaults to AllyOnly. */
  lemma TeamSayReachesEnemiesAsWritten()
    ensures FilterFor(TeamSay, Everyone, AllyOnly) == AllyOnly
    ensures Solver(0, 1) == Hostile
    ensures !ShouldIgnoreDataAsWritten(TeamSay, Everyone, AllyOnly, Some(0), Some(1))
  {
  }

  /** Whether a filter admits a receiver of the given attitude. */
  predicate Admits(filter: RecipientFilter, attitude: Attitude)
  {
    match attitude
    case Friendly => true
    case Neutral => filter != AllyOnly
    case Hostile => filter == Everyone
  }

  /**
   * `ShouldIgnoreData` as evidently intended: a receiver is ignored when the
   * filter ranks below the lowest filter admitting its attitude, so
   * neutrals are ignored under AllyOnly and hostiles under anything but
   * Everyone.
   */
  function ShouldIgnoreData(kind: MessageType, sayFilter: RecipientFilter, teamSayFilter: RecipientFilter,
                            sender: Option<int>, receiver: Option<int>): (ignore: bool)
    ensures ignore <==> !Admits(FilterFor(kind, sayFilter, teamSayFilter), Solver(TeamOrNone(sender), TeamOrNone(receiver)))
  {
    var filter := FilterFor(kind, sayFilter, teamSayFilter);
    match Solver(TeamOrNone(sender), TeamOrNone(receiver))
    case Friendly => false
    case Neutral => FilterRank(filter) < FilterRank(AllyOrNeutralOnly)
    case Hostile => FilterRank(filter) < FilterRank(Everyone)
  }

  /** With the default filters, the intended check shows Say to everyone,
   *  shows TeamSay to the sender's team, and hides TeamSay from all other
   *  receivers, teamless ones included. */
  lemma DefaultFiltersIntended(sender: Option<int>, receiver: Option<int>)
    ensures !ShouldIgnoreData(Say, Everyone, AllyOnly, sender, receiver)
    ensures !ShouldIgnoreData(OtherMessage, Everyone, AllyOnly, sender, receiver)
    ensures ShouldIgnoreData(TeamSay, Everyone, AllyOnly, sender, receiver) <==>
      TeamOrNone(sender) != TeamOrNone(receiver) || TeamOrNone(sender) == NoTeamId
  {
  }
}

=== FILE: placement_grid.dfy ===
/**
 * The trap placement grid's storage: coordinates with a `MAX_int32`
 * "invalid" sentinel, placement points carrying a handle and an occupant,
 * ragged rows that grow on write, and the handle → coordinates map.
 */
module PlacementGrid {
  import opened Common
  import opened Handles

  /* ---------------------------------------------------------------------- */
  /* Coordinates                                                            */
  /* ---------------------------------------------------------------------- */

  /** `FPlacementCoordinates`; a default-constructed value has both
   *  components at `MAX_int32`. */
  datatype Coords = Coords(x: int, y: int)

  const InvalidCoords: Coords := Coords(MaxInt32, MaxInt32)

  predicate IsValidCoords(c: Coords)
  {
    c.x != MaxInt32 && c.y != MaxInt32
  }

  /** Binary `+`: an invalid left operand yields the right one, then an
   *  invalid right operand yields the left one; otherwise componentwise. */
  function Add(a: Coords, b: Coords): (r: Coords)
    ensures !IsValidCoords(a) ==> r == b
    ensures IsValidCoords(a) && !IsValidCoords(b) ==> r == a
    ensures IsValidCoords(a) && IsValidCoords(b) ==> r.x == a.x + b.x && r.y == a.y + b.y
  {
    if !IsValidCoords(a) then b
    else if !IsValidCoords(b) then a
    else Coords(a.x + b.x, a.y + b.y)
  }

  /** Binary `-`, with the same sentinel handling as `+`. */
  function Sub(a: Coords, b: Coords): (r: Coords)
    ensures !IsValidCoords(a) ==> r == b
    ensures IsValidCoords(a) && !IsValidCoords(b) ==> r == a
    ensures IsValidCoords(a) && IsValidCoords(b) ==> r.x == a.x - b.x && r.y == a.y - b.y
  {
    if !IsValidCoords(a) then b
    else if !IsValidCoords(b) then a
    else Coords(a.x - b.x, a.y - b.y)
  }

  /** `+=`: nothing happens when either operand is invalid. */
  function AddAssign(a: Coords, b: Coords): (r: Coords)
    ensures !IsValidCoords(a) || !IsValidCoords(b) ==> r == a
    ensures IsValidCoords(a) && IsValidCoords(b) ==> r == Add(a, b)
  {
    if !IsValidCoords(a) || !IsValidCoords(b) then a
    else Coords(a.x + b.x, a.y + b.y)
  }

  /** `-=`: nothing happens when either operand is invalid. */
  function SubAssign(a: Coords, b: Coords): (r: Coords)
    ensures !IsValidCoords(a) || !IsValidCoords(b) ==> r == a
    ensures IsValidCoords(a) && IsValidCoords(b) ==> r == Sub(a, b)
  {
    if !IsValidCoords(a) || !IsValidCoords(b) then a
    else Coords(a.x - b.x, a.y - b.y)
  }

  /** The invalid value is a left identity of `+`, and a right identity for
   *  valid left operands; `+` commutes on valid operands; and `-=` undoes
   *  `+=` whenever the intermediate sum is itself valid. */
  lemma AddSubRoundTrip(a: Coords, b: Coords)
    ensures Add(InvalidCoords, b) == b
    ensures IsValidCoords(a) ==> Add(a, InvalidCoords) == a
    ensures IsValidCoords(a) && IsValidCoords(b) && IsValidCoords(AddAssign(a, b)) ==>
      SubAssign(AddAssign(a, b), b) == a
    ensures IsValidCoords(a) && IsValidCoords(b) ==> Add(a, b) == Add(b, a)
  {
  }

  /** `Clamp`: invalid coordinates are refused and kept; valid ones have
   *  each component raised to at least 0. */
  function Clamp(c: Coords): (r: (Coords, bool))
    ensures r.1 <==> IsValidCoords(c)
    ensures !r.1 ==> r.0 == c
    ensures r.1 ==> r.0.x >= 0 && r.0.y >= 0
    ensures r.1 ==> r.0.x == Max(c.x, 0) && r.0.y == Max(c.y, 0)
  {
    if !IsValidCoords(c) then (c, false)
    else (Coords(Max(c.x, 0), Max(c.y, 0)), true)
  }

  /** Clamping keeps valid coordinates valid, leaves non-negative ones
   *  where they are, and is idempotent. */
  lemma ClampIdempotent(c: Coords)
    ensures Clamp(c).1 ==> IsValidCoords(Clamp(c).0) && Clamp(Clamp(c).0) == Clamp(c)
    ensures IsValidCoords(c) && c.x >= 0 && c.y >= 0 ==> Clamp(c) == (c, true)
  {
  }

  /* ---------------------------------------------------------------------- */
  /* Points and rows                                                        */
  /* ---------------------------------------------------------------------- */

  /** `FPlacementPoint`: a placement handle and the occupying object, if
   *  any. The default point has the invalid handle and no occupant. */
  datatype Point = Point(handle: int, occupant: Option<nat>)

  const InvalidPoint: Point := Point(InvalidHandle, None)

  predicate IsValidPoint(p: Point)
  {
    IsValidHandle(p.handle)
  }

  predicate IsOccupied(p: Point)
  {
    p.occupant.Some?
  }

  type Row = seq<Point>

  /** `FPlacementGridRow::Contains`: `x` indexes a valid point. */
  predicate RowContains(row: Row, x: int)
  {
    0 <= x < |row| && IsValidPoint(row[x])
  }

  /** `FPlacementGridRow::Get`: the point, or the invalid point when `x`
   *  is out of range. */
  function RowGet(row: Row, x: int): (p: Point)
    ensures 0 <= x < |row| ==> p == row[x]
    ensures !(0 <= x < |row|) ==> p == InvalidPoint
  {
    if 0 <= x < |row| then row[x] else InvalidPoint
  }

  /** `FPlacementGridRow::SetOccupant`: replaces the occupant of an existing
   *  point; never grows the row. */
  function RowSetOccupant(row: Row, x: int, occupant: Option<nat>): (r: (Row, bool))
    ensures r.1 <==> 0 <= x < |row|
    ensures |r.0| == |row|
    ensures !r.1 ==> r.0 == row
    ensures r.1 ==> r.0[x] == Point(row[x].handle, occupant)
    ensures forall i :: 0 <= i < |row| && i != x ==> r.0[i] == row[i]
  {
    if x < 0 || |row| <= x then (row, false)
    else (row[x := Point(row[x].handle, occupant)], true)
  }

  /** `row` padded with default points to length `n`. */
  function Pad(row: Row, n: nat): (r: Row)
    ensures |r| == Max(|row|, n)
    ensures forall i :: 0 <= i < |row| ==> r[i] == row[i]
    ensures forall i :: |row| <= i < |r| ==> r[i] == InvalidPoint
  {
    if |row| >= n then row else row + seq(n - |row|, _ => InvalidPoint)
  }

  /** `FPlacementGridRow::Set`: a negative `x` is refused; otherwise the row
   *  grows with default points to reach `x` and the point is stored. */
  function RowSet(row: Row, x: int, p: Point): (r: (Row, bool))
    ensures r.1 <==> x >= 0
    ensures !r.1 ==> r.0 == row
    ensures r.1 ==> |r.0| == Max(|row|, x + 1) && r.0[x] == p
    ensures r.1 ==> forall i :: 0 <= i < |r.0| && i != x ==> r.0[i] == RowGet(row, i)
  {
    if x < 0 then (row, false)
    else (Pad(row, x + 1)[x := p], true)
  }

  /* ---------------------------------------------------------------------- */
  /* Grid                                                                   */
  /* ---------------------------------------------------------------------- */

  /**
   * `FPlacementGrid`: its rows (bottom to top), the handle map, whether its
   * root transform differs from the identity (the grid's validity), and the
   * cached widest row.
   */
  datatype Grid = Grid(rows: seq<Row>, handleMap: map<int, Coords>, hasRootTransform: bool, cachedSizeX: int)

  /** `Contains`: row `y` exists and holds a valid point at `x`. */
  predicate Contains(g: Grid, c: Coords)
  {
    0 <= c.y < |g.rows| && RowContains(g.rows[c.y], c.x)
  }

  /** `Get`: the point at the coordinates, or the invalid point. */
  function Get(g: Grid, c: Coords): (p: Point)
    ensures Contains(g, c) ==> IsValidPoint(p) && p == g.rows[c.y][c.x]
    ensures !(0 <= c.y < |g.rows|) ==> p == InvalidPoint
  {
    if 0 <= c.y < |g.rows| then RowGet(g.rows[c.y], c.x) else InvalidPoint
  }

  /** `IsValidPoint(Coordinates, bMustBeEmpty)`: a contained point that, when
   *  it must be empty, has no occupant. */
  predicate IsUsable(g: Grid, c: Coords, mustBeEmpty: bool)
  {
    Contains(g, c) && (!mustBeEmpty || !IsOccupied(Get(g, c)))
  }

  /** The longest row length (0 for no rows). */
  function MaxRowLength(rows: seq<Row>): (n: nat)
    ensures forall i :: 0 <= i < |rows| ==> |rows[i]| <= n
    ensures |rows| == 0 ==> n == 0
    ensures |rows| > 0 ==> exists i :: 0 <= i < |rows| && |rows[i]| == n
  {
    if |rows| == 0 then 0
    else
      var rest := MaxRowLength(rows[1..]);
      assert forall i :: 1 <= i < |rows| ==> rows[i] == rows[1..][i - 1];
      if |rows[0]| > rest then |rows[0]| else rest
  }

  /** `GetSizeX`: the cached width when positive, else the longest row. */
  function SizeX(g: Grid): (n: int)
    ensures g.cachedSizeX > 0 ==> n == g.cachedSizeX
    ensures g.cachedSizeX <= 0 ==> n == MaxRowLength(g.rows)
  {
    if g.cachedSizeX > 0 then g.cachedSizeX else MaxRowLength(g.rows)
  }

  function SizeY(g: Grid): nat
  {
    |g.rows|
  }

  /** `FPlacementGrid::Set`: a row index at or past the end first grows the
   *  row list to `y + 1` (even when the row then refuses a negative `x`);
   *  a negative `y` is refused without change. */
  function GridSet(g: Grid, x: int, y: int, p: Point): (r: (Grid, bool))
    ensures y < 0 ==> r == (g, false)
    ensures y >= 0 ==> |r.0.rows| == Max(|g.rows|, y + 1)
    ensures r.1 <==> x >= 0 && y >= 0
    ensures r.1 ==> Get(r.0, Coords(x, y)) == p
    ensures y >= 0 ==> forall j :: 0 <= j < |r.0.rows| && j != y ==>
      r.0.rows[j] == (if j < |g.rows| then g.rows[j] else [])
    ensures r.0.handleMap == g.handleMap && r.0.hasRootTransform == g.hasRootTransform
    ensures r.0.cachedSizeX == g.cachedSizeX
  {
    if y < 0 then (g, false)
    else
      var rows := if y >= |g.rows| then g.rows + seq(y + 1 - |g.rows|, _ => []) else g.rows;
      var (row, ok) := RowSet(rows[y], x, p);
      (g.(rows := rows[y := row]), ok)
  }

  /** `FPlacementGrid::SetOccupant`: never grows storage; refuses indices
   *  outside the existing rows. */
  function GridSetOccupant(g: Grid, x: int, y: int, occupant: Option<nat>): (r: (Grid, bool))
    ensures r.1 <==> 0 <= y < |g.rows| && 0 <= x < |g.rows[y]|
    ensures !r.1 ==> r.0 == g
    ensures |r.0.rows| == |g.rows|
    ensures forall j :: 0 <= j < |g.rows| ==> |r.0.rows[j]| == |g.rows[j]|
    ensures r.1 ==> r.0.rows[y][x] == Point(g.rows[y][x].handle, occupant)
    ensures forall j, i :: 0 <= j < |g.rows| && 0 <= i < |g.rows[j]| && (j, i) != (y, x) ==>
      r.0.rows[j][i] == g.rows[j][i]
    ensures r.0.handleMap == g.handleMap && r.0.hasRootTransform == g.hasRootTransform
    ensures r.0.cachedSizeX == g.cachedSizeX
  {
    if !(0 <= y < |g.rows|) then (g, false)
    else
      var (row, ok) := RowSetOccupant(g.rows[y], x, occupant);
      (g.(rows := g.rows[y := row]), ok)
  }

  /** Setting an occupant changes no point's handle, so the contained
   *  points and the handles stay as they were. */
  lemma SetOccupantKeepsPoints(g: Grid, x: int, y: int, occupant: Option<nat>, c: Coords)
    ensures Contains(GridSetOccupant(g, x, y, occupant).0, c) <==> Contains(g, c)
    ensures Get(GridSetOccupant(g, x, y, occupant).0, c).handle == Get(g, c).handle
  {
  }

  /** `ClearPlacementOccupantByHandle`: an invalid or unmapped handle, or a
   *  mapped row that no longer exists, is refused; otherwise the mapped
   *  point loses its occupant. */
  function ClearOccupantByHandle(g: Grid, h: int): (r: (Grid, bool))
    ensures !IsValidHandle(h) || h !in g.handleMap ==> r == (g, false)
    ensures IsValidHandle(h) && h in g.handleMap ==>
      r == GridSetOccupant(g, g.handleMap[h].x, g.handleMap[h].y, None)
  {
    if !IsValidHandle(h) || h !in g.handleMap then (g, false)
    else
      var c := g.handleMap[h];
      if !(0 <= c.y < |g.rows|) then (g, false)
      else GridSetOccupant(g, c.x, c.y, None)
  }

  /* ---------------------------------------------------------------------- */
  /* Handle map                                                             */
  /* ---------------------------------------------------------------------- */

  /** The row loop of `RecalculateHandleMap`: every valid point from `x`
   *  onwards maps its handle to its coordinates, later points overwriting
   *  earlier ones. */
  function AddRowHandles(m: map<int, Coords>, row: Row, y: int, x: nat): map<int, Coords>
    requires x <= |row|
    decreases |row| - x
  {
    if x == |row| then m
    else
      var m' := if IsValidPoint(row[x]) then m[row[x].handle := Coords(x, y)] else m;
      AddRowHandles(m', row, y, x + 1)
  }

  /** The outer loop of `RecalculateHandleMap`, from row `y` upwards. */
  function AddGridHandles(m: map<int, Coords>, rows: seq<Row>, y: nat): map<int, Coords>
    requires y <= |rows|
    decreases |rows| - y
  {
    if y == |rows| then m
    else AddGridHandles(AddRowHandles(m, rows[y], y, 0), rows, y + 1)
  }

  /** `RecalculateHandleMap`: the map is rebuilt from empty and the cached
   *  width is raised to the longest row. */
  function RecalculateHandleMap(g: Grid): (r: Grid)
    ensures r.rows == g.rows && r.hasRootTransform == g.hasRootTransform
    ensures r.cachedSizeX >= g.cachedSizeX
    ensures forall j :: 0 <= j < |g.rows| ==> r.cachedSizeX >= |g.rows[j]|
    ensures r.cachedSizeX == Max(g.cachedSizeX, MaxRowLength(g.rows))
  {
    g.(handleMap := AddGridHandles(map[], g.rows, 0), cachedSizeX := Max(g.cachedSizeX, MaxRowLength(g.rows)))
  }

  /** Every entry of the map names a contained point holding that handle. */
  predicate MapSound(m: map<int, Coords>, rows: seq<Row>)
  {
    forall h :: h in m ==> 0 <= m[h].y < |rows| && RowContains(rows[m[h].y], m[h].x)
                           && rows[m[h].y][m[h].x].handle == h
  }

  /** Walking a row adds every valid point's handle, mapped to a point
   *  that holds it, and keeps earlier keys. */
  lemma {:induction false} AddRowHandlesSound(m: map<int, Coords>, rows: seq<Row>, y: nat, x: nat)
    requires y < |rows| && x <= |rows[y]|
    requires MapSound(m, rows)
    ensures MapSound(AddRowHandles(m, rows[y], y, x), rows)
    ensures m.Keys <= AddRowHandles(m, rows[y], y, x).Keys
    ensures forall i :: x <= i < |rows[y]| && IsValidPoint(rows[y][i]) ==>
      rows[y][i].handle in AddRowHandles(m, rows[y], y, x)
    decreases |rows[y]| - x
  {
    if x < |rows[y]| {
      var row := rows[y];
      var m' := if IsValidPoint(row[x]) then m[row[x].handle := Coords(x, y)] else m;
      AddRowHandlesSound(m', rows, y, x + 1);
    }
  }

  /** Walking the rows adds every valid point's handle, mapped to a
   *  point that holds it, and keeps earlier keys. */
  lemma {:induction false} AddGridHandlesSound(m: map<int, Coords>, rows: seq<Row>, y: nat)
    requires y <= |rows|
    requires MapSound(m, rows)
    ensures MapSound(AddGridHandles(m, rows, y), rows)
    ensures m.Keys <= AddGridHandles(m, rows, y).Keys
    ensures forall j, i :: y <= j < |rows| && 0 <= i < |rows[j]| && IsValidPoint(rows[j][i]) ==>
      rows[j][i].handle in AddGridHandles(m, rows, y)
    decreases |rows| - y
  {
    if y < |rows| {
      var m' := AddRowHandles(m, rows[y], y, 0);
      AddRowHandlesSound(m, rows, y, 0);
      AddGridHandlesSound(m', rows, y + 1);
    }
  }

  /** After `RecalculateHandleMap` the map's keys are exactly the handles of
   *  the grid's valid points, each mapped to a point holding it; when no
   *  two valid points share a handle, each handle maps to its own point. */
  lemma HandleMapExact(g: Grid)
    ensures var m := RecalculateHandleMap(g).handleMap;
      && MapSound(m, g.rows)
      && (forall j, i :: 0 <= j < |g.rows| && 0 <= i < |g.rows[j]| && IsValidPoint(g.rows[j][i]) ==>
            g.rows[j][i].handle in m)
    ensures UniqueHandles(g.rows) ==>
      forall j, i :: 0 <= j < |g.rows| && 0 <= i < |g.rows[j]| && IsValidPoint(g.rows[j][i]) ==>
        RecalculateHandleMap(g).handleMap[g.rows[j][i].handle] == Coords(i, j)
  {
    AddGridHandlesSound(map[], g.rows, 0);
  }

  /** No two valid points share a handle. */
  predicate UniqueHandles(rows: seq<Row>)
  {
    forall j, i, j', i' ::
      (0 <= j < |rows| && 0 <= i < |rows[j]| && 0 <= j' < |rows| && 0 <= i' < |rows[j']|
       && IsValidPoint(rows[j][i]) && rows[j][i].handle == rows[j'][i'].handle) ==> (j, i) == (j', i')
  }
}

=== FILE: placement_search.dfy ===
/**
 * The placement search over a grid: the bias order derived from where in a
 * cell the cursor lies, the single-step adjustment to a usable point,
 * rectangle validity, the shift scoring of `GetAdjustmentDirection` and the
 * bounded search of `GetPlacementCoordinatesForSizeNeo`.
 */
module PlacementSearch {
  import opened Common
  import opened PlacementGrid

  /** `EPlacementDirection`, in declaration order. */
  datatype Direction = Up | Down | Left | Right

  predicate IsVertical(d: Direction)
  {
    d == Up || d == Down
  }

  /** The unit offset of a direction (`OffsetForDirection`). */
  function Offset(d: Direction): (c: Coords)
    ensures IsValidCoords(c)
    ensures (c.x == 0) != (c.y == 0) && -1 <= c.x <= 1 && -1 <= c.y <= 1
  {
    match d
    case Up => Coords(0, 1)
    case Down => Coords(0, -1)
    case Left => Coords(-1, 0)
    case Right => Coords(1, 0)
  }

  /** The four directions, each exactly once. */
  predicate IsDirectionPermutation(order: seq<Direction>)
  {
    |order| == 4 && Up in order && Down in order && Left in order && Right in order
    && forall i, k :: 0 <= i < k < 4 ==> order[i] != order[k]
  }

  /* ---------------------------------------------------------------------- */
  /* Bias order                                                             */
  /* ---------------------------------------------------------------------- */

  function Abs(r: real): real
  {
    if r < 0.0 then -r else r
  }

  /**
   * The bias order of `GetCoordinatesFromWorldPosition`, from the cursor's
   * offset `(dx, dy)` within its rounded cell: the dominant axis's side
   * first, then the other axis's side and its opposite, then the dominant
   * axis's opposite. Positive offsets point Right and Up.
   */
  function BiasOrderFor(dx: real, dy: real): (order: seq<Direction>)
    ensures IsDirectionPermutation(order)
    ensures Abs(dx) > Abs(dy) ==> order[0] == (if dx > 0.0 then Right else Left) && order[3] == (if dx > 0.0 then Left else Right)
    ensures Abs(dx) <= Abs(dy) ==> order[0] == (if dy > 0.0 then Up else Down) && order[3] == (if dy > 0.0 then Down else Up)
  {
    if Abs(dx) > Abs(dy) then
      if dx > 0.0 then
        if dy > 0.0 then [Right, Up, Down, Left] else [Right, Down, Up, Left]
      else
        if dy > 0.0 then [Left, Up, Down, Right] else [Left, Down, Up, Right]
    else
      if dy > 0.0 then
        if dx > 0.0 then [Up, Right, Left, Down] else [Up, Left, Right, Down]
      else
        if dx > 0.0 then [Down, Right, Left, Up] else [Down, Left, Right, Up]
  }

  /** `d` is the first direction of `order` on the given axis. */
  predicate FirstOnAxis(order: seq<Direction>, d: Direction, vertical: bool)
  {
    exists i :: 0 <= i < |order| && order[i] == d && forall k :: 0 <= k < i ==> IsVertical(order[k]) != vertical
  }

  /** `GetVerticalBias`: the first vertical direction of the order, Up when
   *  there is none. */
  function VerticalBias(order: seq<Direction>): (d: Direction)
    ensures IsVertical(d)
    ensures (forall i :: 0 <= i < |order| ==> !IsVertical(order[i])) ==> d == Up
    ensures (exists i :: 0 <= i < |order| && IsVertical(order[i])) ==> FirstOnAxis(order, d, true)
  {
    if |order| == 0 then Up
    else if IsVertical(order[0]) then order[0]
    else
      var d := VerticalBias(order[1..]);
      assert forall i :: 1 <= i < |order| ==> order[i] == order[1..][i - 1];
      assert FirstOnAxis(order[1..], d, true) ==> FirstOnAxis(order, d, true) by {
        if FirstOnAxis(order[1..], d, true) {
          var i :| 0 <= i < |order[1..]| && order[1..][i] == d
                   && forall k :: 0 <= k < i ==> IsVertical(order[1..][k]) != true;
          assert order[i + 1] == d;
        }
      }
      d
  }

  /** `GetHorizontalBias`: the first horizontal direction of the order,
   *  Right when there is none. */
  function HorizontalBias(order: seq<Direction>): (d: Direction)
    ensures !IsVertical(d)
    ensures (forall i :: 0 <= i < |order| ==> IsVertical(order[i])) ==> d == Right
    ensures (exists i :: 0 <= i < |order| && !IsVertical(order[i])) ==> FirstOnAxis(order, d, false)
  {
    if |order| == 0 then Right
    else if !IsVertical(order[0]) then order[0]
    else
      var d := HorizontalBias(order[1..]);
      assert forall i :: 1 <= i < |order| ==> order[i] == order[1..][i - 1];
      assert FirstOnAxis(order[1..], d, false) ==> FirstOnAxis(order, d, false) by {
        if FirstOnAxis(order[1..], d, false) {
          var i :| 0 <= i < |order[1..]| && order[1..][i] == d
                   && forall k :: 0 <= k < i ==> IsVertical(order[1..][k]) != false;
          assert order[i + 1] == d;
        }
      }
      d
  }

  /** Whatever axis dominates, the bias pickers recover the side of the cell
   *  the cursor is on along each axis. */
  lemma BiasPickersOfOrder(dx: real, dy: real)
    ensures VerticalBias(BiasOrderFor(dx, dy)) == if dy > 0.0 then Up else Down
    ensures HorizontalBias(BiasOrderFor(dx, dy)) == if dx > 0.0 then Right else Left
  {
    var o := BiasOrderFor(dx, dy);
    assert o == [o[0]] + o[1..] && o[1..] == [o[1]] + o[2..];
    BiasPickerStep(o);
    BiasPickerStep(o[1..]);
  }

  /** Both pickers look past a leading direction of the other axis. */
  lemma BiasPickerStep(order: seq<Direction>)
    requires |order| > 0
    ensures VerticalBias(order) == if IsVertical(order[0]) then order[0] else VerticalBias(order[1..])
    ensures HorizontalBias(order) == if !IsVertical(order[0]) then order[0] else HorizontalBias(order[1..])
  {
  }

  /* ---------------------------------------------------------------------- */
  /* Single point adjustment                                                */
  /* ---------------------------------------------------------------------- */

  /** One unit step from `c`; the component is set directly, so it moves
   *  even when `c` is the invalid value. */
  function Step(c: Coords, d: Direction): (r: Coords)
    ensures r.x == c.x + Offset(d).x && r.y == c.y + Offset(d).y
  {
    match d
    case Up => Coords(c.x, c.y + 1)
    case Down => Coords(c.x, c.y - 1)
    case Left => Coords(c.x - 1, c.y)
    case Right => Coords(c.x + 1, c.y)
  }

  /**
   * `AdjustCoordinatesToValidPoint`: a usable point stays put; otherwise
   * the steps from the original point are tried in bias order and the
   * first usable one is taken; if none is, the last one tried is kept and
   * reported unusable.
   */
  method AdjustCoordinatesToValidPoint(g: Grid, c: Coords, bias: seq<Direction>, mustBeEmpty: bool)
    returns (r: Coords, ok: bool)
    ensures ok == IsUsable(g, r, mustBeEmpty)
    ensures IsUsable(g, c, mustBeEmpty) ==> r == c
    ensures r == c || exists i :: 0 <= i < |bias| && r == Step(c, bias[i])
    ensures ok && !IsUsable(g, c, mustBeEmpty) ==>
      exists i :: 0 <= i < |bias| && r == Step(c, bias[i])
                  && forall k :: 0 <= k < i ==> !IsUsable(g, Step(c, bias[k]), mustBeEmpty)
    ensures !ok ==> forall i :: 0 <= i < |bias| ==> !IsUsable(g, Step(c, bias[i]), mustBeEmpty)
  {
    if IsUsable(g, c, mustBeEmpty) {
      return c, true;
    }
    r := c;
    for i := 0 to |bias|
      invariant forall k :: 0 <= k < i ==> !IsUsable(g, Step(c, bias[k]), mustBeEmpty)
      invariant r == c || exists k :: 0 <= k < i && r == Step(c, bias[k])
      invariant !IsUsable(g, r, mustBeEmpty)
    {
      r := Step(c, bias[i]);
      if IsUsable(g, r, mustBeEmpty) {
        return r, true;
      }
    }
    ok := IsUsable(g, r, mustBeEmpty);
  }

  /* ---------------------------------------------------------------------- */
  /* Rectangle validity                                                     */
  /* ---------------------------------------------------------------------- */

  /** The cells `[x, x + sizeX) × [y, y + sizeY)` are all usable. */
  predicate CellsUsable(g: Grid, c: Coords, sizeX: int, sizeY: int, mustBeEmpty: bool)
  {
    forall j, i :: c.y <= j < c.y + sizeY && c.x <= i < c.x + sizeX ==> IsUsable(g, Coords(i, j), mustBeEmpty)
  }

  /**
   * What `IsValidPlacement` accepts: a valid grid and anchor, a
   * non-negative anchor, a rectangle within `GetSizeX` × `GetSizeY`,
   * every spanned row at least `x + sizeX` long, and every cell usable.
   */
  predicate PlacementFits(g: Grid, c: Coords, sizeX: int, sizeY: int, mustBeEmpty: bool)
  {
    && g.hasRootTransform && IsValidCoords(c)
    && c.x >= 0 && c.y >= 0
    && c.x + sizeX - 1 < SizeX(g) && c.y + sizeY - 1 < SizeY(g)
    && (forall j :: c.y <= j < c.y + sizeY ==> |g.rows[j]| >= c.x + sizeX)
    && CellsUsable(g, c, sizeX, sizeY, mustBeEmpty)
  }

  /** `IsValidPlacement`: the guards, then a row-by-row scan that stops at
   *  the first row too short for the rectangle or the first unusable
   *  point. */
  method IsValidPlacement(g: Grid, c: Coords, sizeX: int, sizeY: int, mustBeEmpty: bool) returns (valid: bool)
    ensures valid <==> PlacementFits(g, c, sizeX, sizeY, mustBeEmpty)
  {
    if !g.hasRootTransform || !IsValidCoords(c) {
      return false;
    }
    if c.x < 0 || c.y < 0 {
      return false;
    }
    var endX := c.x + sizeX;
    var endY := c.y + sizeY;
    if endX - 1 >= SizeX(g) || endY - 1 >= SizeY(g) {
      return false;
    }
    var j := c.y;
    while j < endY
      invariant c.y <= j
      invariant j == c.y || j <= endY
      invariant endY <= |g.rows|
      invariant forall j' :: c.y <= j' < j ==> |g.rows[j']| >= endX
      invariant forall j', i :: c.y <= j' < j && c.x <= i < endX ==> IsUsable(g, Coords(i, j'), mustBeEmpty)
      decreases endY - j
    {
      var row := g.rows[j];
      if |row| <= endX - 1 {
        return false;
      }
      var i := c.x;
      while i < endX
        invariant i == c.x || c.x <= i <= endX
        invariant forall i' :: c.x <= i' < i ==> IsUsable(g, Coords(i', j), mustBeEmpty)
      {
        var p := row[i];
        if !IsValidPoint(p) || (mustBeEmpty && IsOccupied(p)) {
          assert !IsUsable(g, Coords(i, j), mustBeEmpty);
          return false;
        }
        i := i + 1;
      }
      j := j + 1;
    }
    return true;
  }

  /** A placement that fits on empty points also fits when occupants are
   *  allowed. */
  lemma FitsWhenEmptyFitsAnyway(g: Grid, c: Coords, sizeX: int, sizeY: int)
    ensures PlacementFits(g, c, sizeX, sizeY, true) ==> PlacementFits(g, c, sizeX, sizeY, false)
  {
  }

  /* ---------------------------------------------------------------------- */
  /* Adjustment direction                                                   */
  /* ---------------------------------------------------------------------- */

  /** The four desired shifts of `GetAdjustmentDirection`, and whether any
   *  scored point was usable (the negation of `bAllPointsOccupied`). */
  datatype Shifts = Shifts(up: int, down: int, left: int, right: int, anyUsable: bool)

  const NoShifts: Shifts := Shifts(0, 0, 0, 0, false)

  function Weight(s: Shifts, d: Direction): int
  {
    match d
    case Up => s.up
    case Down => s.down
    case Left => s.left
    case Right => s.right
  }

  /** `IncrementShift`: an edge cell counts twice. */
  function Bump(w: int, isEdge: bool): int
  {
    w + if isEdge then 2 else 1
  }

  /**
   * The scoring of one cell of the rectangle anchored at `c`: a usable
   * point clears `bAllPointsOccupied`; an unusable one pushes the
   * rectangle away from it, horizontally if it lies in the left or right
   * half and vertically if it lies in the bottom or top half.
   */
  function ScoreCell(g: Grid, c: Coords, sizeX: int, sizeY: int, mustBeEmpty: bool, i: int, j: int, s: Shifts): (r: Shifts)
    ensures IsUsable(g, Coords(i, j), mustBeEmpty) ==> r == s.(anyUsable := true)
    ensures r.up >= s.up && r.down >= s.down && r.left >= s.left && r.right >= s.right
  {
    if IsUsable(g, Coords(i, j), mustBeEmpty) then s.(anyUsable := true)
    else
      var endX := c.x + sizeX;
      var endY := c.y + sizeY;
      var halfX := sizeX / 2;
      var halfY := sizeY / 2;
      var s1 :=
        if i < c.x + halfX then s.(right := Bump(s.right, i == c.x))
        else if i > endX - halfX - 1 then s.(left := Bump(s.left, i == endX - 1))
        else s;
      if j < c.y + halfY then s1.(up := Bump(s1.up, j == c.y))
      else if j > endY - halfY - 1 then s1.(down := Bump(s1.down, j == endY - 1))
      else s1
  }

  /** The inner loop: cells `i .. x + sizeX - 1` of row `j`. */
  function ScoreRow(g: Grid, c: Coords, sizeX: int, sizeY: int, mustBeEmpty: bool, i: int, j: int, s: Shifts): Shifts
    decreases c.x + sizeX - i
  {
    if i >= c.x + sizeX then s
    else ScoreRow(g, c, sizeX, sizeY, mustBeEmpty, i + 1, j, ScoreCell(g, c, sizeX, sizeY, mustBeEmpty, i, j, s))
  }

  /** The outer loop: rows `j .. y + sizeY - 1`. */
  function ScoreRows(g: Grid, c: Coords, sizeX: int, sizeY: int, mustBeEmpty: bool, j: int, s: Shifts): Shifts
    decreases c.y + sizeY - j
  {
    if j >= c.y + sizeY then s
    else ScoreRows(g, c, sizeX, sizeY, mustBeEmpty, j + 1, ScoreRow(g, c, sizeX, sizeY, mustBeEmpty, c.x, j, s))
  }

  function Score(g: Grid, c: Coords, sizeX: int, sizeY: int, mustBeEmpty: bool): Shifts
  {
    ScoreRows(g, c, sizeX, sizeY, mustBeEmpty, c.y, NoShifts)
  }

  /** On a row of usable cells the scores stay at zero and some cell is
   *  usable. */
  lemma {:induction false} ScoreRowAllUsable(g: Grid, c: Coords, sizeX: int, sizeY: int, mustBeEmpty: bool, i: int, j: int, s: Shifts)
    requires forall i' :: i <= i' < c.x + sizeX ==> IsUsable(g, Coords(i', j), mustBeEmpty)
    ensures var r := ScoreRow(g, c, sizeX, sizeY, mustBeEmpty, i, j, s);
      r.up == s.up && r.down == s.down && r.left == s.left && r.right == s.right
      && (r.anyUsable <==> s.anyUsable || i < c.x + sizeX)
    decreases c.x + sizeX - i
  {
    if i < c.x + sizeX {
      ScoreRowAllUsable(g, c, sizeX, sizeY, mustBeEmpty, i + 1, j, ScoreCell(g, c, sizeX, sizeY, mustBeEmpty, i, j, s));
    }
  }

  /** On a rectangle of usable cells every shift stays zero. */
  lemma {:induction false} ScoreRowsAllUsable(g: Grid, c: Coords, sizeX: int, sizeY: int, mustBeEmpty: bool, j: int, s: Shifts)
    requires forall j', i :: j <= j' < c.y + sizeY && c.x <= i < c.x + sizeX ==> IsUsable(g, Coords(i, j'), mustBeEmpty)
    ensures var r := ScoreRows(g, c, sizeX, sizeY, mustBeEmpty, j, s);
      r.up == s.up && r.down == s.down && r.left == s.left && r.right == s.right
      && (r.anyUsable <==> s.anyUsable || (j < c.y + sizeY && sizeX > 0))
    decreases c.y + sizeY - j
  {
    if j < c.y + sizeY {
      ScoreRowAllUsable(g, c, sizeX, sizeY, mustBeEmpty, c.x, j, s);
      ScoreRowsAllUsable(g, c, sizeX, sizeY, mustBeEmpty, j + 1, ScoreRow(g, c, sizeX, sizeY, mustBeEmpty, c.x, j, s));
    }
  }

  /** Weights listed in the order `order` are non-decreasing. */
  predicate SortedByWeight(order: seq<Direction>, s: Shifts)
  {
    forall i, k :: 0 <= i < k < |order| ==> Weight(s, order[i]) <= Weight(s, order[k])
  }

  /** Inserts `d` into an order sorted by weight, after every direction of
   *  equal weight. */
  function InsertByWeight(d: Direction, order: seq<Direction>, s: Shifts): (r: seq<Direction>)
    ensures |r| == |order| + 1
  {
    if |order| == 0 then [d]
    else if Weight(s, d) < Weight(s, order[0]) then [d] + order
    else [order[0]] + InsertByWeight(d, order[1..], s)
  }

  /** Insertion adds exactly `d`. */
  lemma {:induction false} InsertByWeightAdds(d: Direction, order: seq<Direction>, s: Shifts)
    ensures multiset(InsertByWeight(d, order, s)) == multiset(order) + multiset{d}
  {
    if |order| > 0 && Weight(s, d) >= Weight(s, order[0]) {
      InsertByWeightAdds(d, order[1..], s);
      assert order == [order[0]] + order[1..];
    }
  }

  /** Insertion keeps the order sorted. */
  lemma {:induction false} InsertByWeightSorted(d: Direction, order: seq<Direction>, s: Shifts)
    requires SortedByWeight(order, s)
    ensures SortedByWeight(InsertByWeight(d, order, s), s)
  {
    if |order| > 0 && Weight(s, d) >= Weight(s, order[0]) {
      var tail := order[1..];
      var rest := InsertByWeight(d, tail, s);
      InsertByWeightSorted(d, tail, s);
      InsertByWeightAdds(d, tail, s);
      forall k | 0 <= k < |rest|
        ensures Weight(s, order[0]) <= Weight(s, rest[k])
      {
        assert rest[k] in multiset(rest);
        if rest[k] != d {
          assert rest[k] in tail;
          var t :| 0 <= t < |tail| && tail[t] == rest[k];
          assert tail[t] == order[t + 1];
        }
      }
    }
  }

  /** A repeated entry occurs at least twice in the multiset. */
  lemma RepeatCounts(o: seq<Direction>, i: int, k: int)
    requires 0 <= i < k < |o| && o[i] == o[k]
    ensures multiset(o)[o[i]] >= 2
  {
    assert o == o[..i] + [o[i]] + o[i + 1..k] + [o[k]] + o[k + 1..];
    assert multiset(o) == multiset(o[..i]) + multiset{o[i]} + multiset(o[i + 1..k]) + multiset{o[k]} + multiset(o[k + 1..]);
  }

  /** A sequence holding the four directions once each, as a multiset, is
   *  a permutation of them. */
  lemma PermutationOfMultiset(o: seq<Direction>)
    requires multiset(o) == multiset{Up, Down, Left, Right}
    ensures IsDirectionPermutation(o)
  {
    assert |o| == |multiset(o)| == 4;
    assert Up in multiset(o) && Down in multiset(o) && Left in multiset(o) && Right in multiset(o);
    forall i, k | 0 <= i < k < 4
      ensures o[i] != o[k]
    {
      if o[i] == o[k] {
        RepeatCounts(o, i, k);
      }
    }
  }

  /** A stable sort of `[Up, Down, Left, Right]` by weight. The engine's
   *  `TArray::Sort` is not stable; `TiesOnlyMatterThreeWay` shows where
   *  that can change the outcome. */
  function SortByWeight(s: Shifts): (order: seq<Direction>)
  {
    InsertByWeight(Right, InsertByWeight(Left, InsertByWeight(Down, [Up], s), s), s)
  }

  /** The sort yields the four directions, each once, in non-decreasing
   *  weight. */
  lemma SortByWeightSpec(s: Shifts)
    ensures SortedByWeight(SortByWeight(s), s)
    ensures IsDirectionPermutation(SortByWeight(s))
  {
    var o1 := InsertByWeight(Down, [Up], s);
    var o2 := InsertByWeight(Left, o1, s);
    InsertByWeightSorted(Down, [Up], s);
    InsertByWeightSorted(Left, o1, s);
    InsertByWeightSorted(Right, o2, s);
    InsertByWeightAdds(Down, [Up], s);
    InsertByWeightAdds(Left, o1, s);
    InsertByWeightAdds(Right, o2, s);
    PermutationOfMultiset(SortByWeight(s));
  }

  /** Two different unit offsets add up to a step of at most one in each
   *  coordinate. */
  lemma OffsetSum(a: Direction, b: Direction)
    requires a != b
    ensures var c := AddAssign(Offset(a), Offset(b));
      IsValidCoords(c) && -1 <= c.x <= 1 && -1 <= c.y <= 1
  {
    var oa, ob := Offset(a), Offset(b);
    assert AddAssign(oa, ob) == Coords(oa.x + ob.x, oa.y + ob.y);
    assert IsVertical(a) == IsVertical(b) ==> oa.x + ob.x == 0 && oa.y + ob.y == 0;
  }

  /** The offset chosen from a weight-sorted order: the heaviest
   *  direction, plus the next one when it weighs the same. */
  function OffsetFromOrder(order: seq<Direction>, s: Shifts): (c: Coords)
    requires |order| == 4 && order[2] != order[3]
    ensures IsValidCoords(c) && -1 <= c.x <= 1 && -1 <= c.y <= 1
  {
    var top := Offset(order[3]);
    if Weight(s, order[3]) == Weight(s, order[2]) then
      OffsetSum(order[3], order[2]);
      AddAssign(top, Offset(order[2]))
    else top
  }

  /** All four shifts weigh the same. */
  predicate AllEqual(s: Shifts)
  {
    s.left == s.right && s.up == s.down && s.up == s.left
  }

  /**
   * `GetAdjustmentDirection`: the invalid value when no point of the
   * rectangle is usable or all four shifts are equal; otherwise a unit
   * offset towards the heaviest shift, combined with the second heaviest
   * on a tie.
   */
  function GetAdjustmentDirection(g: Grid, c: Coords, sizeX: int, sizeY: int, mustBeEmpty: bool): (r: Coords)
    ensures var s := Score(g, c, sizeX, sizeY, mustBeEmpty);
      (!IsValidCoords(r) <==> !s.anyUsable || AllEqual(s))
    ensures IsValidCoords(r) ==> -1 <= r.x <= 1 && -1 <= r.y <= 1
  {
    var s := Score(g, c, sizeX, sizeY, mustBeEmpty);
    if !s.anyUsable || AllEqual(s) then InvalidCoords
    else
      SortByWeightSpec(s);
      OffsetFromOrder(SortByWeight(s), s)
  }

  /** A rectangle whose cells are all usable asks for no adjustment. */
  lemma NoAdjustmentForUsableRectangle(g: Grid, c: Coords, sizeX: int, sizeY: int, mustBeEmpty: bool)
    requires CellsUsable(g, c, sizeX, sizeY, mustBeEmpty)
    ensures GetAdjustmentDirection(g, c, sizeX, sizeY, mustBeEmpty) == InvalidCoords
  {
    ScoreRowsAllUsable(g, c, sizeX, sizeY, mustBeEmpty, c.y, NoShifts);
  }

  /** The largest of the four weights. */
  function MaxWeight(s: Shifts): (m: int)
    ensures forall d: Direction :: Weight(s, d) <= m
    ensures exists d: Direction :: Weight(s, d) == m
  {
    var m := Max(Max(s.up, s.down), Max(s.left, s.right));
    assert Weight(s, Up) == m || Weight(s, Down) == m || Weight(s, Left) == m || Weight(s, Right) == m;
    m
  }

  /** How many directions carry the largest weight. */
  function TopCount(s: Shifts): int
  {
    var m := MaxWeight(s);
    (if s.up == m then 1 else 0) + (if s.down == m then 1 else 0)
    + (if s.left == m then 1 else 0) + (if s.right == m then 1 else 0)
  }

  /** In a weight-sorted order the heaviest direction comes last, and the
   *  number of directions sharing its weight is read off the tail. */
  lemma SortedTail(s: Shifts, o: seq<Direction>)
    requires IsDirectionPermutation(o) && SortedByWeight(o, s)
    ensures Weight(s, o[3]) == MaxWeight(s)
    ensures Weight(s, o[2]) == MaxWeight(s) <==> TopCount(s) >= 2
    ensures Weight(s, o[1]) == MaxWeight(s) <==> TopCount(s) >= 3
    ensures Weight(s, o[0]) == MaxWeight(s) <==> TopCount(s) == 4
  {
    var m := MaxWeight(s);
    var d :| Weight(s, d) == m;
    assert d in o;
    var count := (if Weight(s, o[0]) == m then 1 else 0) + (if Weight(s, o[1]) == m then 1 else 0)
      + (if Weight(s, o[2]) == m then 1 else 0) + (if Weight(s, o[3]) == m then 1 else 0);
    assert Up in o && Down in o && Left in o && Right in o;
    assert count == TopCount(s);
  }

  /** The order among equal weights decides nothing unless exactly three
   *  directions share the largest weight: any two weight-sorted orders give
   *  the same offset. */
  lemma TiesOnlyMatterThreeWay(s: Shifts, o1: seq<Direction>, o2: seq<Direction>)
    requires IsDirectionPermutation(o1) && SortedByWeight(o1, s)
    requires IsDirectionPermutation(o2) && SortedByWeight(o2, s)
    requires TopCount(s) != 3 && !AllEqual(s)
    ensures OffsetFromOrder(o1, s) == OffsetFromOrder(o2, s)
  {
    var m := MaxWeight(s);
    SortedTail(s, o1);
    SortedTail(s, o2);
    assert TopCount(s) != 4;
    assert Weight(s, o1[1]) < m && Weight(s, o2[1]) < m;
    assert o2[3] in o1 && o2[2] in o1;
    var k3 :| 0 <= k3 < 4 && o1[k3] == o2[3];
    var k2 :| 0 <= k2 < 4 && o1[k2] == o2[2];
    assert Weight(s, o1[0]) <= Weight(s, o1[1]);
    if Weight(s, o1[2]) < m {
      assert k3 == 3;
    } else {
      assert 2 <= k3 && 2 <= k2 && k2 != k3;
      var a, b := Offset(o1[3]), Offset(o1[2]);
      assert AddAssign(a, b) == AddAssign(b, a);
    }
  }

  /* ---------------------------------------------------------------------- */
  /* Placement search                                                       */
  /* ---------------------------------------------------------------------- */

  /** The starting anchor: the cursor's cell, nudged towards the bias on an
   *  even-sized axis, then moved down-left by half the size. */
  function NeoStart(cell: Coords, bias: seq<Direction>, sizeX: int, sizeY: int): Coords
  {
    var x := if sizeX % 2 == 0 && HorizontalBias(bias) == Right then cell.x + 1 else cell.x;
    var y := if sizeY % 2 == 0 && VerticalBias(bias) == Up then cell.y + 1 else cell.y;
    SubAssign(Coords(x, y), Coords(sizeX / 2, sizeY / 2))
  }

  /**
   * The integer part of `GetPlacementCoordinatesForSizeNeo`, given the
   * cursor's cell and bias order: a grid smaller than the footprint gives
   * the invalid value; otherwise up to 8 adjustment steps are taken from
   * the starting anchor until the placement fits, giving up when no
   * direction is offered or the steps run out.
   */
  method GetPlacementCoordinatesForSizeNeo(g: Grid, cell: Coords, bias: seq<Direction>, sizeX: int, sizeY: int, mustBeEmpty: bool)
    returns (r: Coords)
    ensures SizeX(g) < sizeX || SizeY(g) < sizeY ==> r == InvalidCoords
    ensures r == InvalidCoords || PlacementFits(g, r, sizeX, sizeY, mustBeEmpty)
    ensures IsValidCoords(r) ==> var s := NeoStart(cell, bias, sizeX, sizeY);
      -8 <= r.x - s.x <= 8 && -8 <= r.y - s.y <= 8
  {
    if SizeX(g) < sizeX || SizeY(g) < sizeY {
      return InvalidCoords;
    }
    var start := NeoStart(cell, bias, sizeX, sizeY);
    r := start;
    var found := IsValidPlacement(g, r, sizeX, sizeY, mustBeEmpty);
    var remaining := 8;
    while !found && remaining > 0
      invariant 0 <= remaining <= 8
      invariant found ==> PlacementFits(g, r, sizeX, sizeY, mustBeEmpty)
      invariant IsValidCoords(r) ==> IsValidCoords(start)
      invariant IsValidCoords(r) ==>
        -(8 - remaining) <= r.x - start.x <= 8 - remaining && -(8 - remaining) <= r.y - start.y <= 8 - remaining
    {
      var adjustment := GetAdjustmentDirection(g, r, sizeX, sizeY, mustBeEmpty);
      if !IsValidCoords(adjustment) {
        return InvalidCoords;
      }
      r := AddAssign(r, adjustment);
      found := IsValidPlacement(g, r, sizeX, sizeY, mustBeEmpty);
      remaining := remaining - 1;
    }
    if !found {
      return InvalidCoords;
    }
  }
}

=== FILE: player_data.dfy ===
/**
 * `UPlayerExperienceSaveGame` and `UPlayerStatisticsComponent`: the saved
 * experience and statistics of a player, the save-request state machine,
 * the float cache statistics are collected in before they are stored, and
 * the gates that keep player data hidden until it is ready. Save-slot I/O
 * and the RPCs are outside the model; where one would be sent, the model
 * returns a flag saying so.
 */
module PlayerData {
  import opened Common
  import opened PlayerStatistics

  /** `ESaveGameType`. */
  datatype SaveType = InvalidSave | FromLoad | FromRPC

  /** The state of a `UPlayerExperienceSaveGame`. */
  datatype SaveGame = SaveGame(
    saveType: SaveType,
    isSaving: bool,
    pendingSave: bool,
    experience: Experience,
    statistics: Statistics,
    localData: LocalData)

  /** A freshly created save object. */
  const NewSaveGame: SaveGame := SaveGame(InvalidSave, false, false, Experience(0), map[], LocalData({}))

  /** `MarkFromLoad` / `MarkFromRPC`. */
  function MarkFromLoad(g: SaveGame): SaveGame { g.(saveType := FromLoad) }
  function MarkFromRPC(g: SaveGame): SaveGame { g.(saveType := FromRPC) }

  /** `CreateRemoteAuthorityPlayerSaveData`: a new save marked as received
   *  over RPC. */
  const RemoteAuthoritySave: SaveGame := MarkFromRPC(NewSaveGame)

  /** The outcome of a save request: the save (if any), the return value,
   *  and whether an asynchronous write was started. */
  datatype RequestOutcome = RequestOutcome(save: Option<SaveGame>, ok: bool, started: bool)

  /** `RequestSave` as written: a request while a save is in progress is
   *  parked as pending, otherwise a write starts; but nothing ever sets the
   *  saving flag, so every request starts a write. */
  function RequestSaveAsWritten(g: Option<SaveGame>): (r: RequestOutcome)
    ensures g.None? || g.value.saveType != FromLoad ==> r == RequestOutcome(g, false, false)
    ensures g.Some? && g.value.saveType == FromLoad ==> r.ok && r.save.Some? && r.save.value.isSaving == g.value.isSaving
    ensures g.Some? && g.value.saveType == FromLoad ==> (r.started <==> !g.value.isSaving)
    ensures r.save.Some? ==> r.save.value.(pendingSave := g.value.pendingSave) == g.value
  {
    if g.None? || g.value.saveType != FromLoad then RequestOutcome(g, false, false)
    else if g.value.isSaving then RequestOutcome(Some(g.value.(pendingSave := true)), true, false)
    else RequestOutcome(Some(g.value.(pendingSave := false)), true, true)
  }

  /** `RequestSave` with the saving flag raised when a write starts, as the
   *  pending-save logic needs. */
  function RequestSave(g: Option<SaveGame>): (r: RequestOutcome)
    ensures g.None? || g.value.saveType != FromLoad ==> r == RequestOutcome(g, false, false)
    ensures g.Some? && g.value.saveType == FromLoad ==> r.ok && r.save.Some? && r.save.value.isSaving
    ensures g.Some? && g.value.saveType == FromLoad ==> (r.started <==> !g.value.isSaving)
    ensures g.Some? && g.value.saveType == FromLoad ==> (r.save.value.pendingSave <==> g.value.isSaving)
    ensures r.save.Some? ==> r.save.value.(isSaving := g.value.isSaving, pendingSave := g.value.pendingSave) == g.value
  {
    if g.None? || g.value.saveType != FromLoad then RequestOutcome(g, false, false)
    else if g.value.isSaving then RequestOutcome(Some(g.value.(pendingSave := true)), true, false)
    else RequestOutcome(Some(g.value.(pendingSave := false, isSaving := true)), true, true)
  }

  /** `SaveCompleted`: the write has finished; a request that arrived
   *  meanwhile is issued again. Returns the save and whether a new write
   *  started. */
  function SaveCompletedAsWritten(g: SaveGame): (r: (SaveGame, bool))
  {
    var g1 := g.(isSaving := false);
    if g1.pendingSave then
      var o := RequestSaveAsWritten(Some(g1));
      (o.save.value, o.started)
    else (g1, false)
  }

  function SaveCompleted(g: SaveGame): (r: (SaveGame, bool))
    ensures g.saveType == FromLoad ==> (r.1 <==> g.pendingSave)
    ensures r.1 ==> r.0.isSaving && !r.0.pendingSave
    ensures !g.pendingSave ==> !r.0.isSaving && r.0 == g.(isSaving := false)
  {
    var g1 := g.(isSaving := false);
    if g1.pendingSave then
      var o := RequestSave(Some(g1));
      (o.save.value, o.started)
    else (g1, false)
  }

  /** Events of the save machine: a request, or the completion callback of
   *  a write in flight. */
  datatype SaveEvent = Request | Complete

  /** Runs events, counting the writes in flight; a completion arrives only
   *  while one is in flight. */
  function RunAsWritten(g: SaveGame, inFlight: nat, events: seq<SaveEvent>): (r: (SaveGame, nat))
    decreases |events|
  {
    if |events| == 0 then (g, inFlight)
    else if events[0] == Request then
      var o := RequestSaveAsWritten(Some(g));
      RunAsWritten(o.save.value, inFlight + (if o.started then 1 else 0), events[1..])
    else if inFlight == 0 then RunAsWritten(g, inFlight, events[1..])
    else
      var (g1, started) := SaveCompletedAsWritten(g);
      RunAsWritten(g1, inFlight - 1 + (if started then 1 else 0), events[1..])
  }

  function Run(g: SaveGame, inFlight: nat, events: seq<SaveEvent>): (r: (SaveGame, nat))
    decreases |events|
  {
    if |events| == 0 then (g, inFlight)
    else if events[0] == Request then
      var o := RequestSave(Some(g));
      Run(o.save.value, inFlight + (if o.started then 1 else 0), events[1..])
    else if inFlight == 0 then Run(g, inFlight, events[1..])
    else
      var (g1, started) := SaveCompleted(g);
      Run(g1, inFlight - 1 + (if started then 1 else 0), events[1..])
  }

  /** As written, two requests in a row on a loaded save start two
   *  overlapping writes to the same slot. */
  lemma OverlappingSavesAsWritten()
    ensures var g := MarkFromLoad(NewSaveGame);
      RunAsWritten(g, 0, [Request, Request]).1 == 2
  {
    var g := MarkFromLoad(NewSaveGame);
    var o1 := RequestSaveAsWritten(Some(g));
    assert o1.started && !o1.save.value.isSaving;
    assert [Request, Request][1..] == [Request];
  }

  /** With the flag raised, at most one write is ever in flight, and the
   *  saving flag says exactly whether one is. */
  lemma {:induction false} AtMostOneSaveInFlight(g: SaveGame, inFlight: nat, events: seq<SaveEvent>)
    requires g.saveType == FromLoad
    requires inFlight == (if g.isSaving then 1 else 0)
    requires !g.isSaving ==> !g.pendingSave
    ensures var (g', n) := Run(g, inFlight, events);
      n <= 1 && n == (if g'.isSaving then 1 else 0) && g'.saveType == FromLoad
    decreases |events|
  {
    if |events| > 0 {
      if events[0] == Request {
        var o := RequestSave(Some(g));
        AtMostOneSaveInFlight(o.save.value, inFlight + (if o.started then 1 else 0), events[1..]);
      } else if inFlight > 0 {
        var (g1, started) := SaveCompleted(g);
        AtMostOneSaveInFlight(g1, inFlight - 1 + (if started then 1 else 0), events[1..]);
      } else {
        AtMostOneSaveInFlight(g, inFlight, events[1..]);
      }
    }
  }

  /** No request is lost: a request during a write is remembered, and the
   *  completion of that write starts the next one. */
  lemma RequestDuringSaveIsReissued(g: SaveGame)
    requires g.saveType == FromLoad && g.isSaving
    ensures var o := RequestSave(Some(g));
      !o.started && o.save.value.pendingSave && SaveCompleted(o.save.value).1
  {
  }

  /** `PushPlayerData`: only a save received over RPC takes the data. */
  function PushPlayerData(g: SaveGame, e: Experience, s: Statistics): (r: (SaveGame, bool))
    ensures r.1 <==> g.saveType == FromRPC
    ensures r.1 ==> r.0 == g.(experience := e, statistics := s)
    ensures !r.1 ==> r.0 == g
  {
    if g.saveType != FromRPC then (g, false)
    else (g.(experience := e, statistics := s), true)
  }

  /** `ReceiveServerStatistics` and `ReceiveServerExperience`: merge by
   *  maximum, always true. */
  function ReceiveServerStatistics(g: SaveGame, s: Statistics): (r: (SaveGame, bool))
    ensures r.1 && r.0.(statistics := g.statistics) == g
    ensures forall t :: t in s ==> Get(r.0.statistics, t) >= s[t]
    ensures forall t :: Get(r.0.statistics, t) >= Get(g.statistics, t)
    ensures forall t :: t in s ==> Get(r.0.statistics, t) == Max(Get(g.statistics, t), s[t])
    ensures forall t :: t !in s ==> Get(r.0.statistics, t) == Get(g.statistics, t)
  {
    StatisticsMergeIsPointwiseMax(g.statistics, s);
    (g.(statistics := ReplaceStatisticsWithLarger(g.statistics, s).0), true)
  }

  function ReceiveServerExperience(g: SaveGame, e: Experience): (r: (SaveGame, bool))
    ensures r.1 && r.0.(experience := g.experience) == g
    ensures r.0.experience.value >= e.value && r.0.experience.value >= g.experience.value
    ensures r.0.experience.value == e.value || r.0.experience.value == g.experience.value
  {
    (g.(experience := ReplaceExperienceWithLarger(g.experience, e).0), true)
  }

  /** `CheckAndMarkStatusEffectReceived`: reports whether the class was
   *  already marked, and leaves it marked. */
  function CheckAndMarkStatusEffectReceived(g: SaveGame, effectClass: nat): (r: (SaveGame, bool))
    ensures r.1 <==> HasReceivedStatusEffect(g.localData, effectClass)
    ensures HasReceivedStatusEffect(r.0.localData, effectClass)
    ensures r.0.(localData := g.localData) == g
  {
    if HasReceivedStatusEffect(g.localData, effectClass) then (g, true)
    else (g.(localData := MarkStatusEffectReceived(g.localData, effectClass)), false)
  }

  /** Asking twice: the second answer is always "already received". */
  lemma CheckAndMarkTwice(g: SaveGame, effectClass: nat)
    ensures CheckAndMarkStatusEffectReceived(CheckAndMarkStatusEffectReceived(g, effectClass).0, effectClass).1
  {
  }

  // ---------------------------------------------------------------------
  // The statistics component

  /** `UPlayerStatisticsComponent`: readiness, the save object, the float
   *  cache, the pending-push flag, and the owner's role. */
  datatype StatsComponent = StatsComponent(
    ready: bool,
    data: Option<SaveGame>,
    cache: map<StatType, real>,
    pendingPush: bool,
    isAuthority: bool,
    isLocal: bool)

  /** `GetPlayerData`: hidden until the statistics are ready. */
  function GetPlayerData(c: StatsComponent): (r: Option<SaveGame>)
    ensures !c.ready ==> r.None?
    ensures c.ready ==> r == c.data
  {
    if c.ready then c.data else None
  }

  /** `GetExperience`: 0 without visible player data. */
  function GetExperience(c: StatsComponent): (r: int)
    ensures GetPlayerData(c).None? ==> r == 0
    ensures GetPlayerData(c).Some? ==> r == GetPlayerData(c).value.experience.value
  {
    var d := GetPlayerData(c);
    if d.None? then 0 else d.value.experience.value
  }

  /** `PlayerDataReady`: marks the data ready; a server-side remote owner
   *  acknowledges to its client. Returns whether the ack is sent. */
  function PlayerDataReady(c: StatsComponent): (r: (StatsComponent, bool))
    ensures r.0 == c.(ready := true)
    ensures r.1 <==> !c.isLocal && c.isAuthority
  {
    (c.(ready := true), !c.isLocal && c.isAuthority)
  }

  /** `ReceivePlayerData`: once ready, incoming data is ignored; otherwise a
   *  save received over RPC takes it and the data becomes ready. */
  function ReceivePlayerData(c: StatsComponent, e: Experience, s: Statistics): (r: (StatsComponent, bool))
    ensures c.ready ==> r == (c, false)
    ensures !c.ready ==> r.0.ready && GetPlayerData(r.0) == Some(RemoteAuthoritySave.(experience := e, statistics := s))
    ensures !c.ready ==> r.0.cache == c.cache && r.0.pendingPush == c.pendingPush
  {
    if c.ready then (c, false)
    else
      var (g, _) := PushPlayerData(RemoteAuthoritySave, e, s);
      PlayerDataReady(c.(data := Some(g)))
  }

  /** Readiness is sticky: data received a second time does not replace
   *  what was received first. */
  lemma FirstDataWins(c: StatsComponent, e1: Experience, s1: Statistics, e2: Experience, s2: Statistics)
    ensures var c1 := ReceivePlayerData(c, e1, s1).0;
      ReceivePlayerData(c1, e2, s2).0 == c1
  {
  }

  /** `UpdatePlayerStatistic`: adds the delta to the cached value and, the
   *  first time it passes 1 with no push pending, schedules a push.
   *  Returns whether a push was scheduled. */
  function UpdatePlayerStatistic(c: StatsComponent, t: StatType, delta: real): (r: (StatsComponent, bool))
    ensures t in r.0.cache && r.0.cache[t] == (if t in c.cache then c.cache[t] else 0.0) + delta
    ensures forall u :: u != t ==> (u in r.0.cache <==> u in c.cache) && (u in c.cache ==> r.0.cache[u] == c.cache[u])
    ensures r.1 <==> !c.pendingPush && r.0.cache[t] > 1.0
    ensures r.0.pendingPush <==> c.pendingPush || r.1
    ensures r.0.(cache := c.cache, pendingPush := c.pendingPush) == c
  {
    var v := (if t in c.cache then c.cache[t] else 0.0) + delta;
    var c1 := c.(cache := c.cache[t := v]);
    if v > 1.0 && !c1.pendingPush then (c1.(pendingPush := true), true) else (c1, false)
  }

  /** `FMath::TruncToFloat`: the integer part, rounding toward zero. */
  function Trunc(x: real): (r: int)
    ensures x >= 0.0 ==> 0 <= r && r as real <= x < r as real + 1.0
    ensures x < 0.0 ==> x <= r as real <= 0.0 && r as real - 1.0 < x
  {
    if x >= 0.0 then x.Floor else -((-x).Floor)
  }

  /** The `uint64` cast of the truncated value. In range it keeps the
   *  value; a negative value or one of 2^64 or more has no defined result
   *  in C++, and the model chooses to wrap it modulo 2^64. */
  function ToUint64(x: int): (r: int)
    ensures IsUint64(r)
    ensures IsUint64(x) ==> r == x
  {
    WrapU64(x)
  }

  /** The push loop over the listed keys: the integer part leaves the cache
   *  and is added to the saved statistics, one notification per key. */
  function PushKeys(cache: map<StatType, real>, stats: Statistics, keys: seq<StatType>): (r: (map<StatType, real>, Statistics, seq<(StatType, int)>))
    requires forall k :: k in keys ==> k in cache
    ensures |r.2| == |keys|
    decreases |keys|
  {
    if |keys| == 0 then (cache, stats, [])
    else
      var k := keys[0];
      var whole := Trunc(cache[k]);
      var added := ToUint64(whole);
      var (c', s', notes) := PushKeys(cache[k := cache[k] - whole as real], Add(stats, k, added).0, keys[1..]);
      (c', s', [(k, added)] + notes)
  }

  /** `PushPlayerStatisticCache`: without visible player data only the
   *  pending flag is cleared; otherwise every cached value gives its
   *  integer part to the saved statistics. Returns the component and the
   *  notifications sent. */
  function PushPlayerStatisticCache(c: StatsComponent): (r: (StatsComponent, seq<(StatType, int)>))
    ensures !r.0.pendingPush
    ensures GetPlayerData(c).None? ==> r == (c.(pendingPush := false), [])
    ensures GetPlayerData(c).Some? ==> |r.1| == |KeyList(c.cache)| && r.0.data.Some?
  {
    var d := GetPlayerData(c);
    if d.None? then (c.(pendingPush := false), [])
    else
      var (cache', stats', notes) := PushKeys(c.cache, d.value.statistics, KeyList(c.cache));
      (c.(cache := cache', data := Some(d.value.(statistics := stats')), pendingPush := false), notes)
  }

  /** The push loop keeps the cache's keys. */
  lemma {:induction false} PushKeysDomain(cache: map<StatType, real>, stats: Statistics, keys: seq<StatType>, t: StatType)
    requires forall k :: k in keys ==> k in cache
    ensures t in PushKeys(cache, stats, keys).0 <==> t in cache
    decreases |keys|
  {
    if |keys| > 0 {
      var k := keys[0];
      PushKeysDomain(cache[k := cache[k] - Trunc(cache[k]) as real], Add(stats, k, ToUint64(Trunc(cache[k]))).0, keys[1..], t);
    }
  }

  /** A key outside the list keeps its cached and its saved value. */
  lemma {:induction false} PushKeysOtherKeys(cache: map<StatType, real>, stats: Statistics, keys: seq<StatType>, t: StatType)
    requires forall k :: k in keys ==> k in cache
    requires t !in keys
    ensures Get(PushKeys(cache, stats, keys).1, t) == Get(stats, t)
    ensures t in cache ==> t in PushKeys(cache, stats, keys).0 && PushKeys(cache, stats, keys).0[t] == cache[t]
    decreases |keys|
  {
    PushKeysDomain(cache, stats, keys, t);
    if |keys| > 0 {
      var k := keys[0];
      var whole := Trunc(cache[k]);
      assert t !in keys[1..];
      PushKeysOtherKeys(cache[k := cache[k] - whole as real], Add(stats, k, ToUint64(whole)).0, keys[1..], t);
      PushKeysDomain(cache[k := cache[k] - whole as real], Add(stats, k, ToUint64(whole)).0, keys[1..], t);
    }
  }

  /** Over distinct keys, a listed key keeps only the fractional part of
   *  its cached value and its saved statistic gains the integer part. */
  lemma {:induction false} PushKeysMovesWholePart(cache: map<StatType, real>, stats: Statistics, keys: seq<StatType>, t: StatType)
    requires forall k :: k in keys ==> k in cache
    requires forall i, j :: 0 <= i < j < |keys| ==> keys[i] != keys[j]
    requires t in keys
    ensures t in PushKeys(cache, stats, keys).0
    ensures PushKeys(cache, stats, keys).0[t] + Trunc(cache[t]) as real == cache[t]
    ensures Get(PushKeys(cache, stats, keys).1, t) == WrapU64(Get(stats, t) + ToUint64(Trunc(cache[t])))
    decreases |keys|
  {
    var k := keys[0];
    var whole := Trunc(cache[k]);
    var cache1 := cache[k := cache[k] - whole as real];
    var stats1 := Add(stats, k, ToUint64(whole)).0;
    PushKeysDomain(cache1, stats1, keys[1..], t);
    if t == k {
      assert forall j :: 0 < j < |keys| ==> keys[j] != k;
      assert k !in keys[1..];
      PushKeysOtherKeys(cache1, stats1, keys[1..], t);
    } else {
      assert t in keys[1..];
      PushKeysMovesWholePart(cache1, stats1, keys[1..], t);
    }
  }

  /** After a push with visible data, every cached value keeps only its
   *  fractional part, which lies in `[0, 1)` when the value was
   *  non-negative, and no key enters or leaves the cache. */
  lemma PushLeavesFraction(c: StatsComponent, t: StatType)
    requires GetPlayerData(c).Some?
    ensures var c' := PushPlayerStatisticCache(c).0;
      (t in c.cache <==> t in c'.cache) &&
      (t in c.cache ==> c'.cache[t] + Trunc(c.cache[t]) as real == c.cache[t]) &&
      (t in c.cache && c.cache[t] >= 0.0 ==> 0.0 <= c'.cache[t] < 1.0)
  {
    var d := GetPlayerData(c).value;
    var keys := KeyList(c.cache);
    PushKeysDomain(c.cache, d.statistics, keys, t);
    if t in c.cache {
      PushKeysMovesWholePart(c.cache, d.statistics, keys, t);
    }
  }

  /** After a push with visible data, the saved statistic of a cached key
   *  gains the integer part of its cached value. */
  lemma PushAddsWholePart(c: StatsComponent, t: StatType)
    requires GetPlayerData(c).Some? && t in c.cache && IsUint64(Trunc(c.cache[t]))
    ensures var before := GetPlayerData(c).value.statistics;
      var after := PushPlayerStatisticCache(c).0.data.value.statistics;
      Get(after, t) == WrapU64(Get(before, t) + Trunc(c.cache[t]))
  {
    PushKeysMovesWholePart(c.cache, GetPlayerData(c).value.statistics, KeyList(c.cache), t);
  }

  /** After a push with visible data, a statistic without a cached value
   *  keeps its saved value. */
  lemma PushKeepsUncached(c: StatsComponent, t: StatType)
    requires GetPlayerData(c).Some? && t !in c.cache
    ensures var before := GetPlayerData(c).value.statistics;
      var after := PushPlayerStatisticCache(c).0.data.value.statistics;
      Get(after, t) == Get(before, t)
  {
    PushKeysOtherKeys(c.cache, GetPlayerData(c).value.statistics, KeyList(c.cache), t);
  }

  /** The component's `RequestSave`: without visible data false; a loaded
   *  save goes through the save machine; a save received over RPC is sent
   *  back to its client instead. Returns the component, the result, and
   *  whether a client update is sent. */
  function ComponentRequestSave(c: StatsComponent): (r: (StatsComponent, bool, bool))
    ensures GetPlayerData(c).None? ==> r == (c, false, false)
    ensures r.1 ==> GetPlayerData(c).Some? && GetPlayerData(c).value.saveType == FromLoad
    ensures r.2 ==> GetPlayerData(c).Some? && GetPlayerData(c).value.saveType == FromRPC && !c.isLocal && c.isAuthority
    ensures GetPlayerData(c).Some? && GetPlayerData(c).value.saveType == FromLoad ==>
      r.1 && GetPlayerData(r.0).Some? &&
      GetPlayerData(r.0).value.(pendingSave := GetPlayerData(c).value.pendingSave) == GetPlayerData(c).value
  {
    var d := GetPlayerData(c);
    if d.None? then (c, false, false)
    else if d.value.saveType == FromLoad then
      var o := RequestSaveAsWritten(d);
      (c.(data := o.save), o.ok, false)
    else if d.value.saveType == FromRPC then (c, false, !c.isLocal && c.isAuthority)
    else (c, false, false)
  }

  /** `UpdatePlayerExperience`: without visible data nothing happens;
   *  otherwise the uint32 delta is added, a save requested, and the delta
   *  broadcast. Returns the component and whether the broadcast went out. */
  function UpdatePlayerExperience(c: StatsComponent, delta: int): (r: (StatsComponent, bool))
    requires IsUint32(delta)
    ensures GetPlayerData(c).None? ==> r == (c, false)
    ensures GetPlayerData(c).Some? ==> r.1 && GetExperience(r.0) == WrapU64(GetExperience(c) + delta)
  {
    var d := GetPlayerData(c);
    if d.None? then (c, false)
    else
      var g := d.value.(experience := AddExperience(d.value.experience, delta).0);
      var (c1, _, _) := ComponentRequestSave(c.(data := Some(g)));
      (c1, true)
  }

  /** `Client_Reliable_UpdatePlayerData`: the client merges the server's
   *  figures by maximum and requests a save. */
  function ClientUpdatePlayerData(c: StatsComponent, e: Experience, s: Statistics): (r: StatsComponent)
    ensures GetPlayerData(c).None? ==> r == c
    ensures GetPlayerData(c).Some? ==> GetPlayerData(r).Some?
    ensures GetPlayerData(c).Some? ==> GetExperience(r) >= e.value && GetExperience(r) >= GetExperience(c)
    ensures GetPlayerData(c).Some? ==> forall t :: t in s ==> Get(GetPlayerData(r).value.statistics, t) >= s[t]
    ensures GetPlayerData(c).Some? ==> forall t ::
      Get(GetPlayerData(r).value.statistics, t) >= Get(GetPlayerData(c).value.statistics, t)
    ensures GetPlayerData(c).Some? ==> forall t :: t in s ==>
      Get(GetPlayerData(r).value.statistics, t) == Max(Get(GetPlayerData(c).value.statistics, t), s[t])
    ensures GetPlayerData(c).Some? ==> forall t :: t !in s ==>
      Get(GetPlayerData(r).value.statistics, t) == Get(GetPlayerData(c).value.statistics, t)
    ensures GetPlayerData(c).Some? ==> GetExperience(r) == e.value || GetExperience(r) == GetExperience(c)
    ensures r.(data := c.data) == c
    ensures GetPlayerData(c).Some? ==> var d := GetPlayerData(c).value;
      GetPlayerData(r).value.(experience := d.experience, statistics := d.statistics, pendingSave := d.pendingSave) == d
  {
    var d := GetPlayerData(c);
    if d.None? then c
    else
      var (g1, _) := ReceiveServerStatistics(d.value, s);
      var (g2, _) := ReceiveServerExperience(g1, e);
      var o := RequestSaveAsWritten(Some(g2));
      c.(data := o.save)
  }

  /** The component's `CheckAndMarkStatusEffectReceived`: false without
   *  visible data. */
  function ComponentCheckAndMark(c: StatsComponent, effectClass: nat): (r: (StatsComponent, bool))
    ensures GetPlayerData(c).None? ==> r == (c, false)
    ensures GetPlayerData(c).Some? ==> (r.1 <==> HasReceivedStatusEffect(GetPlayerData(c).value.localData, effectClass))
    ensures GetPlayerData(c).Some? ==> GetPlayerData(r.0).Some? && HasReceivedStatusEffect(GetPlayerData(r.0).value.localData, effectClass)
  {
    var d := GetPlayerData(c);
    if d.None? then (c, false)
    else
      var (g, was) := CheckAndMarkStatusEffectReceived(d.value, effectClass);
      (c.(data := Some(g)), was)
  }

  // ---------------------------------------------------------------------
  // `UPlayerStatisticHelpers`

  /** `IncrementPlayerStatistic`: false without a statistics component or
   *  off the authority; otherwise the update is forwarded and true. */
  function IncrementPlayerStatistic(c: Option<StatsComponent>, t: StatType, amount: real): (r: (Option<StatsComponent>, bool))
    ensures r.1 <==> c.Some? && c.value.isAuthority
    ensures !r.1 ==> r.0 == c
    ensures r.1 ==> r.0 == Some(UpdatePlayerStatistic(c.value, t, amount).0)
  {
    if c.None? || !c.value.isAuthority then (c, false)
    else (Some(UpdatePlayerStatistic(c.value, t, amount).0), true)
  }

  /** `IncrementPlayerExperience`: the same gate for experience. */
  function IncrementPlayerExperience(c: Option<StatsComponent>, delta: int): (r: (Option<StatsComponent>, bool))
    requires IsUint32(delta)
    ensures r.1 <==> c.Some? && c.value.isAuthority
    ensures !r.1 ==> r.0 == c
    ensures r.1 ==> r.0 == Some(UpdatePlayerExperience(c.value, delta).0)
  {
    if c.None? || !c.value.isAuthority then (c, false)
    else (Some(UpdatePlayerExperience(c.value, delta).0), true)
  }

  /** The helpers' `CheckAndMarkStatusEffectReceived`: false without a
   *  statistics component. */
  function HelperCheckAndMark(c: Option<StatsComponent>, effectClass: nat): (r: (Option<StatsComponent>, bool))
    ensures c.None? ==> r == (c, false)
    ensures c.Some? ==> r == (Some(ComponentCheckAndMark(c.value, effectClass).0), ComponentCheckAndMark(c.value, effectClass).1)
  {
    if c.None? then (c, false)
    else
      var (c1, was) := ComponentCheckAndMark(c.value, effectClass);
      (Some(c1), was)
  }
}

=== FILE: player_statistics.dfy ===
/**
 * Player statistics and experience: the per-type statistics map with its
 * uint64 values, the experience counter, their merge by maximum, the
 * key/value-pair form the map is sent in, and the set of status effects a
 * player has met.
 */
module PlayerStatistics {
  import opened Common

  /** `EPlayerStatisticType`. */
  datatype StatType = InvalidStat | DamageDealt | DamageReceived | DamageHealed

  /** Every statistic type, in declaration order. */
  const AllStatTypes: seq<StatType> := [InvalidStat, DamageDealt, DamageReceived, DamageHealed]

  /** Every statistic type is listed. */
  lemma AllStatTypesComplete(t: StatType)
    ensures t in AllStatTypes
  {
    match t
    case InvalidStat => assert AllStatTypes[0] == t;
    case DamageDealt => assert AllStatTypes[1] == t;
    case DamageReceived => assert AllStatTypes[2] == t;
    case DamageHealed => assert AllStatTypes[3] == t;
  }

  /** `FPlayerStatisticsStruct`: a map from type to uint64. */
  type Statistics = map<StatType, int>

  predicate ValidStatistics(m: Statistics)
  {
    forall t :: t in m ==> IsUint64(m[t])
  }

  /** `Get`: the stored value, 0 for an absent key. */
  function Get(m: Statistics, t: StatType): (r: int)
    ensures t in m ==> r == m[t]
    ensures t !in m ==> r == 0
  {
    if t in m then m[t] else 0
  }

  /** `Set`: stores the value and returns it. */
  function Set(m: Statistics, t: StatType, v: int): (r: (Statistics, int))
    ensures r.1 == v && Get(r.0, t) == v
    ensures forall u :: u != t ==> Get(r.0, u) == Get(m, u) && (u in r.0 <==> u in m)
  {
    (m[t := v], v)
  }

  /** `Add`: adds to the stored value (0 if absent) with uint64
   *  wrap-around, stores and returns the sum. */
  function Add(m: Statistics, t: StatType, delta: int): (r: (Statistics, int))
    ensures r.1 == WrapU64(Get(m, t) + delta) && Get(r.0, t) == r.1
    ensures IsUint64(Get(m, t)) && IsUint64(delta) && Get(m, t) + delta <= MaxUint64 ==> r.1 == Get(m, t) + delta
    ensures forall u :: u != t ==> Get(r.0, u) == Get(m, u) && (u in r.0 <==> u in m)
  {
    Set(m, t, WrapU64(Get(m, t) + delta))
  }

  /** `Set` and `Get` agree, and a later `Set` of the same key wins. */
  lemma SetGet(m: Statistics, t: StatType, v: int, w: int)
    ensures Get(Set(m, t, v).0, t) == v
    ensures Set(Set(m, t, v).0, t, w).0 == Set(m, t, w).0
  {
  }

  // ---------------------------------------------------------------------
  // Experience

  /** `FExperienceStruct`: a uint64 value. */
  datatype Experience = Experience(value: int)

  /** `AddValue`: uint64 addition, returning the new value. */
  function AddExperience(e: Experience, delta: int): (r: (Experience, int))
    ensures r.1 == r.0.value == WrapU64(e.value + delta)
    ensures IsUint64(e.value) && IsUint64(delta) && e.value + delta <= MaxUint64 ==> r.1 == e.value + delta
  {
    var v := WrapU64(e.value + delta);
    (Experience(v), v)
  }

  /** `SetValue`: stores and returns the value. */
  function SetExperience(e: Experience, v: int): (r: (Experience, int))
    ensures r.1 == r.0.value == v
  {
    (Experience(v), v)
  }

  /** `FExperienceStruct::ReplaceWithLarger`: keeps the larger value. */
  function ReplaceExperienceWithLarger(e: Experience, other: Experience): (r: (Experience, bool))
    ensures r.1
    ensures r.0.value >= e.value && r.0.value >= other.value
    ensures r.0.value == e.value || r.0.value == other.value
  {
    (Experience(Max(e.value, other.value)), true)
  }

  /** Merging experience is idempotent and order-independent. */
  lemma ExperienceMergeLaws(a: Experience, b: Experience)
    ensures ReplaceExperienceWithLarger(ReplaceExperienceWithLarger(a, b).0, b).0 == ReplaceExperienceWithLarger(a, b).0
    ensures ReplaceExperienceWithLarger(a, b).0 == ReplaceExperienceWithLarger(b, a).0
  {
  }

  // ---------------------------------------------------------------------
  // Statistics merge

  /** The keys of a map, each once. `GenerateKeyArray` lists them in the
   *  map's hash and insertion order; the model picks declaration order
   *  instead, and the save/load round trip does not depend on the order. */
  function KeyList<V>(m: map<StatType, V>): (r: seq<StatType>)
    ensures forall t :: t in r <==> t in m
    ensures forall i, j :: 0 <= i < j < |r| ==> r[i] != r[j]
  {
    assert forall t :: t in m ==> t in AllStatTypes by {
      forall t | t in m
        ensures t in AllStatTypes
      {
        AllStatTypesComplete(t);
      }
    }
    KeysFrom(m, AllStatTypes)
  }

  function KeysFrom<V>(m: map<StatType, V>, order: seq<StatType>): (r: seq<StatType>)
    requires forall i, j :: 0 <= i < j < |order| ==> order[i] != order[j]
    ensures forall t :: t in r <==> t in m && t in order
    ensures forall i, j :: 0 <= i < j < |r| ==> r[i] != r[j]
  {
    if |order| == 0 then []
    else (if order[0] in m then [order[0]] else []) + KeysFrom(m, order[1..])
  }

  /** The loop of `ReplaceWithLarger`: for each listed key, the larger of
   *  the two values is set. */
  function MergeKeys(m: Statistics, other: Statistics, keys: seq<StatType>): Statistics
    decreases |keys|
  {
    if |keys| == 0 then m
    else
      var k := keys[0];
      MergeKeys(Set(m, k, Max(Get(m, k), Get(other, k))).0, other, keys[1..])
  }

  /** `FPlayerStatisticsStruct::ReplaceWithLarger`. */
  function ReplaceStatisticsWithLarger(m: Statistics, other: Statistics): (r: (Statistics, bool))
    ensures r.1
  {
    (MergeKeys(m, other, KeyList(other)), true)
  }

  /** The merge loop over distinct keys sets each of them to the pointwise
   *  maximum and leaves every other key alone. */
  lemma {:induction false} MergeKeysPointwise(m: Statistics, other: Statistics, keys: seq<StatType>)
    requires forall i, j :: 0 <= i < j < |keys| ==> keys[i] != keys[j]
    ensures forall t :: t in keys ==> Get(MergeKeys(m, other, keys), t) == Max(Get(m, t), Get(other, t))
    ensures forall t :: t in keys ==> t in MergeKeys(m, other, keys)
    ensures forall t :: t !in keys ==> Get(MergeKeys(m, other, keys), t) == Get(m, t) && (t in MergeKeys(m, other, keys) <==> t in m)
    decreases |keys|
  {
    if |keys| > 0 {
      var k := keys[0];
      var m1 := Set(m, k, Max(Get(m, k), Get(other, k))).0;
      MergeKeysPointwise(m1, other, keys[1..]);
      assert k !in keys[1..] by {
        forall i | 0 <= i < |keys[1..]|
          ensures keys[1..][i] != k
        {
          assert keys[1..][i] == keys[i + 1];
        }
      }
      forall t | t in keys && t != k
        ensures t in keys[1..]
      {
        var i :| 0 <= i < |keys| && keys[i] == t;
        assert keys[1..][i - 1] == t;
      }
    }
  }

  /** After merging, every key of the other map holds the larger value,
   *  keys only this map has are untouched, and this map is at least the
   *  other one everywhere. */
  lemma StatisticsMergeIsPointwiseMax(m: Statistics, other: Statistics)
    ensures var r := ReplaceStatisticsWithLarger(m, other).0;
      (forall t :: t in other ==> t in r && Get(r, t) == Max(Get(m, t), other[t])) &&
      (forall t :: t !in other ==> Get(r, t) == Get(m, t) && (t in r <==> t in m)) &&
      (forall t :: t in other ==> Get(r, t) >= other[t]) &&
      (forall t :: Get(r, t) >= Get(m, t))
  {
    MergeKeysPointwise(m, other, KeyList(other));
  }

  /** Merging twice with the same map changes nothing more. */
  lemma StatisticsMergeIdempotent(m: Statistics, other: Statistics)
    ensures var r := ReplaceStatisticsWithLarger(m, other).0;
      ReplaceStatisticsWithLarger(r, other).0 == r
  {
    var r := ReplaceStatisticsWithLarger(m, other).0;
    var r2 := ReplaceStatisticsWithLarger(r, other).0;
    StatisticsMergeIsPointwiseMax(m, other);
    StatisticsMergeIsPointwiseMax(r, other);
    assert forall t :: t in r2 <==> t in r;
    forall t | t in r
      ensures r2[t] == r[t]
    {
      assert Get(r2, t) == Get(r, t);
    }
  }

  /** Merged values stay uint64. */
  lemma StatisticsMergeStaysValid(m: Statistics, other: Statistics)
    requires ValidStatistics(m) && ValidStatistics(other)
    ensures ValidStatistics(ReplaceStatisticsWithLarger(m, other).0)
  {
    StatisticsMergeIsPointwiseMax(m, other);
    var r := ReplaceStatisticsWithLarger(m, other).0;
    forall t | t in r
      ensures IsUint64(r[t])
    {
      assert Get(r, t) == r[t];
    }
  }

  // ---------------------------------------------------------------------
  // Serialisation

  /** `TMapPairStruct`. */
  datatype Pair = Pair(key: StatType, value: int)

  /** Saving in `NetSerializeTemplateMap`: one pair per entry, in the map's
   *  key order. */
  function SavePairs(m: Statistics): (r: seq<Pair>)
    ensures |r| == |KeyList(m)|
    ensures forall i :: 0 <= i < |r| ==> r[i] == Pair(KeyList(m)[i], m[KeyList(m)[i]])
  {
    var keys := KeyList(m);
    seq(|keys|, i requires 0 <= i < |keys| => Pair(keys[i], m[keys[i]]))
  }

  /** Adds pairs in order; a later pair overrides an earlier one. */
  function AddPairs(m: Statistics, pairs: seq<Pair>): Statistics
    decreases |pairs|
  {
    if |pairs| == 0 then m
    else AddPairs(m[pairs[0].key := pairs[0].value], pairs[1..])
  }

  /** Loading in `NetSerializeTemplateMap`: the target is emptied, then the
   *  pairs are added; whatever it held before is gone. */
  function LoadPairs(target: Statistics, pairs: seq<Pair>): (r: Statistics)
  {
    AddPairs(map[], pairs)
  }

  /** Loading stores each pair's value under its key and leaves unlisted
   *  keys alone. */
  lemma {:induction false} AddPairsContents(m: Statistics, pairs: seq<Pair>)
    requires forall i, j :: 0 <= i < j < |pairs| ==> pairs[i].key != pairs[j].key
    ensures forall i :: 0 <= i < |pairs| ==> pairs[i].key in AddPairs(m, pairs) && AddPairs(m, pairs)[pairs[i].key] == pairs[i].value
    ensures forall t :: (forall i :: 0 <= i < |pairs| ==> pairs[i].key != t) ==> (t in AddPairs(m, pairs) <==> t in m) && (t in m ==> AddPairs(m, pairs)[t] == m[t])
    decreases |pairs|
  {
    if |pairs| > 0 {
      var m1 := m[pairs[0].key := pairs[0].value];
      AddPairsContents(m1, pairs[1..]);
      forall i | 0 <= i < |pairs|
        ensures pairs[i].key in AddPairs(m, pairs) && AddPairs(m, pairs)[pairs[i].key] == pairs[i].value
      {
        if i == 0 {
          forall j | 0 <= j < |pairs[1..]|
            ensures pairs[1..][j].key != pairs[0].key
          {
            assert pairs[1..][j] == pairs[j + 1];
          }
        } else {
          assert pairs[1..][i - 1] == pairs[i];
        }
      }
      forall t | (forall i :: 0 <= i < |pairs| ==> pairs[i].key != t)
        ensures (t in AddPairs(m, pairs) <==> t in m) && (t in m ==> AddPairs(m, pairs)[t] == m[t])
      {
        assert pairs[0].key != t;
        forall j | 0 <= j < |pairs[1..]|
          ensures pairs[1..][j].key != t
        {
          assert pairs[1..][j] == pairs[j + 1];
        }
      }
    }
  }

  /** Loading what was saved reproduces the map, whatever the target held
   *  before. */
  lemma SaveLoadRoundTrip(m: Statistics, target: Statistics)
    ensures LoadPairs(target, SavePairs(m)) == m
  {
    var pairs := SavePairs(m);
    var keys := KeyList(m);
    AddPairsContents(map[], pairs);
    var r := LoadPairs(target, pairs);
    forall t | t in m
      ensures t in r && r[t] == m[t]
    {
      var i :| 0 <= i < |keys| && keys[i] == t;
      assert pairs[i].key == t;
    }
    forall t | t in r
      ensures t in m
    {
      if t !in m {
        forall i | 0 <= i < |pairs|
          ensures pairs[i].key != t
        {
          assert pairs[i].key == keys[i];
        }
      }
    }
  }

  // ---------------------------------------------------------------------
  // Status effects met

  /** `FPlayerLocalDataStruct`: the status-effect classes the player has
   *  received. */
  datatype LocalData = LocalData(receivedStatusEffects: set<nat>)

  predicate HasReceivedStatusEffect(d: LocalData, effectClass: nat)
  {
    effectClass in d.receivedStatusEffects
  }

  function MarkStatusEffectReceived(d: LocalData, effectClass: nat): (r: LocalData)
    ensures HasReceivedStatusEffect(r, effectClass)
    ensures forall c :: c != effectClass ==> (HasReceivedStatusEffect(r, c) <==> HasReceivedStatusEffect(d, c))
  {
    LocalData(d.receivedStatusEffects + {effectClass})
  }

  /** Marking is idempotent. */
  lemma MarkIdempotent(d: LocalData, effectClass: nat)
    ensures MarkStatusEffectReceived(MarkStatusEffectReceived(d, effectClass), effectClass) == MarkStatusEffectReceived(d, effectClass)
    ensures HasReceivedStatusEffect(d, effectClass) ==> MarkStatusEffectReceived(d, effectClass) == d
  {
  }
}

=== FILE: prompt_stack.dfy ===
/**
 * `FPromptStack` and `UPlayerPromptComponent`: the prompts a local player
 * has pending, keyed by handle, and the component that pushes and pops
 * them and asks the interface to display the one in front. The map is a
 * sequence of prompts in the map's iteration order; removal closes the
 * gap and insertion appends.
 */
module PromptStack {
  import opened Common
  import opened PromptTypes

  type Stack = seq<PromptData>

  /** A map holds each key once. */
  predicate IsMap(s: Stack)
  {
    forall i, j :: 0 <= i < j < |s| ==> s[i].handle != s[j].handle
  }

  /** What the component keeps: distinct, valid handles. */
  predicate ValidStack(s: Stack)
  {
    IsMap(s) && forall i :: 0 <= i < |s| ==> IsValidPrompt(s[i])
  }

  predicate HasHandle(s: Stack, h: int)
  {
    exists i :: 0 <= i < |s| && s[i].handle == h
  }

  /** The position of the first prompt with handle `h`, or `INDEX_NONE`. */
  function IndexOfHandle(s: Stack, h: int): (k: int)
    ensures k == IndexNone <==> !HasHandle(s, h)
    ensures k != IndexNone ==> 0 <= k < |s| && s[k].handle == h
    ensures k != IndexNone ==> forall i :: 0 <= i < k ==> s[i].handle != h
  {
    if |s| == 0 then IndexNone
    else if s[0].handle == h then 0
    else
      var k := IndexOfHandle(s[1..], h);
      if k == IndexNone then IndexNone else k + 1
  }

  /** `IsValidPromptHandle`: a nonzero handle that is on the stack. */
  predicate IsValidPromptHandle(s: Stack, h: int)
  {
    h != InvalidHandle && HasHandle(s, h)
  }

  /** `GetPromptData`: the prompt under a valid handle, else the invalid
   *  prompt. */
  function GetPromptData(s: Stack, h: int): (r: PromptData)
    ensures IsValidPromptHandle(s, h) ==> r in s && r.handle == h
    ensures !IsValidPromptHandle(s, h) ==> r == InvalidPrompt
    ensures IsValidPrompt(r) <==> IsValidPromptHandle(s, h)
  {
    if IsValidPromptHandle(s, h) then s[IndexOfHandle(s, h)] else InvalidPrompt
  }

  /** `IsMarkedDisplayed`. */
  predicate IsMarkedDisplayed(s: Stack, h: int)
  {
    var d := GetPromptData(s, h);
    IsValidPrompt(d) && d.displayed
  }

  /** `TMap::Add`: replaces the value under an existing key, else appends. */
  function Add(s: Stack, d: PromptData): (r: Stack)
    ensures HasHandle(s, d.handle) ==> |r| == |s| && r == s[IndexOfHandle(s, d.handle) := d]
    ensures !HasHandle(s, d.handle) ==> r == s + [d]
    ensures IsMap(s) ==> IsMap(r)
    ensures d in r
  {
    var k := IndexOfHandle(s, d.handle);
    if k == IndexNone then s + [d]
    else
      assert s[k := d][k] == d;
      s[k := d]
  }

  /** `TMap::Remove`: every prompt under the key goes. */
  function RemoveHandle(s: Stack, h: int): (r: Stack)
    ensures forall d :: d in r <==> d in s && d.handle != h
    ensures |r| <= |s|
    ensures !HasHandle(s, h) ==> r == s
    ensures HasHandle(s, h) ==> |r| < |s|
  {
    if |s| == 0 then []
    else
      assert s[0].handle != h && HasHandle(s, h) ==> HasHandle(s[1..], h) by {
        if s[0].handle != h && HasHandle(s, h) {
          var i :| 0 <= i < |s| && s[i].handle == h;
          assert s[1..][i - 1] == s[i];
        }
      }
      assert !HasHandle(s, h) ==> !HasHandle(s[1..], h) by {
        if HasHandle(s[1..], h) {
          var i :| 0 <= i < |s[1..]| && s[1..][i].handle == h;
          assert s[i + 1] == s[1..][i];
        }
      }
      (if s[0].handle == h then [] else [s[0]]) + RemoveHandle(s[1..], h)
  }

  /** Two stacks with the same keys in the same places. */
  predicate SameKeys(a: Stack, b: Stack)
  {
    |a| == |b| && forall i :: 0 <= i < |a| ==> a[i].handle == b[i].handle
  }

  /** Validity, handle membership and the counter bound only look at the
   *  keys. */
  lemma SameKeysAgree(a: Stack, b: Stack, counter: int)
    requires SameKeys(a, b)
    ensures ValidStack(a) <==> ValidStack(b)
    ensures HandlesBelow(a, counter) <==> HandlesBelow(b, counter)
    ensures forall h :: HasHandle(a, h) <==> HasHandle(b, h)
  {
  }

  /** Removing keeps the remaining prompts in order and keys distinct. */
  lemma {:induction false} RemovePreservesMap(s: Stack, h: int)
    requires IsMap(s)
    ensures IsMap(RemoveHandle(s, h))
    decreases |s|
  {
    if |s| > 0 {
      RemovePreservesMap(s[1..], h);
      var rest := RemoveHandle(s[1..], h);
      forall j | 0 <= j < |rest|
        ensures rest[j].handle != s[0].handle
      {
        assert rest[j] in s[1..];
      }
    }
  }

  /** Removal keeps the stack valid. */
  lemma RemovePreservesValid(s: Stack, h: int)
    requires ValidStack(s)
    ensures ValidStack(RemoveHandle(s, h))
  {
    RemovePreservesMap(s, h);
    var r := RemoveHandle(s, h);
    forall i | 0 <= i < |r|
      ensures IsValidPrompt(r[i])
    {
      assert r[i] in s;
    }
  }

  /** A fresh prompt appended and then removed leaves the stack as it was. */
  lemma {:induction false} AddThenRemove(s: Stack, d: PromptData)
    requires !HasHandle(s, d.handle)
    ensures RemoveHandle(Add(s, d), d.handle) == s
    decreases |s|
  {
    if |s| > 0 {
      assert (s + [d])[1..] == s[1..] + [d];
      assert !HasHandle(s[1..], d.handle) by {
        forall i | 0 <= i < |s[1..]|
          ensures s[1..][i].handle != d.handle
        {
          assert s[1..][i] == s[i + 1];
        }
      }
      AddThenRemove(s[1..], d);
    }
  }

  /** The first prompt of the given info class, or `INDEX_NONE`. */
  function FirstOfClass(s: Stack, infoClass: Option<PromptInfo>): (k: int)
    ensures k == IndexNone || (0 <= k < |s| && s[k].infoClass == infoClass)
    ensures k == IndexNone <==> forall i :: 0 <= i < |s| ==> s[i].infoClass != infoClass
    ensures k != IndexNone ==> forall i :: 0 <= i < k ==> s[i].infoClass != infoClass
  {
    if |s| == 0 then IndexNone
    else if s[0].infoClass == infoClass then 0
    else
      var k := FirstOfClass(s[1..], infoClass);
      if k == IndexNone then IndexNone else k + 1
  }

  /** `PushPrompt`: unless the prompt allows duplicates, the first prompt
   *  of the same class decides: under `ReplaceWithNewer` it is removed and
   *  the new prompt added, under `Ignore` nothing changes and the invalid
   *  handle comes back. Otherwise the prompt is added. Returns the new stack
   *  and the handle. */
  function PushPrompt(s: Stack, d: PromptData): (r: (Stack, int))
    ensures var logic := DuplicateLogicOf(d); var k := FirstOfClass(s, d.infoClass);
      if k != IndexNone && logic == Ignore then r == (s, InvalidHandle)
      else if k != IndexNone && logic == ReplaceWithNewer then r == (Add(RemoveHandle(s, s[k].handle), d), d.handle)
      else r == (Add(s, d), d.handle)
  {
    var logic := DuplicateLogicOf(d);
    if logic == AllowDuplicate then (Add(s, d), d.handle)
    else
      var k := FirstOfClass(s, d.infoClass);
      if k == IndexNone then (Add(s, d), d.handle)
      else if logic == ReplaceWithNewer then (Add(RemoveHandle(s, s[k].handle), d), d.handle)
      else if logic == Ignore then (s, InvalidHandle)
      else (Add(s, d), d.handle)
  }

  /** What a push promises its caller: the handle it returns is valid
   *  exactly when the prompt went in, the prompt then is on the stack, the
   *  stack stays valid for a fresh prompt, and a replaced prompt is gone. */
  lemma PushPromptOutcome(s: Stack, d: PromptData)
    requires ValidStack(s) && IsValidPrompt(d) && !HasHandle(s, d.handle)
    ensures var (s', h) := PushPrompt(s, d);
      ValidStack(s') &&
      (h == InvalidHandle <==> DuplicateLogicOf(d) == Ignore && FirstOfClass(s, d.infoClass) != IndexNone) &&
      (h == InvalidHandle ==> s' == s) &&
      (h != InvalidHandle ==> h == d.handle && d in s' && IsValidPromptHandle(s', h)) &&
      (DuplicateLogicOf(d) == AllowDuplicate || FirstOfClass(s, d.infoClass) == IndexNone ==> s' == s + [d])
    ensures DuplicateLogicOf(d) == ReplaceWithNewer && FirstOfClass(s, d.infoClass) != IndexNone ==>
      var k := FirstOfClass(s, d.infoClass);
      (forall e :: e in PushPrompt(s, d).0 <==> e == d || (e in s && e.handle != s[k].handle))
  {
    var k := FirstOfClass(s, d.infoClass);
    if k != IndexNone && DuplicateLogicOf(d) == ReplaceWithNewer {
      RemovePreservesValid(s, s[k].handle);
      var rest := RemoveHandle(s, s[k].handle);
      assert !HasHandle(rest, d.handle) by {
        forall i | 0 <= i < |rest|
          ensures rest[i].handle != d.handle
        {
          assert rest[i] in s;
        }
      }
    }
    var (s', h) := PushPrompt(s, d);
    if h != InvalidHandle {
      assert s'[|s'| - 1] == d;
    }
  }

  /** `PopPrompt`: an unknown or invalid handle changes nothing and gives
   *  false; otherwise the prompt is removed. */
  function PopPrompt(s: Stack, h: int): (r: (Stack, bool))
    ensures r.1 <==> IsValidPromptHandle(s, h)
    ensures !r.1 ==> r.0 == s
    ensures r.1 ==> r.0 == RemoveHandle(s, h) && !HasHandle(r.0, h) && |r.0| < |s|
  {
    if !IsValidPromptHandle(s, h) then (s, false)
    else
      var r := RemoveHandle(s, h);
      assert s[IndexOfHandle(s, h)] !in r;
      assert !HasHandle(r, h) by {
        forall i | 0 <= i < |r|
          ensures r[i].handle != h
        {
          assert r[i] in s;
        }
      }
      (r, true)
  }

  /** Popping the handle a push returned undoes a push that added a fresh
   *  prompt. */
  lemma PushThenPop(s: Stack, d: PromptData)
    requires ValidStack(s) && IsValidPrompt(d) && !HasHandle(s, d.handle)
    requires DuplicateLogicOf(d) == AllowDuplicate || FirstOfClass(s, d.infoClass) == IndexNone
    ensures var (s', h) := PushPrompt(s, d); PopPrompt(s', h) == (s, true)
  {
    PushPromptOutcome(s, d);
    AddThenRemove(s, d);
  }

  /** `MarkDisplayed`: an unknown or invalid handle gives false and changes
   *  nothing; otherwise only that prompt's displayed flag is set. */
  function MarkDisplayed(s: Stack, h: int): (r: (Stack, bool))
    ensures r.1 <==> IsValidPromptHandle(s, h)
    ensures !r.1 ==> r.0 == s
    ensures |r.0| == |s|
    ensures r.1 ==> var k := IndexOfHandle(s, h);
      r.0[k] == s[k].(displayed := true) && forall i :: 0 <= i < |s| && i != k ==> r.0[i] == s[i]
  {
    if !IsValidPromptHandle(s, h) then (s, false)
    else
      var k := IndexOfHandle(s, h);
      (s[k := s[k].(displayed := true)], true)
  }

  /** After marking, the prompt reads as displayed and the stack is still
   *  valid; marking again is harmless. */
  lemma MarkDisplayedEffect(s: Stack, h: int)
    requires ValidStack(s) && IsValidPromptHandle(s, h)
    ensures ValidStack(MarkDisplayed(s, h).0)
    ensures IsMarkedDisplayed(MarkDisplayed(s, h).0, h)
    ensures MarkDisplayed(MarkDisplayed(s, h).0, h).0 == MarkDisplayed(s, h).0
  {
    var (s', _) := MarkDisplayed(s, h);
    var k := IndexOfHandle(s, h);
    assert s'[k].handle == h;
    assert IndexOfHandle(s', h) == k;
  }

  // ---------------------------------------------------------------------
  // The prompt in front

  /** The scan of `GetTopData` over the keys: the current best starts
   *  invalid, becomes the first prompt seen, and gives way to any prompt
   *  that is `Greater`. */
  function TopScan(s: Stack, best: PromptData): (r: PromptData)
    decreases |s|
  {
    if |s| == 0 then best
    else
      var b := if !IsValidPrompt(best) then s[0] else best;
      var b' := if Greater(s[0], b) then s[0] else b;
      TopScan(s[1..], b')
  }

  /** On valid prompts the scan ends on a prompt of the stack (or the valid
   *  start) that nothing seen beats. */
  lemma {:induction false} TopScanMaximal(s: Stack, best: PromptData)
    requires forall i :: 0 <= i < |s| ==> IsValidPrompt(s[i])
    ensures var r := TopScan(s, best);
      (r == best || r in s) &&
      (|s| > 0 || IsValidPrompt(best) ==> IsValidPrompt(r)) &&
      (forall e :: e in s ==> !Greater(e, r)) &&
      (IsValidPrompt(best) ==> !Greater(best, r))
    decreases |s|
  {
    if |s| > 0 {
      var b := if !IsValidPrompt(best) then s[0] else best;
      var b' := if Greater(s[0], b) then s[0] else b;
      TopScanMaximal(s[1..], b');
      var r := TopScan(s, best);
      assert r == TopScan(s[1..], b');
      GreaterIsStrictTotal(s[0], b', r);
      GreaterIsStrictTotal(b, b', r);
      GreaterIsStrictTotal(s[0], s[0], r);
      forall e | e in s
        ensures !Greater(e, r)
      {
        if e != s[0] {
          assert e in s[1..];
        }
      }
    }
  }

  /** `GetTopData`: the invalid prompt for an empty stack, otherwise the
   *  prompt under the handle the scan settles on. */
  function GetTopData(s: Stack): (r: PromptData)
    ensures |s| == 0 ==> r == InvalidPrompt
  {
    if |s| == 0 then InvalidPrompt
    else GetPromptData(s, TopScan(s, InvalidPrompt).handle)
  }

  /** On a valid, nonempty stack the top is the one prompt every other
   *  prompt is `Greater`-below, so it does not depend on the order of the
   *  map. */
  lemma TopIsUniqueMaximum(s: Stack)
    requires ValidStack(s) && |s| > 0
    ensures GetTopData(s) in s
    ensures forall e :: e in s && e != GetTopData(s) ==> Greater(GetTopData(s), e)
  {
    TopScanMaximal(s, InvalidPrompt);
    var t := TopScan(s, InvalidPrompt);
    var k :| 0 <= k < |s| && s[k] == t;
    assert IndexOfHandle(s, t.handle) == k;
    forall e | e in s && e != t
      ensures Greater(t, e)
    {
      var j :| 0 <= j < |s| && s[j] == e;
      assert j != k;
      GreaterIsStrictTotal(t, e, e);
    }
  }

  /** Any prompt of the stack that beats all others is the top. */
  lemma TopCharacterised(s: Stack, t: PromptData)
    requires ValidStack(s) && t in s
    requires forall e :: e in s && e != t ==> Greater(t, e)
    ensures GetTopData(s) == t
  {
    TopIsUniqueMaximum(s);
    var top := GetTopData(s);
    if top != t {
      GreaterIsStrictTotal(t, top, top);
    }
  }

  // ---------------------------------------------------------------------
  // The component

  /** `UPlayerPromptComponent`: its stack, and whether it belongs to a
   *  local player controller. */
  datatype Component = Component(stack: Stack, isLocal: bool)

  /** `BeginPlay`: a local component restarts the handle counter. */
  function BeginPlay(c: Component, counter: int): (r: int)
    ensures c.isLocal ==> r == ResetCounter
    ensures !c.isLocal ==> r == counter
  {
    if c.isLocal then ResetCounter else counter
  }

  /** `DisplayPrompt`: a valid prompt not yet displayed is marked and its
   *  handle broadcast to the interface; anything else is ignored. */
  function DisplayPrompt(s: Stack, h: int): (r: (Stack, Option<int>))
    ensures r.1.Some? <==> IsValidPromptHandle(s, h) && !IsMarkedDisplayed(s, h)
    ensures r.1.Some? ==> r.1.value == h && r.0 == MarkDisplayed(s, h).0
    ensures r.1.None? ==> r.0 == s
  {
    if !IsValidPromptHandle(s, h) || IsMarkedDisplayed(s, h) then (s, None)
    else (MarkDisplayed(s, h).0, Some(h))
  }

  /** Shows the top prompt if it is valid and not yet shown. */
  function DisplayTop(s: Stack): (r: (Stack, Option<int>))
  {
    var top := GetTopData(s);
    if IsValidPrompt(top) && !top.displayed then DisplayPrompt(s, top.handle) else (s, None)
  }

  /** After `DisplayTop` on a valid, nonempty stack the top prompt is
   *  displayed, the stack keeps its prompts but for that flag, and a
   *  display request went out exactly when the top was not shown before. */
  lemma DisplayTopShowsTop(s: Stack)
    requires ValidStack(s) && |s| > 0
    ensures var (s', shown) := DisplayTop(s);
      ValidStack(s') && GetTopData(s').displayed &&
      GetTopData(s').handle == GetTopData(s).handle &&
      (shown.Some? <==> !GetTopData(s).displayed) &&
      (shown.Some? ==> shown.value == GetTopData(s).handle)
  {
    TopIsUniqueMaximum(s);
    var top := GetTopData(s);
    var k :| 0 <= k < |s| && s[k] == top;
    assert IndexOfHandle(s, top.handle) == k;
    assert GetPromptData(s, top.handle) == top;
    if !top.displayed {
      MarkDisplayedEffect(s, top.handle);
      var s' := MarkDisplayed(s, top.handle).0;
      var t' := s'[k];
      forall e | e in s' && e != t'
        ensures Greater(t', e)
      {
        var j :| 0 <= j < |s'| && s'[j] == e;
        assert j != k && e == s[j];
        assert e in s && e.handle != top.handle;
        assert Greater(top, e);
        assert Priority(t') == Priority(top);
      }
      TopCharacterised(s', t');
    }
  }

  /** `PushPlayerPrompt`: a non-local component refuses with the invalid
   *  handle and leaves the counter alone; otherwise a generated prompt is
   *  pushed and the top is displayed. Returns the component, the counter,
   *  the handle and any display request. */
  function PushPlayerPrompt(c: Component, counter: int, infoClass: Option<PromptInfo>, delegate: Delegate): (r: (Component, int, int, Option<int>))
    requires IsUint32(counter)
    ensures !c.isLocal ==> r == (c, counter, InvalidHandle, None)
    ensures c.isLocal ==> r.1 == NextHandle(counter)
    ensures r.0.isLocal == c.isLocal
  {
    if !c.isLocal then (c, counter, InvalidHandle, None)
    else
      var (d, counter') := GeneratePrompt(counter, infoClass, delegate);
      var (s1, h) := PushPrompt(c.stack, d);
      var (s2, shown) := DisplayTop(s1);
      (c.(stack := s2), counter', h, shown)
  }

  /** Handles below the counter: the counter has moved past every prompt
   *  on the stack. */
  predicate HandlesBelow(s: Stack, counter: int)
  {
    forall i :: 0 <= i < |s| ==> s[i].handle <= counter
  }

  /** `DisplayTop` only flips a displayed flag. */
  lemma DisplayTopKeepsKeys(s: Stack)
    ensures SameKeys(DisplayTop(s).0, s)
  {
  }

  /** A push of a prompt the counter has reached keeps every handle on the
   *  stack within the counter. */
  lemma PushKeepsHandlesBelow(s: Stack, d: PromptData, counter: int)
    requires HandlesBelow(s, counter) && d.handle <= counter
    ensures HandlesBelow(PushPrompt(s, d).0, counter)
  {
    var (s1, h) := PushPrompt(s, d);
    forall i | 0 <= i < |s1|
      ensures s1[i].handle <= counter
    {
      assert s1[i] in s1;
      var k := FirstOfClass(s, d.infoClass);
      if k != IndexNone && DuplicateLogicOf(d) == ReplaceWithNewer {
        var rest := RemoveHandle(s, s[k].handle);
        if s1[i] != d {
          assert s1[i] in rest;
        }
      } else if s1[i] != d {
        assert s1[i] in s;
      }
    }
  }

  /** While the counter has not wrapped and has moved past every handle on
   *  the stack, a push keeps the stack valid, and afterwards the stack is
   *  nonempty and its top prompt displayed; the returned handle is either
   *  the invalid one (an ignored duplicate) or that of the new prompt, now
   *  on the stack. */
  lemma PushPlayerPromptDisplaysTop(c: Component, counter: int, infoClass: Option<PromptInfo>, delegate: Delegate)
    requires c.isLocal && IsUint32(counter) && counter < MaxUint32
    requires ValidStack(c.stack) && HandlesBelow(c.stack, counter)
    ensures var (c', counter', h, _) := PushPlayerPrompt(c, counter, infoClass, delegate);
      ValidStack(c'.stack) && HandlesBelow(c'.stack, counter') && |c'.stack| > 0 &&
      GetTopData(c'.stack).displayed &&
      (h == InvalidHandle || (h == counter' && IsValidPromptHandle(c'.stack, h)))
  {
    var (d, counter') := GeneratePrompt(counter, infoClass, delegate);
    assert !HasHandle(c.stack, d.handle);
    PushPromptOutcome(c.stack, d);
    var (s1, h) := PushPrompt(c.stack, d);
    assert |s1| > 0 by {
      if h == InvalidHandle {
        assert s1 == c.stack && c.stack[FirstOfClass(c.stack, d.infoClass)] in s1;
      } else {
        assert d in s1;
      }
    }
    PushKeepsHandlesBelow(c.stack, d, counter');
    DisplayTopShowsTop(s1);
    DisplayTopKeepsKeys(s1);
    SameKeysAgree(DisplayTop(s1).0, s1, counter');
  }

  /** `PopPlayerPrompt`: a non-local component refuses; otherwise the
   *  prompt is popped and the new top displayed. */
  function PopPlayerPrompt(c: Component, h: int): (r: (Component, bool, Option<int>))
    ensures !c.isLocal ==> r == (c, false, None)
    ensures c.isLocal ==> (r.1 <==> IsValidPromptHandle(c.stack, h))
    ensures r.0.isLocal == c.isLocal
  {
    if !c.isLocal then (c, false, None)
    else
      var (s1, popped) := PopPrompt(c.stack, h);
      var (s2, shown) := DisplayTop(s1);
      (c.(stack := s2), popped, shown)
  }

  /** After a local pop the handle is gone and, if anything is left, the
   *  new top is displayed. */
  lemma PopPlayerPromptEffect(c: Component, h: int)
    requires c.isLocal && ValidStack(c.stack)
    ensures var (c', _, _) := PopPlayerPrompt(c, h);
      ValidStack(c'.stack) && !IsValidPromptHandle(c'.stack, h) &&
      (|c'.stack| > 0 ==> GetTopData(c'.stack).displayed)
  {
    var (s1, popped) := PopPrompt(c.stack, h);
    if popped {
      RemovePreservesValid(c.stack, h);
    }
    DisplayTopKeepsKeys(s1);
    SameKeysAgree(DisplayTop(s1).0, s1, 0);
    if |s1| > 0 {
      DisplayTopShowsTop(s1);
    }
  }

  /** `OnPromptResponse`: for a valid handle the prompt's delegates hear
   *  the response (and are cleared), then the prompt is popped. Returns
   *  the component, the calls made, and any display request. */
  function OnPromptResponse(c: Component, h: int, accepted: bool): (r: (Component, seq<ResponseCall>, Option<int>))
    ensures !IsValidPromptHandle(c.stack, h) ==> r == (c, [], None)
    ensures IsValidPromptHandle(c.stack, h) ==> r.1 == Calls(GetPromptData(c.stack, h).delegates, h, accepted)
  {
    if !IsValidPromptHandle(c.stack, h) then (c, [], None)
    else
      var k := IndexOfHandle(c.stack, h);
      var (d, calls) := BroadcastResponse(c.stack[k], accepted);
      var (c', _, shown) := PopPlayerPrompt(c.(stack := c.stack[k := d]), h);
      (c', calls, shown)
  }

  /** A response on a local component removes the prompt, so it can be
   *  answered only once; on a non-local one the prompt stays, with its
   *  delegates cleared. */
  lemma ResponseAnsweredOnce(c: Component, h: int, accepted: bool, again: bool)
    requires ValidStack(c.stack) && IsValidPromptHandle(c.stack, h)
    ensures c.isLocal ==> OnPromptResponse(OnPromptResponse(c, h, accepted).0, h, again).1 == []
    ensures !c.isLocal ==> OnPromptResponse(c, h, accepted).0.stack == c.stack[IndexOfHandle(c.stack, h) := GetPromptData(c.stack, h).(delegates := [])]
  {
    var k := IndexOfHandle(c.stack, h);
    var s1 := c.stack[k := c.stack[k].(delegates := [])];
    assert ValidStack(s1) by {
      assert forall i :: 0 <= i < |s1| ==> s1[i].handle == c.stack[i].handle;
    }
    if c.isLocal {
      PopPlayerPromptEffect(c.(stack := s1), h);
    }
  }
}

=== FILE: prompt_types.dfy ===
/**
 * Player prompts: the global prompt-handle counter, prompt data with its
 * priority and duplicate policy taken from the prompt's info class, the
 * order in which prompts compete for the screen, and the response
 * broadcast.
 */
module PromptTypes {
  import opened Common

  /** `EPromptDuplicateLogic`: what a push does when a prompt of the same
   *  info class is already on the stack. */
  datatype DuplicateLogic = ReplaceWithNewer | Ignore | AllowDuplicate | InvalidLogic

  /** The defaults of a `UPromptInfo` class: its identity, its priority (a
   *  uint8) and its duplicate logic. Two prompts share a class exactly when
   *  their infos are equal. */
  datatype PromptInfo = PromptInfo(classId: nat, priority: int, duplicateLogic: DuplicateLogic)

  /** A response delegate: unbound, or bound to a listener. */
  datatype Delegate = Unbound | Bound(listener: nat)

  /** One response delivered to a listener. */
  datatype ResponseCall = ResponseCall(listener: nat, handle: int, accepted: bool)

  /** `FPromptData`. A handle is a uint32; 0 is the invalid handle. */
  datatype PromptData = PromptData(handle: int, displayed: bool, infoClass: Option<PromptInfo>, delegates: seq<Delegate>)

  /** `FPromptHandle::InvalidHandle`. */
  const InvalidHandle: int := 0

  /** `FPromptData::InvalidPrompt`: a default-constructed prompt. */
  const InvalidPrompt: PromptData := PromptData(InvalidHandle, false, None, [])

  predicate IsValidPrompt(d: PromptData)
  {
    d.handle != InvalidHandle
  }

  // ---------------------------------------------------------------------
  // Handles

  /** The default `FPromptHandle` constructor: advances the uint32 counter,
   *  stepping over 0, and takes the new value. Returns the new counter,
   *  which is also the handle. */
  function NextHandle(counter: int): (r: int)
    requires IsUint32(counter)
    ensures IsUint32(r) && r != InvalidHandle
    ensures counter < MaxUint32 ==> r > counter
    ensures counter == MaxUint32 ==> r == 1
  {
    var c := WrapU32(counter + 1);
    if c == 0 then WrapU32(c + 1) else c
  }

  /** `ResetPromptHandleCounter`. */
  const ResetCounter: int := 0

  /** The handles of `n` prompts generated one after another. */
  function Handles(counter: int, n: nat): seq<int>
    requires IsUint32(counter)
    decreases n
  {
    if n == 0 then [] else var h := NextHandle(counter); [h] + Handles(h, n - 1)
  }

  /** Without a wrap, consecutive prompts get consecutive handles, so after
   *  a reset the first `n` prompts are numbered 1 to `n`; in particular no
   *  two share a handle and none is invalid. */
  lemma {:induction false} HandlesCount(counter: int, n: nat)
    requires IsUint32(counter) && counter + n <= MaxUint32
    ensures Handles(counter, n) == seq(n, i => counter + i + 1)
    decreases n
  {
    if n > 0 {
      HandlesCount(counter + 1, n - 1);
    }
  }

  /** After a reset the first n prompts get 1 to n: increasing, distinct
   *  and valid. */
  lemma HandlesAfterReset(n: nat)
    requires n <= MaxUint32
    ensures Handles(ResetCounter, n) == seq(n, i => i + 1)
    ensures forall i, j :: 0 <= i < j < n ==> Handles(ResetCounter, n)[i] < Handles(ResetCounter, n)[j]
    ensures forall i :: 0 <= i < n ==> Handles(ResetCounter, n)[i] != InvalidHandle
  {
    HandlesCount(ResetCounter, n);
  }

  // ---------------------------------------------------------------------
  // Prompt data

  /** `GetPriority`: the info class's priority, 0 without one. */
  function Priority(d: PromptData): (r: int)
    ensures d.infoClass.None? ==> r == 0
    ensures d.infoClass.Some? ==> r == d.infoClass.value.priority
  {
    match d.infoClass
    case None => 0
    case Some(info) => info.priority
  }

  /** `GetPromptDuplicateLogic`: the info class's logic, `Ignore` without
   *  one. */
  function DuplicateLogicOf(d: PromptData): (r: DuplicateLogic)
    ensures d.infoClass.None? ==> r == Ignore
    ensures d.infoClass.Some? ==> r == d.infoClass.value.duplicateLogic
  {
    match d.infoClass
    case None => Ignore
    case Some(info) => info.duplicateLogic
  }

  /** `operator>`: `a` goes in front of `b`: higher priority, or equal
   *  priority and an older (smaller) handle. */
  predicate Greater(a: PromptData, b: PromptData)
  {
    if Priority(a) == Priority(b) then a.handle < b.handle else Priority(a) > Priority(b)
  }

  /** `Greater` is a strict order, and any two prompts with different
   *  handles are ordered one way or the other. */
  lemma GreaterIsStrictTotal(a: PromptData, b: PromptData, c: PromptData)
    ensures !Greater(a, a)
    ensures Greater(a, b) ==> !Greater(b, a)
    ensures Greater(a, b) && Greater(b, c) ==> Greater(a, c)
    ensures a.handle != b.handle ==> Greater(a, b) || Greater(b, a)
    ensures !Greater(a, b) && !Greater(b, c) ==> !Greater(a, c)
  {
  }

  /** `GeneratePrompt`: a fresh handle from the counter, not yet displayed,
   *  keeping the delegate only if it is bound. Returns the prompt and the
   *  new counter. */
  function GeneratePrompt(counter: int, infoClass: Option<PromptInfo>, delegate: Delegate): (r: (PromptData, int))
    requires IsUint32(counter)
    ensures r.0.handle == r.1 == NextHandle(counter) && IsValidPrompt(r.0)
    ensures !r.0.displayed && r.0.infoClass == infoClass
    ensures delegate.Bound? <==> r.0.delegates == [delegate]
    ensures delegate.Unbound? <==> r.0.delegates == []
  {
    var h := NextHandle(counter);
    (PromptData(h, false, infoClass, if delegate.Bound? then [delegate] else []), h)
  }

  /** The calls a list of delegates makes with a response: one per bound
   *  delegate, in order. */
  function Calls(delegates: seq<Delegate>, handle: int, accepted: bool): (r: seq<ResponseCall>)
    ensures |r| <= |delegates|
    ensures forall c :: c in r ==> c.handle == handle && c.accepted == accepted && Bound(c.listener) in delegates
  {
    if delegates == [] then []
    else
      (if delegates[0].Bound? then [ResponseCall(delegates[0].listener, handle, accepted)] else [])
      + Calls(delegates[1..], handle, accepted)
  }

  /** Every bound delegate is called. */
  lemma {:induction false} CallsReachBound(delegates: seq<Delegate>, handle: int, accepted: bool, listener: nat)
    requires Bound(listener) in delegates
    ensures ResponseCall(listener, handle, accepted) in Calls(delegates, handle, accepted)
    decreases |delegates|
  {
    if delegates[0] != Bound(listener) {
      CallsReachBound(delegates[1..], handle, accepted, listener);
    }
  }

  /** `BroadcastResponse`: every bound delegate hears the response once,
   *  and the list is emptied, so the response is delivered at most once. */
  function BroadcastResponse(d: PromptData, accepted: bool): (r: (PromptData, seq<ResponseCall>))
    ensures r.0 == d.(delegates := [])
    ensures r.1 == Calls(d.delegates, d.handle, accepted)
  {
    (d.(delegates := []), Calls(d.delegates, d.handle, accepted))
  }

  /** A second broadcast reaches nobody. */
  lemma BroadcastDeliversOnce(d: PromptData, first: bool, second: bool)
    ensures BroadcastResponse(BroadcastResponse(d, first).0, second).1 == []
  {
  }

  /** A prompt generated with a bound delegate answers that listener,
   *  exactly once, with its own handle. */
  lemma GeneratedPromptAnswers(counter: int, infoClass: Option<PromptInfo>, listener: nat, accepted: bool)
    requires IsUint32(counter)
    ensures var (d, _) := GeneratePrompt(counter, infoClass, Bound(listener));
      BroadcastResponse(d, accepted).1 == [ResponseCall(listener, d.handle, accepted)]
  {
  }
}

=== FILE: replicated_object.dfy ===
/**
 * `IReplicatedObjectInterface`: the list of subobjects an object replicates
 * on its owner's actor channel, the rule that lets a subobject skip the
 * owner's initial bunch, and the `bNetInitial` flag the replication walk
 * borrows and gives back. Subobjects are ids; a weak reference that has gone
 * stale is `None`. The channel's replication map and the per-object write
 * are oracle parameters.
 */
module ReplicatedObject {
  import opened Common

  /** `ESkipReplicationLogic`. */
  datatype SkipLogic = NoSkip | SkipOwnerInitial | SkipOwnerInitialOnNonNetOwner

  /** The two `FReplicationFlags` bits the interface reads. */
  datatype RepFlags = RepFlags(netInitial: bool, netOwner: bool)

  /** `ShouldSkipReplication`: a switch whose cases fall through, so the
   *  non-net-owner case continues into the plain initial-bunch case. */
  function ShouldSkipReplication(logic: SkipLogic, flags: Option<RepFlags>): (r: bool)
    ensures flags.None? || logic == NoSkip ==> !r
    ensures flags.Some? && logic == SkipOwnerInitial ==> (r <==> flags.value.netInitial)
    ensures flags.Some? && logic == SkipOwnerInitialOnNonNetOwner ==>
      (r <==> flags.value.netInitial && !flags.value.netOwner)
  {
    if flags.None? then false
    else
      match logic
      case SkipOwnerInitialOnNonNetOwner =>
        if flags.value.netOwner then false else flags.value.netInitial
      case SkipOwnerInitial => flags.value.netInitial
      case NoSkip => false
  }

  /** The subobject list: ids of live subobjects, `None` for stale ones. */
  type SubobjectList = seq<Option<nat>>

  /** `RegisterReplicatedSubobject`. `inOwner` says whether the subobject
   *  lives inside the interface's owning actor. */
  function RegisterReplicatedSubobject(list: SubobjectList, subobject: Option<nat>, inOwner: bool): (r: (SubobjectList, bool))
    ensures subobject.None? ==> r == (list, false)
    ensures subobject.Some? && subobject in list ==> r == (list, true)
    ensures subobject.Some? && subobject !in list && !inOwner ==> r == (list, false)
    ensures subobject.Some? && subobject !in list && inOwner ==> r == (list + [subobject], true)
    ensures r.1 <==> subobject.Some? && (subobject in list || inOwner)
    ensures subobject.Some? && r.1 ==> subobject in r.0
  {
    if subobject.None? then (list, false)
    else if subobject in list then (list, true)
    else if !inOwner then (list, false)
    else (list + [subobject], true)
  }

  /** Registration never introduces a duplicate. */
  lemma RegisterKeepsNoDuplicates(list: SubobjectList, subobject: Option<nat>, inOwner: bool)
    requires NoDuplicates(list)
    ensures NoDuplicates(RegisterReplicatedSubobject(list, subobject, inOwner).0)
  {
    if subobject.Some? && subobject !in list && inOwner {
      AddUniqueKeepsNoDuplicates(list, subobject);
    }
  }

  /** `RegisterReplicatedSubobjects`: registers each in turn; true only when
   *  the list was non-empty and every registration succeeded. */
  function RegisterReplicatedSubobjects(list: SubobjectList, subobjects: seq<Option<nat>>, inOwner: nat -> bool): (r: (SubobjectList, bool))
  {
    RegisterEach(list, subobjects, inOwner, |subobjects| > 0)
  }

  function RegisterEach(list: SubobjectList, subobjects: seq<Option<nat>>, inOwner: nat -> bool, all: bool): (r: (SubobjectList, bool))
    decreases |subobjects|
  {
    if |subobjects| == 0 then (list, all)
    else
      var s := subobjects[0];
      var (l1, ok) := RegisterReplicatedSubobject(list, s, s.Some? && inOwner(s.value));
      RegisterEach(l1, subobjects[1..], inOwner, ok && all)
  }

  /** The batch succeeds exactly when it is non-empty and each subobject is
   *  live and either already listed or inside the owner; afterwards every
   *  live subobject that belongs is listed, nothing listed is lost, and the
   *  list stays free of duplicates. */
  lemma {:induction false} RegisterEachOutcome(list: SubobjectList, subobjects: seq<Option<nat>>, inOwner: nat -> bool, all: bool)
    requires NoDuplicates(list)
    ensures var (l, ok) := RegisterEach(list, subobjects, inOwner, all);
      NoDuplicates(l) &&
      (ok <==> all && forall i :: 0 <= i < |subobjects| ==>
        subobjects[i].Some? && (subobjects[i] in list || inOwner(subobjects[i].value))) &&
      (forall x :: x in list ==> x in l) &&
      (forall i :: 0 <= i < |subobjects| && subobjects[i].Some? && inOwner(subobjects[i].value) ==> subobjects[i] in l)
    decreases |subobjects|
  {
    if |subobjects| > 0 {
      var s := subobjects[0];
      var (l1, ok1) := RegisterReplicatedSubobject(list, s, s.Some? && inOwner(s.value));
      RegisterKeepsNoDuplicates(list, s, s.Some? && inOwner(s.value));
      RegisterEachOutcome(l1, subobjects[1..], inOwner, ok1 && all);
      assert forall i :: 1 <= i < |subobjects| ==> subobjects[i] == subobjects[1..][i - 1];
      assert forall x :: x in l1 ==> x in list || (x == s && s.Some? && inOwner(s.value));
    }
  }

  /** `RegisterReplicatedSubobjects` reports success exactly when it is
   *  given at least one subobject and every one is live and either already
   *  listed or inside the owner. */
  lemma RegisterSubobjectsOutcome(list: SubobjectList, subobjects: seq<Option<nat>>, inOwner: nat -> bool)
    requires NoDuplicates(list)
    ensures var (l, ok) := RegisterReplicatedSubobjects(list, subobjects, inOwner);
      NoDuplicates(l) &&
      (ok <==> |subobjects| > 0 && forall i :: 0 <= i < |subobjects| ==>
        subobjects[i].Some? && (subobjects[i] in list || inOwner(subobjects[i].value))) &&
      (forall i :: 0 <= i < |subobjects| && subobjects[i].Some? && inOwner(subobjects[i].value) ==> subobjects[i] in l)
  {
    RegisterEachOutcome(list, subobjects, inOwner, |subobjects| > 0);
  }

  /** `UnregisterReplicatedSubobject`: removes the subobject and every stale
   *  entry; always true. */
  function UnregisterReplicatedSubobject(list: SubobjectList, subobject: Option<nat>): (r: (SubobjectList, bool))
    ensures r.1
    ensures subobject !in r.0 && None !in r.0
    ensures forall x :: x in r.0 <==> x in list && x != subobject && x.Some?
  {
    (RemoveAll(RemoveAll(list, subobject), None), true)
  }

  /** Unregistering keeps the list free of duplicates, and undoes the
   *  registration of a new subobject on a list without stale entries. */
  lemma UnregisterUndoesRegister(list: SubobjectList, subobject: nat)
    requires NoDuplicates(list) && None !in list && Some(subobject) !in list
    ensures NoDuplicates(UnregisterReplicatedSubobject(list, Some(subobject)).0)
    ensures var (l, _) := RegisterReplicatedSubobject(list, Some(subobject), true);
      UnregisterReplicatedSubobject(l, Some(subobject)).0 == list
  {
    RemoveAllKeepsNoDuplicates(list, Some(subobject));
    RemoveAllKeepsNoDuplicates(RemoveAll(list, Some(subobject)), None);
    RemoveAllUndoesAppend(list, Some(subobject));
    RemoveAllAbsent(list, None);
  }

  /** `ClearReplicatedSubobjectList`. */
  function ClearReplicatedSubobjectList(list: SubobjectList): (r: (SubobjectList, bool))
    ensures r.1 && |r.0| == 0
  {
    ([], true)
  }

  // ---------------------------------------------------------------------
  // The replication walk

  /** An object implementing the interface: its id, its skip rule, and
   *  its subobject list. A listed subobject that does not implement the
   *  interface has no rule and no list of its own. */
  datatype Subobject = Subobject(id: nat, isInterface: bool, logic: SkipLogic, children: seq<Option<Subobject>>)

  /** `ReplicateSubobjectList` for `self`. `inMap` is whether the channel
   *  has replicated an object before; `writes` is whether the channel
   *  writes something for an object. Returns whether anything was written
   *  and the flags handed back to the caller. */
  function ReplicateSubobjectList(self: Subobject, flags: RepFlags, inMap: nat -> bool, writes: nat -> bool): (r: (bool, RepFlags))
    ensures r.1 == flags
    decreases self, 1
  {
    var inner := flags.(netInitial := !inMap(self.id));
    (ReplicateEach(self, 0, inner, inMap, writes), flags)
  }

  /** Whether a listed subobject is passed over under the given flags. */
  predicate Skipped(o: Subobject, flags: RepFlags)
  {
    o.isInterface && ShouldSkipReplication(o.logic, Some(flags))
  }

  /** The loop over `self`'s list from index `i`, with `self`'s own
   *  initial-bunch flag. Every subobject sees the same flags, because each
   *  nested walk hands them back unchanged. */
  function ReplicateEach(self: Subobject, i: nat, flags: RepFlags, inMap: nat -> bool, writes: nat -> bool): (r: bool)
    decreases self, 0, |self.children| - i
  {
    if i >= |self.children| then false
    else
      var rest := ReplicateEach(self, i + 1, flags, inMap, writes);
      match self.children[i]
      case None => rest
      case Some(o) =>
        if Skipped(o, flags) then rest
        else
          var nested := if o.isInterface then ReplicateSubobjectList(o, flags, inMap, writes).0 else false;
          nested || writes(o.id) || rest
  }

  /** Stale and skipped subobjects contribute nothing: when the channel
   *  writes nothing for any object, the walk reports nothing written. */
  lemma {:induction false} NothingWrittenWithoutWrites(self: Subobject, i: nat, flags: RepFlags, inMap: nat -> bool, writes: nat -> bool)
    requires forall id :: !writes(id)
    ensures !ReplicateEach(self, i, flags, inMap, writes)
    decreases self, |self.children| - i
  {
    if i < |self.children| {
      NothingWrittenWithoutWrites(self, i + 1, flags, inMap, writes);
      match self.children[i]
      case None =>
      case Some(o) =>
        if o.isInterface {
          NothingWrittenWithoutWrites(o, 0, flags.(netInitial := !inMap(o.id)), inMap, writes);
        }
    }
  }

  /** A listed subobject that is not skipped and for which the channel
   *  writes makes the walk report a write. */
  lemma {:induction false} WrittenSubobjectReported(self: Subobject, i: nat, flags: RepFlags, inMap: nat -> bool, writes: nat -> bool, k: nat)
    requires i <= k < |self.children| && self.children[k].Some? && writes(self.children[k].value.id)
    requires !Skipped(self.children[k].value, flags)
    ensures ReplicateEach(self, i, flags, inMap, writes)
    decreases k - i
  {
    if i < k {
      WrittenSubobjectReported(self, i + 1, flags, inMap, writes, k);
    }
  }

  /** A subobject skipped in the owner's initial bunch is skipped with its
   *  whole subtree: when only objects inside it would write, nothing is
   *  written. */
  lemma SkippedSubobjectWritesNothing(self: Subobject, flags: RepFlags, inMap: nat -> bool, writes: nat -> bool)
    requires |self.children| == 1 && self.children[0].Some?
    requires self.children[0].value.isInterface && self.children[0].value.logic == SkipOwnerInitial
    requires !inMap(self.id)
    ensures !ReplicateSubobjectList(self, flags, inMap, writes).0
  {
    var inner := flags.(netInitial := true);
    assert Skipped(self.children[0].value, inner);
    assert !ReplicateEach(self, 1, inner, inMap, writes);
  }
}

=== FILE: shield.dfy ===
/**
 * `UStatusEffectShield`: a status effect that absorbs incoming damage from a
 * pool of `ShieldAmount` and expires when the pool is used up.
 */
module Shield {
  import opened Common

  /** `ShieldAmount` (default 100), `CurrentShieldAmount` (default 0),
   *  `CurrentPower` and whether the effect is still active. */
  datatype ShieldEffect = ShieldEffect(shieldAmount: real, currentShieldAmount: real,
                                       currentPower: real, active: bool)

  const DefaultShieldAmount: real := 100.0

  /** `GetDurationAtCurrentPower`: a shield has no duration. */
  const ShieldDuration: real := -1.0

  /** `OnActivated`: refills the pool and sets the power to full. */
  function OnActivated(s: ShieldEffect): (r: ShieldEffect)
    ensures r.currentShieldAmount == s.shieldAmount && r.currentPower == 1.0
    ensures r.shieldAmount == s.shieldAmount && r.active
  {
    s.(currentShieldAmount := s.shieldAmount, currentPower := 1.0, active := true)
  }

  /** The result of one hit on the shield. */
  datatype Hit = Hit(shield: ShieldEffect, damageOut: real, absorbed: real)

  /**
   * `ProcessDamage`: no effect without a component or for non-positive
   * damage. Otherwise it absorbs up to what is left in the pool, lowers the
   * pool by the whole incoming damage (not just the absorbed part), sets the
   * power to the remaining fraction, passes the rest of the damage on, and
   * deactivates once the power is gone. `ShieldAmount` must be nonzero (the
   * source divides by it).
   */
  function ProcessDamage(s: ShieldEffect, hasComponent: bool, damage: real): (h: Hit)
    requires s.shieldAmount != 0.0
    ensures !hasComponent || damage <= 0.0 ==> h == Hit(s, damage, 0.0)
    ensures hasComponent && damage > 0.0 ==>
      && h.absorbed == MinR(damage, s.currentShieldAmount)
      && h.damageOut == MaxR(damage - h.absorbed, 0.0)
      && h.shield.currentShieldAmount == s.currentShieldAmount - damage
      && h.shield.currentPower * s.shieldAmount == h.shield.currentShieldAmount
      && (h.shield.active <==> s.active && h.shield.currentPower > 0.0)
    ensures hasComponent && damage > 0.0 && s.currentShieldAmount >= 0.0 ==>
      h.absorbed >= 0.0 && h.damageOut >= 0.0 && h.absorbed + h.damageOut == damage
    ensures h.shield.shieldAmount == s.shieldAmount
  {
    if !hasComponent || damage <= 0.0 then Hit(s, damage, 0.0)
    else
      var absorb := MinR(damage, s.currentShieldAmount);
      var remaining := s.currentShieldAmount - damage;
      var power := remaining / s.shieldAmount;
      Hit(ShieldEffect(s.shieldAmount, remaining, power, s.active && !(power <= 0.0)),
          MaxR(damage - absorb, 0.0), absorb)
  }

  /** With a positive capacity the shield expires exactly when a hit drains
   *  the pool to zero or below. */
  lemma ShieldExpiresWhenDrained(s: ShieldEffect, damage: real)
    requires s.shieldAmount > 0.0 && s.active && damage > 0.0
    ensures !ProcessDamage(s, true, damage).shield.active <==> s.currentShieldAmount <= damage
  {
    var h := ProcessDamage(s, true, damage);
    assert h.shield.currentPower * s.shieldAmount == s.currentShieldAmount - damage;
    if h.shield.currentPower > 0.0 {
      assert s.currentShieldAmount - damage > 0.0;
    } else {
      assert s.currentShieldAmount - damage <= 0.0;
    }
  }

  /** Two hits on a freshly activated shield that survives the first absorb
   *  `min(total, ShieldAmount)` between them. */
  lemma TwoHitsAbsorbUpToCapacity(s: ShieldEffect, d1: real, d2: real)
    requires s.shieldAmount > 0.0 && d1 > 0.0 && d2 > 0.0
    requires d1 < s.shieldAmount
    ensures var a := OnActivated(s);
      var h1 := ProcessDamage(a, true, d1);
      var h2 := ProcessDamage(h1.shield, true, d2);
      h1.shield.active && h1.absorbed + h2.absorbed == MinR(d1 + d2, s.shieldAmount)
      && h1.damageOut + h2.damageOut == d1 + d2 - MinR(d1 + d2, s.shieldAmount)
  {
    var a := OnActivated(s);
    var h1 := ProcessDamage(a, true, d1);
    ShieldExpiresWhenDrained(a, d1);
  }
}

=== FILE: spawn_system.dfy ===
/**
 * `USpawnCharacterSystem`: a first-in first-out queue of spawn requests,
 * served one request per timer tick. A request names a character class
 * (possibly null) and an optional callback bound to its owning object. The
 * engine's actor spawn is a given value; the callbacks a step fires are
 * returned as a list of notifications.
 */
module SpawnSystem {
  import opened Common

  /** A spawn-result delegate: unbound, or bound to an owning object. */
  datatype Delegate = Unbound | BoundTo(owner: nat)

  /** `FSpawnRequest`. */
  datatype SpawnRequest = SpawnRequest(characterClass: Option<nat>, delegate: Delegate)

  /** `FSpawnRequest::IsValid`: a request with neither a class nor a bound
   *  callback is invalid. */
  predicate IsValidRequest(r: SpawnRequest)
  {
    r.characterClass.Some? || r.delegate.BoundTo?
  }

  /** `IsOwnedBy`: the callback is bound to the object. */
  predicate IsOwnedBy(r: SpawnRequest, owner: nat)
  {
    r.delegate == BoundTo(owner)
  }

  /** One callback invocation: the request and the character it reports. */
  datatype Notification = Notification(request: SpawnRequest, character: Option<nat>)

  /** `BroadcastRequestResult`: runs the callback if bound; reports whether
   *  it ran. */
  function Broadcast(r: SpawnRequest, character: Option<nat>): (n: (seq<Notification>, bool))
    ensures n.1 <==> r.delegate.BoundTo?
    ensures n.0 == (if n.1 then [Notification(r, character)] else [])
  {
    if r.delegate.BoundTo? then ([Notification(r, character)], true) else ([], false)
  }

  /** `AddRequest`: the request joins the back of the queue; always true. */
  function AddRequest(q: seq<SpawnRequest>, r: SpawnRequest): (res: (seq<SpawnRequest>, bool))
    ensures res.1
    ensures |res.0| == |q| + 1 && res.0[..|q|] == q && res.0[|q|] == r
  {
    (q + [r], true)
  }

  /** `CancelAllRequests`: returns the queue length and empties the queue. */
  function CancelAllRequests(q: seq<SpawnRequest>): (res: (int, seq<SpawnRequest>))
    ensures res.0 == |q| && res.1 == []
  {
    (|q|, [])
  }

  /** The number of queued requests an object owns. */
  function OwnedCount(q: seq<SpawnRequest>, owner: nat): (n: nat)
    ensures n <= |q|
  {
    if |q| == 0 then 0 else (if IsOwnedBy(q[|q| - 1], owner) then 1 else 0) + OwnedCount(q[..|q| - 1], owner)
  }

  /** The queue with the object's requests taken out, in order. */
  function WithoutOwned(q: seq<SpawnRequest>, owner: nat): (r: seq<SpawnRequest>)
  {
    if |q| == 0 then [] else WithoutOwned(q[..|q| - 1], owner) + (if IsOwnedBy(q[|q| - 1], owner) then [] else [q[|q| - 1]])
  }

  /** `CancelRequestForObject` as written: the backwards scan counts the
   *  object's requests but removes zero elements at each, so the queue is
   *  unchanged and the "cancelled" requests are still served. */
  method CancelRequestForObjectAsWritten(q: seq<SpawnRequest>, owner: nat) returns (cancelled: int, q': seq<SpawnRequest>)
    ensures cancelled == OwnedCount(q, owner)
    ensures q' == q
  {
    cancelled := 0;
    q' := q;
    var index := |q| - 1;
    while index >= 0
      invariant -1 <= index < |q|
      invariant cancelled == OwnedCount(q[index + 1..], owner)
      invariant q' == q
    {
      OwnedCountFront(q[index..], owner);
      assert q[index..][1..] == q[index + 1..];
      if IsOwnedBy(q'[index], owner) {
        cancelled := cancelled + 1;
      }
      index := index - 1;
    }
    assert q[0..] == q;
  }

  /** One owned request: the as-written cancel reports it cancelled yet
   *  keeps it queued, while the corrected cancel removes it. */
  lemma CancelledRequestStaysQueued()
    ensures var q := [SpawnRequest(Some(7), BoundTo(1))];
      OwnedCount(q, 1) == 1 && WithoutOwned(q, 1) == []
  {
    var q := [SpawnRequest(Some(7), BoundTo(1))];
    assert q[..0] == [];
  }

  /** `CancelRequestForObject` with one element removed at each owned index:
   *  returns the count and leaves exactly the other requests, in order. */
  method CancelRequestForObject(q: seq<SpawnRequest>, owner: nat) returns (cancelled: int, q': seq<SpawnRequest>)
    ensures cancelled == OwnedCount(q, owner)
    ensures q' == WithoutOwned(q, owner)
    ensures cancelled + |q'| == |q|
    ensures forall i :: 0 <= i < |q'| ==> !IsOwnedBy(q'[i], owner)
  {
    cancelled := 0;
    q' := q;
    var index := |q| - 1;
    while index >= 0
      invariant -1 <= index < |q|
      invariant cancelled == OwnedCount(q[index + 1..], owner)
      invariant q' == q[..index + 1] + WithoutOwned(q[index + 1..], owner)
    {
      OwnedCountFront(q[index..], owner);
      WithoutOwnedFront(q[index..], owner);
      assert q[index..][1..] == q[index + 1..];
      assert q[..index + 1] == q[..index] + [q[index]];
      assert q'[index] == q[index];
      if IsOwnedBy(q'[index], owner) {
        cancelled := cancelled + 1;
        q' := q'[..index] + q'[index + 1..];
        assert q'[..index] == q[..index];
      }
      index := index - 1;
    }
    assert q[0..] == q;
    assert q[..0] == [];
    WithoutOwnedSpec(q, owner);
  }

  /** A queue holding none of the object's requests counts none. */
  lemma {:induction false} OwnedCountNone(q: seq<SpawnRequest>, owner: nat)
    requires forall i :: 0 <= i < |q| ==> !IsOwnedBy(q[i], owner)
    ensures OwnedCount(q, owner) == 0
  {
    if |q| > 0 {
      OwnedCountNone(q[..|q| - 1], owner);
    }
  }

  lemma {:induction false} OwnedCountFront(q: seq<SpawnRequest>, owner: nat)
    requires |q| > 0
    ensures OwnedCount(q, owner) == (if IsOwnedBy(q[0], owner) then 1 else 0) + OwnedCount(q[1..], owner)
    decreases |q|
  {
    if |q| > 1 {
      OwnedCountFront(q[..|q| - 1], owner);
      assert q[..|q| - 1][1..] == q[1..][..|q[1..]| - 1];
    }
  }

  lemma {:induction false} WithoutOwnedFront(q: seq<SpawnRequest>, owner: nat)
    requires |q| > 0
    ensures WithoutOwned(q, owner) == (if IsOwnedBy(q[0], owner) then [] else [q[0]]) + WithoutOwned(q[1..], owner)
    decreases |q|
  {
    if |q| > 1 {
      WithoutOwnedFront(q[..|q| - 1], owner);
      assert q[..|q| - 1][1..] == q[1..][..|q[1..]| - 1];
    }
  }

  /** The reference filter keeps exactly the requests the object does not
   *  own, and drops as many as the object owns. */
  lemma {:induction false} WithoutOwnedSpec(q: seq<SpawnRequest>, owner: nat)
    ensures |WithoutOwned(q, owner)| + OwnedCount(q, owner) == |q|
    ensures forall i :: 0 <= i < |WithoutOwned(q, owner)| ==> !IsOwnedBy(WithoutOwned(q, owner)[i], owner)
    ensures forall r :: r in WithoutOwned(q, owner) <==> r in q && !IsOwnedBy(r, owner)
  {
    if |q| > 0 {
      var p := q[..|q| - 1];
      WithoutOwnedSpec(p, owner);
      assert q == p + [q[|q| - 1]];
    }
  }

  /** The static `CancelRequestsForObject` as written: a null owner cancels
   *  nothing; otherwise it forwards to the as-written member, so the
   *  owner's requests are counted but stay queued. */
  method CancelRequestsForObjectAsWritten(q: seq<SpawnRequest>, owner: Option<nat>) returns (cancelled: int, q': seq<SpawnRequest>)
    ensures owner.None? ==> cancelled == 0
    ensures owner.Some? ==> cancelled == OwnedCount(q, owner.value)
    ensures q' == q
  {
    if owner.None? {
      return 0, q;
    }
    cancelled, q' := CancelRequestForObjectAsWritten(q, owner.value);
  }

  /** The static `CancelRequestsForObject` on the corrected member: a null
   *  owner cancels nothing. */
  method CancelRequestsForObject(q: seq<SpawnRequest>, owner: Option<nat>) returns (cancelled: int, q': seq<SpawnRequest>)
    ensures owner.None? ==> cancelled == 0 && q' == q
    ensures owner.Some? ==> cancelled == OwnedCount(q, owner.value) && q' == WithoutOwned(q, owner.value)
  {
    if owner.None? {
      return 0, q;
    }
    cancelled, q' := CancelRequestForObject(q, owner.value);
  }

  // ---------------------------------------------------------------------
  // Serving the queue

  /** Index `k` is the first valid request of the queue. */
  predicate FirstValid(q: seq<SpawnRequest>, k: int)
  {
    0 <= k < |q| && IsValidRequest(q[k]) && forall j :: 0 <= j < k ==> !IsValidRequest(q[j])
  }

  predicate NoneValid(q: seq<SpawnRequest>)
  {
    forall j :: 0 <= j < |q| ==> !IsValidRequest(q[j])
  }

  /** The result of one serving step: the queue left, the callbacks fired,
   *  whether the game mode was told of the spawn itself (no callback), and
   *  whether another step was scheduled. */
  datatype StepResult = StepResult(queue: seq<SpawnRequest>, notifications: seq<Notification>, gameModeNotified: bool, rescheduled: bool)

  /** The leading-invalid scan of `PerformNextSpawn`: the first valid index,
   *  or |q| when every request is invalid. */
  method SkipInvalid(q: seq<SpawnRequest>) returns (k: int)
    ensures 0 <= k <= |q|
    ensures k < |q| ==> FirstValid(q, k)
    ensures k == |q| ==> NoneValid(q)
  {
    k := 0;
    while k < |q| && !IsValidRequest(q[k])
      invariant 0 <= k <= |q|
      invariant forall j :: 0 <= j < k ==> !IsValidRequest(q[j])
    {
      k := k + 1;
    }
  }

  /** `PerformNextSpawn` as written. `None` stands for the null dereference
   *  when every queued request is invalid. A request with no class but a
   *  bound callback is reported twice: once before the spawn attempt and
   *  once with the attempt's (null) result. `spawned` is what the engine's
   *  actor spawn returns for a non-null class. */
  method PerformNextSpawnAsWritten(q: seq<SpawnRequest>, spawned: Option<nat>) returns (r: Option<StepResult>)
    ensures |q| == 0 ==> r == Some(StepResult(q, [], false, false))
    ensures |q| > 0 && NoneValid(q) ==> r.None?
    ensures forall k :: FirstValid(q, k) && q[k].characterClass.None? && q[k].delegate.BoundTo? ==>
      r.Some? && r.value.notifications == [Notification(q[k], None), Notification(q[k], None)]
  {
    if |q| == 0 {
      return Some(StepResult(q, [], false, false));
    }
    var k := SkipInvalid(q);
    if k == |q| {
      return None;
    }
    var request := q[k];
    var notes: seq<Notification> := [];
    if request.characterClass.None? {
      var (n, _) := Broadcast(request, None);
      notes := notes + n;
    }
    var character := if request.characterClass.None? then None else spawned;
    var (n2, handled) := Broadcast(request, character);
    notes := notes + n2;
    var rest := q[k + 1..];
    r := Some(StepResult(rest, notes, !handled, |rest| > 0));
  }

  /** The inputs that trip the source: a queue holding only an invalid
   *  request (null dereference), and a bound request without a class
   *  (callback run twice). */
  lemma PerformNextSpawnFaultInputs()
    ensures NoneValid([SpawnRequest(None, Unbound)])
    ensures FirstValid([SpawnRequest(None, BoundTo(1))], 0)
  {
  }

  /** `PerformNextSpawn`: drops the leading invalid requests, then serves
   *  and removes the first valid one (reporting it once); a queue with no
   *  valid request ends empty. Another step is scheduled while requests
   *  remain. */
  method PerformNextSpawn(q: seq<SpawnRequest>, spawned: Option<nat>) returns (r: StepResult)
    ensures |q| == 0 ==> r == StepResult(q, [], false, false)
    ensures |q| > 0 && NoneValid(q) ==> r == StepResult([], [], false, false)
    ensures forall k :: FirstValid(q, k) ==>
      r.queue == q[k + 1..] &&
      r.notifications == Broadcast(q[k], if q[k].characterClass.None? then None else spawned).0 &&
      r.gameModeNotified == q[k].delegate.Unbound?
    ensures r.rescheduled <==> |r.queue| > 0
    ensures |r.queue| < |q| || |q| == 0
  {
    if |q| == 0 {
      return StepResult(q, [], false, false);
    }
    var k := SkipInvalid(q);
    if k == |q| {
      return StepResult([], [], false, false);
    }
    var request := q[k];
    var character := if request.characterClass.None? then None else spawned;
    var (notes, handled) := Broadcast(request, character);
    var rest := q[k + 1..];
    r := StepResult(rest, notes, !handled, |rest| > 0);
    forall k2 | FirstValid(q, k2) ensures k2 == k {
      FirstValidUnique(q, k, k2);
    }
  }

  /** There is only one first valid request. */
  lemma FirstValidUnique(q: seq<SpawnRequest>, k1: int, k2: int)
    requires FirstValid(q, k1) && FirstValid(q, k2)
    ensures k1 == k2
  {
  }

  /** Requests are served in the order they were added: a valid request
   *  added to a queue of valid requests is served after all of them. */
  lemma {:induction false} ServedInOrder(q: seq<SpawnRequest>, r: SpawnRequest)
    requires forall i :: 0 <= i < |q| ==> IsValidRequest(q[i])
    requires IsValidRequest(r)
    ensures |q| > 0 ==> FirstValid(AddRequest(q, r).0, 0) && AddRequest(q, r).0[0] == q[0]
    ensures |q| == 0 ==> FirstValid(AddRequest(q, r).0, 0) && AddRequest(q, r).0[0] == r
  {
  }
}

=== FILE: spawn_volume.dfy ===
/**
 * `ASpawnVolume`: a grid of spawn locations inside a volume, each paired
 * with a status that puts it on cooldown for 3 s after a use and 1 s after
 * a failed placement; the spawn scan that picks a location; and the sizing
 * of the location grid. World time, the engine's teleport test and the
 * volume's bounds are given values.
 */
module SpawnVolume {
  import opened Common

  const UseCooldown: real := 3.0
  const FailureCooldown: real := 1.0

  /** `FSpawnLocationStatusData`. */
  datatype Status = Status(mostRecentUseTime: real, mostRecentFailureTime: real, enabled: bool)

  /** A status as constructed: never used, never failed, enabled. */
  const FreshStatus: Status := Status(-MaxFlt, -MaxFlt, true)

  /** `IsCoolingDown`: used less than 3 s ago or failed less than 1 s ago. */
  predicate IsCoolingDown(s: Status, time: real)
  {
    time - s.mostRecentUseTime < UseCooldown || time - s.mostRecentFailureTime < FailureCooldown
  }

  /** `IsAvailable`: enabled and not cooling down. */
  predicate IsAvailable(s: Status, time: real)
  {
    s.enabled && !IsCoolingDown(s, time)
  }

  /** `MarkUseTime`, `MarkFailureTime`, `Enable` and `Disable` each touch
   *  their own field only. */
  function MarkUseTime(s: Status, time: real): (r: Status)
    ensures r.mostRecentUseTime == time
    ensures r.mostRecentFailureTime == s.mostRecentFailureTime && r.enabled == s.enabled
  {
    s.(mostRecentUseTime := time)
  }

  function MarkFailureTime(s: Status, time: real): (r: Status)
    ensures r.mostRecentFailureTime == time
    ensures r.mostRecentUseTime == s.mostRecentUseTime && r.enabled == s.enabled
  {
    s.(mostRecentFailureTime := time)
  }

  function Enable(s: Status): (r: Status)
    ensures r.enabled && r.mostRecentUseTime == s.mostRecentUseTime && r.mostRecentFailureTime == s.mostRecentFailureTime
  {
    s.(enabled := true)
  }

  function Disable(s: Status): (r: Status)
    ensures !r.enabled && r.mostRecentUseTime == s.mostRecentUseTime && r.mostRecentFailureTime == s.mostRecentFailureTime
  {
    s.(enabled := false)
  }

  /** A fresh status is available at every time from `3 - MAX_FLT` on, in
   *  particular at every non-negative world time; a disabled one never is. */
  lemma FreshStatusAvailable(time: real)
    requires time >= UseCooldown - MaxFlt
    ensures IsAvailable(FreshStatus, time)
    ensures !IsAvailable(Disable(FreshStatus), time)
  {
  }

  /** A use blocks the location for exactly the next 3 s, a failure for the
   *  next 1 s. */
  lemma CooldownWindows(s: Status, used: real, later: real)
    requires used <= later
    ensures later < used + UseCooldown ==> !IsAvailable(MarkUseTime(s, used), later)
    ensures later < used + FailureCooldown ==> !IsAvailable(MarkFailureTime(s, used), later)
    ensures later >= used + UseCooldown ==>
      (IsAvailable(MarkUseTime(s, used), later) <==> s.enabled && later - s.mostRecentFailureTime >= FailureCooldown)
    ensures later >= used + FailureCooldown ==>
      (IsAvailable(MarkFailureTime(s, used), later) <==> s.enabled && later - s.mostRecentUseTime >= UseCooldown)
  {
  }

  // ---------------------------------------------------------------------
  // The spawn scan

  /** `FSpawnLocationData`: a location and a cylinder extent. */
  datatype Location = Location(x: real, y: real, z: real, radius: real, height: real)

  /** The volume's world locations and their statuses. */
  datatype Volume = Volume(locations: seq<Location>, statuses: seq<Status>)

  /** `TArray::SetNum`: truncates, or pads with fresh statuses. */
  function SetNum(statuses: seq<Status>, n: nat): (r: seq<Status>)
    ensures |r| == n
    ensures forall i :: 0 <= i < n && i < |statuses| ==> r[i] == statuses[i]
    ensures forall i :: |statuses| <= i < n ==> r[i] == FreshStatus
  {
    if n <= |statuses| then statuses[..n]
    else statuses + seq(n - |statuses|, _ => FreshStatus)
  }

  /** `BeginPlay`: one status per world location. */
  function BeginPlay(v: Volume): (r: Volume)
    ensures |r.statuses| == |r.locations| && r.locations == v.locations
  {
    v.(statuses := SetNum(v.statuses, |v.locations|))
  }

  /** The scan would settle on location `i`: available, and the engine
   *  finds room there. */
  predicate Accepts(statuses: seq<Status>, i: int, time: real, teleportOk: nat -> bool)
    requires 0 <= i < |statuses|
  {
    IsAvailable(statuses[i], time) && teleportOk(i)
  }

  /** The effect of scanning down to (and not including) `lo`: every
   *  available location there was tried and marked failed. */
  function Rejected(s: Status, time: real): Status
  {
    if IsAvailable(s, time) then MarkFailureTime(s, time) else s
  }

  /** `GetSpawnTransform`: for a non-null class, scans the locations from
   *  the highest index down, skipping unavailable ones and marking a
   *  failure wherever the engine finds no room, and takes the first that
   *  fits, marking it used. Returns whether one was found, its index, and
   *  the new statuses. */
  method GetSpawnTransform(v: Volume, characterClass: Option<nat>, time: real, teleportOk: nat -> bool)
    returns (ok: bool, index: int, statuses: seq<Status>)
    requires |v.statuses| >= |v.locations|
    ensures |statuses| == |v.statuses|
    ensures characterClass.None? || |v.locations| == 0 ==> !ok && statuses == v.statuses
    ensures characterClass.Some? ==>
      (ok <==> exists i :: 0 <= i < |v.locations| && Accepts(v.statuses, i, time, teleportOk))
    ensures ok ==> 0 <= index < |v.locations| && Accepts(v.statuses, index, time, teleportOk)
    ensures ok ==> forall i :: index < i < |v.locations| ==> !Accepts(v.statuses, i, time, teleportOk)
    ensures ok ==> statuses[index] == MarkUseTime(v.statuses[index], time)
    ensures forall i :: 0 <= i < |v.statuses| && (!ok || i != index) ==>
      statuses[i] == (if characterClass.Some? && (!ok || index < i) && i < |v.locations| then Rejected(v.statuses[i], time) else v.statuses[i])
  {
    statuses := v.statuses;
    index := -1;
    if characterClass.None? || |v.locations| == 0 {
      return false, index, statuses;
    }
    index := |v.locations| - 1;
    while index >= 0
      invariant -1 <= index < |v.locations|
      invariant |statuses| == |v.statuses|
      invariant forall i :: index < i < |v.locations| ==> !Accepts(v.statuses, i, time, teleportOk)
      invariant forall i :: 0 <= i < |v.statuses| ==>
        statuses[i] == (if index < i < |v.locations| then Rejected(v.statuses[i], time) else v.statuses[i])
    {
      if !IsAvailable(statuses[index], time) {
        index := index - 1;
        continue;
      }
      if !teleportOk(index) {
        statuses := statuses[index := MarkFailureTime(statuses[index], time)];
        index := index - 1;
        continue;
      }
      break;
    }
    if index < 0 {
      return false, index, statuses;
    }
    assert Accepts(v.statuses, index, time, teleportOk);
    statuses := statuses[index := MarkUseTime(statuses[index], time)];
    ok := true;
  }

  /** `HasAvailableSpawnTransform`: some location is available. */
  predicate HasAvailableSpawnTransform(v: Volume, time: real)
  {
    exists i :: 0 <= i < |v.statuses| && IsAvailable(v.statuses[i], time)
  }

  /** A successful scan needed an available location, and leaves the
   *  chosen one cooling down at that time. */
  lemma SpawnNeedsAndConsumesAvailability(v: Volume, time: real, teleportOk: nat -> bool, index: int, statuses: seq<Status>)
    requires |v.statuses| >= |v.locations|
    requires 0 <= index < |v.locations| && Accepts(v.statuses, index, time, teleportOk)
    requires |statuses| == |v.statuses| && statuses[index] == MarkUseTime(v.statuses[index], time)
    ensures HasAvailableSpawnTransform(v, time)
    ensures !IsAvailable(statuses[index], time)
  {
  }

  // ---------------------------------------------------------------------
  // Sizing the location grid

  /** The shrink loop of `UpdateDebugCylinderList`: while the grid holds
   *  more than `MaxSpawnLocations` (when positive), a row and then a column
   *  are given up, never going below one of either. */
  method ShrinkToFit(rows: int, columns: int, maxLocations: int) returns (r: int, c: int)
    requires rows >= 0 && columns >= 0
    ensures maxLocations <= 0 || rows * columns <= maxLocations ==> r == rows && c == columns
    ensures maxLocations > 0 ==> r * c <= maxLocations
    ensures rows >= 1 && columns >= 1 ==> 1 <= r <= rows && 1 <= c <= columns
    ensures rows == 0 || columns == 0 ==> r == rows && c == columns
  {
    r, c := rows, columns;
    if maxLocations > 0 {
      while r * c > maxLocations
        invariant 0 <= r <= rows && 0 <= c <= columns
        invariant rows >= 1 && columns >= 1 ==> r >= 1 && c >= 1
        invariant r * c > maxLocations ==> r >= 1 && c >= 1
        invariant rows * columns <= maxLocations ==> r == rows && c == columns
        invariant rows == 0 || columns == 0 ==> r == rows && c == columns
        decreases r + c
      {
        r := Max(r - 1, 1);
        if r * c <= maxLocations {
          break;
        }
        c := Max(c - 1, 1);
      }
    }
  }

  /** Index of the location in row `i`, column `j` of a grid of `rows`. */
  function Slot(rows: int, i: int, j: int): int
  {
    j * rows + i
  }

  lemma {:induction false} MulAtLeast(r: int, x: int)
    requires r > 0 && x >= 1
    ensures r * x >= r
    decreases x
  {
    if x > 1 {
      MulAtLeast(r, x - 1);
      assert r * x == r * (x - 1) + r;
    }
  }

  /** Euclidean division is unique: `j * r + i` with `0 <= i < r` divides
   *  by `r` into `j` with remainder `i`. */
  lemma DivModUnique(k: int, r: int, i: int, j: int)
    requires r > 0 && 0 <= i < r && k == j * r + i
    ensures k % r == i && k / r == j
  {
    var x := j - k / r;
    assert r * x == k % r - i;
    if x >= 1 {
      MulAtLeast(r, x);
    } else if x <= -1 {
      MulAtLeast(r, -x);
    }
  }

  lemma SlotInRange(rows: int, columns: int, i: int, j: int)
    requires 0 <= i < rows && 0 <= j < columns
    ensures 0 <= Slot(rows, i, j) < rows * columns
  {
    MulAtLeast(rows, columns - j);
    assert rows * columns - j * rows == rows * (columns - j);
    if j > 0 {
      MulAtLeast(rows, j);
    }
  }

  /** Distance between neighbouring locations: one diameter plus the
   *  spacing fraction of it. */
  function Step(radius: real, spacing: real): real
  {
    radius * 2.0 * (1.0 + spacing)
  }

  /** Offset of the first location along an axis of `n` locations, so the
   *  grid is centred on the volume. */
  function StartOffset(radius: real, spacing: real, n: int): real
  {
    radius * 2.0 * (n - 1) as real * 0.5 * (1.0 + spacing)
  }

  function Offset(start: real, step: real, n: int): real
  {
    start - n as real * step
  }

  lemma OffsetNext(start: real, step: real, n: int)
    ensures Offset(start, step, n) - step == Offset(start, step, n + 1)
  {
  }

  /** The start offset as the placement loop computes it: half the span,
   *  then widened by the spacing fraction. */
  lemma StartOffsetWidened(radius: real, spacing: real, n: int)
    ensures var half := radius * 2.0 * (n - 1) as real * 0.5;
      half + spacing * half == StartOffset(radius, spacing, n)
  {
  }

  /** The relative location of row `i`, column `j`. */
  function GridLocation(rows: int, columns: int, radius: real, spacing: real, extent: real, i: int, j: int): Location
  {
    Location(
      Offset(StartOffset(radius, spacing, rows), Step(radius, spacing), i),
      Offset(StartOffset(radius, spacing, columns), Step(radius, spacing), j),
      0.0, radius, extent)
  }

  lemma GridProduct(rows: int, columns: int)
    requires rows >= 0 && columns >= 0
    ensures rows * columns >= 0
    ensures rows * columns >= 1 ==> rows >= 1 && columns >= 1
  {
    if rows >= 1 && columns >= 1 {
      MulAtLeast(rows, columns);
    }
  }

  /** What is left to place after slot `(i, j)`, in the same row-major
   *  form. */
  lemma RemainingAfterSlot(rows: int, columns: int, i: int, j: int)
    ensures rows * columns - 1 - Slot(rows, i, j) == (columns - 1 - j) * rows + (rows - 1 - i)
  {
  }

  /** The locations placed so far are those of the first `n` slots. */
  ghost predicate GridPrefix(list: seq<Location>, rows: int, columns: int, radius: real, spacing: real, extent: real)
  {
    forall i', j' :: 0 <= i' < rows && 0 <= j' && Slot(rows, i', j') < |list| ==>
      list[Slot(rows, i', j')] == GridLocation(rows, columns, radius, spacing, extent, i', j')
  }

  lemma PlacedExtendsGrid(before: seq<Location>, list: seq<Location>, rows: int, columns: int, radius: real, spacing: real, extent: real, i: int, j: int)
    requires 0 <= i < rows && 0 <= j && |before| == Slot(rows, i, j)
    requires list == before + [GridLocation(rows, columns, radius, spacing, extent, i, j)]
    requires GridPrefix(before, rows, columns, radius, spacing, extent)
    ensures GridPrefix(list, rows, columns, radius, spacing, extent)
  {
    forall i', j' | 0 <= i' < rows && 0 <= j' && Slot(rows, i', j') < |list|
      ensures list[Slot(rows, i', j')] == GridLocation(rows, columns, radius, spacing, extent, i', j')
    {
      if Slot(rows, i', j') == |before| {
        DivModUnique(|before|, rows, i, j);
        DivModUnique(|before|, rows, i', j');
      }
    }
  }

  /** The slot after the last one of a column is the first of the next. */
  lemma SlotNextColumn(rows: int, j: int)
    ensures Slot(rows, rows - 1, j) + 1 == Slot(rows, 0, j + 1)
  {
  }

  /** The remaining count is divisible by the row count exactly after the
   *  last location of a row. */
  lemma RowEnds(rows: int, columns: int, i: int, j: int, remaining: int)
    requires 0 <= i < rows && 0 <= j && remaining == rows * columns - 1 - Slot(rows, i, j)
    ensures remaining % rows == 0 <==> i == rows - 1
  {
    RemainingAfterSlot(rows, columns, i, j);
    DivModUnique(remaining, rows, rows - 1 - i, columns - 1 - j);
  }

  /** The placement loop of `UpdateDebugCylinderList`: lays out
   *  `rows * columns` locations, stepping along a row and, after each full
   *  row (the remaining count divisible by the row count), back to the
   *  start of the next column. */
  method GenerateLocations(rows: int, columns: int, radius: real, spacing: real, extentZ: real, height: real)
    returns (list: seq<Location>)
    requires rows >= 0 && columns >= 0
    ensures |list| == rows * columns
    ensures forall i, j :: 0 <= i < rows && 0 <= j < columns ==>
      0 <= Slot(rows, i, j) < |list| && list[Slot(rows, i, j)] == GridLocation(rows, columns, radius, spacing, MinR(height, extentZ), i, j)
  {
    var extent := MinR(height, extentZ);
    var diameter := radius * 2.0;
    var x := diameter * (rows - 1) as real * 0.5;
    var y := diameter * (columns - 1) as real * 0.5;
    StartOffsetWidened(radius, spacing, rows);
    StartOffsetWidened(radius, spacing, columns);
    x := x + spacing * x;
    y := y + spacing * y;
    ghost var step := Step(radius, spacing);
    ghost var startX, startY := StartOffset(radius, spacing, rows), StartOffset(radius, spacing, columns);
    list := [];
    GridProduct(rows, columns);
    var remaining := rows * columns - 1;
    ghost var i, j := 0, 0;
    while remaining >= 0
      invariant remaining == rows * columns - 1 - |list| && remaining >= -1
      invariant remaining >= 0 ==> rows >= 1
      invariant |list| == Slot(rows, i, j) && 0 <= i && 0 <= j
      invariant rows >= 1 ==> i < rows
      invariant x == Offset(startX, step, i) && y == Offset(startY, step, j)
      invariant GridPrefix(list, rows, columns, radius, spacing, extent)
      decreases remaining + 1
    {
      ghost var before := list;
      list := list + [Location(x, y, 0.0, radius, extent)];
      PlacedExtendsGrid(before, list, rows, columns, radius, spacing, extent, i, j);
      RowEnds(rows, columns, i, j, remaining);
      assert diameter * (1.0 + spacing) == step;
      if remaining % rows == 0 {
        x := diameter * (rows - 1) as real * 0.5 * (1.0 + spacing);
        assert x == Offset(startX, step, 0);
        OffsetNext(startY, step, j);
        y := y - diameter * (1.0 + spacing);
        SlotNextColumn(rows, j);
        i, j := 0, j + 1;
      } else {
        OffsetNext(startX, step, i);
        x := x - diameter * (1.0 + spacing);
        i := i + 1;
      }
      remaining := remaining - 1;
    }
    forall i', j' | 0 <= i' < rows && 0 <= j' < columns
      ensures 0 <= Slot(rows, i', j') < |list|
    {
      SlotInRange(rows, columns, i', j');
    }
  }
}

=== FILE: stat_struct.dfy ===
/**
 * `FStatStruct`: a float stat (health, armour, a body part's health) kept
 * between 0 and a maximum, together with the editor defaults it is
 * initialised from; and `FPartStatStruct`, a named body part holding one.
 * Floats are modelled as `real`.
 */
module Stats {
  import opened Common

  /** A stat. `value`/`maxValue` are the live pair; the defaults are config. */
  datatype StatStruct = StatStruct(value: real, maxValue: real, defaultValue: real, defaultMaxValue: real)

  /** Default member initialisers: value 0, max 100, defaults 0 and 100. */
  const DefaultStat: StatStruct := StatStruct(0.0, 100.0, 0.0, 100.0)

  /** The two-argument constructor only sets the defaults. */
  function MakeStat(inValue: real, inMaxValue: real): (s: StatStruct)
    ensures s.defaultValue == inValue && s.defaultMaxValue == inMaxValue
    ensures s.value == DefaultStat.value && s.maxValue == DefaultStat.maxValue
  {
    StatStruct(0.0, 100.0, inValue, inMaxValue)
  }

  /** The one-argument constructor uses the maximum for both defaults. */
  function MakeStatFromMax(inMaxValue: real): (s: StatStruct)
    ensures s.defaultValue == inMaxValue && s.defaultMaxValue == inMaxValue
    ensures s == MakeStat(inMaxValue, inMaxValue)
  {
    MakeStat(inMaxValue, inMaxValue)
  }

  /** The stat's value is within its range. */
  predicate InRange(s: StatStruct)
  {
    0.0 <= s.value <= s.maxValue
  }

  /**
   * `SetValue`: stores the input clamped to `[0, maxValue]` and returns the
   * stored value. Nothing but the value changes.
   */
  function SetValue(s: StatStruct, v: real): (r: StatStruct)
    ensures r.maxValue == s.maxValue && r.defaultValue == s.defaultValue
    ensures r.defaultMaxValue == s.defaultMaxValue
    ensures s.maxValue >= 0.0 ==> InRange(r)
    ensures 0.0 <= v <= s.maxValue ==> r.value == v
    ensures v < 0.0 ==> r.value == 0.0
    ensures 0.0 <= v && s.maxValue <= v ==> r.value == s.maxValue
  {
    s.(value := ClampR(v, 0.0, s.maxValue))
  }

  /** `operator+=`: adds through `SetValue`, so the result is clamped. */
  function AddValue(s: StatStruct, delta: real): (r: StatStruct)
    ensures r.maxValue == s.maxValue
    ensures s.maxValue >= 0.0 ==> InRange(r)
    ensures 0.0 <= s.value + delta <= s.maxValue ==> r.value == s.value + delta
  {
    SetValue(s, s.value + delta)
  }

  /** `operator-=`: subtracts through `SetValue`, so the result is clamped. */
  function SubtractValue(s: StatStruct, delta: real): (r: StatStruct)
    ensures r.maxValue == s.maxValue
    ensures s.maxValue >= 0.0 ==> InRange(r)
    ensures 0.0 <= s.value - delta <= s.maxValue ==> r.value == s.value - delta
    ensures s.value - delta < 0.0 ==> r.value == 0.0
  {
    SetValue(s, s.value - delta)
  }

  /** `SetMaxValue`: replaces the maximum and re-clamps the current value. */
  function SetMaxValue(s: StatStruct, m: real): (r: StatStruct)
    ensures r.maxValue == m
    ensures 0.0 <= s.value <= m ==> r.value == s.value
    ensures m >= 0.0 ==> InRange(r)
    ensures 0.0 <= m < s.value ==> r.value == m
  {
    SetValue(s.(maxValue := m), s.value)
  }

  /**
   * `Initialize`: the maximum becomes the default maximum; a negative default
   * value means "start full", otherwise the default value is clamped in.
   */
  function Initialize(s: StatStruct): (r: StatStruct)
    ensures r.maxValue == s.defaultMaxValue
    ensures r.defaultValue == s.defaultValue && r.defaultMaxValue == s.defaultMaxValue
    ensures s.defaultValue < 0.0 && s.defaultMaxValue >= 0.0 ==> r.value == r.maxValue
    ensures 0.0 <= s.defaultValue <= s.defaultMaxValue ==> r.value == s.defaultValue
    ensures s.defaultMaxValue >= 0.0 ==> InRange(r)
  {
    var withMax := s.(maxValue := s.defaultMaxValue);
    SetValue(withMax, if s.defaultValue < 0.0 then withMax.maxValue else s.defaultValue)
  }

  /** `operator*`/`*=`: scales value and maximum together, without clamping. */
  function Scale(s: StatStruct, f: real): (r: StatStruct)
    ensures r.value == s.value * f && r.maxValue == s.maxValue * f
    ensures r.defaultValue == s.defaultValue && r.defaultMaxValue == s.defaultMaxValue
  {
    s.(value := s.value * f, maxValue := s.maxValue * f)
  }

  /** `GetPercentValue`; the source divides by zero for a zero maximum. */
  function PercentValue(s: StatStruct): (p: real)
    requires s.maxValue != 0.0
    ensures InRange(s) && s.maxValue > 0.0 ==> 0.0 <= p <= 1.0
    ensures p * s.maxValue == s.value
  {
    s.value / s.maxValue
  }

  /** `IsIdenticalTo`: compares the live value and maximum only. */
  predicate IsIdenticalTo(a: StatStruct, b: StatStruct)
  {
    a.value == b.value && a.maxValue == b.maxValue
  }

  /** `IsValid`: the marker of the static "invalid stat" is both defaults -1. */
  predicate IsValid(s: StatStruct)
  {
    s.defaultValue == -1.0 && s.defaultMaxValue == -1.0
  }

  /** `SetValue` is idempotent: clamping an already clamped value keeps it. */
  lemma SetValueIdempotent(s: StatStruct, v: real)
    requires s.maxValue >= 0.0
    ensures SetValue(SetValue(s, v), SetValue(s, v).value) == SetValue(s, v)
  {
  }

  /** Adding and subtracting never leave the range once the maximum is >= 0. */
  lemma AddSubtractPreserveRange(s: StatStruct, a: real, b: real)
    requires s.maxValue >= 0.0
    ensures InRange(SubtractValue(AddValue(s, a), b))
    ensures SubtractValue(AddValue(s, a), b).maxValue == s.maxValue
  {
  }

  /** Scaling by a nonzero factor keeps the percentage of a stat. */
  lemma ScalePreservesPercent(s: StatStruct, f: real)
    requires s.maxValue != 0.0 && f != 0.0
    ensures Scale(s, f).maxValue != 0.0
    ensures PercentValue(Scale(s, f)) == PercentValue(s)
  {
    var r := Scale(s, f);
    calc {
      PercentValue(r) * (s.maxValue * f);
      r.value;
      s.value * f;
      PercentValue(s) * s.maxValue * f;
    }
  }

  /** Identity of stats is an equivalence on their live pair. */
  lemma IdenticalIsEquivalence(a: StatStruct, b: StatStruct, c: StatStruct)
    ensures IsIdenticalTo(a, a)
    ensures IsIdenticalTo(a, b) ==> IsIdenticalTo(b, a)
    ensures IsIdenticalTo(a, b) && IsIdenticalTo(b, c) ==> IsIdenticalTo(a, c)
    ensures IsIdenticalTo(a, b) ==> SetValue(a, 1.0).value == SetValue(b, 1.0).value
  {
  }

  /** `FPartStatStruct`: a named body part and the bones that map to it. */
  datatype PartStat = PartStat(partName: Name, boneList: seq<Name>, stat: StatStruct)

  predicate PartIsValid(p: PartStat) { p.partName != NameNone }
  predicate PartCanTakeDamage(p: PartStat) { p.stat.maxValue > 0.0 }
  predicate PartIsDestroyed(p: PartStat) { PartCanTakeDamage(p) && p.stat.value <= 0.0 }

  /**
   * A part with a nonpositive maximum is indestructible; a damageable part
   * is destroyed exactly when it has been brought down to zero by `SetValue`.
   */
  lemma PartDestroyedIffZero(p: PartStat, v: real)
    ensures p.stat.maxValue <= 0.0 ==> !PartIsDestroyed(p)
    ensures PartCanTakeDamage(p) ==>
      (PartIsDestroyed(p.(stat := SetValue(p.stat, v))) <==> v <= 0.0)
  {
  }

  /** `IsDead` of the status component: health at or below zero. */
  predicate IsDead(health: StatStruct)
  {
    health.value <= 0.0
  }

  /** A clamped health is dead exactly when the requested value was <= 0. */
  lemma DeadAfterSetValue(health: StatStruct, v: real)
    requires health.maxValue > 0.0
    ensures IsDead(SetValue(health, v)) <==> v <= 0.0
  {
  }
}

=== FILE: status_component.dfy ===
/**
 * The bookkeeping of `UStatusComponent`: the set of action-block ids and the
 * blocking flag derived from it, healing through the clamped health stat,
 * the bone-to-part index map, the hit/element damage multiplier, armour
 * absorption, and the one-effect-per-class rule of `AddStatusEffect`.
 */
module StatusComponent {
  import opened Common
  import opened Stats

  /* ---------------------------------------------------------------------- */
  /* Action blocks                                                          */
  /* ---------------------------------------------------------------------- */

  /**
   * `BlockingActionCounter`, `BlockingActionSet` and `bIsBlockingAction`.
   * The counter is an `int32`; it is modelled unbounded.
   */
  datatype ActionBlockState = ActionBlockState(counter: int, blockSet: set<int>, isBlocking: bool)

  /** The flag agrees with the set, as `UpdateActionBlock` leaves it. */
  predicate Consistent(st: ActionBlockState)
  {
    st.isBlocking == (|st.blockSet| > 0)
  }

  /** The ids the search may still run into above the counter. */
  ghost function Above(used: set<int>, counter: int): (r: set<int>)
    ensures forall x :: x in r <==> (x in used || x == IndexNone) && x > counter
  {
    set x | x in used + {IndexNone} && x > counter
  }

  /**
   * The id search of `RequestActionBlock`: pre-increment the counter, and
   * while the value is `INDEX_NONE` or in use, step once more and test the
   * next pre-incremented value, so candidates are counter+1, counter+3, ...
   * The result is the first candidate that is neither `INDEX_NONE` nor used.
   */
  function NextFreeId(counter: int, used: set<int>): (id: int)
    ensures id > counter && id != IndexNone && id !in used
    ensures (id - counter) % 2 == 1
    ensures forall c :: counter < c < id && (c - counter) % 2 == 1 ==> c == IndexNone || c in used
    decreases Above(used, counter)
  {
    var c := counter + 1;
    if c == IndexNone || c in used then
      assert c in Above(used, counter) && c !in Above(used, c + 1);
      assert Above(used, c + 1) <= Above(used, counter);
      NextFreeId(c + 1, used)
    else c
  }

  /**
   * `UpdateActionBlock`: recomputes the flag from the set and reports
   * whether it changed.
   */
  function UpdateActionBlock(st: ActionBlockState): (res: (ActionBlockState, bool))
    ensures Consistent(res.0)
    ensures res.0.blockSet == st.blockSet && res.0.counter == st.counter
    ensures res.1 <==> st.isBlocking != (|st.blockSet| > 0)
    ensures !res.1 ==> res.0 == st
  {
    if st.isBlocking == (|st.blockSet| > 0) then (st, false)
    else (st.(isBlocking := |st.blockSet| > 0), true)
  }

  /** Result of `RequestActionBlock`: the new state, the caller's new id and
   *  whether the character's actions were interrupted. */
  datatype BlockRequest = BlockRequest(state: ActionBlockState, blockId: int, interrupted: bool)

  /**
   * `RequestActionBlock`: issues a fresh id (found before the caller's
   * previous id is revoked, so never equal to a live previous id), revokes
   * the caller's previous id, adds the new one, and interrupts only when the
   * component has just started blocking and the caller asked for it.
   */
  function RequestActionBlock(st: ActionBlockState, blockId: int, interrupt: bool): (r: BlockRequest)
    ensures r.blockId != IndexNone && r.blockId !in st.blockSet
    ensures r.blockId > st.counter && r.state.counter == r.blockId
    ensures r.blockId in r.state.blockSet
    ensures blockId in st.blockSet ==> blockId !in r.state.blockSet
    ensures forall x :: x in r.state.blockSet <==> x == r.blockId || (x in st.blockSet && x != blockId)
    ensures Consistent(r.state) && r.state.isBlocking
    ensures r.interrupted <==> interrupt && !st.isBlocking
  {
    var id := NextFreeId(st.counter, st.blockSet);
    var withId := ActionBlockState(id, (st.blockSet - {blockId}) + {id}, st.isBlocking);
    var (updated, changed) := UpdateActionBlock(withId);
    BlockRequest(updated, id, changed && updated.isBlocking && interrupt)
  }

  /** `RevokeActionBlock`: removes the id, resets it to `INDEX_NONE`, and
   *  recomputes the flag. */
  function RevokeActionBlock(st: ActionBlockState, blockId: int): (r: (ActionBlockState, int))
    ensures r.1 == IndexNone
    ensures blockId !in r.0.blockSet
    ensures forall x :: x in r.0.blockSet <==> x in st.blockSet && x != blockId
    ensures r.0.counter == st.counter
    ensures Consistent(r.0)
  {
    (UpdateActionBlock(st.(blockSet := st.blockSet - {blockId})).0, IndexNone)
  }

  /** Revoking the id just issued undoes the request, except that the
   *  caller's previous id stays revoked. */
  lemma RequestThenRevoke(st: ActionBlockState, blockId: int, interrupt: bool)
    requires Consistent(st)
    ensures var r := RequestActionBlock(st, blockId, interrupt);
      RevokeActionBlock(r.state, r.blockId).0.blockSet == st.blockSet - {blockId}
  {
    var r := RequestActionBlock(st, blockId, interrupt);
    assert r.blockId !in st.blockSet;
  }

  /** Two requests in a row issue distinct, increasing ids. */
  lemma SuccessiveRequestsDistinct(st: ActionBlockState, a: int, b: int)
    ensures var r1 := RequestActionBlock(st, a, false);
      var r2 := RequestActionBlock(r1.state, b, false);
      r2.blockId > r1.blockId && r2.blockId != r1.blockId
  {
  }

  /* ---------------------------------------------------------------------- */
  /* Health                                                                 */
  /* ---------------------------------------------------------------------- */

  /**
   * `SetHealth`: returns the health unchanged when the value already equals
   * the input, otherwise clamps the input in. For a health in range the
   * short cut is invisible: the stored value is always the clamped input.
   */
  function SetHealth(health: StatStruct, inHealth: real): (r: StatStruct)
    ensures r.maxValue == health.maxValue
    ensures InRange(health) ==> r.value == ClampR(inHealth, 0.0, health.maxValue)
    ensures health.maxValue >= 0.0 && health.value != inHealth ==> InRange(r)
  {
    if health.value == inHealth then health else SetValue(health, inHealth)
  }

  /**
   * `HealDamage`: a dead component is not healed and reports 0; otherwise the
   * health becomes the clamped sum and the full requested amount is reported,
   * even when the clamp absorbed part of it.
   */
  function HealDamage(health: StatStruct, amount: real): (r: (StatStruct, real))
    ensures IsDead(health) ==> r.0 == health && r.1 == 0.0
    ensures !IsDead(health) ==> r.1 == amount
    ensures !IsDead(health) && InRange(health) ==>
      r.0.value == ClampR(health.value + amount, 0.0, health.maxValue)
    ensures r.0.maxValue == health.maxValue
  {
    if IsDead(health) then (health, 0.0)
    else (SetHealth(health, health.value + amount), amount)
  }

  /** Healing a living, in-range health by a non-negative amount never
   *  lowers it and never kills it. */
  lemma HealNeverHurts(health: StatStruct, amount: real)
    requires InRange(health) && !IsDead(health) && amount >= 0.0
    ensures HealDamage(health, amount).0.value >= health.value
    ensures !IsDead(HealDamage(health, amount).0)
  {
  }

  /* ---------------------------------------------------------------------- */
  /* Bone to part index map                                                 */
  /* ---------------------------------------------------------------------- */

  /** The part lists the name, as a bone or as its own part name. */
  predicate Lists(p: PartStat, name: Name)
  {
    name in p.boneList || name == p.partName
  }

  /** `TMap::Add` of every bone in order, each to the same index. */
  function AddAll(m: map<Name, int>, bones: seq<Name>, index: int): (r: map<Name, int>)
    ensures forall k :: k in r <==> k in m || k in bones
    ensures forall k :: k in r ==> r[k] == (if k in bones then index else m[k])
    decreases |bones|
  {
    if |bones| == 0 then m else AddAll(m[bones[0] := index], bones[1..], index)
  }

  /**
   * The configuration loop: part indices from `|parts| - 1` down to `lo`,
   * each adding its bones and then its part name; a later (lower) index
   * overwrites. So each name maps to the lowest index listing it.
   */
  function BuildBoneMap(parts: seq<PartStat>, lo: nat): (m: map<Name, int>)
    requires lo <= |parts|
    ensures forall k :: k in m <==> exists i :: lo <= i < |parts| && Lists(parts[i], k)
    ensures forall k :: k in m ==> lo <= m[k] < |parts| && Lists(parts[m[k]], k)
    ensures forall k, i :: k in m && lo <= i < m[k] ==> !Lists(parts[i], k)
    decreases |parts| - lo
  {
    if lo == |parts| then map[]
    else
      var rest := BuildBoneMap(parts, lo + 1);
      BoneMapStep(rest, parts[lo], lo);
      AddAll(rest, parts[lo].boneList, lo)[parts[lo].partName := lo]
  }

  /** One step of the configuration loop: the part's names map to its
   *  index, and every other name keeps its earlier entry. */
  lemma BoneMapStep(rest: map<Name, int>, p: PartStat, lo: int)
    ensures var m := AddAll(rest, p.boneList, lo)[p.partName := lo];
      (forall k :: k in m <==> k in rest || Lists(p, k)) &&
      (forall k :: k in m && Lists(p, k) ==> m[k] == lo) &&
      (forall k :: k in m && !Lists(p, k) ==> m[k] == rest[k])
  {
  }

  /** `GetPartHealthIndexForBone`: `INDEX_NONE` for `NAME_None` or an
   *  unmapped bone, otherwise the mapped index. */
  function PartIndexForBone(m: map<Name, int>, bone: Name): (r: int)
    ensures bone == NameNone || bone !in m ==> r == IndexNone
    ensures bone != NameNone && bone in m ==> r == m[bone]
  {
    if bone != NameNone && bone in m then m[bone] else IndexNone
  }

  /** Looking up a bone in the built map finds the first part that lists
   *  it, and `INDEX_NONE` exactly when no part lists it. */
  lemma BoneLookupFindsFirstPart(parts: seq<PartStat>, bone: Name)
    requires bone != NameNone
    ensures var r := PartIndexForBone(BuildBoneMap(parts, 0), bone);
      && (r == IndexNone <==> forall i :: 0 <= i < |parts| ==> !Lists(parts[i], bone))
      && (r != IndexNone ==>
            0 <= r < |parts| && Lists(parts[r], bone) && forall i :: 0 <= i < r ==> !Lists(parts[i], bone))
  {
  }

  /* ---------------------------------------------------------------------- */
  /* Damage multiplier and armour                                           */
  /* ---------------------------------------------------------------------- */

  /** The multiplier a descriptor contributes: its entry, or 1 if absent. */
  function Factor<K>(k: K, m: map<K, real>): real
  {
    if k in m then m[k] else 1.0
  }

  /** Product over the list of the mapped multipliers; absent keys skipped. */
  function ProductOf<K>(list: seq<K>, m: map<K, real>): real
  {
    if |list| == 0 then 1.0 else Factor(list[0], m) * ProductOf(list[1..], m)
  }

  /**
   * `GetHitAndElementTypeDamageMultiplier`: 1 without a core damage type;
   * otherwise the product of the hit-type multipliers of the damage type's
   * hit descriptors, times the elemental ones. A map is skipped when empty.
   */
  function HitAndElementMultiplier<H, E>(isCoreDamageType: bool, hitList: seq<H>, elementList: seq<E>,
                                         hitMap: map<H, real>, elementMap: map<E, real>): (r: real)
    ensures !isCoreDamageType ==> r == 1.0
    ensures isCoreDamageType ==> r == ProductOf(hitList, hitMap) * ProductOf(elementList, elementMap)
  {
    if !isCoreDamageType then 1.0
    else
      ProductOfEmptyMapIsOne(hitList, hitMap);
      ProductOfEmptyMapIsOne(elementList, elementMap);
      var hit := if |hitMap| > 0 then ProductOf(hitList, hitMap) else 1.0;
      var element := if |elementMap| > 0 then ProductOf(elementList, elementMap) else 1.0;
      hit * element
  }

  /** Descriptors with no multiplier contribute a factor of 1; an empty map
   *  gives 1 for any list. */
  lemma {:induction false} ProductOfAbsentIsOne<K>(list: seq<K>, m: map<K, real>)
    requires forall i :: 0 <= i < |list| ==> list[i] !in m
    ensures ProductOf(list, m) == 1.0
  {
    if |list| > 0 {
      ProductOfAbsentIsOne(list[1..], m);
    }
  }

  /** With no multipliers configured every list has product 1. */
  lemma ProductOfEmptyMapIsOne<K>(list: seq<K>, m: map<K, real>)
    ensures |m| == 0 ==> ProductOf(list, m) == 1.0
  {
    if |m| == 0 {
      assert m == map[];
      ProductOfAbsentIsOne(list, m);
    }
  }

  /** Multipliers that are all in [0, 1] (resistances) can only reduce. */
  lemma {:induction false} ProductOfResistances<K>(list: seq<K>, m: map<K, real>)
    requires forall k :: k in m ==> 0.0 <= m[k] <= 1.0
    ensures 0.0 <= ProductOf(list, m) <= 1.0
  {
    if |list| > 0 {
      ProductOfResistances(list[1..], m);
      var head := Factor(list[0], m);
      var tail := ProductOf(list[1..], m);
      assert 0.0 <= head * tail <= 1.0 * tail by {
        assert 0.0 <= head <= 1.0 && 0.0 <= tail;
      }
    }
  }

  /** Armour configuration of the damage type and the component's curves,
   *  with the lerps already evaluated at the armour percentage. */
  datatype ArmourParams = ArmourParams(ignoreArmour: bool, decayArmour: bool,
                                       absorbLerp: real, decayLerp: real, decayMultiplier: real)

  /**
   * `HandleArmourDamage`: no effect unless both armour and damage are
   * positive; otherwise the absorbed fraction of the damage is removed
   * (never below 0) and the armour decays, clamped through `-=`.
   */
  function HandleArmourDamage(armour: StatStruct, damage: real, p: ArmourParams): (r: (StatStruct, real))
    ensures armour.value <= 0.0 || damage <= 0.0 ==> r == (armour, damage)
    ensures r.1 >= 0.0 || r.1 == damage
    ensures damage > 0.0 ==> r.1 >= 0.0
    ensures armour.maxValue >= 0.0 && armour.value > 0.0 && damage > 0.0 ==> InRange(r.0)
    ensures r.0.maxValue == armour.maxValue
    ensures p.ignoreArmour ==> r.1 == damage
    ensures p.absorbLerp >= 0.0 ==> r.1 <= damage || damage <= 0.0
    ensures !p.decayArmour && armour.value > 0.0 && damage > 0.0 && InRange(armour) ==> r.0 == armour
  {
    if armour.value <= 0.0 || damage <= 0.0 then (armour, damage)
    else
      var absorb := if p.ignoreArmour then 0.0 else p.absorbLerp;
      var decay := (if p.decayArmour then p.decayLerp else 0.0) * p.decayMultiplier;
      var absorbed := absorb * damage;
      (SubtractValue(armour, absorbed * decay), MaxR(0.0, damage - absorbed))
  }

  /* ---------------------------------------------------------------------- */
  /* Status effect list                                                     */
  /* ---------------------------------------------------------------------- */

  /** A status-effect object: identity, class, and whether it is being
   *  destroyed (`IsPendingKillOrUnreachable`). */
  datatype EffectRef = EffectRef(id: nat, cls: nat, pendingKill: bool)

  /** A live effect of this class is in the list. */
  predicate IsLiveOfClass(e: Option<EffectRef>, cls: nat)
  {
    e.Some? && !e.value.pendingKill && e.value.cls == cls
  }

  /** At most one live effect per class. */
  predicate OnePerClass(list: seq<Option<EffectRef>>)
  {
    forall i, j :: 0 <= i < j < |list| && list[i].Some? && list[j].Some?
      && !list[i].value.pendingKill && !list[j].value.pendingKill
      ==> list[i].value.cls != list[j].value.cls
  }

  /** The first live effect of the class, if any. */
  function FindLive(list: seq<Option<EffectRef>>, cls: nat): (r: Option<nat>)
    ensures r.Some? ==> r.value < |list| && IsLiveOfClass(list[r.value], cls)
    ensures r.Some? ==> forall i :: 0 <= i < r.value ==> !IsLiveOfClass(list[i], cls)
    ensures r.None? <==> forall i :: 0 <= i < |list| ==> !IsLiveOfClass(list[i], cls)
  {
    if |list| == 0 then None
    else if IsLiveOfClass(list[0], cls) then Some(0)
    else match FindLive(list[1..], cls)
      case None => None
      case Some(i) => Some(i + 1)
  }

  /** What `AddStatusEffect` did. */
  datatype AddEffectOutcome =
    | Rejected                        // not authority, no class, or cannot activate
    | Refreshed(existing: EffectRef, powerAdded: bool)
    | Created(created: EffectRef)

  /**
   * `AddStatusEffect`: outside authority or without a class nothing happens.
   * A live effect of the same class is returned (its power added when it can
   * refresh) and no second one is made. Otherwise, when the class default
   * object can activate, a new effect (`newId`, a fresh object) is added
   * with `AddUnique`.
   */
  function AddStatusEffect(list: seq<Option<EffectRef>>, isAuthority: bool, cls: Option<nat>,
                           canRefresh: bool, canActivate: bool, newId: nat): (r: (seq<Option<EffectRef>>, AddEffectOutcome))
    requires forall i :: 0 <= i < |list| && list[i].Some? ==> list[i].value.id != newId
    ensures !isAuthority || cls.None? ==> r == (list, Rejected)
    ensures r.1.Refreshed? ==>
      r.0 == list && IsLiveOfClass(Some(r.1.existing), cls.value) && Some(r.1.existing) in list
      && r.1.powerAdded == canRefresh
    ensures r.1.Created? ==>
      r.0 == list + [Some(r.1.created)] && r.1.created.cls == cls.value && r.1.created.id == newId
    ensures r.1.Created? ==> forall i :: 0 <= i < |list| ==> !IsLiveOfClass(list[i], cls.value)
    ensures r.1.Rejected? ==> r.0 == list
    ensures isAuthority && cls.Some? && (exists i :: 0 <= i < |list| && IsLiveOfClass(list[i], cls.value))
      ==> r.1.Refreshed?
  {
    if !isAuthority || cls.None? then (list, Rejected)
    else match FindLive(list, cls.value)
      case Some(i) => (list, Refreshed(list[i].value, canRefresh))
      case None =>
        if !canActivate then (list, Rejected)
        else
          var e := Some(EffectRef(newId, cls.value, false));
          assert e !in list;
          (AddUnique(list, e), Created(e.value))
  }

  /** Adding a status effect never breaks "one live effect per class". */
  lemma AddStatusEffectKeepsOnePerClass(list: seq<Option<EffectRef>>, isAuthority: bool, cls: Option<nat>,
                                        canRefresh: bool, canActivate: bool, newId: nat)
    requires forall i :: 0 <= i < |list| && list[i].Some? ==> list[i].value.id != newId
    requires OnePerClass(list)
    ensures OnePerClass(AddStatusEffect(list, isAuthority, cls, canRefresh, canActivate, newId).0)
  {
    var r := AddStatusEffect(list, isAuthority, cls, canRefresh, canActivate, newId);
    if r.1.Created? {
      var l := r.0;
      forall i, j | 0 <= i < j < |l| && l[i].Some? && l[j].Some?
        && !l[i].value.pendingKill && !l[j].value.pendingKill
        ensures l[i].value.cls != l[j].value.cls
      {
        if j == |list| {
          assert !IsLiveOfClass(list[i], cls.value);
        }
      }
    }
  }

  /** `OnStatusEffectRemoved`: removes the effect and any null entries. */
  function OnStatusEffectRemoved(list: seq<Option<EffectRef>>, e: EffectRef): (r: seq<Option<EffectRef>>)
    ensures Some(e) !in r && None !in r
    ensures forall x :: x in r <==> x in list && x != Some(e) && x.Some?
  {
    RemoveAll(RemoveAll(list, Some(e)), None)
  }
}

=== FILE: status_effect.dfy ===
/**
 * Status effects (`UStatusEffectBase`, `UStatusEffectBasic`,
 * `UStatusEffectStack`): the stat-modifier map an effect applies to its owner,
 * the power rules of basic effects, the stack count of stack effects, and the
 * guard that makes deactivation happen once.
 */
module StatusEffect {
  import opened Common

  /** `EStatusEffectStatModifier`. */
  datatype StatKind = MovementSpeed | RotationRate | DamageTaken | DamageDealt
                    | StatusPowerTaken | StatusPowerDealt | ActionDisabled

  /** `StatusModificationMap`, keyed by stat with the modifier value. */
  type ModifierMap = map<StatKind, real>

  /** `GetStatModifier`: the stored modifier, or the neutral 1. */
  function GetStatModifier(m: ModifierMap, stat: StatKind): (r: real)
    ensures stat !in m ==> r == 1.0
    ensures stat in m ==> r == m[stat]
  {
    if stat in m then m[stat] else 1.0
  }

  /**
   * `SetStatModifier`: nothing without an owning status component. An
   * existing entry set to the neutral 1 is removed, otherwise overwritten;
   * a new stat always gets an entry, even for 1. Other stats are untouched.
   */
  function SetStatModifier(m: ModifierMap, hasOwner: bool, stat: StatKind, value: real): (r: ModifierMap)
    ensures !hasOwner ==> r == m
    ensures hasOwner && stat in m && value == 1.0 ==> stat !in r
    ensures hasOwner && !(stat in m && value == 1.0) ==> stat in r && r[stat] == value
    ensures forall s :: s != stat ==> (s in r <==> s in m) && (s in r ==> r[s] == m[s])
  {
    if !hasOwner then m
    else if stat in m then (if value == 1.0 then m - {stat} else m[stat := value])
    else m[stat := value]
  }

  /** Whatever `SetStatModifier` stored, `GetStatModifier` reads it back; in
   *  particular removing an entry on 1 is invisible to readers. */
  lemma SetThenGetStatModifier(m: ModifierMap, stat: StatKind, value: real, other: StatKind)
    requires other != stat
    ensures GetStatModifier(SetStatModifier(m, true, stat, value), stat) == value
    ensures GetStatModifier(SetStatModifier(m, true, stat, value), other) == GetStatModifier(m, other)
  {
  }

  /** `ClearStatModifiers`: unbinds every entry and empties the map. */
  function ClearStatModifiers(m: ModifierMap): (r: ModifierMap)
    ensures forall s :: GetStatModifier(r, s) == 1.0
    ensures |r| == 0
  {
    map[]
  }

  /* ---------------------------------------------------------------------- */
  /* Basic effects                                                          */
  /* ---------------------------------------------------------------------- */

  /** `EBasicStatusEffectType`. */
  datatype BasicType = Instant | Cumulative

  /** The power state of a basic effect: `CurrentPower` and the
   *  `EffectPowerRange` (x = requirement, y = maximum). */
  datatype BasicEffect = BasicEffect(effectType: BasicType, currentPower: real,
                                     rangeX: real, rangeY: real, powerDecayRate: real)

  /** `CanActivateStatus`: a cumulative class default object always can;
   *  otherwise (the cumulative case falls through) the power must reach the
   *  requirement. */
  predicate CanActivateStatus(e: BasicEffect, isClassDefault: bool, power: real)
  {
    match e.effectType
    case Cumulative => isClassDefault || power >= e.rangeX
    case Instant => power >= e.rangeX
  }

  /** `CanRefreshStatus`: cumulative effects always refresh; instant ones
   *  only when the power could activate them. */
  predicate CanRefreshStatus(e: BasicEffect, isClassDefault: bool, power: real)
  {
    match e.effectType
    case Cumulative => true
    case Instant => CanActivateStatus(e, isClassDefault, power)
  }

  /** The refresh rule, stated for both effect types. */
  lemma RefreshRule(e: BasicEffect, power: real)
    ensures e.effectType.Cumulative? ==> CanRefreshStatus(e, false, power)
    ensures e.effectType.Instant? ==> (CanRefreshStatus(e, false, power) <==> power >= e.rangeX)
    ensures CanActivateStatus(e, false, power) <==> power >= e.rangeX
  {
  }

  /**
   * `AddEffectPower` of a basic effect: an instant effect keeps the larger
   * of its power and the new power capped at the maximum; a cumulative one
   * adds and caps the sum at the maximum.
   */
  function AddEffectPower(e: BasicEffect, power: real): (r: BasicEffect)
    ensures r.(currentPower := e.currentPower) == e
    ensures e.effectType.Instant? ==> r.currentPower >= e.currentPower
    ensures e.effectType.Instant? ==> r.currentPower == e.currentPower || r.currentPower == MinR(power, e.rangeY)
    ensures e.effectType.Cumulative? ==> r.currentPower <= e.rangeY
    ensures e.effectType.Cumulative? && e.currentPower + power <= e.rangeY ==> r.currentPower == e.currentPower + power
    ensures e.currentPower <= e.rangeY ==> r.currentPower <= e.rangeY
  {
    match e.effectType
    case Instant => e.(currentPower := MaxR(e.currentPower, MinR(power, e.rangeY)))
    case Cumulative => e.(currentPower := MinR(e.currentPower + power, e.rangeY))
  }

  /** Adding the same power twice to an instant effect changes nothing the
   *  second time; cumulative effects with non-negative power never lose
   *  power below the cap. */
  lemma AddEffectPowerFacts(e: BasicEffect, p: real)
    ensures e.effectType.Instant? ==> AddEffectPower(AddEffectPower(e, p), p) == AddEffectPower(e, p)
    ensures e.effectType.Cumulative? && p >= 0.0 && e.currentPower <= e.rangeY ==>
      AddEffectPower(e, p).currentPower >= e.currentPower
  {
  }

  /** `GetPowerPercent`: how far the power is between the requirement and the
   *  maximum, clamped to [0, 1]. The range must not be empty (the source
   *  would divide by zero). */
  function GetPowerPercent(e: BasicEffect): (r: real)
    requires e.rangeY != e.rangeX
    ensures 0.0 <= r <= 1.0
    ensures e.rangeX < e.rangeY && e.rangeX <= e.currentPower <= e.rangeY ==>
      r * (e.rangeY - e.rangeX) == e.currentPower - e.rangeX
    ensures e.rangeX < e.rangeY && e.currentPower <= e.rangeX ==> r == 0.0
    ensures e.rangeX < e.rangeY && e.currentPower >= e.rangeY ==> r == 1.0
  {
    var q := (e.currentPower - e.rangeX) / (e.rangeY - e.rangeX);
    if e.rangeX < e.rangeY then
      FractionOfRange(e.currentPower - e.rangeX, e.rangeY - e.rangeX);
      ClampR(q, 0.0, 1.0)
    else
      ClampR(q, 0.0, 1.0)
  }

  /** Dividing by a positive span: the quotient times the span gives the
   *  numerator back, and the quotient is at most 0 or at least 1 exactly
   *  when the numerator is at most 0 or at least the span. */
  lemma FractionOfRange(a: real, b: real)
    requires b > 0.0
    ensures (a / b) * b == a
    ensures a <= 0.0 ==> a / b <= 0.0
    ensures a >= b ==> a / b >= 1.0
    ensures 0.0 <= a <= b ==> 0.0 <= a / b <= 1.0
  {
    var q := a / b;
    assert q * b == a;
    if q > 0.0 {
      PositiveProduct(q, b);
    }
    if q < 1.0 {
      PositiveProduct(1.0 - q, b);
    }
    if q < 0.0 {
      PositiveProduct(-q, b);
    }
    if q > 1.0 {
      PositiveProduct(q - 1.0, b);
    }
  }

  lemma PositiveProduct(x: real, y: real)
    requires x > 0.0 && y > 0.0
    ensures x * y > 0.0
  {
  }

  /** The decay step of `Tick`: while the decay-delay timer is not active the
   *  power drops by rate times delta, never below zero. */
  function TickDecay(e: BasicEffect, deltaTime: real, decayTimerActive: bool): (r: BasicEffect)
    ensures decayTimerActive ==> r == e
    ensures !decayTimerActive ==> r.currentPower >= 0.0
    ensures e.powerDecayRate * deltaTime >= 0.0 && e.currentPower >= 0.0 ==> r.currentPower <= e.currentPower
    ensures r.(currentPower := e.currentPower) == e
  {
    if decayTimerActive then e
    else e.(currentPower := MaxR(e.currentPower - e.powerDecayRate * deltaTime, 0.0))
  }

  /* ---------------------------------------------------------------------- */
  /* Lifecycle                                                              */
  /* ---------------------------------------------------------------------- */

  /** What deactivation touches: the owner (`IsInitialized` is owner != null),
   *  the pending-kill flag, the modifier map and the end broadcasts made. */
  datatype Lifecycle = Lifecycle(owner: Option<nat>, pendingKill: bool, modifiers: ModifierMap, endBroadcasts: nat)

  predicate IsInitialized(l: Lifecycle) { l.owner.Some? }

  /**
   * `OnDeactivated`: returns early when uninitialised or already pending
   * kill; otherwise broadcasts the end once, clears the modifiers, drops the
   * owner and marks the effect pending kill.
   */
  function OnDeactivated(l: Lifecycle): (r: Lifecycle)
    ensures !IsInitialized(l) || l.pendingKill ==> r == l
    ensures IsInitialized(l) && !l.pendingKill ==>
      r.endBroadcasts == l.endBroadcasts + 1 && |r.modifiers| == 0
    ensures !IsInitialized(r) || r.pendingKill
  {
    if !IsInitialized(l) || l.pendingKill then l
    else Lifecycle(None, true, ClearStatModifiers(l.modifiers), l.endBroadcasts + 1)
  }

  /** Deactivating twice is deactivating once: the end is broadcast at most
   *  once. */
  lemma OnDeactivatedIdempotent(l: Lifecycle)
    ensures OnDeactivated(OnDeactivated(l)) == OnDeactivated(l)
    ensures OnDeactivated(OnDeactivated(l)).endBroadcasts <= l.endBroadcasts + 1
  {
  }

  /* ---------------------------------------------------------------------- */
  /* Stack effects                                                          */
  /* ---------------------------------------------------------------------- */

  /** `FMath::CeilToInt`. */
  function Ceil(x: real): (c: int)
    ensures (c - 1) as real < x <= c as real
  {
    -((-x).Floor)
  }

  /** `CurrentStackCount` (a uint8) and whether the effect is still
   *  active. */
  datatype StackEffect = StackEffect(initialized: bool, stackCount: int, active: bool)

  /** `Initialize` of a stack effect: once only; a positive power gives one
   *  stack per started unit of power, anything else a single stack. The
   *  count is stored in a uint8, so it wraps modulo 256: a power of 256
   *  starts with no stacks at all. */
  function InitializeStack(s: StackEffect, power: real): (r: StackEffect)
    ensures s.initialized ==> r == s
    ensures !s.initialized ==> r.initialized && r.active && IsUint8(r.stackCount)
    ensures !s.initialized && power > 0.0 ==> (r.stackCount - Ceil(power)) % 256 == 0
    ensures !s.initialized && 0.0 < power <= 255.0 ==>
      r.stackCount >= 1 && (r.stackCount - 1) as real < power <= r.stackCount as real
    ensures !s.initialized && power <= 0.0 ==> r.stackCount == 1
  {
    if s.initialized then s
    else StackEffect(true, if power > 0.0 then WrapU8(Ceil(power)) else 1, true)
  }

  /** `OnStackExpired`: one stack is lost; the effect is refreshed while any
   *  remain and deactivated when the count reaches zero. The uint8
   *  decrement wraps, so an effect active with no stacks goes to 255. */
  function OnStackExpired(s: StackEffect): (r: StackEffect)
    requires s.active
    ensures IsUint8(r.stackCount)
    ensures 1 <= s.stackCount <= 255 ==> r.stackCount == s.stackCount - 1
    ensures s.stackCount == 0 ==> r.stackCount == 255
    ensures r.active <==> r.stackCount > 0
    ensures r.initialized == s.initialized
  {
    var count := WrapU8(s.stackCount - 1);
    s.(stackCount := count, active := count > 0)
  }

  /** `k` stack expiries in a row, stopping at deactivation. */
  function ExpireTimes(s: StackEffect, k: nat): (r: StackEffect)
    decreases k
  {
    if k == 0 || !s.active then s else ExpireTimes(OnStackExpired(s), k - 1)
  }

  /** An active stack of `n` stacks survives exactly `n - 1` expiries: it is
   *  still active after `k` of them iff `k < n`. */
  lemma {:induction false} StackSurvivesCount(s: StackEffect, k: nat)
    requires s.active && 1 <= s.stackCount <= 255
    ensures ExpireTimes(s, k).active <==> k < s.stackCount
    ensures k <= s.stackCount ==> ExpireTimes(s, k).stackCount == s.stackCount - k
    decreases k
  {
    if k > 0 {
      var next := OnStackExpired(s);
      if next.active {
        StackSurvivesCount(next, k - 1);
      }
    }
  }

  /** How many expiries a freshly initialised stack effect of positive
   *  power lasts: one per started unit of power, counted modulo 256, with
   *  a count of zero lasting a full 256 because the decrement wraps. Up to
   *  a power of 255 this is the number of started units. */
  function StackLifetime(power: real): (n: int)
    requires power > 0.0
    ensures 1 <= n <= 256
    ensures power <= 255.0 ==> n == Ceil(power)
  {
    (Ceil(power) - 1) % 256 + 1
  }

  /** A freshly initialised stack effect of positive power is still active
   *  after `k` expiries exactly when `k` is below its lifetime. */
  lemma {:induction false} StackLifetimeExact(s: StackEffect, power: real, k: nat)
    requires !s.initialized && power > 0.0
    ensures ExpireTimes(InitializeStack(s, power), k).active <==> k < StackLifetime(power)
  {
    var r := InitializeStack(s, power);
    var c := Ceil(power);
    if r.stackCount >= 1 {
      assert (c - 1) % 256 == r.stackCount - 1;
      StackSurvivesCount(r, k);
    } else {
      assert (c - 1) % 256 == 255;
      if k > 0 {
        var next := OnStackExpired(r);
        StackSurvivesCount(next, k - 1);
      }
    }
  }

  /** A power of 300 starts 44 stacks, not 300. */
  lemma StackCountWrapsAt256()
    ensures InitializeStack(StackEffect(false, 0, false), 300.0).stackCount == 44
    ensures InitializeStack(StackEffect(false, 0, false), 256.0).stackCount == 0
    ensures StackLifetime(256.0) == 256 && StackLifetime(300.0) == 44
  {
    assert Ceil(300.0) == 300;
    assert Ceil(256.0) == 256;
  }
}

=== FILE: teams.dfy ===
/**
 * Teams: the project's team attitude solver, installed as the engine's
 * `FGenericTeamId` solver, and the mapping between the `ETeam` enum and the
 * engine's team id byte.
 */
module Teams {
  import opened Common

  /** `ETeamAttitude::Type`. */
  datatype Attitude = Friendly | Neutral | Hostile

  /** `CoreTeamAttitudeSolver`: hostile when the first team is "no team" or
   *  the teams differ, friendly otherwise. */
  function Solver(a: int, b: int): (r: Attitude)
    ensures r != Neutral
    ensures r == Friendly <==> a == b && a != NoTeamId
  {
    if a == NoTeamId || a != b then Hostile else Friendly
  }

  /** The solver is symmetric, and "no team" is hostile to everyone,
   *  itself included. */
  lemma SolverSymmetric(a: int, b: int)
    ensures Solver(a, b) == Solver(b, a)
    ensures Solver(NoTeamId, b) == Hostile && Solver(a, NoTeamId) == Hostile
    ensures a != NoTeamId ==> Solver(a, a) == Friendly
  {
  }

  /** `ETeam`. */
  datatype Team = Alpha | Bravo | Charlie | Delta | Epsilon | IncursionTeam | NoTeam

  /** The enum's byte value. */
  function TeamByte(t: Team): (b: int)
    ensures IsUint8(b)
    ensures t == NoTeam <==> b == NoTeamId
  {
    match t
    case Alpha => 0
    case Bravo => 1
    case Charlie => 2
    case Delta => 3
    case Epsilon => 4
    case IncursionTeam => 254
    case NoTeam => 255
  }

  /** `GetGenericTeamIdFromTeamEnum`: each named team's constant, which
   *  carries the enum's byte; `NoTeam` gives the engine's "no team". */
  function GenericTeamIdOf(t: Team): (id: int)
    ensures IsUint8(id)
    ensures id == TeamByte(t)
  {
    match t
    case NoTeam => NoTeamId
    case _ => TeamByte(t)
  }

  /** `GetTeamEnumFromGenericTeamId`: the id reinterpreted as the enum; bytes
   *  without a named value give `None`. */
  function TeamOfGenericTeamId(id: int): (t: Option<Team>)
    ensures t.Some? ==> TeamByte(t.value) == id
    ensures t.None? ==> forall x: Team :: TeamByte(x) != id
  {
    if id == 0 then Some(Alpha)
    else if id == 1 then Some(Bravo)
    else if id == 2 then Some(Charlie)
    else if id == 3 then Some(Delta)
    else if id == 4 then Some(Epsilon)
    else if id == 254 then Some(IncursionTeam)
    else if id == 255 then Some(NoTeam)
    else None
  }

  /** Enum to id and back is the identity on every team, and two teams
   *  never share an id. */
  lemma TeamIdRoundTrip(t: Team, u: Team)
    ensures TeamOfGenericTeamId(GenericTeamIdOf(t)) == Some(t)
    ensures GenericTeamIdOf(t) == GenericTeamIdOf(u) ==> t == u
  {
  }

  /** Members of the same named team are friends; different teams and
   *  "no team" are enemies. */
  lemma TeamAttitudes(t: Team, u: Team)
    ensures Solver(GenericTeamIdOf(t), GenericTeamIdOf(u)) == Friendly <==> t == u && t != NoTeam
  {
    TeamIdRoundTrip(t, u);
  }
}

=== FILE: trap.dfy ===
/**
 * `ATrapBase`: whether a trap may go on a placement actor, the claiming of
 * grid points when it is placed and their release when it is removed, and
 * the class default getters.
 */
module Trap {
  import opened Common
  import opened Handles
  import opened PlacementGrid
  import opened TrapCoins

  /* ---------------------------------------------------------------------- */
  /* Placement checks                                                       */
  /* ---------------------------------------------------------------------- */

  /** `EPlacementType` flag values: bit 0 is unused. */
  const FloorFlag: bv8 := 2
  const WallFlag: bv8 := 4
  const CeilingFlag: bv8 := 8

  /** `EPlacementResult`. */
  datatype PlacementResult = Success | InvalidLocation | InvalidPlacementType | NotEnoughFunds

  /** The placement type masks of a trap and a target have a flag in common. */
  predicate SharesFlag(trapType: bv8, targetType: bv8)
  {
    trapType & targetType != 0
  }

  /**
   * `CanPlaceTrapOnTarget`: a missing target or one with no placement flag
   * in common with the trap is the wrong type; an instigator whose player
   * state cannot afford the cost lacks funds; anything else succeeds.
   * `targetType` is the target's mask, `instigatorCoins` the purse of the
   * instigator's dungeon player state when there is one.
   */
  function CanPlaceTrapOnTarget(trapType: bv8, cost: int, targetType: Option<bv8>, instigatorCoins: Option<int>): (r: PlacementResult)
    ensures r != InvalidLocation
    ensures r == InvalidPlacementType <==> targetType.None? || !SharesFlag(trapType, targetType.value)
    ensures r == NotEnoughFunds <==>
      targetType.Some? && SharesFlag(trapType, targetType.value)
      && instigatorCoins.Some? && !HasEnoughTrapCoins(instigatorCoins.value, cost)
  {
    if targetType.None? || !SharesFlag(trapType, targetType.value) then InvalidPlacementType
    else if instigatorCoins.Some? && !HasEnoughTrapCoins(instigatorCoins.value, cost) then NotEnoughFunds
    else Success
  }

  /** The flag masks: a trap allowed on a surface fits a target of that
   *  surface and not one of another; a trap with no flag fits nothing; and
   *  allowing one more surface never turns an accepted target away. */
  lemma PlacementTypeMatching(trapType: bv8, targetType: bv8, extra: bv8)
    ensures SharesFlag(FloorFlag, FloorFlag) && !SharesFlag(FloorFlag, WallFlag) && !SharesFlag(WallFlag, CeilingFlag)
    ensures !SharesFlag(0, targetType)
    ensures SharesFlag(trapType, targetType) ==> SharesFlag(trapType | extra, targetType)
    ensures SharesFlag(trapType, targetType) <==> SharesFlag(targetType, trapType)
  {
  }

  /** A successful check with a purse leaves a purse that can pay the cost
   *  without being clamped. */
  lemma SuccessIsAffordable(trapType: bv8, cost: int, targetType: bv8, coins: int)
    requires IsInt32(coins) && IsInt32(cost) && cost > 0
    requires CanPlaceTrapOnTarget(trapType, cost, Some(targetType), Some(coins)) == Success
    ensures RemoveTrapCoins(coins, cost) == coins - cost
  {
  }

  /* ---------------------------------------------------------------------- */
  /* Occupancy                                                              */
  /* ---------------------------------------------------------------------- */

  /** `OccupiedPlacementActor` and `OccupiedHandleList`. */
  datatype Occupancy = Occupancy(actor: Option<nat>, handles: seq<int>)

  const Unoccupied: Occupancy := Occupancy(None, [])

  /** The cell `(i, j)` lies in the inclusive rectangle `[bl, tr]`. */
  predicate InRect(bl: Coords, tr: Coords, i: int, j: int)
  {
    bl.x <= i <= tr.x && bl.y <= j <= tr.y
  }

  /** `g` and `g0` have the same rows, row lengths, handles and map; only
   *  occupants may differ. */
  predicate SameLayout(g: Grid, g0: Grid)
  {
    && |g.rows| == |g0.rows|
    && (forall j :: 0 <= j < |g.rows| ==> |g.rows[j]| == |g0.rows[j]|)
    && (forall j, i :: 0 <= j < |g.rows| && 0 <= i < |g.rows[j]| ==> g.rows[j][i].handle == g0.rows[j][i].handle)
    && g.handleMap == g0.handleMap && g.hasRootTransform == g0.hasRootTransform && g.cachedSizeX == g0.cachedSizeX
  }

  /** The handles of the valid points `startX .. x - 1` of row `j`, left to
   *  right. */
  function RowHandles(g: Grid, j: int, startX: int, x: int): seq<int>
    decreases x - startX
  {
    if x <= startX then []
    else RowHandles(g, j, startX, x - 1) + (if Contains(g, Coords(x - 1, j)) then [Get(g, Coords(x - 1, j)).handle] else [])
  }

  /** The handles of the valid points of rows `bl.y .. y - 1` of the
   *  rectangle, row by row from the bottom. */
  function RectHandles(g: Grid, bl: Coords, tr: Coords, y: int): seq<int>
    decreases y - bl.y
  {
    if y <= bl.y then []
    else RectHandles(g, bl, tr, y - 1) + RowHandles(g, y - 1, bl.x, tr.x + 1)
  }

  /** The occupant a cell has after the trap `self` claimed the cells of
   *  the rectangle scanned so far: rows below `y`, and row `y` left of `x`. */
  predicate Claimed(g0: Grid, bl: Coords, tr: Coords, y: int, x: int, j: int, i: int)
    requires 0 <= j < |g0.rows| && 0 <= i < |g0.rows[j]|
  {
    IsValidPoint(g0.rows[j][i]) && bl.x <= i <= tr.x && ((bl.y <= j < y) || (j == y && i < x))
  }

  /** The outcome of claiming the rectangle on a valid grid: the handles of
   *  its valid points in scan order, and those points, and only those,
   *  occupied by `self`. */
  predicate ClaimedRectangle(g: Grid, bl: Coords, tr: Coords, self: nat, handles: seq<int>, g': Grid)
  {
    && SameLayout(g', g)
    && handles == RectHandles(g, bl, tr, tr.y + 1)
    && forall j, i :: 0 <= j < |g.rows| && 0 <= i < |g.rows[j]| ==>
         g'.rows[j][i].occupant == (if IsValidPoint(g.rows[j][i]) && InRect(bl, tr, i, j) then Some(self) else g.rows[j][i].occupant)
  }

  /** Two equal-shaped grids agree on containment and handles. */
  lemma SameLayoutAgrees(g: Grid, g0: Grid, c: Coords)
    requires SameLayout(g, g0)
    ensures Contains(g, c) <==> Contains(g0, c)
    ensures Contains(g, c) ==> Get(g, c).handle == Get(g0, c).handle
  {
  }

  /** The scan state: `g'` is `g` with the points scanned so far claimed by
   *  `self`. */
  predicate ClaimedUpTo(g': Grid, g: Grid, bl: Coords, tr: Coords, y: int, x: int, self: nat)
  {
    && SameLayout(g', g)
    && forall j, i :: 0 <= j < |g.rows| && 0 <= i < |g.rows[j]| ==>
         g'.rows[j][i].occupant == (if Claimed(g, bl, tr, y, x, j, i) then Some(self) else g.rows[j][i].occupant)
  }

  /** One step of the scan: the point at `(x, y)` is claimed when it is
   *  valid. */
  lemma ClaimCell(g': Grid, g: Grid, bl: Coords, tr: Coords, y: int, x: int, self: nat)
    requires bl.x <= x <= tr.x && bl.y <= y <= tr.y
    requires ClaimedUpTo(g', g, bl, tr, y, x, self)
    ensures IsUsable(g', Coords(x, y), false) <==> Contains(g, Coords(x, y))
    ensures IsUsable(g', Coords(x, y), false) ==>
      ClaimedUpTo(GridSetOccupant(g', x, y, Some(self)).0, g, bl, tr, y, x + 1, self)
      && Get(GridSetOccupant(g', x, y, Some(self)).0, Coords(x, y)).handle == Get(g, Coords(x, y)).handle
    ensures !IsUsable(g', Coords(x, y), false) ==> ClaimedUpTo(g', g, bl, tr, y, x + 1, self)
  {
    SameLayoutAgrees(g', g, Coords(x, y));
  }

  /** A finished row hands over to the next one. */
  lemma NextRow(g': Grid, g: Grid, bl: Coords, tr: Coords, y: int, x: int, self: nat)
    requires x == bl.x || x == tr.x + 1
    requires x == bl.x ==> tr.x < bl.x
    requires bl.y <= y
    requires ClaimedUpTo(g', g, bl, tr, y, x, self)
    ensures ClaimedUpTo(g', g, bl, tr, y + 1, bl.x, self)
    ensures RowHandles(g, y, bl.x, x) == RowHandles(g, y, bl.x, tr.x + 1)
  {
  }

  /** Once every row is scanned, the claimed points are the rectangle's
   *  valid points. */
  lemma ScanComplete(g': Grid, g: Grid, bl: Coords, tr: Coords, y: int, self: nat)
    requires y == bl.y || y == tr.y + 1
    requires y == bl.y ==> tr.y < bl.y
    requires ClaimedUpTo(g', g, bl, tr, y, bl.x, self)
    ensures forall j, i :: 0 <= j < |g.rows| && 0 <= i < |g.rows[j]| ==>
      g'.rows[j][i].occupant == (if IsValidPoint(g.rows[j][i]) && InRect(bl, tr, i, j) then Some(self) else g.rows[j][i].occupant)
    ensures RectHandles(g, bl, tr, y) == RectHandles(g, bl, tr, tr.y + 1)
  {
    forall j, i | 0 <= j < |g.rows| && 0 <= i < |g.rows[j]|
      ensures Claimed(g, bl, tr, y, bl.x, j, i) <==> IsValidPoint(g.rows[j][i]) && InRect(bl, tr, i, j)
    {
    }
  }

  /**
   * `SetOccupancy`: a missing target, or a trap already occupying a target,
   * changes nothing. Otherwise the trap records the target and clears its
   * handle list; on an invalid grid it stops there. On a valid grid every
   * valid point of the inclusive rectangle `[bl, tr]` gets the trap `self`
   * as occupant and its handle is recorded, rows bottom to top and points
   * left to right; nothing else changes.
   */
  method SetOccupancy(occ: Occupancy, target: Option<nat>, g: Grid, bl: Coords, tr: Coords, self: nat)
    returns (r: Occupancy, g': Grid)
    ensures target.None? || occ.actor.Some? ==> r == occ && g' == g
    ensures target.Some? && occ.actor.None? ==> r.actor == target
    ensures target.Some? && occ.actor.None? && !g.hasRootTransform ==> r.handles == [] && g' == g
    ensures SameLayout(g', g)
    ensures target.Some? && occ.actor.None? && g.hasRootTransform ==> ClaimedRectangle(g, bl, tr, self, r.handles, g')
  {
    if target.None? || occ.actor.Some? {
      return occ, g;
    }
    r := Occupancy(target, []);
    g' := g;
    if !g.hasRootTransform {
      return;
    }
    var handles: seq<int> := [];
    var y := bl.y;
    while y <= tr.y
      invariant y == bl.y || bl.y <= y <= tr.y + 1
      invariant handles == RectHandles(g, bl, tr, y)
      invariant ClaimedUpTo(g', g, bl, tr, y, bl.x, self)
      decreases tr.y + 1 - y
    {
      var x := bl.x;
      while x <= tr.x
        invariant x == bl.x || bl.x <= x <= tr.x + 1
        invariant handles == RectHandles(g, bl, tr, y) + RowHandles(g, y, bl.x, x)
        invariant ClaimedUpTo(g', g, bl, tr, y, x, self)
        decreases tr.x + 1 - x
      {
        var c := Coords(x, y);
        ClaimCell(g', g, bl, tr, y, x, self);
        if IsUsable(g', c, false) {
          var (next, _) := GridSetOccupant(g', x, y, Some(self));
          g' := next;
          handles := handles + [Get(g', c).handle];
        }
        x := x + 1;
      }
      NextRow(g', g, bl, tr, y, x, self);
      y := y + 1;
    }
    ScanComplete(g', g, bl, tr, y, self);
    r := r.(handles := handles);
  }

  /** A handle map that names exactly the grid's valid points: every entry
   *  leads to a valid point holding that handle, and every valid point's
   *  handle leads back to it. */
  predicate MapExact(g: Grid)
  {
    && MapSound(g.handleMap, g.rows)
    && forall j, i :: 0 <= j < |g.rows| && 0 <= i < |g.rows[j]| && IsValidPoint(g.rows[j][i]) ==>
         g.rows[j][i].handle in g.handleMap && g.handleMap[g.rows[j][i].handle] == Coords(i, j)
  }

  /** `RecalculateHandleMap` produces an exact map when handles are unique. */
  lemma RecalculatedMapIsExact(g: Grid)
    requires UniqueHandles(g.rows)
    ensures MapExact(RecalculateHandleMap(g))
  {
    HandleMapExact(g);
  }

  /** The release loop of `RevokeOccupancy`: each recorded handle's point
   *  loses its occupant, in list order. */
  function ClearHandles(g: Grid, handles: seq<int>): Grid
    decreases |handles|
  {
    if |handles| == 0 then g
    else ClearHandles(ClearOccupantByHandle(g, handles[0]).0, handles[1..])
  }

  /** With an exact map, clearing a handle empties exactly the valid point
   *  holding it. */
  lemma ClearOneExact(g: Grid, h: int)
    requires MapExact(g)
    ensures SameLayout(ClearOccupantByHandle(g, h).0, g)
    ensures var g' := ClearOccupantByHandle(g, h).0;
      forall j, i :: 0 <= j < |g.rows| && 0 <= i < |g.rows[j]| ==>
        g'.rows[j][i].occupant == (if IsValidPoint(g.rows[j][i]) && g.rows[j][i].handle == h then None else g.rows[j][i].occupant)
  {
  }

  /** Clearing a list of handles empties exactly the points holding
   *  them. */
  lemma {:induction false} ClearHandlesExact(g: Grid, handles: seq<int>)
    requires MapExact(g)
    ensures SameLayout(ClearHandles(g, handles), g)
    ensures var g' := ClearHandles(g, handles);
      forall j, i :: 0 <= j < |g.rows| && 0 <= i < |g.rows[j]| ==>
        g'.rows[j][i].occupant == (if IsValidPoint(g.rows[j][i]) && g.rows[j][i].handle in handles then None else g.rows[j][i].occupant)
    decreases |handles|
  {
    if |handles| > 0 {
      var g1 := ClearOccupantByHandle(g, handles[0]).0;
      ClearOneExact(g, handles[0]);
      assert MapExact(g1);
      ClearHandlesExact(g1, handles[1..]);
      assert forall h :: h in handles <==> h == handles[0] || h in handles[1..];
    }
  }

  /**
   * `RevokeOccupancy`: without an occupied target, or on an invalid grid,
   * only the bookkeeping is reset; otherwise every recorded handle is
   * cleared on the target's grid first.
   */
  function RevokeOccupancy(occ: Occupancy, g: Grid): (r: (Occupancy, Grid))
    ensures r.0 == Unoccupied
    ensures occ.actor.None? || !g.hasRootTransform ==> r.1 == g
    ensures occ.actor.Some? && g.hasRootTransform ==> r.1 == ClearHandles(g, occ.handles)
  {
    if occ.actor.None? || !g.hasRootTransform then (Unoccupied, g)
    else (Unoccupied, ClearHandles(g, occ.handles))
  }

  /** A handle is recorded for the rectangle exactly when a valid point of
   *  the rectangle holds it. */
  lemma {:induction false} RowHandlesMembers(g: Grid, j: int, startX: int, x: int, h: int)
    ensures h in RowHandles(g, j, startX, x) <==>
      exists i :: startX <= i < x && Contains(g, Coords(i, j)) && Get(g, Coords(i, j)).handle == h
    decreases x - startX
  {
    if x > startX {
      RowHandlesMembers(g, j, startX, x - 1, h);
    }
  }

  /** A handle is recorded exactly when a valid point of the rectangle
   *  holds it. */
  lemma {:induction false} RectHandlesMembers(g: Grid, bl: Coords, tr: Coords, y: int, h: int)
    ensures h in RectHandles(g, bl, tr, y) <==>
      exists j, i :: bl.y <= j < y && bl.x <= i <= tr.x && Contains(g, Coords(i, j)) && Get(g, Coords(i, j)).handle == h
    decreases y - bl.y
  {
    if y > bl.y {
      RectHandlesMembers(g, bl, tr, y - 1, h);
      RowHandlesMembers(g, y - 1, bl.x, tr.x + 1, h);
    }
  }

  /** Grids whose rows agree point by point are equal. */
  lemma RowsEqual(a: seq<Row>, b: seq<Row>)
    requires |a| == |b| && (forall j :: 0 <= j < |a| ==> |a[j]| == |b[j]|)
    requires forall j, i :: 0 <= j < |a| && 0 <= i < |a[j]| ==> a[j][i] == b[j][i]
    ensures a == b
  {
    forall j | 0 <= j < |a|
      ensures a[j] == b[j]
    {
    }
  }

  /**
   * Placing a trap on free points and removing it again restores the grid:
   * with an exact handle map, the handles recorded by `SetOccupancy` are
   * precisely those of the points it claimed, so `RevokeOccupancy` empties
   * those points and no others.
   */
  lemma SetThenRevokeRestores(g: Grid, bl: Coords, tr: Coords, self: nat, placed: Occupancy, g1: Grid)
    requires MapExact(g) && g.hasRootTransform
    requires forall j, i :: 0 <= j < |g.rows| && 0 <= i < |g.rows[j]| && InRect(bl, tr, i, j) ==> !IsOccupied(g.rows[j][i])
    requires placed.actor.Some? && ClaimedRectangle(g, bl, tr, self, placed.handles, g1)
    ensures RevokeOccupancy(placed, g1) == (Unoccupied, g)
  {
    assert MapExact(g1);
    var restored := RevokeOccupancy(placed, g1).1;
    ClearHandlesExact(g1, placed.handles);
    forall j, i | 0 <= j < |g.rows| && 0 <= i < |g.rows[j]|
      ensures restored.rows[j][i] == g.rows[j][i]
    {
      var p := g.rows[j][i];
      if IsValidPoint(p) {
        RectHandlesMembers(g, bl, tr, tr.y + 1, p.handle);
        if p.handle in placed.handles {
          var j', i' :| bl.y <= j' < tr.y + 1 && bl.x <= i' <= tr.x && Contains(g, Coords(i', j'))
                        && Get(g, Coords(i', j')).handle == p.handle;
          assert (j', i') == (j, i);
        } else {
          assert !InRect(bl, tr, i, j);
        }
      }
    }
    RowsEqual(restored.rows, g.rows);
  }

  /* ---------------------------------------------------------------------- */
  /* Class defaults                                                         */
  /* ---------------------------------------------------------------------- */

  /** The defaults of a trap class: `Cost` (100 unless overridden) and
   *  `RefundCost` (50). */
  datatype TrapClass = TrapClass(cost: int, refundCost: int)

  const DefaultTrapClass: TrapClass := TrapClass(100, 50)

  /** `GetCostForClass`: the class default's cost, or `INDEX_NONE` without
   *  a class. */
  function GetCostForClass(cls: Option<TrapClass>): (r: int)
    ensures cls.None? ==> r == IndexNone
    ensures cls.Some? ==> r == cls.value.cost
  {
    if cls.Some? then cls.value.cost else IndexNone
  }

  /** `GetRefundCostIconForClass`: the class default's refund, or
   *  `INDEX_NONE` without a class. */
  function GetRefundCostForClass(cls: Option<TrapClass>): (r: int)
    ensures cls.None? ==> r == IndexNone
    ensures cls.Some? ==> r == cls.value.refundCost
  {
    if cls.Some? then cls.value.refundCost else IndexNone
  }
}

=== FILE: trap_coins.dfy ===
/**
 * `ADungeonPlayerState`'s trap coin purse: a 32-bit count that deposits
 * and withdrawals leave alone for non-positive amounts, that withdrawals
 * and direct sets clamp at zero, and that decides affordability.
 */
module TrapCoins {
  import opened Common

  /** `AddTrapCoins`: a non-positive amount changes nothing; otherwise the
   *  amount is added with 32-bit wrap-around. */
  function AddTrapCoins(coins: int, amount: int): (r: int)
    requires IsInt32(coins) && IsInt32(amount)
    ensures IsInt32(r)
    ensures amount <= 0 ==> r == coins
    ensures amount > 0 && coins + amount <= MaxInt32 ==> r == coins + amount
    ensures amount > 0 && coins + amount > MaxInt32 ==> r == coins + amount - Pow32
  {
    if amount <= 0 then coins else WrapI32(coins + amount)
  }

  /** `RemoveTrapCoins`: a non-positive amount changes nothing; otherwise
   *  the amount is taken off and the purse floored at zero. */
  function RemoveTrapCoins(coins: int, amount: int): (r: int)
    requires IsInt32(coins) && IsInt32(amount)
    ensures IsInt32(r)
    ensures amount <= 0 ==> r == coins
    ensures amount > 0 ==> r >= 0
    ensures amount > 0 && coins - amount >= MinInt32 ==> r == Max(0, coins - amount)
  {
    if amount <= 0 then coins else Max(0, WrapI32(coins - amount))
  }

  /** `SetTrapCoins`: a negative amount is stored as zero. */
  function SetTrapCoins(amount: int): (r: int)
    requires IsInt32(amount)
    ensures IsInt32(r) && r >= 0
    ensures amount >= 0 <==> r == amount
  {
    Max(0, amount)
  }

  /** `HasEnoughTrapCoins`: the purse covers the cost. */
  predicate HasEnoughTrapCoins(coins: int, cost: int)
  {
    coins >= cost
  }

  /** A purse that starts at zero stays non-negative under withdrawals and
   *  sets, and under deposits that do not overflow. */
  lemma CoinsStayNonNegative(coins: int, amount: int)
    requires IsInt32(coins) && IsInt32(amount) && coins >= 0
    ensures RemoveTrapCoins(coins, amount) >= 0
    ensures SetTrapCoins(amount) >= 0
    ensures coins + amount <= MaxInt32 ==> AddTrapCoins(coins, amount) >= 0
  {
  }

  /** Withdrawing what was just deposited restores the purse, and an
   *  affordable positive cost is taken off exactly. */
  lemma DepositWithdrawRoundTrip(coins: int, amount: int)
    requires IsInt32(coins) && IsInt32(amount) && coins >= 0 && amount > 0
    ensures coins + amount <= MaxInt32 ==> RemoveTrapCoins(AddTrapCoins(coins, amount), amount) == coins
    ensures HasEnoughTrapCoins(coins, amount) <==> RemoveTrapCoins(coins, amount) == coins - amount
  {
  }
}

=== FILE: voice.dfy ===
/**
 * The voice command component and its voice data object: the priority of a
 * voice gameplay tag, the order of checks that decides whether a voice
 * request is accepted, the random draw from a sound wave container, the
 * load/unload guard on the containers, the voice menu's option input, and
 * what a successful voice command leaves behind (the current tag and the
 * cooldown). Gameplay tags are sequences of their dotted name segments.
 * The voice and cooldown timers are booleans ("timer active").
 */
module Voice {
  import opened Common

  /** A gameplay tag: `Voice.Alert.Help` is `["Voice", "Alert", "Help"]`;
   *  the empty tag is `[]`. */
  type Tag = seq<string>

  /** `EVoiceRequestResponse`. */
  datatype Response = Success | Ignored | Muted | Disabled | Invalid | Cooldown

  /** `EVoicePriority`, in declaration order. */
  datatype Priority = InvalidPriority | ReactionPassive | Reaction | ReactionHighPriority | VoiceCommand | ForcedVoiceCommand

  /** The enum's underlying value, which `<` compares. */
  function Rank(p: Priority): nat
  {
    match p
    case InvalidPriority => 0
    case ReactionPassive => 1
    case Reaction => 2
    case ReactionHighPriority => 3
    case VoiceCommand => 4
    case ForcedVoiceCommand => 5
  }

  // ---------------------------------------------------------------------
  // Tags and categories

  const VoiceParent: Tag := ["Voice"]

  const CommandCategories: set<Tag> :=
    {["Voice", "Alert"], ["Voice", "Assist"], ["Voice", "Direction"], ["Voice", "Insult"], ["Voice", "Response"]}
  const EventCategories: set<Tag> :=
    {["Voice", "Idle"], ["Voice", "Pain"], ["Voice", "Reaction"], ["Voice", "Status"]}
  const HighPriorityCategories: set<Tag> := {["Voice", "Status"], ["Voice", "Pain"]}
  const ReactionCategories: set<Tag> := {["Voice", "Reaction"]}
  const PassiveCategories: set<Tag> := {["Voice", "Idle"]}

  /** `RequestDirectParent`: drops the last segment; a one-segment tag and
   *  the empty tag have the empty tag as parent. */
  function DirectParent(tag: Tag): (r: Tag)
    ensures |tag| > 1 ==> r + [tag[|tag| - 1]] == tag
    ensures |tag| <= 1 ==> r == []
  {
    if |tag| <= 1 then [] else tag[..|tag| - 1]
  }

  /** `GetGameplayTagParents`: the tag and each of its ancestors. */
  function Parents(tag: Tag): set<Tag>
  {
    set k | 1 <= k <= |tag| :: tag[..k]
  }

  /** Whether the tag's parents contain `Voice`. */
  predicate InVoiceHierarchy(tag: Tag)
  {
    VoiceParent in Parents(tag)
  }

  /** A tag is in the Voice hierarchy exactly when its first segment is
   *  `Voice`. */
  lemma VoiceHierarchyIsFirstSegment(tag: Tag)
    ensures InVoiceHierarchy(tag) <==> |tag| > 0 && tag[0] == "Voice"
  {
    if |tag| > 0 && tag[0] == "Voice" {
      assert tag[..1] == VoiceParent;
    }
    if InVoiceHierarchy(tag) {
      var k :| 1 <= k <= |tag| && tag[..k] == VoiceParent;
      assert tag[0] == tag[..k][0];
    }
  }

  /** `IsVoiceCommand`. */
  predicate IsVoiceCommand(tag: Tag)
  {
    DirectParent(tag) in CommandCategories
  }

  /** `IsVoiceEvent`. */
  predicate IsVoiceEvent(tag: Tag)
  {
    DirectParent(tag) in EventCategories
  }

  /** `GetPriorityOfVoiceTag`: by the tag's direct parent, command
   *  categories first. Gameplay never reaches the forced priority through
   *  a tag. */
  function GetPriorityOfVoiceTag(tag: Tag): (r: Priority)
    ensures r != ForcedVoiceCommand
    ensures IsVoiceCommand(tag) <==> r == VoiceCommand
  {
    var parent := DirectParent(tag);
    if parent in CommandCategories then VoiceCommand
    else if parent in HighPriorityCategories then ReactionHighPriority
    else if parent in ReactionCategories then Reaction
    else if parent in PassiveCategories then ReactionPassive
    else InvalidPriority
  }

  /** A tag has a priority exactly when it is a voice command or a voice
   *  event; events rank strictly below commands; and every tag with a
   *  priority lies in the Voice hierarchy. */
  lemma PriorityFollowsCategory(tag: Tag)
    ensures GetPriorityOfVoiceTag(tag) != InvalidPriority <==> IsVoiceCommand(tag) || IsVoiceEvent(tag)
    ensures IsVoiceEvent(tag) ==> 1 <= Rank(GetPriorityOfVoiceTag(tag)) < Rank(VoiceCommand)
    ensures GetPriorityOfVoiceTag(tag) != InvalidPriority ==> InVoiceHierarchy(tag)
  {
    if GetPriorityOfVoiceTag(tag) != InvalidPriority {
      var parent := DirectParent(tag);
      assert |parent| == 2 && parent[0] == "Voice";
      assert tag[0] == parent[0];
      VoiceHierarchyIsFirstSegment(tag);
    }
  }

  // ---------------------------------------------------------------------
  // Sound wave containers and the voice data object

  /** A `USoundWaveContainer`: its id and its loaded sound waves. */
  datatype SoundWaveContainer = SoundWaveContainer(id: nat, loadedWaves: seq<nat>)

  /** The index `RoundToInt((n - 1) * random)` a container draws. The
   *  random stream yields values in `[0, 1]`, which keeps it in range. */
  function WaveIndex(n: nat, random: real): (r: int)
    requires n > 0 && 0.0 <= random <= 1.0
    ensures 0 <= r < n
    ensures random == 0.0 ==> r == 0
    ensures random == 1.0 ==> r == n - 1
  {
    var x := (n - 1) as real * random;
    assert x <= (n - 1) as real by {
      assert (n - 1) as real * random <= (n - 1) as real * 1.0;
    }
    assert random == 0.0 ==> x == 0.0;
    assert random == 1.0 ==> x == (n - 1) as real;
    RoundToInt(x)
  }

  /** `USoundWaveContainer::GetSoundWave`: nothing from an empty list,
   *  otherwise the wave at `WaveIndex`. */
  function ContainerSoundWave(c: SoundWaveContainer, random: real): (r: Option<nat>)
    requires 0.0 <= random <= 1.0
    ensures r.None? <==> |c.loadedWaves| == 0
    ensures r.Some? ==> r.value in c.loadedWaves
    ensures |c.loadedWaves| > 0 && random == 0.0 ==> r == Some(c.loadedWaves[0])
    ensures |c.loadedWaves| > 0 && random == 1.0 ==> r == Some(c.loadedWaves[|c.loadedWaves| - 1])
  {
    if |c.loadedWaves| == 0 then None
    else Some(c.loadedWaves[WaveIndex(|c.loadedWaves|, random)])
  }

  /** Every wave of a container can be drawn: the random value `i / (n-1)`
   *  selects wave `i`. */
  lemma EveryWaveReachable(c: SoundWaveContainer, i: nat)
    requires 1 < |c.loadedWaves| && i < |c.loadedWaves|
    ensures var random := i as real / (|c.loadedWaves| - 1) as real;
      0.0 <= random <= 1.0 && ContainerSoundWave(c, random) == Some(c.loadedWaves[i])
  {
    var d := (|c.loadedWaves| - 1) as real;
    var random := i as real / d;
    assert d * random == i as real;
    assert random <= 1.0 by {
      assert i as real <= d;
    }
    assert WaveIndex(|c.loadedWaves|, random) == i by {
      assert RoundToInt(i as real) == i;
    }
  }

  /** The parts of `UVoiceDataObject` the component reads: whether the
   *  sound wave maps may be ignored, the command and event maps (a null
   *  container is `None`), and whether the containers are loaded. */
  datatype VoiceData = VoiceData(
    ignoresSoundWaveMap: bool,
    commandMap: map<Tag, Option<SoundWaveContainer>>,
    eventMap: map<Tag, Option<SoundWaveContainer>>,
    loaded: bool)

  /** `IsValidVoiceTag`. */
  predicate IsValidVoiceTag(d: VoiceData, tag: Tag)
  {
    d.ignoresSoundWaveMap || tag in d.commandMap || tag in d.eventMap
  }

  /** `UVoiceDataObject::GetSoundWave`: the command map is consulted
   *  first, then the event map; a null container gives nothing. */
  function GetSoundWave(d: VoiceData, tag: Tag, random: real): (r: Option<nat>)
    requires 0.0 <= random <= 1.0
    ensures r.Some? ==> tag in d.commandMap || tag in d.eventMap
    ensures r.Some? && tag in d.commandMap ==>
      d.commandMap[tag].Some? && r.value in d.commandMap[tag].value.loadedWaves
    ensures r.Some? && tag !in d.commandMap ==>
      d.eventMap[tag].Some? && r.value in d.eventMap[tag].value.loadedWaves
  {
    if tag in d.commandMap then
      match d.commandMap[tag]
      case None => None
      case Some(c) => ContainerSoundWave(c, random)
    else if tag in d.eventMap then
      match d.eventMap[tag]
      case None => None
      case Some(c) => ContainerSoundWave(c, random)
    else None
  }

  /** A sound is only ever found for a valid voice tag; a tag both maps
   *  list is served from the command map. */
  lemma SoundOnlyForValidTag(d: VoiceData, tag: Tag, random: real)
    requires 0.0 <= random <= 1.0
    ensures GetSoundWave(d, tag, random).Some? ==> IsValidVoiceTag(d, tag)
    ensures tag in d.commandMap && d.commandMap[tag].Some? && |d.commandMap[tag].value.loadedWaves| > 0 ==>
      GetSoundWave(d, tag, random).Some?
  {
  }

  /** The ids of the non-null containers in both maps. */
  function Containers(d: VoiceData): set<nat>
  {
    (set t | t in d.commandMap && d.commandMap[t].Some? :: d.commandMap[t].value.id) +
    (set t | t in d.eventMap && d.eventMap[t].Some? :: d.eventMap[t].value.id)
  }

  /** `LoadSoundWaveContainers`: returns the data object afterwards and the
   *  containers asked to load. Guarded by the loaded flag. */
  function LoadSoundWaveContainers(d: VoiceData): (r: (VoiceData, set<nat>))
    ensures r.0.loaded
    ensures r.0.commandMap == d.commandMap && r.0.eventMap == d.eventMap
    ensures d.loaded ==> r.1 == {}
    ensures !d.loaded ==> r.1 == Containers(d)
  {
    if d.loaded then (d, {}) else (d.(loaded := true), Containers(d))
  }

  /** `UnloadSoundWaveContainers`: the mirror image, clearing the flag. */
  function UnloadSoundWaveContainers(d: VoiceData): (r: (VoiceData, set<nat>))
    ensures !r.0.loaded
    ensures r.0.commandMap == d.commandMap && r.0.eventMap == d.eventMap
    ensures !d.loaded ==> r.1 == {}
    ensures d.loaded ==> r.1 == Containers(d)
  {
    if !d.loaded then (d, {}) else (d.(loaded := false), Containers(d))
  }

  /** Loading twice loads nothing the second time, and unloading after
   *  loading unloads exactly the containers loaded and restores the data
   *  object. */
  lemma LoadUnloadRoundTrip(d: VoiceData)
    requires !d.loaded
    ensures var (d1, loadedIds) := LoadSoundWaveContainers(d);
      LoadSoundWaveContainers(d1) == (d1, {}) &&
      UnloadSoundWaveContainers(d1) == (d, loadedIds) &&
      UnloadSoundWaveContainers(d) == (d, {})
  {
  }

  // ---------------------------------------------------------------------
  // The voice command component

  /** The parts of `UVoiceCommandComponent` the request path reads.
   *  `hasDataClass` is `HasValidVoiceDataObject`; `performing` and
   *  `onCooldown` are whether the voice and cooldown timers are active. */
  datatype VoiceCommandState = VoiceCommandState(
    hasDataClass: bool,
    data: VoiceData,
    dedicatedServer: bool,
    authority: bool,
    onCooldown: bool,
    performing: bool,
    currentTag: Tag,
    menuOpen: bool)

  /** `IsMuted`: muting is not implemented. */
  predicate IsMuted(c: VoiceCommandState)
  {
    false
  }

  /** `CanRequestVoiceCommand` as written: the fourth check rejects a tag
   *  the voice data DOES have a sound for whenever the component is not
   *  on a dedicated server. */
  function CanRequestVoiceCommandAsWritten(c: VoiceCommandState, tag: Tag): (r: Response)
    ensures r != Muted && r != Disabled
    ensures c.onCooldown ==> r == Invalid || r == Cooldown
    ensures !c.dedicatedServer && c.hasDataClass && InVoiceHierarchy(tag) && IsValidVoiceTag(c.data, tag) ==> r == Invalid
  {
    if !c.hasDataClass then Invalid
    else if IsMuted(c) then Muted
    else if tag != [] && !InVoiceHierarchy(tag) then Invalid
    else if !c.dedicatedServer && IsValidVoiceTag(c.data, tag) then Invalid
    else
      var priority := GetPriorityOfVoiceTag(tag);
      if c.onCooldown && Rank(priority) < Rank(ForcedVoiceCommand) then Cooldown
      else if c.performing && Rank(priority) < Rank(GetPriorityOfVoiceTag(c.currentTag)) then Ignored
      else Success
  }

  /** A client whose voice data has a sound for `Voice.Alert.Help` has the
   *  request refused as invalid, while a tag with no sound anywhere is
   *  accepted. */
  lemma PlayableTagRejectedAsWritten()
    ensures var help: Tag := ["Voice", "Alert", "Help"];
      var missing: Tag := ["Voice", "Alert", "Missing"];
      var d := VoiceData(false, map[help := Some(SoundWaveContainer(1, [10]))], map[], true);
      var c := VoiceCommandState(true, d, false, true, false, false, [], false);
      CanRequestVoiceCommandAsWritten(c, help) == Invalid &&
      CanRequestVoiceCommandAsWritten(c, missing) == Success &&
      CanRequestVoiceCommand(c, help) == Success &&
      CanRequestVoiceCommand(c, missing) == Invalid
  {
    var help: Tag := ["Voice", "Alert", "Help"];
    var missing: Tag := ["Voice", "Alert", "Missing"];
    assert help[..1] == VoiceParent;
    assert missing[..1] == VoiceParent;
    assert DirectParent(help) == ["Voice", "Alert"];
    assert DirectParent(missing) == ["Voice", "Alert"];
  }

  /** `CanRequestVoiceCommand` as evidently intended: off a dedicated
   *  server (which need not load sounds), a tag the voice data has no
   *  sound for is invalid. Muting and disabling are never reported, and a
   *  component on cooldown refuses every request. */
  function CanRequestVoiceCommand(c: VoiceCommandState, tag: Tag): (r: Response)
    ensures r != Muted && r != Disabled
    ensures c.onCooldown ==> r == Invalid || r == Cooldown
    ensures r == Ignored ==> c.performing && Rank(GetPriorityOfVoiceTag(tag)) < Rank(GetPriorityOfVoiceTag(c.currentTag))
  {
    if !c.hasDataClass then Invalid
    else if IsMuted(c) then Muted
    else if tag != [] && !InVoiceHierarchy(tag) then Invalid
    else if !c.dedicatedServer && !IsValidVoiceTag(c.data, tag) then Invalid
    else
      var priority := GetPriorityOfVoiceTag(tag);
      if c.onCooldown && Rank(priority) < Rank(ForcedVoiceCommand) then Cooldown
      else if c.performing && Rank(priority) < Rank(GetPriorityOfVoiceTag(c.currentTag)) then Ignored
      else Success
  }

  /** The request is invalid exactly when there is no voice data, the tag
   *  is outside the Voice hierarchy, or (off a dedicated server) the data
   *  has no sound for it; it succeeds exactly when it is valid, not on
   *  cooldown, and not outranked by the voice playing now. */
  lemma RequestOutcome(c: VoiceCommandState, tag: Tag)
    ensures CanRequestVoiceCommand(c, tag) == Invalid <==>
      !c.hasDataClass || (tag != [] && !InVoiceHierarchy(tag)) || (!c.dedicatedServer && !IsValidVoiceTag(c.data, tag))
    ensures CanRequestVoiceCommand(c, tag) == Success <==>
      CanRequestVoiceCommand(c, tag) != Invalid && !c.onCooldown &&
      !(c.performing && Rank(GetPriorityOfVoiceTag(tag)) < Rank(GetPriorityOfVoiceTag(c.currentTag)))
  {
  }

  /** A voice command interrupts any event that is playing: commands
   *  outrank every event priority, so only the cooldown can refuse a valid
   *  command. */
  lemma CommandOutranksEvents(c: VoiceCommandState, tag: Tag)
    requires IsVoiceCommand(tag) && !c.onCooldown && c.hasDataClass
    requires c.dedicatedServer || IsValidVoiceTag(c.data, tag)
    requires !IsVoiceCommand(c.currentTag)
    ensures CanRequestVoiceCommand(c, tag) == Success
  {
    PriorityFollowsCategory(tag);
    PriorityFollowsCategory(c.currentTag);
    assert Rank(GetPriorityOfVoiceTag(c.currentTag)) < Rank(VoiceCommand);
  }

  /** `PerformVoiceCommand`: a client clears its voice timer first; a
   *  refused request changes nothing else. The authority broadcasts an
   *  accepted request; a dedicated server stops there. Elsewhere the tag
   *  becomes the current one, the voice timer runs, and a voice command
   *  starts the cooldown. Returns the state, the response and whether the
   *  request was broadcast. */
  function PerformVoiceCommand(c: VoiceCommandState, tag: Tag): (r: (VoiceCommandState, Response, bool))
    ensures r.1 == CanRequestVoiceCommand(c.(performing := c.performing && c.authority), tag)
    ensures r.2 <==> r.1 == Success && c.authority
    ensures r.1 != Success || c.dedicatedServer ==> r.0 == c.(performing := c.performing && c.authority)
    ensures r.1 == Success && !c.dedicatedServer ==>
      r.0.currentTag == tag && r.0.performing && (r.0.onCooldown <==> IsVoiceCommand(tag))
  {
    var c1 := if c.authority then c else c.(performing := false);
    var response := CanRequestVoiceCommand(c1, tag);
    if response != Success then (c1, response, false)
    else if c.dedicatedServer then (c1, Success, c.authority)
    else (c1.(currentTag := tag, performing := true, onCooldown := IsVoiceCommand(tag)), Success, c.authority)
  }

  /** `PerformVoiceCommand` as written, on the as-written check: the same
   *  steps, so off a dedicated server a tag the voice data has a sound
   *  for is never played. */
  function PerformVoiceCommandAsWritten(c: VoiceCommandState, tag: Tag): (r: (VoiceCommandState, Response, bool))
    ensures r.1 == CanRequestVoiceCommandAsWritten(c.(performing := c.performing && c.authority), tag)
    ensures r.2 <==> r.1 == Success && c.authority
    ensures r.1 != Success || c.dedicatedServer ==> r.0 == c.(performing := c.performing && c.authority)
    ensures r.1 == Success && !c.dedicatedServer ==>
      r.0.currentTag == tag && r.0.performing && (r.0.onCooldown <==> IsVoiceCommand(tag))
    ensures !c.dedicatedServer && c.hasDataClass && InVoiceHierarchy(tag) && IsValidVoiceTag(c.data, tag) ==>
      r.1 == Invalid && !r.2
  {
    var c1 := if c.authority then c else c.(performing := false);
    var response := CanRequestVoiceCommandAsWritten(c1, tag);
    if response != Success then (c1, response, false)
    else if c.dedicatedServer then (c1, Success, c.authority)
    else (c1.(currentTag := tag, performing := true, onCooldown := IsVoiceCommand(tag)), Success, c.authority)
  }

  /** The two differ only off a dedicated server: there the check on the
   *  voice data is the only thing that changed, so both perform the same
   *  request identically. */
  lemma PerformVoiceCommandOnServer(c: VoiceCommandState, tag: Tag)
    requires c.dedicatedServer
    ensures PerformVoiceCommandAsWritten(c, tag) == PerformVoiceCommand(c, tag)
  {
  }

  /** After a voice command plays, the component refuses every further
   *  request until the cooldown ends. */
  lemma CommandStartsCooldown(c: VoiceCommandState, tag: Tag, next: Tag)
    requires !c.dedicatedServer && IsVoiceCommand(tag)
    requires PerformVoiceCommand(c, tag).1 == Success
    ensures var r := PerformVoiceCommand(PerformVoiceCommand(c, tag).0, next).1;
      r == Cooldown || r == Invalid
  {
  }

  /** The same holds as written: the cooldown check is unchanged. */
  lemma CommandStartsCooldownAsWritten(c: VoiceCommandState, tag: Tag, next: Tag)
    requires !c.dedicatedServer && IsVoiceCommand(tag)
    requires PerformVoiceCommandAsWritten(c, tag).1 == Success
    ensures var r := PerformVoiceCommandAsWritten(PerformVoiceCommandAsWritten(c, tag).0, next).1;
      r == Cooldown || r == Invalid
  {
  }

  /** `OnVoicePlaybackCompleted`: the voice timer has run out and the
   *  current tag is cleared. */
  function OnVoicePlaybackCompleted(c: VoiceCommandState): (r: VoiceCommandState)
    ensures !r.performing && r.currentTag == []
    ensures r.onCooldown == c.onCooldown && r.data == c.data
  {
    c.(performing := false, currentTag := [])
  }

  /** Once playback completes, nothing playing can outrank a new request. */
  lemma NothingIgnoredAfterPlayback(c: VoiceCommandState, tag: Tag)
    ensures CanRequestVoiceCommand(OnVoicePlaybackCompleted(c), tag) != Ignored
  {
  }

  /** `VoiceCommandMenuOptionInput`: while the menu is open, option
   *  numbers counted from one are broadcast counted from zero; a closed
   *  menu broadcasts nothing. */
  function VoiceCommandMenuOptionInput(c: VoiceCommandState, index: int): (r: Option<int>)
    requires IsInt32(index)
    ensures r.Some? <==> c.menuOpen
    ensures r.Some? && index > MinInt32 ==> r.value + 1 == index
    ensures r.Some? ==> IsInt32(r.value)
  {
    if !c.menuOpen then None else Some(WrapI32(index - 1))
  }
}

=== FILE: wave_setup.dfy ===
/**
 * `UDungeonWaveSetup` and `UWaveModifier`: which wave configurations run in
 * a wave (a default, possibly replaced by the highest-priority override,
 * plus the additive configurations of at least that priority), setting a
 * wave up and starting it, completion, and auto-start. Configurations are
 * ids into the setup's table of `WaveConfig` states.
 */
module WaveSetup {
  import opened Common
  import opened WaveSpawning

  /** `EWaveModifierType` bit values. */
  const ModifierNone: int := 0
  const ModifierOverride: int := 2
  const ModifierAdditive: int := 4

  /** `UWaveModifier`: a `uint8` priority, a starting wave, explicit wave
   *  numbers and wave intervals (both `uint64` lists) and a type byte. */
  datatype WaveModifier = WaveModifier(
    priority: int,
    startingWave: int,
    desiredWaves: seq<int>,
    desiredIntervals: seq<int>,
    modifierType: int)

  /** A modifier as constructed: priority 0 from wave 0 on, no lists, and
   *  additive. */
  function DefaultModifier(): (m: WaveModifier)
    ensures IsAdditiveWave(m) && !IsOverrideWave(m)
    ensures forall wave :: wave >= 0 ==> AppliesToWave(m, wave)
  {
    WaveModifier(0, 0, [], [], ModifierAdditive)
  }

  /** `IsOverrideWave` and `IsAdditiveWave` compare the whole type byte, so
   *  a modifier with both bits set is neither. */
  predicate IsOverrideWave(m: WaveModifier)
  {
    m.modifierType == ModifierOverride
  }

  predicate IsAdditiveWave(m: WaveModifier)
  {
    m.modifierType == ModifierAdditive
  }

  /** `DesiredWaveNumber.Contains(WaveNumber)`: the signed wave number is
   *  compared as the list's unsigned 64-bit element type. */
  predicate ListsWave(m: WaveModifier, wave: int)
  {
    WrapU64(wave) in m.desiredWaves
  }

  /** The interval test's predicate takes its `uint64` element as an `int32`
   *  and asks whether it divides the wave (no remainder). A divisor that
   *  truncates to zero is a division by zero; it divides nothing here. */
  predicate IntervalDivides(interval: int, wave: int)
  {
    var d := WrapI32(interval);
    d != 0 && wave % d == 0
  }

  /** The interval scan as the source performs it: `None` when it reaches an
   *  interval that truncates to zero before finding a divisor, where the
   *  compiled game divides by zero. */
  function IntervalScanAsWritten(intervals: seq<int>, wave: int): (r: Option<bool>)
  {
    if |intervals| == 0 then Some(false)
    else if WrapI32(intervals[0]) == 0 then None
    else if wave % WrapI32(intervals[0]) == 0 then Some(true)
    else IntervalScanAsWritten(intervals[1..], wave)
  }

  /** `AppliesToWave` as written. */
  function AppliesToWaveAsWritten(m: WaveModifier, wave: int): (r: Option<bool>)
  {
    if wave < m.startingWave then Some(false)
    else if |m.desiredWaves| != 0 && !ListsWave(m, wave) then Some(false)
    else if |m.desiredIntervals| != 0 then IntervalScanAsWritten(m.desiredIntervals, wave)
    else Some(true)
  }

  /** The interval scan with zero intervals skipped. */
  function IntervalScan(intervals: seq<int>, wave: int): (r: bool)
    ensures r <==> exists i :: 0 <= i < |intervals| && IntervalDivides(intervals[i], wave)
  {
    if |intervals| == 0 then false
    else if IntervalDivides(intervals[0], wave) then true
    else
      assert forall i :: 1 <= i < |intervals| ==> intervals[1..][i - 1] == intervals[i];
      IntervalScan(intervals[1..], wave)
  }

  /** `AppliesToWave`: never before the starting wave; a nonempty wave list
   *  must contain the wave; a nonempty interval list must hold a divisor of
   *  the wave; otherwise it applies. */
  function AppliesToWave(m: WaveModifier, wave: int): (r: bool)
    ensures wave < m.startingWave ==> !r
    ensures |m.desiredWaves| != 0 && !ListsWave(m, wave) ==> !r
    ensures wave >= m.startingWave && (|m.desiredWaves| == 0 || ListsWave(m, wave)) ==>
      (r <==> |m.desiredIntervals| == 0 ||
              exists i :: 0 <= i < |m.desiredIntervals| && IntervalDivides(m.desiredIntervals[i], wave))
  {
    if wave < m.startingWave then false
    else if |m.desiredWaves| != 0 && !ListsWave(m, wave) then false
    else if |m.desiredIntervals| != 0 then IntervalScan(m.desiredIntervals, wave)
    else true
  }

  /** Where the source's scan finishes, it agrees with the corrected one. */
  lemma {:induction false} IntervalScanAgrees(intervals: seq<int>, wave: int)
    ensures IntervalScanAsWritten(intervals, wave).Some? ==>
      IntervalScanAsWritten(intervals, wave) == Some(IntervalScan(intervals, wave))
  {
    if |intervals| > 0 && WrapI32(intervals[0]) != 0 && wave % WrapI32(intervals[0]) != 0 {
      IntervalScanAgrees(intervals[1..], wave);
    }
  }

  /** Wherever the source's check does not divide by zero, it agrees
   *  with the corrected one. */
  lemma AppliesToWaveAgrees(m: WaveModifier, wave: int)
    ensures AppliesToWaveAsWritten(m, wave).Some? ==>
      AppliesToWaveAsWritten(m, wave) == Some(AppliesToWave(m, wave))
  {
    IntervalScanAgrees(m.desiredIntervals, wave);
  }

  /** A zero interval, which the editor's lower bound of 0 admits, makes the
   *  source divide by zero; so does an interval of 2^32, which truncates to
   *  zero. The corrected test simply finds no divisor. */
  lemma ZeroIntervalDividesByZero()
    ensures AppliesToWaveAsWritten(WaveModifier(0, 0, [], [0], ModifierAdditive), 5).None?
    ensures AppliesToWaveAsWritten(WaveModifier(0, 0, [], [Pow32], ModifierAdditive), 5).None?
    ensures !AppliesToWave(WaveModifier(0, 0, [], [0], ModifierAdditive), 5)
    ensures AppliesToWave(WaveModifier(0, 0, [], [0, 5], ModifierAdditive), 5)
  {
    assert IntervalDivides([0, 5][1], 5);
  }

  // ---------------------------------------------------------------------
  // Configuration selection

  /** `FWaveModifierEntry`: a nullable modifier and a nullable configuration. */
  datatype ModifierEntry = ModifierEntry(modifier: Option<WaveModifier>, configuration: Option<nat>)

  /** `UDungeonWaveSetup`: the last wave (10 by default, 0 meaning endless),
   *  the default configuration, the modifier list, the transient wave and
   *  spawn total, and the configuration objects by id. */
  datatype DungeonWaveSetup = DungeonWaveSetup(
    lastWave: int,
    defaultConfiguration: Option<nat>,
    modifierList: seq<ModifierEntry>,
    initializedWave: int,
    totalExpectedSpawnCount: int,
    configurations: map<nat, WaveConfig>)

  /** An entry that would take part in the wave as an override (`override`)
   *  or as an additive configuration. */
  predicate Candidate(e: ModifierEntry, wave: int, override: bool)
  {
    e.modifier.Some? && AppliesToWave(e.modifier.value, wave) && e.configuration.Some? &&
    (if override then IsOverrideWave(e.modifier.value) else IsAdditiveWave(e.modifier.value))
  }

  function Priority(e: ModifierEntry): int
  {
    if e.modifier.Some? then e.modifier.value.priority else IndexNone
  }

  predicate NoOverride(l: seq<ModifierEntry>, wave: int)
  {
    forall i :: 0 <= i < |l| ==> !Candidate(l[i], wave, true)
  }

  /** Entry `k` is the override that wins: no candidate has a higher
   *  priority, and none after it has an equal one. */
  predicate ChosenOverride(l: seq<ModifierEntry>, wave: int, k: int)
  {
    0 <= k < |l| && Candidate(l[k], wave, true) &&
    forall i :: 0 <= i < |l| && Candidate(l[i], wave, true) ==>
      Priority(l[i]) <= Priority(l[k]) && (k < i ==> Priority(l[i]) < Priority(l[k]))
  }

  /** The first loop of `GetWaveConfiguration`: a candidate replaces the
   *  current choice unless its priority is below the chosen one. Gives the
   *  chosen index, or -1 when no override applies. */
  function SelectOverride(l: seq<ModifierEntry>, wave: int): (k: int)
    ensures -1 <= k < |l|
    ensures k == -1 <==> NoOverride(l, wave)
    ensures k != -1 ==> ChosenOverride(l, wave, k)
  {
    if |l| == 0 then -1
    else
      var p := l[..|l| - 1];
      assert forall i :: 0 <= i < |p| ==> p[i] == l[i];
      var k := SelectOverride(p, wave);
      if Candidate(l[|l| - 1], wave, true) && (k == -1 || Priority(l[k]) <= Priority(l[|l| - 1])) then |l| - 1
      else k
  }

  /** At most one entry wins. */
  lemma ChosenOverrideUnique(l: seq<ModifierEntry>, wave: int, k1: int, k2: int)
    requires ChosenOverride(l, wave, k1) && ChosenOverride(l, wave, k2)
    ensures k1 == k2
  {
  }

  /** The priority additive entries must reach: the override's, or -1. */
  function OverridePriority(l: seq<ModifierEntry>, wave: int): int
  {
    var k := SelectOverride(l, wave);
    if k == -1 then IndexNone else Priority(l[k])
  }

  /** The second loop's selection for one entry. */
  predicate AdditiveSelected(e: ModifierEntry, wave: int, bar: int)
  {
    Candidate(e, wave, false) && Priority(e) >= bar
  }

  /** The second loop of `GetWaveConfiguration`, in list order. */
  function Additives(l: seq<ModifierEntry>, wave: int, bar: int): (r: seq<Option<nat>>)
    ensures |r| <= |l|
    ensures forall i :: 0 <= i < |r| ==> r[i].Some?
  {
    if |l| == 0 then []
    else
      var last := l[|l| - 1];
      Additives(l[..|l| - 1], wave, bar) + (if AdditiveSelected(last, wave, bar) then [last.configuration] else [])
  }

  /** A configuration is among the additives exactly when some selected
   *  additive entry carries it. */
  lemma {:induction false} AdditivesMembership(l: seq<ModifierEntry>, wave: int, bar: int, x: Option<nat>)
    ensures x in Additives(l, wave, bar) <==>
      exists i :: 0 <= i < |l| && AdditiveSelected(l[i], wave, bar) && l[i].configuration == x
  {
    if |l| > 0 {
      var p := l[..|l| - 1];
      AdditivesMembership(p, wave, bar, x);
      assert forall i :: 0 <= i < |p| ==> p[i] == l[i];
      if x in Additives(p, wave, bar) {
        var i :| 0 <= i < |p| && AdditiveSelected(p[i], wave, bar) && p[i].configuration == x;
        assert AdditiveSelected(l[i], wave, bar) && l[i].configuration == x;
      }
    }
  }

  /** `GetWaveConfiguration`: the base configuration (the default, or the
   *  winning override's) followed by the selected additives. */
  function GetWaveConfiguration(s: DungeonWaveSetup, wave: int): (r: seq<Option<nat>>)
    ensures |r| >= 1
    ensures NoOverride(s.modifierList, wave) ==> r[0] == s.defaultConfiguration
    ensures forall k :: ChosenOverride(s.modifierList, wave, k) ==> r[0] == s.modifierList[k].configuration
    ensures r[1..] == Additives(s.modifierList, wave, OverridePriority(s.modifierList, wave))
    ensures forall i :: 1 <= i < |r| ==> r[i].Some?
  {
    var k := SelectOverride(s.modifierList, wave);
    var base := if k == -1 then s.defaultConfiguration else s.modifierList[k].configuration;
    assert forall k2 :: ChosenOverride(s.modifierList, wave, k2) ==> k2 == k by {
      forall k2 | ChosenOverride(s.modifierList, wave, k2) ensures k2 == k {
        ChosenOverrideUnique(s.modifierList, wave, k, k2);
      }
    }
    [base] + Additives(s.modifierList, wave, OverridePriority(s.modifierList, wave))
  }

  /** An additive entry of lower priority than the winning override is left
   *  out; without an override every applicable additive entry is in. */
  lemma OverrideSuppressesLowerAdditives(s: DungeonWaveSetup, wave: int, i: int)
    requires 0 <= i < |s.modifierList| && Candidate(s.modifierList[i], wave, false)
    requires IsUint8(s.modifierList[i].modifier.value.priority)
    ensures NoOverride(s.modifierList, wave) ==> s.modifierList[i].configuration in GetWaveConfiguration(s, wave)[1..]
    ensures Priority(s.modifierList[i]) >= OverridePriority(s.modifierList, wave) ==>
      s.modifierList[i].configuration in GetWaveConfiguration(s, wave)[1..]
  {
    var l := s.modifierList;
    var m := l[i].modifier.value;
    assert Priority(l[i]) == m.priority;
    AdditivesMembership(l, wave, OverridePriority(l, wave), l[i].configuration);
    if NoOverride(l, wave) {
      assert OverridePriority(l, wave) == IndexNone;
    }
  }

  /** The entry's modifier makes the source's interval test divide by zero
   *  for this wave. */
  predicate ModifierDividesByZero(e: ModifierEntry, wave: int)
  {
    e.modifier.Some? && AppliesToWaveAsWritten(e.modifier.value, wave).None?
  }

  /** The first loop of `GetWaveConfiguration` tests every non-null
   *  modifier, so the source fails exactly when one of them divides by
   *  zero. */
  function ScanDividesByZero(l: seq<ModifierEntry>, wave: int): (r: bool)
    ensures r <==> exists i :: 0 <= i < |l| && ModifierDividesByZero(l[i], wave)
  {
    if |l| == 0 then false
    else
      assert forall i :: 1 <= i < |l| ==> l[1..][i - 1] == l[i];
      ModifierDividesByZero(l[0], wave) || ScanDividesByZero(l[1..], wave)
  }

  /** The source's candidate test, on the as-written `AppliesToWave`. */
  predicate CandidateAsWritten(e: ModifierEntry, wave: int, override: bool)
  {
    e.modifier.Some? && AppliesToWaveAsWritten(e.modifier.value, wave) == Some(true) && e.configuration.Some? &&
    (if override then IsOverrideWave(e.modifier.value) else IsAdditiveWave(e.modifier.value))
  }

  /** Where no modifier divides by zero, the source's candidate test and
   *  the corrected one select the same entries, in both loops. */
  lemma CandidatesAgree(l: seq<ModifierEntry>, wave: int)
    requires !ScanDividesByZero(l, wave)
    ensures forall i, o: bool :: 0 <= i < |l| ==> (Candidate(l[i], wave, o) <==> CandidateAsWritten(l[i], wave, o))
  {
    forall i, o: bool | 0 <= i < |l|
      ensures Candidate(l[i], wave, o) <==> CandidateAsWritten(l[i], wave, o)
    {
      if l[i].modifier.Some? {
        AppliesToWaveAgrees(l[i].modifier.value, wave);
      }
    }
  }

  /** `GetWaveConfiguration` as written: it fails (`None`) exactly when a
   *  modifier's interval test divides by zero; otherwise, since the
   *  candidate tests agree there, it is the corrected list. */
  function GetWaveConfigurationAsWritten(s: DungeonWaveSetup, wave: int): (r: Option<seq<Option<nat>>>)
    ensures r.None? <==> exists i :: 0 <= i < |s.modifierList| && ModifierDividesByZero(s.modifierList[i], wave)
    ensures r.Some? ==> |r.value| >= 1 && r.value[0] == GetWaveConfiguration(s, wave)[0]
    ensures r.Some? && (forall i :: 0 <= i < |s.modifierList| ==> !CandidateAsWritten(s.modifierList[i], wave, true)) ==>
      r.value[0] == s.defaultConfiguration
    ensures r.Some? ==> forall x :: x in r.value[1..] <==>
      exists i :: 0 <= i < |s.modifierList| && CandidateAsWritten(s.modifierList[i], wave, false) &&
        Priority(s.modifierList[i]) >= OverridePriority(s.modifierList, wave) && s.modifierList[i].configuration == x
  {
    var l := s.modifierList;
    if ScanDividesByZero(l, wave) then None
    else
      CandidatesAgree(l, wave);
      assert forall x :: x in GetWaveConfiguration(s, wave)[1..] <==>
        exists i :: 0 <= i < |l| && CandidateAsWritten(l[i], wave, false) &&
          Priority(l[i]) >= OverridePriority(l, wave) && l[i].configuration == x by {
        forall x ensures x in GetWaveConfiguration(s, wave)[1..] <==>
          exists i :: 0 <= i < |l| && CandidateAsWritten(l[i], wave, false) &&
            Priority(l[i]) >= OverridePriority(l, wave) && l[i].configuration == x
        {
          AdditivesMembership(l, wave, OverridePriority(l, wave), x);
        }
      }
      Some(GetWaveConfiguration(s, wave))
  }

  /** One additive entry with a zero interval: the source's wave setup
   *  divides by zero, while the corrected one skips the entry and runs the
   *  default configuration alone. */
  lemma ZeroIntervalSetupFailsAsWritten()
    ensures var m := WaveModifier(0, 0, [], [0], ModifierAdditive);
      var s := DungeonWaveSetup(10, Some(1), [ModifierEntry(Some(m), Some(2))], 0, 0, map[]);
      GetWaveConfigurationAsWritten(s, 5).None? && GetWaveConfiguration(s, 5) == [Some(1)]
  {
    var m := WaveModifier(0, 0, [], [0], ModifierAdditive);
    var l := [ModifierEntry(Some(m), Some(2))];
    ZeroIntervalDividesByZero();
    assert ModifierDividesByZero(l[0], 5);
    assert !Candidate(l[0], 5, true) && !Candidate(l[0], 5, false);
    assert l[..0] == [];
  }

  // ---------------------------------------------------------------------
  // Setting up and starting a wave

  /** Every configuration the wave would use exists. */
  predicate ConfigurationsPresent(s: DungeonWaveSetup, wave: int)
  {
    var l := GetWaveConfiguration(s, wave);
    forall i :: 0 <= i < |l| ==> l[i].Some? && l[i].value in s.configurations
  }

  /** The spawn totals the listed configurations report for the wave. */
  function SumSpawnCounts(ids: seq<Option<nat>>, scaled: nat -> ScaledValues): int
  {
    if |ids| == 0 then 0
    else (if ids[0].Some? then scaled(ids[0].value).spawnCount else 0) + SumSpawnCounts(ids[1..], scaled)
  }

  /** Initialising a configuration twice for the same wave with the same
   *  values is the same as once. */
  lemma InitializeForWaveIdempotent(c: WaveConfig, wave: int, v: ScaledValues)
    ensures InitializeForWave(InitializeForWave(c, wave, v).0, wave, v) == InitializeForWave(c, wave, v)
  {
    var c1 := InitializeForWave(c, wave, v).0;
    var c2 := InitializeForWave(c1, wave, v).0;
    forall gi | 0 <= gi < |c.groups|
      ensures c2.groups[gi] == c1.groups[gi]
    {
      var g1 := c1.groups[gi];
      assert g1 == InitializeGroup(c.groups[gi]);
      assert c2.groups[gi] == InitializeGroup(g1);
      assert forall i :: 0 <= i < |g1| ==> InitializeEntry(g1[i]) == g1[i];
    }
    assert c2.groups == c1.groups;
  }

  /** The loop of `InitializeWaveSetup`: initialises each listed
   *  configuration in order and adds up the totals they return. */
  function InitializeAll(configs: map<nat, WaveConfig>, ids: seq<Option<nat>>, wave: int, scaled: nat -> ScaledValues): (r: (map<nat, WaveConfig>, int))
    requires forall i :: 0 <= i < |ids| ==> ids[i].Some? && ids[i].value in configs
    ensures r.0.Keys == configs.Keys
    ensures r.1 == SumSpawnCounts(ids, scaled)
    ensures forall x :: x in configs && Some(x) !in ids ==> r.0[x] == configs[x]
    ensures forall i :: 0 <= i < |ids| ==> r.0[ids[i].value] == InitializeForWave(configs[ids[i].value], wave, scaled(ids[i].value)).0
  {
    if |ids| == 0 then (configs, 0)
    else
      var id := ids[0].value;
      var (c, total) := InitializeForWave(configs[id], wave, scaled(id));
      var (m, rest) := InitializeAll(configs[id := c], ids[1..], wave, scaled);
      InitializeAllStep(configs, ids, wave, scaled, c, m);
      (m, total + rest)
  }

  /** The loop keeps unlisted configurations and initialises each listed
   *  one. */
  lemma InitializeAllStep(configs: map<nat, WaveConfig>, ids: seq<Option<nat>>, wave: int, scaled: nat -> ScaledValues, c: WaveConfig, m: map<nat, WaveConfig>)
    requires |ids| > 0 && forall i :: 0 <= i < |ids| ==> ids[i].Some? && ids[i].value in configs
    requires c == InitializeForWave(configs[ids[0].value], wave, scaled(ids[0].value)).0
    requires m.Keys == configs.Keys
    requires forall x :: x in configs && Some(x) !in ids[1..] ==> m[x] == configs[ids[0].value := c][x]
    requires forall i :: 0 <= i < |ids[1..]| ==> m[ids[1..][i].value] == InitializeForWave(configs[ids[0].value := c][ids[1..][i].value], wave, scaled(ids[1..][i].value)).0
    ensures forall x :: x in configs && Some(x) !in ids ==> m[x] == configs[x]
    ensures forall i :: 0 <= i < |ids| ==> m[ids[i].value] == InitializeForWave(configs[ids[i].value], wave, scaled(ids[i].value)).0
  {
    var id := ids[0].value;
    forall x | x in configs && Some(x) !in ids
      ensures m[x] == configs[x]
    {
      assert Some(x) !in ids[1..];
    }
    forall i | 0 <= i < |ids|
      ensures m[ids[i].value] == InitializeForWave(configs[ids[i].value], wave, scaled(ids[i].value)).0
    {
      var x := ids[i].value;
      if Some(x) in ids[1..] {
        var j :| 0 <= j < |ids[1..]| && ids[1..][j] == Some(x);
        if x == id {
          InitializeForWaveIdempotent(configs[id], wave, scaled(id));
        }
      } else {
        assert i == 0;
      }
    }
  }

  /** `InitializeWaveSetup`: initialises every configuration of the wave,
   *  records the wave and returns the sum of their spawn totals (the
   *  unreachable empty list gives -1). */
  function InitializeWaveSetup(s: DungeonWaveSetup, wave: int, scaled: nat -> ScaledValues): (r: (DungeonWaveSetup, int))
    requires ConfigurationsPresent(s, wave)
    ensures r.0.initializedWave == wave
    ensures r.1 == r.0.totalExpectedSpawnCount == SumSpawnCounts(GetWaveConfiguration(s, wave), scaled)
    ensures r.0.modifierList == s.modifierList && r.0.defaultConfiguration == s.defaultConfiguration
    ensures r.0.lastWave == s.lastWave
    ensures r.0.configurations.Keys == s.configurations.Keys
    ensures forall x :: x in s.configurations && Some(x) in GetWaveConfiguration(s, wave) ==>
      IsInitialized(r.0.configurations[x]) == (wave != IndexNone) &&
      r.0.configurations[x].initializedWave == wave &&
      NumberRemainingToSpawn(r.0.configurations[x]) == scaled(x).spawnCount
    ensures forall x :: x in s.configurations && Some(x) !in GetWaveConfiguration(s, wave) ==>
      r.0.configurations[x] == s.configurations[x]
  {
    var l := GetWaveConfiguration(s, wave);
    var (m, total) := InitializeAll(s.configurations, l, wave, scaled);
    forall x | x in s.configurations && Some(x) in l
      ensures m[x].initializedWave == wave && NumberRemainingToSpawn(m[x]) == scaled(x).spawnCount
    {
      var i :| 0 <= i < |l| && l[i] == Some(x);
    }
    (s.(configurations := m, initializedWave := wave, totalExpectedSpawnCount := total), total)
  }

  /** `StartWave`: only the wave that was set up can start. */
  function StartWave(s: DungeonWaveSetup, wave: int): (r: bool)
    ensures r <==> s.initializedWave == wave
  {
    if s.initializedWave != wave then false
    else |GetWaveConfiguration(s, wave)| != 0
  }

  /** After setting up a wave, exactly that wave can be started. */
  lemma InitializeThenStart(s: DungeonWaveSetup, wave: int, other: int, scaled: nat -> ScaledValues)
    requires ConfigurationsPresent(s, wave)
    ensures StartWave(InitializeWaveSetup(s, wave, scaled).0, wave)
    ensures other != wave ==> !StartWave(InitializeWaveSetup(s, wave, scaled).0, other)
  {
  }

  /** A configuration that keeps the wave running. */
  predicate StillSpawning(s: DungeonWaveSetup, id: Option<nat>)
  {
    id.Some? && id.value in s.configurations &&
    IsInitialized(s.configurations[id.value]) && !IsDoneSpawning(s.configurations[id.value])
  }

  /** `OnWaveCharacterListEmpty`: the wave-completed event fires unless the
   *  default or some modifier entry's configuration is initialised and not
   *  done spawning. */
  function OnWaveCharacterListEmpty(s: DungeonWaveSetup): (completed: bool)
    ensures completed <==> (!StillSpawning(s, s.defaultConfiguration) &&
      forall i :: 0 <= i < |s.modifierList| ==> !StillSpawning(s, s.modifierList[i].configuration))
  {
    !StillSpawning(s, s.defaultConfiguration) && EntriesDone(s, s.modifierList)
  }

  function EntriesDone(s: DungeonWaveSetup, l: seq<ModifierEntry>): (r: bool)
    ensures r <==> forall i :: 0 <= i < |l| ==> !StillSpawning(s, l[i].configuration)
  {
    if |l| == 0 then true
    else
      assert forall i :: 1 <= i < |l| ==> l[1..][i - 1] == l[i];
      !StillSpawning(s, l[0].configuration) && EntriesDone(s, l[1..])
  }

  // ---------------------------------------------------------------------
  // Auto-start

  predicate AutoStarts(c: Option<WaveConfig>)
  {
    c.Some? && c.value.isAutoStart
  }

  /** `IsWaveAutoStart`: some configuration of the list auto-starts. */
  predicate IsWaveAutoStart(configs: seq<Option<WaveConfig>>)
  {
    exists i :: 0 <= i < |configs| && AutoStarts(configs[i])
  }

  /** Auto-start times lie in `[0, MAX_int32]` (the editor's lower bound). */
  predicate ValidAutoStartTimes(configs: seq<Option<WaveConfig>>)
  {
    forall i :: 0 <= i < |configs| && configs[i].Some? ==> 0 <= configs[i].value.autoStartTime <= MaxInt32
  }

  /** The loop of `GetWaveAutoStartTime`: the lowest auto-start time seen,
   *  starting from `MAX_int32`. */
  function LowestAutoStart(configs: seq<Option<WaveConfig>>): (lo: int)
    requires ValidAutoStartTimes(configs)
    ensures lo <= MaxInt32
    ensures forall i :: 0 <= i < |configs| && AutoStarts(configs[i]) ==> lo <= configs[i].value.autoStartTime
    ensures lo == MaxInt32 || exists i :: 0 <= i < |configs| && AutoStarts(configs[i]) && configs[i].value.autoStartTime == lo
  {
    if |configs| == 0 then MaxInt32
    else
      var p := configs[..|configs| - 1];
      assert forall i :: 0 <= i < |p| ==> p[i] == configs[i];
      var lo := LowestAutoStart(p);
      var last := configs[|configs| - 1];
      if !AutoStarts(last) || lo < last.value.autoStartTime then lo
      else last.value.autoStartTime
  }

  /** `GetWaveAutoStartTime`: the lowest auto-start time, or `INDEX_NONE`
   *  when no auto-start configuration has a time below `MAX_int32`. */
  function GetWaveAutoStartTime(configs: seq<Option<WaveConfig>>): (r: int)
    requires ValidAutoStartTimes(configs)
    ensures r == IndexNone <==> forall i :: 0 <= i < |configs| && AutoStarts(configs[i]) ==> configs[i].value.autoStartTime == MaxInt32
    ensures r != IndexNone ==> 0 <= r < MaxInt32
    ensures r != IndexNone ==> forall i :: 0 <= i < |configs| && AutoStarts(configs[i]) ==> r <= configs[i].value.autoStartTime
    ensures r != IndexNone ==> exists i :: 0 <= i < |configs| && AutoStarts(configs[i]) && configs[i].value.autoStartTime == r
  {
    var lo := LowestAutoStart(configs);
    if lo == MaxInt32 then IndexNone else lo
  }

  /** A wave with an auto-start time auto-starts; one whose auto-start
   *  configurations all wait less than `MAX_int32` has a time. */
  lemma AutoStartTimeMeansAutoStart(configs: seq<Option<WaveConfig>>)
    requires ValidAutoStartTimes(configs)
    ensures GetWaveAutoStartTime(configs) != IndexNone ==> IsWaveAutoStart(configs)
    ensures (exists i :: 0 <= i < |configs| && AutoStarts(configs[i]) && configs[i].value.autoStartTime < MaxInt32) ==>
      GetWaveAutoStartTime(configs) != IndexNone
  {
  }

  // ---------------------------------------------------------------------
  // Final wave

  /** `IsFinalWave` as written: at or past the last wave. With a last wave
   *  of 0, which the setup documents as endless, every wave from 0 on is
   *  final. */
  predicate IsFinalWaveAsWritten(s: DungeonWaveSetup, wave: int)
  {
    wave >= s.lastWave
  }

  /** As written, an endless setup has reached its final wave by wave 1. */
  lemma EndlessSetupEndsAsWritten(s: DungeonWaveSetup)
    requires s.lastWave == 0
    ensures IsFinalWaveAsWritten(s, 1)
  {
  }

  /** `IsFinalWave` with the endless setting honoured. */
  predicate IsFinalWave(s: DungeonWaveSetup, wave: int)
  {
    s.lastWave != 0 && wave >= s.lastWave
  }

  /** An endless setup never reaches its final wave; any other agrees with
   *  the source's comparison. */
  lemma FinalWaveRespectsEndless(s: DungeonWaveSetup, wave: int)
    ensures s.lastWave == 0 ==> !IsFinalWave(s, wave)
    ensures s.lastWave != 0 ==> (IsFinalWave(s, wave) <==> IsFinalWaveAsWritten(s, wave))
  {
  }
}

=== FILE: wave_spawning.dfy ===
/**
 * One wave configuration's spawning economy (`UWaveConfiguration`,
 * `UWaveSpawnGroup`, `FSpawnGroupEntry`): byte-sized spawn counters per
 * entry, groups that hand out classes in entry order and take refunds, the
 * batch list a spawn fire asks for, and the configuration's request and
 * spawn counters. Classes are ids; a null class is `None`. Null groups are
 * skipped by every loop of the source, so a configuration lists only its
 * non-null groups.
 */
module WaveSpawning {
  import opened Common
  import SpawnSystem

  /** `FSpawnGroupEntry`: the configured character (the soft reference as it
   *  would load), the class loaded so far, and two `uint8` counters. */
  datatype SpawnEntry = SpawnEntry(character: Option<nat>, loaded: Option<nat>, spawnCount: int, remaining: int)

  type Group = seq<SpawnEntry>

  /** A freshly built entry: `SpawnCount` defaults to 4, nothing loaded. */
  function NewEntry(character: Option<nat>): (e: SpawnEntry)
    ensures ValidEntry(e) && e.spawnCount == 4 && !EntryHasRemaining(e)
  {
    SpawnEntry(character, None, 4, 0)
  }

  predicate ValidEntry(e: SpawnEntry)
  {
    IsUint8(e.spawnCount) && IsUint8(e.remaining)
  }

  predicate ValidGroup(g: Group)
  {
    forall i :: 0 <= i < |g| ==> ValidEntry(g[i])
  }

  /** Two entries that differ at most in their remaining count. */
  predicate SameSlot(a: SpawnEntry, b: SpawnEntry)
  {
    a.character == b.character && a.loaded == b.loaded && a.spawnCount == b.spawnCount
  }

  predicate EntryHasRemaining(e: SpawnEntry)
  {
    e.remaining > 0
  }

  /** `FSpawnGroupEntry::Initialize`: loads the class if none is loaded yet
   *  and refills the remaining count to the configured count. */
  function InitializeEntry(e: SpawnEntry): (r: SpawnEntry)
    ensures r.character == e.character && r.spawnCount == e.spawnCount
    ensures r.remaining == e.spawnCount
    ensures e.loaded.Some? ==> r.loaded == e.loaded
    ensures e.loaded.None? ==> r.loaded == e.character
    ensures ValidEntry(e) ==> ValidEntry(r)
  {
    e.(loaded := if e.loaded.None? then e.character else e.loaded, remaining := e.spawnCount)
  }

  /** `FSpawnGroupEntry::GetNextSpawnClass`: an entry with spawns left gives
   *  up one and hands out its loaded class (possibly null); an exhausted
   *  entry hands out null and is untouched. */
  function NextFromEntry(e: SpawnEntry): (r: (SpawnEntry, Option<nat>))
    ensures SameSlot(r.0, e)
    ensures EntryHasRemaining(e) <==> r.0.remaining == e.remaining - 1
    ensures !EntryHasRemaining(e) ==> r.0 == e && r.1.None?
    ensures r.1.Some? ==> r.1 == e.loaded && EntryHasRemaining(e)
    ensures ValidEntry(e) ==> ValidEntry(r.0)
  {
    if e.remaining <= 0 then (e, None)
    else (e.(remaining := e.remaining - 1), e.loaded)
  }

  /** `FSpawnGroupEntry::RefundSpawnClass`: only the entry whose loaded class
   *  is the refunded one (null matching null) takes the spawn back; the
   *  `uint8` counter wraps at 256. */
  function RefundToEntry(e: SpawnEntry, cls: Option<nat>): (r: (SpawnEntry, bool))
    ensures SameSlot(r.0, e)
    ensures r.1 <==> e.loaded == cls
    ensures !r.1 ==> r.0 == e
    ensures r.1 && e.remaining < MaxUint8 && IsUint8(e.remaining) ==> r.0.remaining == e.remaining + 1
    ensures ValidEntry(e) ==> ValidEntry(r.0)
  {
    if e.loaded != cls then (e, false)
    else (e.(remaining := WrapU8(e.remaining + 1)), true)
  }

  /** Taking one spawn from an entry and refunding its class restores it. */
  lemma EntryNextThenRefund(e: SpawnEntry)
    requires ValidEntry(e) && EntryHasRemaining(e)
    ensures RefundToEntry(NextFromEntry(e).0, NextFromEntry(e).1) == (e, true)
  {
  }

  // ---------------------------------------------------------------------
  // Spawn groups

  /** `UWaveSpawnGroup::Initialize`: every entry is initialised. */
  function InitializeGroup(g: Group): (r: Group)
    ensures |r| == |g|
    ensures forall i :: 0 <= i < |g| ==> r[i] == InitializeEntry(g[i])
  {
    seq(|g|, i requires 0 <= i < |g| => InitializeEntry(g[i]))
  }

  /** `UWaveSpawnGroup::HasRemainingSpawns`: some entry has spawns left. */
  predicate GroupHasRemaining(g: Group)
  {
    exists i :: 0 <= i < |g| && EntryHasRemaining(g[i])
  }

  /** Every entry has a class loaded. */
  predicate AllLoaded(g: Group)
  {
    forall i :: 0 <= i < |g| ==> g[i].loaded.Some?
  }

  /** Sum of the entries' remaining counts. */
  function GroupRemaining(g: Group): int
  {
    if |g| == 0 then 0 else g[0].remaining + GroupRemaining(g[1..])
  }

  /** An entry that would hand out a non-null class. */
  predicate Spawnable(e: SpawnEntry)
  {
    EntryHasRemaining(e) && e.loaded.Some?
  }

  /** Entry `k` is the first spawnable one of the group. */
  predicate FirstSpawnable(g: Group, k: int)
  {
    0 <= k < |g| && Spawnable(g[k]) && forall j :: 0 <= j < k ==> !Spawnable(g[j])
  }

  /** `UWaveSpawnGroup::GetNextSpawnClass`: asks the entries in order and
   *  stops at the first that hands out a non-null class; entries asked on
   *  the way give up a spawn even when their class is null. */
  function NextFromGroup(g: Group): (r: (Group, Option<nat>))
    ensures |r.0| == |g|
    ensures forall i :: 0 <= i < |g| ==> SameSlot(r.0[i], g[i])
    ensures ValidGroup(g) ==> ValidGroup(r.0)
    ensures AllLoaded(g) ==> AllLoaded(r.0)
    ensures !GroupHasRemaining(g) ==> r.0 == g && r.1.None?
  {
    if |g| == 0 then (g, None)
    else
      var (e, c) := NextFromEntry(g[0]);
      if c.Some? then ([e] + g[1..], c)
      else
        var (rest, c2) := NextFromGroup(g[1..]);
        assert forall i :: 1 <= i < |g| ==> g[1..][i - 1] == g[i];
        ([e] + rest, c2)
  }

  /** The class handed out is the loaded class of the group's first
   *  spawnable entry, and it is null exactly when there is none. */
  lemma {:induction false} NextFromGroupPicksFirstSpawnable(g: Group, k: int)
    requires FirstSpawnable(g, k)
    ensures NextFromGroup(g).1 == g[k].loaded
    ensures NextFromGroup(g).0[k].remaining == g[k].remaining - 1
    ensures forall i :: k < i < |g| ==> NextFromGroup(g).0[i] == g[i]
  {
    if k > 0 {
      assert !Spawnable(g[0]);
      assert FirstSpawnable(g[1..], k - 1);
      NextFromGroupPicksFirstSpawnable(g[1..], k - 1);
    }
  }

  /** A group with no entry both loaded and with spawns left hands out
   *  null. */
  lemma {:induction false} NextFromGroupNullWithoutSpawnable(g: Group)
    requires forall j :: 0 <= j < |g| ==> !Spawnable(g[j])
    ensures NextFromGroup(g).1.None?
  {
    if |g| > 0 {
      assert !Spawnable(g[0]);
      NextFromGroupNullWithoutSpawnable(g[1..]);
    }
  }

  /** A group with spawns left always gives one up, and a fully loaded group
   *  gives up exactly one and hands out a class. */
  lemma {:induction false} NextFromGroupConsumes(g: Group)
    requires GroupHasRemaining(g)
    ensures GroupRemaining(NextFromGroup(g).0) < GroupRemaining(g)
    ensures AllLoaded(g) ==> GroupRemaining(NextFromGroup(g).0) == GroupRemaining(g) - 1
    ensures AllLoaded(g) ==> NextFromGroup(g).1.Some?
  {
    var (e, c) := NextFromEntry(g[0]);
    if c.Some? {
      assert NextFromGroup(g).0 == [e] + g[1..];
      assert ([e] + g[1..])[1..] == g[1..];
    } else if EntryHasRemaining(g[0]) {
      assert !AllLoaded(g);
      var (rest, c2) := NextFromGroup(g[1..]);
      assert ([e] + rest)[1..] == rest;
      if GroupHasRemaining(g[1..]) {
        NextFromGroupConsumes(g[1..]);
      }
    } else {
      var i :| 0 <= i < |g| && EntryHasRemaining(g[i]);
      assert EntryHasRemaining(g[1..][i - 1]);
      NextFromGroupConsumes(g[1..]);
      var (rest, c2) := NextFromGroup(g[1..]);
      assert ([e] + rest)[1..] == rest;
    }
  }

  /** A valid group has spawns left exactly when its remaining sum is
   *  positive. */
  lemma {:induction false} HasRemainingIffPositive(g: Group)
    requires ValidGroup(g)
    ensures GroupRemaining(g) >= 0
    ensures GroupHasRemaining(g) <==> GroupRemaining(g) > 0
  {
    if |g| > 0 {
      HasRemainingIffPositive(g[1..]);
      if GroupHasRemaining(g[1..]) {
        var i :| 0 <= i < |g[1..]| && EntryHasRemaining(g[1..][i]);
        assert EntryHasRemaining(g[i + 1]);
      }
      if GroupHasRemaining(g) && !EntryHasRemaining(g[0]) {
        var i :| 0 <= i < |g| && EntryHasRemaining(g[i]);
        assert EntryHasRemaining(g[1..][i - 1]);
      }
    }
  }

  /** `UWaveSpawnGroup::RefundSpawnClass`: the first entry whose loaded
   *  class matches takes the spawn back. */
  function RefundToGroup(g: Group, cls: Option<nat>): (r: (Group, bool))
    ensures |r.0| == |g|
    ensures forall i :: 0 <= i < |g| ==> SameSlot(r.0[i], g[i])
    ensures !r.1 ==> r.0 == g
    ensures ValidGroup(g) ==> ValidGroup(r.0)
  {
    if |g| == 0 then (g, false)
    else
      var (e, ok) := RefundToEntry(g[0], cls);
      if ok then ([e] + g[1..], true)
      else
        var (rest, ok2) := RefundToGroup(g[1..], cls);
        assert forall i :: 1 <= i < |g| ==> g[1..][i - 1] == g[i];
        ([g[0]] + rest, ok2)
  }

  /** The loaded classes of a group, in entry order. */
  function LoadedClasses(g: Group): (r: seq<Option<nat>>)
    ensures |r| == |g| && forall i :: 0 <= i < |g| ==> r[i] == g[i].loaded
  {
    seq(|g|, i requires 0 <= i < |g| => g[i].loaded)
  }

  /** A refund is taken exactly when some entry has the refunded class. */
  lemma {:induction false} RefundToGroupAccepts(g: Group, cls: Option<nat>)
    ensures RefundToGroup(g, cls).1 <==> cls in LoadedClasses(g)
  {
    if |g| > 0 {
      RefundToGroupAccepts(g[1..], cls);
      assert LoadedClasses(g) == [g[0].loaded] + LoadedClasses(g[1..]);
    }
  }

  /** In a group of distinct, loaded classes, taking the next spawn and
   *  refunding the class handed out restores the group exactly. */
  lemma {:induction false} NextThenRefundRestores(g: Group)
    requires ValidGroup(g) && AllLoaded(g) && GroupHasRemaining(g)
    requires NoDuplicates(LoadedClasses(g))
    ensures RefundToGroup(NextFromGroup(g).0, NextFromGroup(g).1) == (g, true)
    decreases |g|
  {
    FirstSpawnableOf(g);
    var k :| FirstSpawnable(g, k);
    if k == 0 {
      RestoresAtHead(g);
    } else {
      var t := g[1..];
      assert FirstSpawnable(t, k - 1);
      assert EntryHasRemaining(t[k - 1]);
      NextFromGroupPicksFirstSpawnable(t, k - 1);
      assert LoadedClasses(t) == LoadedClasses(g)[1..];
      NextThenRefundRestores(t);
      assert LoadedClasses(g)[0] != LoadedClasses(g)[k];
      RestoresPastHead(g, NextFromGroup(t).0, NextFromGroup(t).1);
    }
  }

  lemma RestoresAtHead(g: Group)
    requires |g| > 0 && ValidEntry(g[0]) && Spawnable(g[0])
    ensures RefundToGroup(NextFromGroup(g).0, NextFromGroup(g).1) == (g, true)
  {
    var (e, c) := NextFromEntry(g[0]);
    assert NextFromGroup(g) == ([e] + g[1..], c);
    assert ([e] + g[1..])[1..] == g[1..];
    assert [g[0]] + g[1..] == g;
  }

  lemma RestoresPastHead(g: Group, rest: Group, c: Option<nat>)
    requires |g| > 0 && !Spawnable(g[0]) && g[0].loaded.Some?
    requires NextFromGroup(g[1..]) == (rest, c)
    requires RefundToGroup(rest, c) == (g[1..], true)
    requires g[0].loaded != c
    ensures RefundToGroup(NextFromGroup(g).0, NextFromGroup(g).1) == (g, true)
  {
    assert NextFromGroup(g) == ([g[0]] + rest, c);
    assert ([g[0]] + rest)[1..] == rest;
    assert [g[0]] + g[1..] == g;
  }

  /** A fully loaded group with spawns left has a first spawnable entry. */
  lemma FirstSpawnableOf(g: Group)
    requires AllLoaded(g) && GroupHasRemaining(g)
    ensures exists k :: FirstSpawnable(g, k)
  {
    var i :| 0 <= i < |g| && EntryHasRemaining(g[i]);
    var k := 0;
    while !Spawnable(g[k])
      invariant 0 <= k <= i
      invariant forall j :: 0 <= j < k ==> !Spawnable(g[j])
      decreases i - k
    {
      k := k + 1;
    }
    assert FirstSpawnable(g, k);
  }

  // ---------------------------------------------------------------------
  // Configuration counters

  /** The per-wave values the configuration derives from its curves
   *  (`GetSpawnCount`, `GetTimeOffset`, `GetTimeInterval`,
   *  `GetSpawnBatchAmount`); they enter the model as given values. */
  datatype ScaledValues = ScaledValues(spawnCount: int, timeOffset: int, interval: int, batchAmount: int)

  /** `UWaveConfiguration`'s transient counters, its groups and its
   *  auto-start settings. */
  datatype WaveConfig = WaveConfig(
    initializedWave: int,
    totalSpawnCount: int,
    numberSpawned: int,
    requested: int,
    timeOffset: int,
    interval: int,
    batchAmount: int,
    groups: seq<Group>,
    isAutoStart: bool,
    autoStartTime: int)

  /** A configuration as constructed: transients at -1 (requests at 0),
   *  auto-start off with a time of 10. */
  function NewConfig(groups: seq<Group>): (c: WaveConfig)
    ensures !IsInitialized(c) && IsDoneSpawning(c) && NumberRemainingToSpawn(c) == 0
    ensures !c.isAutoStart && c.autoStartTime == 10
  {
    WaveConfig(-1, -1, -1, 0, -1, -1, -1, groups, false, 10)
  }

  predicate ValidGroups(gs: seq<Group>)
  {
    forall i :: 0 <= i < |gs| ==> ValidGroup(gs[i])
  }

  /** `IsInitialized`: a wave number has been recorded. */
  predicate IsInitialized(c: WaveConfig)
  {
    c.initializedWave != IndexNone
  }

  /** `IsDoneSpawning`: every spawn of the total has happened. */
  predicate IsDoneSpawning(c: WaveConfig)
  {
    c.totalSpawnCount - c.numberSpawned <= 0
  }

  /** `NumberRemainingToSpawn`: spawns neither done nor in flight. */
  function NumberRemainingToSpawn(c: WaveConfig): int
  {
    (c.totalSpawnCount - c.numberSpawned) - c.requested
  }

  /** `CleanUp`'s own assignments: counters back to -1 and the request
   *  counter to zero, so a cleaned configuration counts as done with nothing
   *  left to spawn. The recorded wave is kept. The `StopSpawning` call it
   *  starts with is `StopAndCleanUpAsWritten` below. */
  function CleanUp(c: WaveConfig): (r: WaveConfig)
    ensures IsDoneSpawning(r) && NumberRemainingToSpawn(r) == 0
    ensures r.requested == 0
    ensures r.initializedWave == c.initializedWave && r.groups == c.groups
    ensures r.isAutoStart == c.isAutoStart && r.autoStartTime == c.autoStartTime
  {
    c.(totalSpawnCount := -1, numberSpawned := -1, requested := 0, timeOffset := -1, interval := -1, batchAmount := -1)
  }

  /** `CleanUp` with its `StopSpawning` call, as written: the static
   *  `CancelRequestsForObject(this, this)` reaches `RemoveAt(Index, 0)`, so
   *  the configuration's queued requests stay queued while the request
   *  counter is reset to zero; the result of any of them then takes the
   *  counter below zero. `self` is the configuration's object id. */
  method StopAndCleanUpAsWritten(c: WaveConfig, self: nat, q: seq<SpawnSystem.SpawnRequest>)
    returns (r: WaveConfig, q': seq<SpawnSystem.SpawnRequest>)
    ensures r == CleanUp(c) && r.requested == 0
    ensures q' == q
    ensures SpawnSystem.OwnedCount(q', self) == SpawnSystem.OwnedCount(q, self)
    ensures SpawnSystem.OwnedCount(q', self) > 0 ==>
      forall character, cls :: OnSpawnRequestResult(r, character, cls).requested < 0
  {
    var cancelled;
    cancelled, q' := SpawnSystem.CancelRequestsForObjectAsWritten(q, Some(self));
    r := CleanUp(c);
  }

  /** The corrected twin: the cancel removes the configuration's requests,
   *  so none is left to report a result against the reset counter, and
   *  every other request stays queued. */
  method StopAndCleanUp(c: WaveConfig, self: nat, q: seq<SpawnSystem.SpawnRequest>)
    returns (r: WaveConfig, q': seq<SpawnSystem.SpawnRequest>)
    ensures r == CleanUp(c) && r.requested == 0
    ensures SpawnSystem.OwnedCount(q', self) == 0
    ensures forall x :: x in q' <==> x in q && !SpawnSystem.IsOwnedBy(x, self)
    ensures |q'| == |q| - SpawnSystem.OwnedCount(q, self)
  {
    var cancelled;
    cancelled, q' := SpawnSystem.CancelRequestsForObject(q, Some(self));
    SpawnSystem.WithoutOwnedSpec(q, self);
    SpawnSystem.OwnedCountNone(q', self);
    r := CleanUp(c);
  }

  /** `InitializeForWave`: cleans up, records the wave, zeroes the counters,
   *  takes the scaled values and refills every group; returns the total. */
  function InitializeForWave(c: WaveConfig, wave: int, v: ScaledValues): (r: (WaveConfig, int))
    ensures r.1 == v.spawnCount == r.0.totalSpawnCount
    ensures r.0.initializedWave == wave
    ensures r.0.numberSpawned == 0 && r.0.requested == 0
    ensures NumberRemainingToSpawn(r.0) == v.spawnCount
    ensures IsDoneSpawning(r.0) <==> v.spawnCount <= 0
    ensures r.0.batchAmount == v.batchAmount
    ensures r.0.groups == InitializeGroups(c.groups)
    ensures forall gi, i :: 0 <= gi < |c.groups| && 0 <= i < |c.groups[gi]| ==>
      r.0.groups[gi][i].remaining == c.groups[gi][i].spawnCount
    ensures ValidGroups(c.groups) ==> ValidGroups(r.0.groups)
    ensures r.0.isAutoStart == c.isAutoStart && r.0.autoStartTime == c.autoStartTime
  {
    var d := CleanUp(c);
    var groups := InitializeGroups(c.groups);
    (d.(initializedWave := wave, numberSpawned := 0, requested := 0,
        totalSpawnCount := v.spawnCount, timeOffset := v.timeOffset,
        interval := v.interval, batchAmount := v.batchAmount, groups := groups),
     v.spawnCount)
  }

  function InitializeGroups(gs: seq<Group>): (r: seq<Group>)
    ensures |r| == |gs|
    ensures forall gi :: 0 <= gi < |gs| ==> r[gi] == InitializeGroup(gs[gi])
    ensures ValidGroups(gs) ==> ValidGroups(r)
    ensures (forall gi :: 0 <= gi < |gs| ==> AllLoaded(gs[gi])) ==> (forall gi :: 0 <= gi < |r| ==> AllLoaded(r[gi]))
  {
    seq(|gs|, gi requires 0 <= gi < |gs| => InitializeGroup(gs[gi]))
  }

  /** A spawn request accepted by the spawn system (`PerformSpawn`). */
  function RecordRequest(c: WaveConfig): (r: WaveConfig)
    ensures NumberRemainingToSpawn(r) == NumberRemainingToSpawn(c) - 1
    ensures IsDoneSpawning(r) == IsDoneSpawning(c)
  {
    c.(requested := c.requested + 1)
  }

  /** `RefundFailedSpawn`: the first group that takes the class back. */
  function RefundFailedSpawn(gs: seq<Group>, cls: Option<nat>): (r: (seq<Group>, bool))
    ensures |r.0| == |gs|
    ensures !r.1 ==> r.0 == gs
    ensures r.1 <==> exists gi :: 0 <= gi < |gs| && RefundToGroup(gs[gi], cls).1
    ensures ValidGroups(gs) ==> ValidGroups(r.0)
  {
    if |gs| == 0 then (gs, false)
    else
      var (g, ok) := RefundToGroup(gs[0], cls);
      if ok then ([g] + gs[1..], true)
      else
        var (rest, ok2) := RefundFailedSpawn(gs[1..], cls);
        assert forall gi :: 1 <= gi < |gs| ==> gs[1..][gi - 1] == gs[gi];
        ([gs[0]] + rest, ok2)
  }

  /** `OnSpawnRequestResult`: the request is no longer in flight; a spawned
   *  character counts, a failed one hands its class back to the groups. */
  function OnSpawnRequestResult(c: WaveConfig, character: Option<nat>, cls: Option<nat>): (r: WaveConfig)
    ensures r.requested == c.requested - 1
    ensures character.Some? <==> r.numberSpawned == c.numberSpawned + 1
    ensures character.None? ==> r.numberSpawned == c.numberSpawned && r.groups == RefundFailedSpawn(c.groups, cls).0
    ensures character.Some? ==> r.groups == c.groups
    ensures r.totalSpawnCount == c.totalSpawnCount
  {
    if character.None? then
      c.(requested := c.requested - 1, groups := RefundFailedSpawn(c.groups, cls).0)
    else
      c.(requested := c.requested - 1, numberSpawned := c.numberSpawned + 1)
  }

  /** A request that fails puts the counters back where they were; one that
   *  succeeds moves one spawn from "remaining" to "done". */
  lemma RequestResultAccounting(c: WaveConfig, character: Option<nat>, cls: Option<nat>)
    ensures var r := OnSpawnRequestResult(RecordRequest(c), character, cls);
      r.requested == c.requested &&
      (character.None? ==> NumberRemainingToSpawn(r) == NumberRemainingToSpawn(c)) &&
      (character.Some? ==> NumberRemainingToSpawn(r) == NumberRemainingToSpawn(c) - 1 &&
                           r.totalSpawnCount - r.numberSpawned == c.totalSpawnCount - c.numberSpawned - 1)
  {
  }

  // ---------------------------------------------------------------------
  // Batch list

  /** Sum of the remaining counts of all groups. */
  function TotalRemaining(gs: seq<Group>): int
  {
    if |gs| == 0 then 0 else GroupRemaining(gs[0]) + TotalRemaining(gs[1..])
  }

  predicate AllGroupsLoaded(gs: seq<Group>)
  {
    forall gi :: 0 <= gi < |gs| ==> AllLoaded(gs[gi])
  }

  lemma {:induction false} TotalRemainingUpdate(gs: seq<Group>, i: int, g: Group)
    requires 0 <= i < |gs|
    ensures TotalRemaining(gs[i := g]) == TotalRemaining(gs) - GroupRemaining(gs[i]) + GroupRemaining(g)
  {
    if i > 0 {
      assert gs[i := g][1..] == gs[1..][i - 1 := g];
      TotalRemainingUpdate(gs[1..], i - 1, g);
    }
  }

  lemma {:induction false} TotalRemainingZero(gs: seq<Group>)
    requires forall gi :: 0 <= gi < |gs| ==> GroupRemaining(gs[gi]) == 0
    ensures TotalRemaining(gs) == 0
  {
    if |gs| > 0 {
      TotalRemainingZero(gs[1..]);
    }
  }

  /** `GetNextSpawnList`: up to `min(NumberRemainingToSpawn, batch)` classes
   *  drawn group by group, each group drained before the next, with every
   *  group refilled and another pass tried (four passes at most) when a
   *  pass ends short. Returns the list and the groups' new counters. */
  method GetNextSpawnList(c: WaveConfig) returns (list: seq<Option<nat>>, groups: seq<Group>)
    requires ValidGroups(c.groups)
    ensures |list| <= Max(0, Min(NumberRemainingToSpawn(c), c.batchAmount))
    ensures Min(NumberRemainingToSpawn(c), c.batchAmount) <= 0 ==> list == []
    ensures |groups| == |c.groups|
    ensures ValidGroups(groups)
    ensures AllGroupsLoaded(c.groups) && TotalRemaining(c.groups) >= Min(NumberRemainingToSpawn(c), c.batchAmount) ==>
      |list| == Max(0, Min(NumberRemainingToSpawn(c), c.batchAmount))
  {
    var n := Min(NumberRemainingToSpawn(c), c.batchAmount);
    ghost var exact := AllGroupsLoaded(c.groups) && TotalRemaining(c.groups) >= n;
    list := [];
    groups := c.groups;
    var tries := 4;
    while |list| < n && tries > 0
      invariant |groups| == |c.groups| && ValidGroups(groups)
      invariant |list| <= Max(0, n)
      invariant n <= 0 ==> list == []
      invariant exact ==> tries == 4 && groups == c.groups && list == []
      decreases tries
    {
      var gi := 0;
      while gi < |groups|
        invariant 0 <= gi <= |groups| == |c.groups|
        invariant ValidGroups(groups)
        invariant |list| < n
        invariant exact ==> AllGroupsLoaded(groups)
        invariant exact ==> |list| + TotalRemaining(groups) == TotalRemaining(c.groups)
        invariant exact ==> forall k :: 0 <= k < gi ==> GroupRemaining(groups[k]) == 0
      {
        while GroupHasRemaining(groups[gi])
          invariant ValidGroups(groups) && |groups| == |c.groups|
          invariant |list| < n
          invariant exact ==> AllGroupsLoaded(groups)
          invariant exact ==> |list| + TotalRemaining(groups) == TotalRemaining(c.groups)
          invariant exact ==> forall k :: 0 <= k < gi ==> GroupRemaining(groups[k]) == 0
          decreases GroupRemaining(groups[gi])
        {
          var current := groups[gi];
          var (g, cls) := NextFromGroup(current);
          NextFromGroupConsumes(current);
          TotalRemainingUpdate(groups, gi, g);
          groups := groups[gi := g];
          HasRemainingIffPositive(g);
          list := list + [cls];
          if |list| >= n {
            return;
          }
        }
        HasRemainingIffPositive(groups[gi]);
        gi := gi + 1;
      }
      if exact {
        TotalRemainingZero(groups);
        assert false;
      }
      groups := InitializeGroups(groups);
      tries := tries - 1;
    }
  }
}
